=== FILE: README.md ===
# wiredoor core, modelled in Dafny

wiredoor is a self-hosted gateway. It keeps a WireGuard overlay network between a hub and remote nodes. It publishes HTTP and TCP/UDP services running on those nodes through an nginx reverse proxy, and it handles the DNS records and certificates of the public domains involved.

This project models the deterministic core of that system as pure Dafny functions over immutable data. Each part gets its own module:

- **Address arithmetic and port allocation** (`IpCidr`, `JsNumber`, `Net`). CIDR ranges follow JavaScript's 32-bit signed and unsigned bitwise semantics. The hub address and the first free host are derived from them, and local ports are scanned against a probe.
- **WireGuard files and tunnel status** (`WgConfig`, `Wireguard`, `NodeMonitor`). The server and client configuration files are modelled line by line. Further parts:
  - which peers are rendered;
  - the client configuration object;
  - runtime info;
  - the offline/online/idle status, which combines handshake age with the ping cache;
  - the ping monitor's cache and timer lifecycle.
- **Proxy configuration** (`NginxConf`, `NginxFiles`, `NginxHttp`, `NginxTcp`, `NginxDomain`). nginx configuration is an ordered list of directives. The modules cover:
  - access lists;
  - adding and stripping authentication;
  - HTTP locations with their auth-free bypass routes;
  - stream server blocks with their certificate choice;
  - domain server blocks;
  - location-file naming;
  - the test-then-reload-or-quarantine step.
- **Service lifecycles** (`BaseServices`, `HttpServices`, `TcpServices`, `TcpModel`). Create, update, enable, disable, delete and start-up work over a store of rows and proxy files. The store keeps a trace of the steps carried out, so that their order can be stated. These modules also hold the backend reachability check, the built-in-app guards, and the TCP entity's identifier and unique indexes.
- **Request validators** (`Validators`, `NodeValidators`). They cover:
  - bypass and skip-auth route lists, back-end and front-end;
  - the TTL pattern;
  - the requireAuth and SSL rules;
  - the domain lookup guard;
  - gateway networks, keepalive and address.
- **DNS** (`DnsService`, `GoDaddy`). The modules cover:
  - the existence guards of the provider-independent service;
  - the provider that refuses everything;
  - choosing a provider from the environment;
  - GoDaddy's zone resolution (longest case-insensitive suffix) and its relative names;
  - record mapping, creation, update and deletion.
- **Smaller pieces** (`Sanitizer`, `QueryFilter`, `ServerUtils`). They cover:
  - the log sanitizer over JSON-like trees;
  - the list-query filters, with relations, conditions, ordering and pagination;
  - log-directory naming and the HTTP-01 ownership check.
- **Shared definitions** (`Wrappers`, `Strings`, `Records`). These hold `Result` and `Option`, the JavaScript string operations the code relies on, and the stored entities.

Everything the code does through the outside world becomes a parameter of the operation that needs it:
- the database;
- the file system;
- `nginx -t`;
- the `wg` and `ping` commands;
- socket probes;
- DNS lookups;
- HTTP requests to GoDaddy;
- the clock;
- random bytes;
- Joi's IP and domain checks;
- regular-expression compilation.

A parameter is either a value, such as the outcome of the probe made, or a function-typed oracle. An operation that can throw returns a `Result`. An operation that performs steps before it can fail also returns the state those steps leave behind.

Some behaviour of the code is easy to miss when reading it, and the model keeps it as written:
- HTTP locations never render blocked IPs.
- The tunnel status dereferences a missing ping entry for an enabled node with a recent handshake. The runtime listings then return their raw input.
- `GET /api` is refused by the path rule, not by the method-prefix rule.
- Disabling a TCP service does not clear its expiry.
- TypeORM's `where` replaces any earlier condition, so two list filters never combine.
- Both request schemas accept `requireAuth: true` when the domain is left out, because a schema given as Joi's `is` also matches a missing value. Creating such a service saves the row and then fails to render it, since there is no domain record to read the OAuth2 port from.

## Model

| member | source | states |
|---|---|---|
| IpCidr.IpToLongOfQuad | api/src/utils/ip-cidr.ts:9-11 | `IpToLong` (`ipToLong`) of a canonical dotted quad is the quad's 32-bit value read as a signed integer, so it is negative when the first octet is 128 or more |
| IpCidr.QuadRoundTrip | api/src/utils/ip-cidr.ts:9-15 | for every quad with octets 0..255, `LongToIp(IpToLong(ip))` gives the same quad back |
| IpCidr.LongToIpRoundTrip | api/src/utils/ip-cidr.ts:9-15 | `IpToLong(LongToIp(n))` (`longToIp`, then `ipToLong`) is `n` reduced to a signed 32-bit value, for every number `n` |
| IpCidr.LongToIpInjective | api/src/utils/ip-cidr.ts:13-15 | two numbers that print as the same quad agree modulo 2^32 |
| IpCidr.LongToIpDistinct | api/src/utils/ip-cidr.ts:13-15 | numbers that differ modulo 2^32 print as different quads |
| IpCidr.NetworkOf | api/src/utils/ip-cidr.ts:20-21 | `ipLong & mask` is a signed 32-bit value with the host bits cleared and the network bits of the address kept |
| IpCidr.HostMask | api/src/utils/ip-cidr.ts:20-22 | `~mask` is `2^h - 1` for fewer than 32 host bits and -1 when the mask is 0 |
| IpCidr.HostBits | api/src/utils/ip-cidr.ts:20 | a prefix of 0..32 leaves `32 - prefix` host bits; any other prefix is read with JavaScript's shift and power rules |
| IpCidr.RangeOf | api/src/utils/ip-cidr.ts:17-24 | `cidrToRange` gives a signed 32-bit network whose host bits are clear and whose network bits are the address's, and a broadcast at most 2^31 - 1 above it |
| IpCidr.RangeOfPrefix | api/src/utils/ip-cidr.ts:17-24 | for a prefix of 1..32, network <= broadcast and broadcast - network = 2^(32 - prefix) - 1 |
| IpCidr.RangeOfPrefixZero | api/src/utils/ip-cidr.ts:20-22 | a /0 prefix collapses the mask to 0: the range is network 0, broadcast -1 |
| IpCidr.CidrToRange | api/src/utils/ip-cidr.ts:17-24 | `cidrToRange` gives a signed 32-bit network and a broadcast from one below it to less than 2^31 above it |
| IpCidr.ParseCidrParts | api/src/utils/ip-cidr.ts:18-20 | `ParseCidr` reads the address with `ipToLong` before the first '/' and the prefix with `parseInt` after it; without a '/' the prefix is NaN |
| IpCidr.FirstFree | api/src/utils/ip-cidr.ts:37-43 | the loop returns the lowest candidate that is not busy, and nothing exactly when every candidate is busy |
| IpCidr.FirstFreeIgnoresOutside | api/src/utils/ip-cidr.ts:37-41 | busy entries outside the scanned range, unparsable ones included, never change the result |
| IpCidr.AvailableLong | api/src/utils/ip-cidr.ts:33-43 | a found address lies strictly between network + 1 and broadcast, is not busy, and every address from network + 2 below it is busy; none is found exactly when all of network + 2 .. broadcast - 1 are busy |
| IpCidr.FreeIp | api/src/utils/ip-cidr.ts:33-43 | null exactly when every host value after the hub's is busy; otherwise the address of a free value strictly between the hub's and the broadcast |
| IpCidr.AvailableIp | api/src/utils/ip-cidr.ts:33-43 | `getAvailableIP` is null exactly when every host value after the hub's is among the busy addresses |
| IpCidr.NoAvailableLongInTinySubnets | api/src/utils/ip-cidr.ts:20-43 | /31, /32 and /0 subnets have no free address |
| IpCidr.AvailableLongIsNotInterface | api/src/utils/ip-cidr.ts:27-37 | the allocated value differs from the hub's value in its low 32 bits |
| IpCidr.FreeIpIsNotHubIp | api/src/utils/ip-cidr.ts:27-41 | the allocated address string is never the hub's address string |
| IpCidr.AvailableIpIsNotInterfaceIp | api/src/utils/ip-cidr.ts:27-43 | `AvailableIp` (`getAvailableIP`) never returns `InterfaceIp` (`getInterfaceIp`) of the same CIDR |
| IpCidr.NoAvailableIpInTinySubnets | api/src/utils/ip-cidr.ts:33-43 | a /31, /32 or /0 subnet yields null whatever is busy |
| IpCidr.BusyLongs | api/src/utils/ip-cidr.ts:35 | the busy list is converted entry by entry, one number per address |
| JsNumber.ParseIntOfNatToString | api/src/utils/ip-cidr.ts:10 | `parseInt` reads every printed non-negative integer back as itself, so each octet of a canonical quad parses to its value; the model reads exactly where a double rounds above 2^53 (see Left out) |
| JsNumber.NumberOfNatToString | api/src/repositories/filters/repository-query-filter.ts:74-75 | the unary `+` reads every printed non-negative integer back as itself; the model reads exactly where a double rounds above 2^53 (see Left out) |
| JsNumber.NumberOf | api/src/repositories/filters/repository-query-filter.ts:74-75 | the unary `+` gives 0 for a blank string and the decimal value for a string of digits |
| Net.ScanSpec | src/utils/net.ts:169-181 | `Scan`: the ascending scan returns the first port of min..max that is neither known nor reported in use, and null exactly when there is none |
| Net.GetAvailableLocalPort | src/utils/net.ts:154-182 | an error exactly when the distinct known ports number at least max - min + 1, wherever they lie; otherwise the scan's answer, and a returned port lies in [min, max], is not known and probed free |
| Net.IsReachable | src/utils/net.ts:47-67 | reachable only when the command succeeded and its stdout holds the exact one-packet success summary |
| Net.ReachableWhenSummaryPresent | src/utils/net.ts:53-59 | any stdout holding the success summary somewhere counts as reachable |
| NodeMonitor.GetPing | src/providers/node-monitor.ts:57-59 | the cached entry for a probed address, and null exactly for an address that is not in the cache |
| NodeMonitor.Record | src/providers/node-monitor.ts:30-37 | recording one probe adds that address and leaves every other entry unchanged |
| NodeMonitor.RecordedEntry | src/providers/node-monitor.ts:30-37 | the new entry's reachable flag is the probe's result and its latency the elapsed time; its timestamp is the probe time when it answered, otherwise the previous timestamp, with a missing or zero one read as null |
| NodeMonitor.FailedProbeKeepsTimestamp | src/providers/node-monitor.ts:34 | a failed probe never erases a non-zero timestamp recorded earlier |
| NodeMonitor.TickTouchesOnlyEnabled | src/providers/node-monitor.ts:24-39 | `Tick`: one tick adds exactly the enabled nodes' addresses to the cache and leaves the entries of all other addresses alone |
| NodeMonitor.NeverProbedIsNull | src/providers/node-monitor.ts:25-59 | `Tick` from an empty cache, then `GetPing`: from an empty cache, `getPing` is null exactly for the addresses no tick has probed |
| NodeMonitor.StartPing | src/providers/node-monitor.ts:17-46 | a no-op while an interval is installed; otherwise it installs one, and `running` is never left set |
| NodeMonitor.StopPing | src/providers/node-monitor.ts:48-55 | no interval is left installed, and the cleared timer is no longer alive |
| NodeMonitor.StepConsistent | src/providers/node-monitor.ts:17-55 | each start or stop keeps the invariant that the only live timer is the installed interval and `running` is false |
| NodeMonitor.AtMostOneTimer | src/providers/node-monitor.ts:17-55 | `Run`: after any sequence of starts and stops at most one timer is alive: the interval handle is the effective re-entry guard |
| NodeMonitor.FromStoppedAtMostOneTimer | src/providers/node-monitor.ts:12-55 | from the initial state, any sequence of calls leaves at most one timer alive |
| NodeMonitor.StartIsIdempotent | src/providers/node-monitor.ts:19 | starting twice is the same as starting once |
| NodeMonitor.StopThenStartReinstalls | src/providers/node-monitor.ts:19-54 | after a stop, a start installs an interval, a fresh one if an interval was installed before |
| WgConfig.AddClient | src/services/wireguard/server-config-builder.ts:26-35 | `addClient` keeps the text built so far as a prefix |
| WgConfig.AddClientsText | src/services/wireguard/server-config-builder.ts:26-35 | `AddClients`: feeding clients in order appends exactly their peer blocks, in call order |
| WgConfig.AllPeerLines | src/services/wireguard/server-config-builder.ts:26-33 | n clients give n peer blocks of six lines each |
| WgConfig.ServerConfigText | src/services/wireguard/server-config-builder.ts:12-39 | `ServerConfig` (through `Build` and `AddClients`): the hub's file is the interface section followed by one peer block per client, a pure function of the interface record, the MTU and the client list |
| WgConfig.PeerBlockAt | src/services/wireguard/server-config-builder.ts:27-33 | peer block i of the file is client i's block, with its 'Gateway' or 'Client' label and `address/32` plus the gateway subnets joined with ', ' |
| WgConfig.MtuLineOnlyWhenSet | src/services/wireguard/server-config-builder.ts:13-23 | the interface section has an MTU line, at its sixth line, exactly when an MTU is configured |
| WgConfig.ServerConfigLines | src/services/wireguard/server-config-builder.ts:12-39 | read back line by line, the hub's file is exactly the interface lines (PrivateKey, Address, ListenPort, the hook lines) and the peer blocks, as long as no value holds a newline |
| WgConfig.Subnets | src/services/wireguard/server-config-builder.ts:32 | the subnets of a gateway's networks, one per network in order |
| WgConfig.ClientHead | src/services/wireguard/client-config-builder.ts:13-16 | the interface head of a client's file is four lines: the section, the key, `address/32` and the optional MTU line |
| WgConfig.DnsLines | src/services/wireguard/client-config-builder.ts:17 | a DNS line (and the blank line after it) only when the node has a DNS server |
| WgConfig.HookLines | src/services/wireguard/client-config-builder.ts:20-21 | one line per gateway network, in network order: PostUp lines add the forward and masquerade rules, PostDown lines delete the same rules |
| WgConfig.ClientPeerLines | src/services/wireguard/client-config-builder.ts:24-30 | the peer section is seven lines with the hub key, the node's pre-shared key, the full tunnel or the interface subnet, the keepalive and `host:port` |
| WgConfig.ClientLines | src/services/wireguard/client-config-builder.ts:12-30 | building fails exactly for a gateway without a network list, where `gatewayNetworks.map` dereferences null |
| WgConfig.IptablesMirror | src/services/wireguard/client-config-builder.ts:20-21 | an iptables command with `-D` differs from the one with `-A` only in that operation letter |
| WgConfig.GatewayRulesMirror | src/services/wireguard/client-config-builder.ts:20-21 | each PostDown command is its PostUp with every `-A` replaced by `-D` and nothing else changed |
| WgConfig.GatewayRulesInOrder | src/services/wireguard/client-config-builder.ts:18-23 | a gateway's file holds one PostUp per network in order, directly followed by one PostDown per network, each mirroring its PostUp |
| WgConfig.NoRulesUnlessGateway | src/services/wireguard/client-config-builder.ts:18-23 | a node that is not a gateway gets no PostUp or PostDown line |
| WgConfig.ClientLinesOneLine | src/services/wireguard/client-config-builder.ts:12-30 | no line of a client's file holds a newline when no value does |
| WgConfig.ClientConfigLines | src/services/wireguard/client-config-builder.ts:12-35 | `ClientConfig`: read back line by line, a client's file is exactly its lines |
| Wireguard.OfflineIff | src/services/wireguard/wireguard-service.ts:242-243 | `TunnelStatus` (`getTunnelStatus`) is offline exactly when the node is disabled or has no non-zero handshake, and then the ping cache plays no part |
| Wireguard.OnlineNeedsRecentHandshake | src/services/wireguard/wireguard-service.ts:245-261 | online requires an enabled node, a handshake younger than 180 s and a ping entry that is reachable or has never answered and is younger than 120 s |
| Wireguard.RecentAndReachableIsOnline | src/services/wireguard/wireguard-service.ts:250-254 | a handshake younger than 180 s and a reachable ping entry make the node online |
| Wireguard.CrashIff | src/services/wireguard/wireguard-service.ts:245-252 | the status read fails exactly for an enabled node with a recent handshake that was never pinged, where `pingStatus.reachable` dereferences null |
| Wireguard.StaleHandshakeIsIdle | src/services/wireguard/wireguard-service.ts:247-266 | a handshake 180 s old or older leaves an enabled node idle, with its ping entry attached |
| Wireguard.PeerOf | src/services/wireguard/wireguard-service.ts:192 | the peer found has the node's public key and comes from the dump; none is found only when no dump entry has that key |
| Wireguard.FirstWithKey | src/services/wireguard/wireguard-service.ts:192 | the first dump entry with the key, or none when no entry has it |
| Wireguard.DescribeAll | src/services/wireguard/wireguard-service.ts:188-208 | one description per node |
| Wireguard.DescribedInOrder | src/services/wireguard/wireguard-service.ts:188-208 | `Describe`, applied in order by `DescribeAll`: entry i describes node i: same fields without the keys, runtime fields from its own peer or null when absent, the handshake times 1000, and a status exactly when ping checks are on |
| Wireguard.NoPingNoCrash | src/services/wireguard/wireguard-service.ts:194-196 | `DescribeAll`: without ping checks the descriptions never fail |
| Wireguard.DescribeAllFails | src/services/wireguard/wireguard-service.ts:188-252 | one node whose status read fails makes the whole mapping fail |
| Wireguard.UnpingedRecentNodeGivesRaw | src/services/wireguard/wireguard-service.ts:185-213 | `RuntimeInfoOf` (`getRuntimeInfo`): then `getRuntimeInfo` returns the raw input nodes |
| Wireguard.NodeRuntimeInfo | src/services/wireguard/wireguard-service.ts:216-236 | `getNodeRuntimeInfo` describes the node with a status, and returns the raw node exactly when the dump or the status read fails |
| Wireguard.Peers | src/services/wireguard/wireguard-service.ts:101-107 | the peers rendered are nodes of the list that are enabled, not local and on the given interface |
| Wireguard.PeersComplete | src/services/wireguard/wireguard-service.ts:101-107 | every enabled, non-local node of the interface is rendered |
| Wireguard.SaveConfig | src/services/wireguard/wireguard-service.ts:94-125 | a file is written exactly when the interface exists, at `/etc/wireguard/<iface>.conf` with mode 0o600 |
| Wireguard.SavedPeers | src/services/wireguard/wireguard-service.ts:110-277 | the saved file is the interface section then one peer block per rendered node, block i being node i's |
| Wireguard.MasqueradeRules | src/services/wireguard/wireguard-service.ts:152-163 | one MASQUERADE rule per gateway network, in order |
| Wireguard.ClientWgConfig | src/services/wireguard/wireguard-service.ts:141-178 | the configuration object is built exactly when the interface record exists and, for a gateway, its network list does; otherwise a null is dereferenced |
| Wireguard.ClientWgConfigRules | src/services/wireguard/wireguard-service.ts:149-170 | only a gateway gets rules, one per network, each PostDown the `-A`/`-D` mirror of its PostUp; the full tunnel is routed exactly when the node may use the internet |
| Wireguard.GetClientParams | src/services/wireguard/wireguard-service.ts:56-92 | a supplied address is kept, with the generated keys and the interface name; the call fails exactly when an address must be allocated and the interface record is missing |
| Wireguard.AllocatedIsNotHub | src/services/wireguard/wireguard-service.ts:56-83 | an allocated address is never the hub's own |
| Wireguard.StartWireguard | src/services/wireguard/wireguard-service.ts:286-298 | an interface that is already a link is synchronised, any other is brought up |
| ServerUtils.LogsDir | src/utils/server.ts:9-12 | every log directory lies directly under the logs root |
| ServerUtils.LogsDirOfDefault | src/utils/server.ts:9-12 | a domain shares the `default` directory with '_' exactly when it is empty, '_' or literally 'default' |
| ServerUtils.LogsDirInjective | src/utils/server.ts:9-12 | two named domains (neither empty nor '_') with the same log directory are the same domain |
| ServerUtils.LogFilePath | src/utils/server.ts:14-20 | a log file path lies inside the domain's log directory |
| ServerUtils.Hex | src/utils/server.ts:26 | hex encoding gives two lower-case hex digits per byte |
| ServerUtils.UnhexHex | src/utils/server.ts:26 | the hex encoding reads back to the bytes, so distinct random bytes give distinct tokens |
| ServerUtils.Token | src/utils/server.ts:26 | the challenge token is 32 hex digits from 16 random bytes |
| ServerUtils.Verified | src/utils/server.ts:38-55 | verification succeeds exactly for a 2xx response whose non-empty body, trimmed, equals the token |
| ServerUtils.VerifyDomainHttp01 | src/utils/server.ts:22-59 | the token file is removed on every outcome, and the check succeeds exactly for a 2xx response whose non-empty body, trimmed, is the token made from the random bytes |
| ServerUtils.VerifyLeavesNoFile | src/utils/server.ts:31-58 | when no stale token file existed, the file set after the call is the one before it |
| ServerUtils.FailuresAreFalse | src/utils/server.ts:43-55 | a failed request or timeout, a non-2xx status and an empty body each give false |
| ServerUtils.EchoedTokenPasses | src/utils/server.ts:47-53 | the token echoed back with surrounding white space passes |
| TcpModel.Identifier | src/database/models/tcp-service.ts:100-102 | the identifier starts with 'n' and ends with '_stream' |
| TcpModel.IdentifierInjective | src/database/models/tcp-service.ts:100-102 | two services with the same identifier have the same node id and the same id, because decimal digits never contain 's' |
| TcpModel.PublicAccess | src/database/models/tcp-service.ts:95-98 | the public address is `<proto>://`, then the domain or, without one, the hub's host, then `:<port>` |
| TcpModel.WithDefaults | src/database/models/tcp-service.ts:35-64 | a row inserted without them gets proto 'tcp', ssl off and enabled on |
| TcpModel.Insert | src/database/models/tcp-service.ts:16-51 | a write succeeds exactly when no other row holds the same public port or the same (backendPort, backendHost, nodeId) with a non-null host, since a null host never matches in a unique index; a successful write keeps both indexes unique |
| TcpModel.PortNamesOneService | src/database/models/tcp-service.ts:48-51 | in a table that keeps its indexes, a public port belongs to at most one service |
| TcpModel.NullBackendHostsCoexist | src/database/migrations/1725299321324-CreateTcpServicesTable.ts:12-29 | a service without a backend host is accepted whenever its public port is free, even beside another service on the same backend port and node |
| NginxFiles.LocationName | src/services/proxy-server/nginx-service.ts:67-69 | a location's file name is never empty |
| NginxFiles.Save | src/services/proxy-server/nginx-service.ts:11-13 | writing a file sets that path's content and touches no other file and no reload |
| NginxFiles.RemoveFile | src/services/proxy-server/nginx-service.ts:15-17 | removing a file drops only that path (a missing one changes nothing) and issues no reload |
| NginxFiles.ReloadIf | src/services/proxy-server/nginx-service.ts:56-58 | the proxy is reloaded once when asked and not at all otherwise, and no file changes |
| NginxFiles.LocationFile | src/services/proxy-server/nginx-service.ts:63-72 | `LocationDir` and `LocationName` combined: the file lies in `locations/default` for no domain or '_', otherwise in `locations/<domain>`, and ends in '.conf' |
| NginxFiles.LocationFileName | src/services/proxy-server/nginx-service.ts:67-71 | the name part of the file is the path with one leading '/' dropped, '' named `__main` and every other '/' turned into '-' |
| NginxFiles.SlashDashCollision | src/services/proxy-server/nginx-service.ts:67-69 | naming is not injective: '/a/b' and '/a-b' map to the same file |
| NginxFiles.MainCollision | src/services/proxy-server/nginx-service.ts:67-69 | '/', '' and '/__main' all map to the `__main` file |
| NginxFiles.LocationFileInjective | src/services/proxy-server/nginx-service.ts:63-72 | apart from those collisions, distinct '/'-paths of one domain without '-' get distinct files |
| NginxFiles.CheckAndReload | src/services/proxy-server/nginx-service.ts:41-61 | a failing test moves the file to `<file>.err`, leaves every other file alone, does not reload and returns false; a passing test reloads only when restart is set and returns true |
| NginxFiles.AddDefaultMainLocation | src/services/proxy-server/nginx-service.ts:74-87 | the root location file exists afterwards; an existing one is left as it is and nothing is returned, a missing one is written with the default pages root and returned |
| NginxFiles.AddDefaultMainLocationIdempotent | src/services/proxy-server/nginx-service.ts:74-87 | a second call changes nothing, and an existing root location is never overwritten |
| NginxFiles.ResetTcpConnections | src/services/proxy-server/nginx-service.ts:89-112 | the REJECT rule is added, deleted and the connections flushed, in that order, up to the first failing step, and every error is swallowed |
| NginxFiles.ResetRuleOutcome | src/services/proxy-server/nginx-service.ts:92-111 | `ResetTcpConnections` against the firewall's rules (`RulesAfter`): whichever step fails, the rules end as they were found, except that a failed delete leaves one extra REJECT rule for the service; the connections are flushed exactly when no step fails |
| NginxConf.RemoveAuth | src/services/proxy-server/conf/nginx-location-conf.ts:41-55 | the result is a sub-list of the input with no auth directive left |
| NginxConf.RemoveAuthAppend | src/services/proxy-server/conf/nginx-location-conf.ts:42-52 | the filter distributes over concatenation, so the kept directives keep their order |
| NginxConf.RemoveAuthKeeps | src/services/proxy-server/conf/nginx-location-conf.ts:42-52 | every directive that is not an auth directive survives |
| NginxConf.RemoveAuthNoAuth | src/services/proxy-server/conf/nginx-location-conf.ts:41-55 | a list without auth directives is left exactly as it is |
| NginxConf.RemoveAuthIdempotent | src/services/proxy-server/conf/nginx-location-conf.ts:41-55 | removing twice is removing once |
| NginxConf.AuthHeaderIsAuth | src/services/proxy-server/conf/nginx-location-conf.ts:46-50 | `proxy_set_header` of X-User, X-Email or X-Access-Token is dropped |
| NginxConf.AuthRequestSetIsAuth | src/services/proxy-server/conf/nginx-location-conf.ts:45 | every `auth_request_set ...` directive is dropped |
| NginxConf.OtherHeaderIsNotAuth | src/services/proxy-server/conf/nginx-location-conf.ts:46-51 | any other `proxy_set_header` (a one-word header) is kept |
| NginxConf.RemoveAuthAllAuth | src/services/proxy-server/conf/nginx-location-conf.ts:41-55 | a list of auth directives only is removed entirely |
| NginxConf.AddedAuthIsAuth | src/services/proxy-server/conf/nginx-location-conf.ts:14-55 | everything `setAuthRequired` adds, under either environment switch, is removed by `removeAuth` |
| NginxConf.AuthEntriesShape | src/services/proxy-server/conf/nginx-location-conf.ts:14-39 | `setAuthRequired` always adds the OAuth include, and adds auth directives only |
| NginxConf.RemoveAuthUndoesSetAuth | src/services/proxy-server/conf/nginx-location-conf.ts:14-55 | stripping auth after adding it gives the list stripped, and gives the original list back when it had no auth directives |
| NginxConf.Acl | src/services/proxy-server/conf/nginx-location-conf.ts:82-96 | a deny per blocked address in order, then an allow per allowed address in order, then 'deny all' only when some address is allowed |
| NginxConf.SetNetworkAccess | src/services/proxy-server/conf/nginx-location-conf.ts:82-96 | the existing directives are kept in front, and everything added is a deny or allow directive |
| NginxConf.AclShape | src/services/proxy-server/conf/nginx-location-conf.ts:82-96 | no lists give no rules; 'deny all' appears exactly when some address is allowed (or 'all' is blocked); no allow precedes a deny other than the final 'deny all' |
| NginxConf.AclKeys | src/services/proxy-server/conf/nginx-location-conf.ts:82-96 | the rules are deny and allow directives only, and with no blocked addresses the only deny is 'deny all' |
| NginxConf.SetResolver | src/services/proxy-server/conf/nginx-location-conf.ts:57-62 | appends `resolver <r> valid=30s` and then `resolver_timeout 10s`, keeping what was there |
| NginxHttp.BypassRoutes | src/services/proxy-server/nginx-http-service.ts:12-108 | the routes kept are at most the lines given, and each starts with '/' or '^' |
| NginxHttp.BypassRoutesMembers | src/services/proxy-server/nginx-http-service.ts:105-108 | a route is kept exactly when it is some trimmed line that starts with '/' or '^' (blank lines are dropped) |
| NginxHttp.AuthPart | src/services/proxy-server/nginx-http-service.ts:65-73 | auth directives only, with the OAuth include exactly when auth is required and the domain has an OAuth2 proxy port |
| NginxHttp.ResolverPart | src/services/proxy-server/nginx-http-service.ts:83-85 | resolver directives only, naming the node's address exactly when the node is a gateway whose backend host is not an IP literal |
| NginxHttp.ProxyPart | src/services/proxy-server/nginx-http-service.ts:88-98 | sets the service's variable to the host, proxies to `<proto>://$<identifier>:<backendPort>`, and turns SSL verification off exactly for https |
| NginxHttp.BaseLocation | src/services/proxy-server/nginx-http-service.ts:62-98 | fails exactly when auth is required and the domain record is missing; otherwise auth, resolver, access rules from the allowed addresses only, then the proxy settings |
| NginxHttp.BypassLocations | src/services/proxy-server/nginx-http-service.ts:110-121 | one location per route, `~ route` for '^' and `= route` for '/', each holding the auth-free main location |
| NginxHttp.BuildConf | src/services/proxy-server/nginx-http-service.ts:62-125 | building fails exactly when auth is required and the domain record is missing |
| NginxHttp.HostAndResolver | src/services/proxy-server/nginx-http-service.ts:75-86 | the host is the backend host for a gateway or local node that names one, else the node's address; a resolver is set only for a gateway whose backend host is not an IP literal |
| NginxHttp.NoBlockedIps | src/services/proxy-server/nginx-http-service.ts:88-89 | blocked addresses are never rendered: the only deny is 'deny all' |
| NginxHttp.AuthOnlyWhenRequired | src/services/proxy-server/nginx-http-service.ts:65-98 | the OAuth include is present exactly when auth is required and the domain has an OAuth2 port; the proxy target and SSL verification follow the service |
| NginxHttp.LocationsInOrder | src/services/proxy-server/nginx-http-service.ts:100-124 | the main location comes first, then one auth-free location per bypass route in input order; there are bypass locations only when auth is required and routes are given |
| NginxHttp.BypassHasNoAuth | src/services/proxy-server/nginx-http-service.ts:114 | a bypass location holds no auth directive |
| NginxHttp.Create | src/services/proxy-server/nginx-http-service.ts:25-44 | a disabled service writes no file, reloads only when asked and returns nothing; an enabled one fails exactly when building fails |
| NginxHttp.Remove | src/services/proxy-server/nginx-http-service.ts:46-60 | removes exactly the service's location file and reloads only when asked |
| NginxHttp.CreateRemoveSameFile | src/services/proxy-server/nginx-http-service.ts:35-47 | create writes and remove deletes the same file, so removing a service leaves every other file as it was |
| NginxTcp.ListenValue | src/services/proxy-server/nginx-tcp-service.ts:44 | the listen value is the public port, followed by ` udp` exactly for a UDP service |
| NginxTcp.HeadPart | src/services/proxy-server/nginx-tcp-service.ts:43-58 | listen, server name, then access and error logs named after the identifier, under the domain or `_` when there is none |
| NginxTcp.Certificate | src/services/proxy-server/nginx-tcp-service.ts:60-78 | a certificate is chosen exactly for an SSL service: the domain's own pair when its record has one, else a self-signed pair for the domain, or for `_` without a domain |
| NginxTcp.SslPart | src/services/proxy-server/nginx-tcp-service.ts:67-76 | no directive without a certificate; with one, the certificate then its key |
| NginxTcp.StreamResolverPart | src/services/proxy-server/nginx-tcp-service.ts:80-87 | resolver and 3 s timeout exactly for a gateway whose backend host is not an IP literal; nothing otherwise |
| NginxTcp.StreamProxyPart | src/services/proxy-server/nginx-tcp-service.ts:23-93 | the identifier's variable holds the backend host (gateway or local node naming one) or the node's address, and the proxy targets it at the backend port |
| NginxTcp.StreamConf | src/services/proxy-server/nginx-tcp-service.ts:21-95 | `StreamServer` wrapped in `stream`: the stream file holds exactly one `server` block |
| NginxTcp.StreamFile | src/services/proxy-server/nginx-tcp-service.ts:97-109 | the file lies in `/etc/nginx/stream.d/` and is named after the identifier |
| NginxTcp.StreamFileInjective | src/services/proxy-server/nginx-tcp-service.ts:97 | two services share a stream file only when they have the same node and id |
| NginxTcp.StreamAccessRules | src/services/proxy-server/nginx-tcp-service.ts:30-41 | blocked addresses are denied first, then allowed ones are allowed, and `deny all` closes the rules exactly when some address is allowed |
| NginxTcp.StreamCertificate | src/services/proxy-server/nginx-tcp-service.ts:60-78 | an SSL service carries exactly the certificate `Certificate` picks; a plain one carries none |
| NginxTcp.StreamResolverAndTarget | src/services/proxy-server/nginx-tcp-service.ts:80-93 | a resolver is set exactly for a gateway backend named by host name, and the block always ends with the proxy target |
| NginxTcp.Create | src/services/proxy-server/nginx-tcp-service.ts:13-106 | a disabled service writes nothing and reloads only when asked; an enabled one is written and kept only when the configuration test passes |
| NginxTcp.Remove | src/services/proxy-server/nginx-tcp-service.ts:108-122 | removes exactly the service's stream file and reloads only when asked |
| NginxTcp.RemoveUndoesCreate | src/services/proxy-server/nginx-tcp-service.ts:97-111 | creating then removing a service leaves no stream file for it and keeps every other service's file |
| NginxDomain.ListenPart | src/services/proxy-server/nginx-domain-service.ts:15-22 | `443 ssl` on IPv4 and IPv6 always come first; the QUIC listeners and the Alt-Svc header are added exactly for the configured HTTP/3 domain |
| NginxDomain.SiteDirectives | src/services/proxy-server/nginx-domain-service.ts:24-33 | server name and the domain's access and error logs are present, a body-size limit exactly when one is configured, and no listen directive |
| NginxDomain.OAuthLocations | src/services/proxy-server/nginx-domain-service.ts:35-81 | no OAuth2 location without a proxy port; four with one |
| NginxDomain.ServerConf | src/services/proxy-server/nginx-domain-service.ts:13-86 | `ServerDirectives` wrapped in `server`: the domain file holds exactly one `server` block |
| NginxDomain.DomainFile | src/services/proxy-server/nginx-domain-service.ts:85-95 | the file lies in `/etc/nginx/conf.d/` and ends in `.conf` |
| NginxDomain.DomainFileInjective | src/services/proxy-server/nginx-domain-service.ts:85 | distinct domains have distinct server files |
| NginxDomain.OAuthLocationsShape | src/services/proxy-server/nginx-domain-service.ts:36-80 | `/oauth2/` and `/oauth2/auth` share one body; the first three locations start with the proxy to the OAuth2 port and its forwarding headers; the callback's refused page names the logout location |
| NginxDomain.QuicOnlyForHttp3Domain | src/services/proxy-server/nginx-domain-service.ts:17-22 | the server block listens for QUIC exactly when the domain is the configured HTTP/3 domain |
| NginxDomain.Create | src/services/proxy-server/nginx-domain-service.ts:10-91 | the root location file always exists afterwards; the server file is kept, holding the rendered block, exactly when the configuration test passes |
| NginxDomain.LocationFileIsNotDomainFile | src/services/proxy-server/nginx-domain-service.ts:85-88 | the root location file is neither the server file nor its `.err` copy |
| NginxDomain.Remove | src/services/proxy-server/nginx-domain-service.ts:93-113 | exactly the server file goes; then a self-signed domain's certificate directory or, otherwise, its certbot certificate, then its logs directory; reload only when asked |
| NginxDomain.RemoveKeepsDefaultLocation | src/services/proxy-server/nginx-domain-service.ts:88-95 | after create then remove, the server file is gone but the root location file remains |
| BaseServices.ProbeFor | src/services/base-services.ts:41-46 | probes the backend host for a gateway or local node that names one, else the node's address, at the given port and SSL flag; a resolver, the node's address, exactly for a gateway backend named by host name |
| BaseServices.CheckNodePort | src/services/base-services.ts:12-58 | a missing node is not-found; a local node pointing at its loopback for a port other than 3000 is refused on `backendHost`; otherwise the outcome is the reachability of the probe, refused on `backendPort` |
| BaseServices.CheckNodePortIff | src/services/base-services.ts:22-57 | the check passes exactly for an existing node, without loopback misuse, whose probe is reachable |
| BaseServices.ApiPortIsAllowed | src/services/base-services.ts:29 | port 3000 is never refused by the loopback rule |
| HttpServices.Apply | src/services/http-services-service.ts:142-145 | a partial update keeps id, node and identifier, and takes each given field (domain, enabled flag, expiry) while keeping the rest |
| HttpServices.ApplyNoChange | src/services/http-services-service.ts:142-145 | an update with no fields leaves the row as it was |
| HttpServices.BuiltInPatch | src/services/http-services-service.ts:120-127 | the built-in app's update keeps only domain, address lists and auth flag, dropping enabled, expiry, backend host and port |
| HttpServices.NewRow | src/database/migrations/1725299251295-CreateHttpServicesTable.ts:13-19 | a new row gets the column defaults: path '/', port 80, protocol http, enabled, no auth, with the given id and node |
| HttpServices.SaveRow | src/database/migrations/1725299251295-CreateHttpServicesTable.ts:30-36 | a save succeeds exactly when no other row shares the (domain, path) key with a non-null domain or the (port, host, node) key with a non-null host (`Clash`; a null key part matches nothing in a unique index); a rejected save leaves the store as it was |
| HttpServices.NullKeysNeverClash | src/database/migrations/1725299251295-CreateHttpServicesTable.ts:30-36 | a row with neither a domain nor a backend host is always saved, whatever else is stored |
| HttpServices.SharedLocationClashes | src/database/migrations/1725299251295-CreateHttpServicesTable.ts:30-32 | a second row on the same non-null domain and path is refused, whatever its backend |
| HttpServices.Build | src/services/http-services-service.ts:267-272 | rendering changes no row; on success it records the render, and without restart it does not reload; a failure leaves the store as it was |
| HttpServices.Initialize | src/services/http-services-service.ts:34-43 | start-up, given every stored id once in the order the repository returns them, changes no row, never reloads the proxy, only appends to the trace, and when it succeeds has rendered every stored service without a reload |
| HttpServices.InitializeEachRenders | src/services/http-services-service.ts:39-42 | the start-up loop only appends to the trace, and when it gets through the list every listed service has had its location rendered without a reload |
| HttpServices.InitializeNeverReloads | src/services/http-services-service.ts:39-42 | the start-up loop (`InitializeEach`) never reloads the proxy, whatever fails |
| HttpServices.CreateChecksFirst | src/services/http-services-service.ts:89-97 | `Create`: a failed backend check or domain check fails the creation and leaves the store exactly as it was |
| HttpServices.CreateOrder | src/services/http-services-service.ts:85-112 | `Create` (`createHttpService`): a created service gets the next id, the node and the computed expiry, is stored, and was probed, domain-ensured, saved and rendered with a reload, in that order |
| HttpServices.Create | src/services/http-services-service.ts:85-112 | a create adds at most one row, under the next id, and a created service is stored under that id |
| HttpServices.CreateKeepsStoredRows | src/services/http-services-service.ts:101-105 | with auto-increment ids (`FreshIds`), a create never replaces a stored row: every earlier row is still there, unchanged |
| HttpServices.FreshIdsPersist | src/database/migrations/1725299251295-CreateHttpServicesTable.ts:10 | `AUTOINCREMENT` never hands out a stored id again: create, update and delete all keep every stored id below the next one |
| HttpServices.AuthWithoutDomainCrashes | src/services/http-services-service.ts:101-109 | a request with `requireAuth: true` and no domain passes the auth rule; once its checks pass, its row is saved with auth on and no domain, and rendering it fails with the null-record crash, the row staying stored |
| HttpServices.CreateKeepsRowOnRenderFailure | src/services/http-services-service.ts:101-109 | a render that fails after the save keeps the saved row |
| HttpServices.Rewrite | src/services/http-services-service.ts:140-151 | on success the row is returned after the old location was removed without reload, the row saved and rendered with reload; a rejected save leaves the rows as they were with the old location gone |
| HttpServices.BuiltInUpdateKeepsRest | src/services/http-services-service.ts:120-127 | an update of the built-in app changes only its domain, address lists and auth flag |
| HttpServices.UpdateOrder | src/services/http-services-service.ts:114-152 | `Update` (`updateHttpService`): a successful update probes only when host and port are given, then ensures the domain, removes the old location without reload, saves and renders with reload |
| HttpServices.RejectedUpdateLeavesNoLocation | src/services/http-services-service.ts:140-145 | an update whose save is rejected leaves the rows unchanged but the service without its location file |
| HttpServices.UpdateNodeService | src/services/http-services-service.ts:171-179 | a service of another node is not found and nothing changes; otherwise it is the plain update |
| HttpServices.EnableDisableEffect | src/services/http-services-service.ts:181-200 | `EnableService` and `DisableService`: enabling sets only the flag; disabling also clears the expiry; the built-in app keeps its row as it was |
| HttpServices.NodeScopedNotFound | src/services/http-services-service.ts:185-207 | `EnableNodeService` and `DisableNodeService`: the node-scoped enable and disable refuse a service of another node and change nothing |
| HttpServices.Delete | src/services/http-services-service.ts:209-221 | a successful delete removes exactly that row after removing its location with a reload; a failure leaves the store as it was |
| HttpServices.DeleteGuard | src/services/http-services-service.ts:212-216 | deletion is refused exactly for the built-in app, as a bad request; otherwise the service's location file is gone |
| HttpServices.WithoutAuth | src/services/http-services-service.ts:155-162 | the same rows, where exactly the domain's services that required auth lose the flag |
| HttpServices.BuildAll | src/services/http-services-service.ts:166-168 | rendering the services in turn changes no row |
| HttpServices.BuildAllRenders | src/services/http-services-service.ts:166-168 | rendering in turn only appends to the trace, and when it gets through the list every listed service has been rendered without a reload |
| HttpServices.RemoveAuthFromServices | src/services/http-services-service.ts:154-169 | given the domain's services that require auth, once each, exactly those lose the flag and every other row is kept; the trace only grows, and a run that succeeds has rendered each of them without a reload |
| HttpServices.RemoveAuthExactly | src/services/http-services-service.ts:154-169 | afterwards no service of the domain requires auth; those that did lose only the flag and every other row is as it was |
| HttpServices.ProbeMatchesLocation | src/services/base-services.ts:41-44 | the backend check probes the host the location proxies to, and sets a resolver exactly when the location does |
| HttpServices.Recheck | src/services/http-services-service.ts:129-136 | the backend is probed again on update exactly when both a non-empty host and a non-zero port are supplied; the update then fails exactly when that probe fails, and otherwise the probe is the single step recorded |
| TcpServices.Apply | src/services/tcp-services-service.ts:128-131 | a partial update keeps id and node and takes each given field (enabled flag, expiry, protocol, port) while keeping the rest |
| TcpServices.SaveRow | src/services/tcp-services-service.ts:99-131 | a save keeps the public-port and backend indexes unique; it is refused, leaving the store as it was, exactly when another row holds its public port or its non-null backend (`TcpModel.Clashes`, reported as a conflict) or its node is not stored (the foreign key, reported as a constraint failure); on success it stores exactly that row |
| TcpServices.OrphanRowRefused | src/database/migrations/1725299321324-CreateTcpServicesTable.ts:24 | a row whose node is not stored is never saved: the store stays as it was |
| TcpServices.DomainStep | src/services/tcp-services-service.ts:185-187 | the domain step never renders |
| TcpServices.Build | src/services/tcp-services-service.ts:181-190 | rendering changes no row; on success the domain is ensured first (only for a service with a domain), then the stream rendered; a failure leaves the store as it was |
| TcpServices.Initialize | src/services/tcp-services-service.ts:31-41 | start-up, given every stored id once in the order the repository returns them, changes no row, only appends to the trace, renders no disabled service, and when it succeeds has rendered every enabled service with a reload |
| TcpServices.InitializeEnabledStep | src/services/tcp-services-service.ts:36-39 | an enabled service at the head of the start-up loop (`InitializeEach`) is built with a reload, and the loop carries on from the store that build leaves |
| TcpServices.InitializeRendersEnabledOnly | src/services/tcp-services-service.ts:31-41 | the start-up loop only appends to the trace, and every render it records is of an enabled service from the list |
| TcpServices.InitializeEachRendersEnabled | src/services/tcp-services-service.ts:36-40 | when the start-up loop gets through the list, every enabled listed service has been rendered with a reload |
| BaseServices.GetNodeService | src/services/tcp-services-service.ts:66-81 | found exactly when the service exists and belongs to that node, and then it is that row; otherwise not-found; the HTTP lookup (src/services/http-services-service.ts:68-83) is the same function over HTTP rows |
| TcpServices.PortFor | src/services/tcp-services-service.ts:87-91 | a given non-zero port is kept; otherwise the free port is used |
| TcpServices.Create | src/services/tcp-services-service.ts:83-110 | creation (`createTcpService`) keeps the public-port and backend indexes unique |
| TcpServices.CreateForMissingNodeRefused | src/services/tcp-services-service.ts:83-110 | creating a service for a node that is not stored fails and stores no row, for TCP (the probe finds no node) and for UDP (the foreign key refuses the save) alike |
| TcpServices.CreateEffect | src/services/tcp-services-service.ts:83-110 | a created service gets the given or the free port, the node, the computed expiry and the next id, is stored, and was probed first exactly when its protocol is 'tcp' |
| TcpServices.CreateKeepsStoredRows | src/services/tcp-services-service.ts:99-103 | with auto-increment ids (`FreshIds`), a create keeps the ids fresh and never replaces a stored row: every earlier row is still there, unchanged |
| TcpServices.FreshIdsPersist | src/database/migrations/1725299321324-CreateTcpServicesTable.ts:8 | `AUTOINCREMENT` never hands out a stored id again: update and delete keep every stored id below the next one |
| TcpServices.CreateOnTakenPortConflicts | src/services/tcp-services-service.ts:83-110 | a new service on a public port another service holds is refused as a duplicate, and no row changes |
| TcpServices.Update | src/services/tcp-services-service.ts:112-138 | an update (`updateTcpService`) keeps the public-port and backend indexes unique |
| TcpServices.UpdateProbe | src/services/tcp-services-service.ts:118-124 | the backend is probed again only when the patch gives a backend port and host and the protocol 'tcp'; the probe fails exactly when `checkNodePort` on the stored node fails, and a passing probe is one step |
| TcpServices.UpdateChecksFirst | src/services/tcp-services-service.ts:116-124 | a missing service and a failed re-probe each fail the update before anything is removed or saved: the store stays as it was |
| TcpServices.UpdateOrder | src/services/tcp-services-service.ts:112-138 | a successful update returns the merged row and stores it in place of the old one; its steps are the probe (exactly when one is made), the old stream file removed without a reload, the save, the domain step and the new stream file rendered with a reload, in that order after the earlier steps |
| TcpServices.Rewrite | src/services/tcp-services-service.ts:126-137 | on success the row is returned after the old stream was removed without reload, the row saved, the domain ensured and the stream rendered with reload, in that order; a row clashing with another is refused as a conflict and no row changes |
| TcpServices.UpdateOnTakenPortConflicts | src/services/tcp-services-service.ts:112-138 | once the probe (if any) has passed, moving a service onto a public port another service holds is refused as a duplicate, and no row changes |
| TcpServices.UpdateNodeService | src/services/tcp-services-service.ts:140-148 | a service of another node is not found and nothing changes; otherwise it is the plain update |
| TcpServices.EnableDisableEffect | src/services/tcp-services-service.ts:150-165 | `EnableService` and `DisableService`: enabling and disabling change only the flag; a disabled service keeps its expiry |
| TcpServices.NodeScopedNotFound | src/services/tcp-services-service.ts:154-169 | `EnableNodeService` and `DisableNodeService`: the node-scoped enable and disable refuse a service of another node and change nothing |
| TcpServices.Delete | src/services/tcp-services-service.ts:171-179 | succeeds exactly for a stored service, removing exactly that row and its stream file with a reload; a failure leaves the store as it was |
| TcpServices.PortStaysUnique | src/database/models/tcp-service.ts:16-51 | after a create, an update or a delete no two services share a public port |
| TcpServices.CreateProbe | src/services/tcp-services-service.ts:95-97 | only a TCP service has its backend probed on creation; a UDP service records no probe, and a successful probe is the single step recorded |
| TcpServices.SaveAndBuild | src/services/tcp-services-service.ts:99-109 | the table keeps its unique indexes; a row clashing with another is refused as a conflict and the store is left as it was; a successful creation returns the row it saved, which is then in the table, with the save recorded after every earlier step |
| Validators.NonBlank | src/validators/http-service-validator.ts:53-56 | at most as many lines as pieces, none of them empty |
| Validators.NonBlankMembers | src/validators/http-service-validator.ts:53-56 | a line is kept exactly when it is the non-empty trimmed form of some piece |
| Validators.FirstFailure | src/validators/http-service-validator.ts:60-136 | no failure exactly when every line passes; a reported failure is the first failing line, with the reason that line gets |
| Validators.Scan | src/validators/http-service-validator.ts:50-139 | the empty input gives ''; an accepted input comes back unchanged, exactly when every non-blank trimmed line passes; otherwise the reported 1-based line, text and reason are those of the first failing line |
| Validators.ValidateBypassPaths | src/validators/http-service-validator.ts:50-139 | the back end's bypass list is accepted, unchanged, exactly when every non-blank line passes `BypassLineCheck` with the white-space rule; a rejection reports a line that fails it for that reason |
| Validators.ValidateNginxBypassPaths | frontend/src/utils/validators/http-service.ts:33-107 | the front end's bypass list is accepted, unchanged, exactly when every non-blank line passes `BypassLineCheck` without the white-space rule |
| Validators.ValidateSkipAuthRoute | src/validators/domain-validator.ts:39-73 | a skip-auth list is accepted, unchanged, exactly when every non-blank line passes `SkipRouteCheck`; a rejection reports a line that fails it for that reason |
| Validators.OneLine | src/validators/http-service-validator.ts:60-62 | an already trimmed single line is judged on that line alone and reported as line 1 |
| Validators.BlankLineIgnored | src/validators/http-service-validator.ts:55-56 | a blank line in front changes neither the verdict nor the reported line number |
| Validators.UpperRun | src/validators/http-service-validator.ts:63 | the length of the maximal run of capitals at the start |
| Validators.MethodPrefixIff | src/validators/http-service-validator.ts:63 | the method-prefix test holds exactly when the line starts with one or more capitals followed by '=' or '!=' |
| Validators.BypassLineCheck | src/validators/http-service-validator.ts:63-135 | a bypass line passes exactly when it has no method prefix and no forbidden character, and then either starts with '^' and compiles, or starts with '/' (and, on the back end, holds no white space) |
| Validators.MethodPrefixFirst | src/validators/http-service-validator.ts:63-75 | a method-prefixed line is refused for its prefix, on both ends, whatever else it holds |
| Validators.GetApiIsNotAPath | src/validators/http-service-validator.ts:63-120 | `GET /api` passes the prefix rule (no '=') and is refused as a path not starting with '/' |
| Validators.SpacedPathOnlyFrontEnd | frontend/src/utils/validators/http-service.ts:88-103 | `/a b` passes the front-end check but the back end refuses it for white space |
| Validators.BackEndIsStricter | frontend/src/utils/validators/http-service.ts:33-107 | every input the back end accepts, the front end accepts too |
| Validators.LeadingMethod | src/validators/domain-validator.ts:53-56 | the method stripped is a prefix of the line |
| Validators.LeadingMethodIsListed | src/validators/domain-validator.ts:54 | the method stripped is '' or one of the seven listed methods |
| Validators.StripMethodParts | src/validators/domain-validator.ts:53-56 | the line is exactly the stripped method, an optional '!', an optional '=' and what is compiled, in that order |
| Validators.StripMethodKeepsRoutes | src/validators/domain-validator.ts:53-59 | a route starting with '/' or '^' is compiled exactly as written |
| Validators.SkipRouteCheck | src/validators/domain-validator.ts:39-73 | a skip-auth line passes exactly when it has no forbidden character, the pipe included, and its text after the method and operators compiles |
| Validators.MethodThenSpaceAccepted | src/validators/domain-validator.ts:53-59 | `GET /x` is accepted whenever ` /x` compiles: nothing asks for a leading '/' |
| Validators.PipeOnlyForServices | src/validators/domain-validator.ts:37 | an alternation route is accepted for a service but refused for a domain, whose forbidden set holds the pipe |
| Validators.TtlValidIff | src/validators/http-service-validator.ts:141-145 | `TtlValid`: a TTL is valid exactly when it is empty or a digit run, optional white space and one of s, m, h, d |
| Validators.AuthDomainRule | src/validators/http-service-validator.ts:201-205 | `requireAuth: true` is allowed with a left-out domain on both ends (a Joi `is` schema matches a missing value) and refused with a `null` one on both ends; on the back end it is allowed exactly when the domain is not `null` and not empty |
| Validators.FrontEndAuthRuleIsStricter | frontend/src/utils/validators/http-service.ts:127-131 | `RequireAuthAllowedFrontEnd` against `RequireAuthAllowed`: whatever the front end's auth rule lets through, the back end's rule (src/validators/http-service-validator.ts:201-205) lets through too |
| Validators.CheckBypassRoutes | src/validators/http-service-validator.ts:206-209 | the bypass routes are checked only when auth is required; otherwise they pass as given |
| Validators.ValidateServiceDomain | src/validators/http-service-validator.ts:8-48 | a domain passes, unchanged, exactly when it is known or is a domain name that resolves to this host; a refusal is on the `domain` field |
| Validators.NslookupResolvesServerIp | src/validators/domain-validator.ts:7-27 | the value passes, unchanged, exactly when it is empty or resolves to this server; a refusal is on the `domain` field |
| Validators.EmptyDomainNotLookedUp | src/validators/domain-validator.ts:8 | the empty value passes whatever the lookup would answer |
| Validators.DomainStructureOfLabels | frontend/src/utils/validators/domain-validator.ts:66-72 | labels joined by dots match the domain pattern exactly when there are two or more, all but the last of letters, digits and '-', and the last of two or more letters |
| Validators.FrontEndSslIgnoresSkipValidation | frontend/src/utils/validators/domain-validator.ts:73-77 | `SslAllowedFrontEnd` against `SslAllowed`: the form's SSL rule accepts 'certbot' when the `validation` field is absent, while the back end refuses it for a domain that skips validation |
| Validators.CertbotNeedsValidation | src/validators/domain-validator.ts:116-120 | `SslAllowed`: 'certbot' is allowed exactly when validation is not skipped; 'self-signed' and no value always are |
| NodeValidators.ValidateSubnet | src/validators/node-validators.ts:8-31 | `HoldsHub`: the subnet is refused, on `gatewayNetwork`, exactly when it is non-empty and the hub's address is a valid IP inside it; otherwise it comes back unchanged |
| NodeValidators.ValidateGatewayNetworks | src/validators/node-validators.ts:33-75 | `HoldsHub` on each entry, with the interface rule: the list comes back unchanged exactly when no entry repeats an earlier interface or holds the hub, and then all interfaces are distinct; a refusal names the first bad entry, a repeated interface being reported before that entry's subnet check |
| NodeValidators.Keepalive | src/validators/node-validators.ts:160-166 | keepalive is 25 when absent, and a given value is accepted, unchanged, exactly when it lies in 0 to 120 |
| NodeValidators.AddressRule | src/validators/node-validators.ts:167-170 | `AddressAllowed`: the address may be absent or '', and any other value is accepted exactly when it is an IPv4 address |
| NodeValidators.CheckGatewayNetworks | src/validators/node-validators.ts:82-178 | `GatewayNetworksShape`, then the list rule: passes only for a well-shaped value: none for a node that is not a gateway; for a gateway, a list of entries with interface and CIDR subnet of which none is bad; a refusal means the shape is wrong or some entry is bad |
| DnsService.CreateRecord | src/services/dns/dns-service.ts:69-78 | creation is one call to the provider with the input unchanged, and its answer is the result |
| DnsService.UpdateRecord | src/services/dns/dns-service.ts:80-100 | the record is looked up by id, name and type first; the provider's update is called exactly when that lookup found it; a missing record is a not-found error; a success is the provider's answer |
| DnsService.DeleteRecord | src/services/dns/dns-service.ts:102-113 | the record is looked up by id first; a delete, under that same id, is asked for exactly when the lookup found it; a missing record is a not-found error |
| DnsService.GetRecord | src/services/dns/dns-service.ts:115-124 | one lookup by id; the result is a record exactly when the lookup found one, and a missing record is a not-found error |
| DnsService.FindRecordByName | src/services/dns/dns-service.ts:126-136 | one lookup by name and type; a missing record is answered as no record, not as an error |
| DnsService.ListRecords | src/services/dns/dns-service.ts:138-144 | one list call carrying the query as given, absent or not, whose answer is the result |
| DnsService.MissingRecordGetVersusFind | src/services/dns/dns-service.ts:115-136 | for a missing record, get fails while find-by-name answers with no record |
| DnsService.WritesFollowSuccessfulLookups | src/services/dns/dns-service.ts:87-109 | an update or delete succeeds only after a lookup that found the record |
| DnsService.InvalidProviderFailsEverything | src/services/dns/providers/invalid-dns-provider.ts:1-28 | behind the invalid provider every operation fails with its message, and update and delete stop after the failed lookup |
| DnsService.SelectProvider | src/providers/dns.ts:13-37 | Cloudflare exactly when it is named and has its token, GoDaddy exactly when it is named and has key and secret, each with those credentials; otherwise the invalid provider |
| DnsService.UnknownNameIsInvalid | src/providers/dns.ts:13-37 | any other provider name gives the invalid provider |
| GoDaddy.RecordPathInjective | src/services/dns/providers/godaddy-provider.ts:109-173 | two record paths of the same zone and type are equal only for the same name |
| GoDaddy.LoadDomainsIfNeeded | src/services/dns/providers/godaddy-provider.ts:32-52 | with a zone list cached nothing is asked; after an earlier fetch nothing is asked and that fetch's outcome is repeated, a failure included; otherwise the list is fetched once and kept, even when empty, or the failure returned with nothing cached |
| GoDaddy.LoadIsIdempotent | src/services/dns/providers/godaddy-provider.ts:32-37 | a second load asks nothing, changes nothing and ends as the first one did |
| GoDaddy.FailedLoadIsSticky | src/services/dns/providers/godaddy-provider.ts:34-51 | a failed zone-list fetch is never retried: every later load fails with the same error and asks nothing, whatever the server would now answer |
| GoDaddy.PickFrom | src/services/dns/providers/godaddy-provider.ts:67-74 | the zone picked, if any, is one of the account's zones |
| GoDaddy.PickFromSpec | src/services/dns/providers/godaddy-provider.ts:65-74 | the scan keeps the first of the longest zones that hold the name, or none when no zone holds it |
| GoDaddy.Resolve | src/services/dns/providers/godaddy-provider.ts:54-88 | no zones is an error; otherwise a zone is found exactly when some non-empty zone holds the name (equal, or a suffix after a dot, ignoring case); the one found is the first of the longest, and the relative name is '@' for the apex or the part before the zone |
| GoDaddy.MapToRecord | src/services/dns/providers/godaddy-provider.ts:90-101 | the record keeps type, content and ttl, has no id, names its zone, and its name is the zone for '@' or the relative name, a dot and the zone |
| GoDaddy.ShortNameRoundTrip | src/services/dns/providers/godaddy-provider.ts:80-92 | splitting a name into zone and relative name and joining them again gives the name back, the zone part spelled as the zone is |
| GoDaddy.AtLabelIsReadAsApex | src/services/dns/providers/godaddy-provider.ts:84-92 | a record written under the literal label `@` reads back as the zone's apex, not under the name it was written with |
| GoDaddy.FindRecord | src/services/dns/providers/godaddy-provider.ts:103-118 | a name without a zone fails before any request; otherwise one GET of the type and relative name, no record exactly when the server lists none, and else the first one listed |
| GoDaddy.Written | src/services/dns/providers/godaddy-provider.ts:121-132 | the record written carries the relative name, type and content, and ttl 600 unless one is given |
| GoDaddy.CreateRecord | src/services/dns/providers/godaddy-provider.ts:120-140 | a name without a zone fails before any request; otherwise one PATCH adding the record to the zone, then the read-back, whose answer is the result |
| GoDaddy.UpdateRecord | src/services/dns/providers/godaddy-provider.ts:142-163 | a name without a zone fails before any request; otherwise one PUT replacing the records of that type and relative name, then the read-back, whose answer is the result |
| GoDaddy.CreateReadsBackWritten | src/services/dns/providers/godaddy-provider.ts:120-140 | when the server lists what was written, the created record comes back under the name it was created with, with the content, type and ttl written |
| GoDaddy.DeleteRecord | src/services/dns/providers/godaddy-provider.ts:165-179 | as written: a failed or empty lookup ends the delete; a found record is emptied at the path built from its zone, type and absolute name |
| GoDaddy.DeleteRecordFixed | src/services/dns/providers/godaddy-provider.ts:165-179 | corrected: fails exactly when the name has no zone; a found record is emptied at the path of the lookup (zone, type, relative name) |
| GoDaddy.DeleteFixedTargetsFoundRecord | src/services/dns/providers/godaddy-provider.ts:166-178 | the corrected delete empties exactly the path the record was found at |
| GoDaddy.DeleteMissesFoundRecord | src/services/dns/providers/godaddy-provider.ts:172-178 | as written, a record found under a relative name other than '@' is emptied at a different path from the one it was found at |
| GoDaddy.DeleteUnderSingleZone | src/services/dns/providers/godaddy-provider.ts:106-178 | for `host.zone` in a single zone, the lookup GETs `.../<type>/host` and the delete PUTs `.../<type>/host.zone`; the corrected delete PUTs `.../<type>/host` |
| GoDaddy.ResolveUnderSingleZone | src/services/dns/providers/godaddy-provider.ts:54-92 | a name one host below the account's only zone resolves to that zone with the host as the relative name |
| Sanitizer.SensitiveFields | src/logger/sanitizer.ts:1-21 | the fields are the nine defaults followed by the additional ones, in order, each lower-cased |
| Sanitizer.AuthInsideKeyIsSensitive | src/logger/sanitizer.ts:7-8 | `IsSensitive`: a key that contains "auth" in any letter case anywhere counts as sensitive, whatever the additional fields are |
| Sanitizer.AuthField | src/logger/sanitizer.ts:1-21 | "auth" is one of the configured fields whatever the additional ones are |
| Sanitizer.Mask | src/logger/sanitizer.ts:123-128 | the result is always a mask; it is the redaction exactly for a falsy value; a short value becomes three stars; a longer one becomes ten characters that keep the first two and last two characters of its text |
| Sanitizer.MaskIdempotent | src/logger/sanitizer.ts:123-128 | masking an already masked truthy value gives the same mask again |
| Sanitizer.SanitizeAtIsClean | src/logger/sanitizer.ts:87-117 | `SanitizeAt`: after sanitizing at any depth, every value under a sensitive key in the whole result tree is a mask |
| Sanitizer.SanitizeValueIsClean | src/logger/sanitizer.ts:103-114 | `SanitizeValue`: a single entry after sanitizing is a mask if its key is sensitive and clean otherwise |
| Sanitizer.NoSensitiveIsClean | src/logger/sanitizer.ts:37-63 | `HasSensitive`: when the sensitive-data search finds nothing, no object key down to the depth limit is sensitive |
| Sanitizer.SanitizeHidesSecrets | src/logger/sanitizer.ts:25-35 | `Sanitize`: sanitize either hands the value back unchanged because it holds no sensitive key within the depth limit, or returns a copy with every secret masked |
| Sanitizer.SanitizeKeepsShape | src/logger/sanitizer.ts:103-116 | sanitizing an object keeps its keys in order, and keeps every value that is neither under a sensitive key nor itself an object |
| Sanitizer.DeepObjectsAreCut | src/logger/sanitizer.ts:99-101 | an object deeper than ten levels is replaced by the max-depth marker whatever it holds |
| Sanitizer.SanitizeHeaders | src/logger/sanitizer.ts:130-150 | no headers give the empty record; the same header names come back; each of the six listed headers that is truthy is masked, and every other header is kept as it was |
| Sanitizer.SanitizeHeadersIdempotent | src/logger/sanitizer.ts:130-150 | sanitizing headers a second time changes nothing |
| Sanitizer.UnlistedHeadersPass | src/logger/sanitizer.ts:134-147 | a header outside the six listed names passes through unchanged, even if its name looks secret |
| QueryFilter.JoinAllowed | api/src/repositories/filters/repository-query-filter.ts:49-60 | a relation is joined exactly when it was asked for and is allowed, and no more joins are made than relations asked for |
| QueryFilter.ApplyRelations | api/src/repositories/filters/repository-query-filter.ts:49-60 | only an array of relations adds joins, namely the allowed ones; anything else leaves the query as it was; the condition and the ordering are never touched |
| QueryFilter.JoinsAreAllowed | api/src/repositories/filters/repository-query-filter.ts:26-28 | `Apply`: whatever filter object is given, a fetched query joins only relations the filter allows: nothing for nodes, only the node for TCP services |
| QueryFilter.RunFiltersKeepsJoins | api/src/repositories/filters/repository-query-filter.ts:38-42 | `RunFilters`: the filter-method loop never changes the joins, and it leaves a builder only if it started with one |
| QueryFilter.NodeTypeCondition | src/repositories/filters/node-query-filter.ts:17-25 | `FilterCondition` on nodes: the type filter selects gateways for 'gateways', the other nodes for any other truthy value, and sets nothing for a falsy one |
| QueryFilter.WgInterfaceCondition | src/repositories/filters/node-query-filter.ts:27-41 | a non-empty interface name selects that interface, the empty name selects nodes whose interface is not empty, and an absent value sets nothing |
| QueryFilter.TcpServiceConditions | src/repositories/filters/tcp-service-query-filter.ts:17-31 | the node filter applies to every value but null and absence, 0 included; the domain filter sets nothing for the empty or null domain |
| QueryFilter.ApplyOrdering | api/src/repositories/filters/repository-query-filter.ts:62-68 | a falsy order leaves the query as it is; a truthy one succeeds exactly when it is a string whose second comma-separated piece upper-cases to ASC or DESC (`UsableOrder`), the only directions TypeORM's `orderBy` accepts; joins and condition never change |
| QueryFilter.OrderDirections | api/src/repositories/filters/repository-query-filter.ts:62-68 | for 'field,dir' with no comma in either piece, a direction that upper-cases to ASC or DESC orders by that field in that direction, whatever case it was written in; any other direction fails the request |
| QueryFilter.NumberOr | api/src/repositories/filters/repository-query-filter.ts:74-75 | a non-zero number is taken as it is, and an absent or null value gives the fallback |
| QueryFilter.Finish | api/src/repositories/filters/repository-query-filter.ts:70-88 | a truthy id fetches one row; otherwise a truthy limit fetches a page whose page and limit are never 0, skipping (page - 1) times limit rows and taking limit rows; otherwise every row is fetched; the query itself is unchanged |
| QueryFilter.PageOfRows | api/src/repositories/filters/repository-query-filter.ts:73-85 | a request with a non-zero limit L and page P skips (P - 1) times L rows and takes L |
| QueryFilter.UnusableLimitFallsBack | api/src/repositories/filters/repository-query-filter.ts:73-76 | a limit that is a non-numeric string still pages, starting at page 1 with 12 rows |
| QueryFilter.IdAddsNoCondition | api/src/repositories/filters/repository-query-filter.ts:38-42 | a request with a truthy id fetches one row of the unfiltered query: the id adds no condition |
| QueryFilter.LastWhereWins | api/src/repositories/filters/repository-query-filter.ts:38-42 | two filters do not combine: on nodes, a type filter followed by an interface filter keeps only the interface condition |
| QueryFilter.EmptyFilterValueFails | api/src/repositories/filters/repository-query-filter.ts:38-42 | as written, an empty domain given to the TCP service filter or an empty type given to the node filter makes `apply` fail, where the corrected loop fetches every row |
| QueryFilter.RunFiltersFixedKeepsBuilder | api/src/repositories/filters/repository-query-filter.ts:38-42 | in the corrected loop, with no key naming another method, the builder survives with its joins and ordering, and its condition is the last one a filter set |
| QueryFilter.ApplyFixedSucceeds | api/src/repositories/filters/repository-query-filter.ts:30-47 | the corrected query always fetches when no key names another method and any order given is usable (`UsableOrder`), and its condition is the last one a filter set |

## Left out

- Rendering directive lists and configuration objects to nginx text is left out. The base classes `NginxConf` and `NginxServerConf` are not part of this model, so each of their helpers is taken to append the one directive it names.
- FileManager, directory creation, `path.join` in general, file modes, and the writing of files are left out. A file is an entry of a map from path to content, and a log path is built by joining with a single '/'.
- `Date.now()`, the timer behind the ping monitor, random bytes and key generation are left out. They appear as parameters: a clock reading, a tick's probe outcomes, a byte string.
- Concurrency is left out. `Promise.all`, the interleaving of asynchronous steps, and GoDaddy's shared in-flight domain load are modelled as sequential steps. A call that awaits a rejected promise returns an error result. GoDaddy's `domainsLoading` is kept as the settled outcome of its one fetch, so a failed fetch fails every later load.
- GoDaddy.Resolve: takes the zone list after a successful load. A failed load makes the record operations throw before any request, which the model states of `LoadDomainsIfNeeded` alone.
- Exception types and message wording are left out beyond what the model's error values carry. Where a message matters to a caller, it is kept literally.
- The HTTP service entity file is not part of this model. Its fields come from their uses and their defaults from the database migration. An absent domain is the empty string.
- HttpServices.Clash: the empty string stands for both null and '', and the unique indexes treat it as null, which matches no other row. The request schema accepts a literal '' domain, and two rows storing '' on one path are accepted by the model where the database's (domain, pathLocation) index refuses the second. A backend host stored as '' is read as null in the same way, in `HttpServices.Clash` and `TcpModel.SameBackend`; the HTTP request schema refuses '' there.
- Net.addRoute, delRoute, isIPForwardEnabled, nslookup, checkCNAME, checkPort, getWireguardIP and getRealPublicIp are left out. They talk to the operating system or the network, and where the core needs their results, those results are parameters.
- WireguardService.initialize, loadConfig, getClientConfig (the text form), genKeyPair and restartWireguard are left out. They only call the `wg` command line or the key provider.
- HttpServicesService.pingHttpServiceBackend and the plain listing getters are left out. The first is a probe around an HTTP request; the listings are `QueryFilter.Apply` followed by a repository call.
- The Cloudflare DNS provider is left out, because its file is not part of this model. Only choosing it from the environment is modelled.
- The sanitizer's circular-reference marker and its cloning of `Date` objects are left out. Trees are finite and acyclic, and there are no `Date` values.
- The sanitizer's `maxDepth` option (`(additionalFields as any).maxDepth`) is left out. It can only be set by attaching a property to the array, so the depth limit is the constant 10.
- Sanitizer.Mask: the string form of a number is its integer decimal form. Floating-point numbers are not modelled.
- Sanitizer.Mask: a string is a sequence of Unicode characters, so the length test and the kept first and last two characters count characters. JavaScript counts UTF-16 code units, and the two differ for characters outside the Basic Multilingual Plane.
- JsNumber.ParseInt: integers are unbounded and read exactly. JavaScript's `parseInt` returns a double, which rounds above 2^53 (`parseInt('9007199254740993')` is 9007199254740992). The model only feeds it octets and prefix lengths, far below that limit.
- JsNumber.ParseIntOfNatToString: the read-back is exact for every size. In JavaScript it is exact only below 2^53, for the reason given under `JsNumber.ParseInt`.
- JsNumber.NumberOfNatToString: the same as `JsNumber.ParseIntOfNatToString`. The unary `+` also rounds above 2^53, and its inputs here are page numbers and page sizes.
- JsNumber.NumberOf: like `JsNumber.ParseInt`, the value is exact above 2^53, where a double rounds.
- JsNumber.NumberOf: only integral decimal numerals with an optional sign are read. Fractions, exponents, hexadecimal and `Infinity` are read as NaN, which is weaker than JavaScript's `Number`.
- QueryFilter.NumberOr: the contract fixes the result for numbers, null and absent values only. For a string, the result goes through `JsNumber.NumberOf`, with the limits above.
- Letter case is mapped for ASCII letters only, in `toLowerCase` and `toUpperCase`. Other letters keep their case.
- The order of `Object.entries` is the order of the filter entries as given. JavaScript's ordering of integer-like keys before the others is not modelled.
- `clone()` of a location configuration is the identity on values. Aliasing of mutable objects does not arise in a value model.
- HttpServices.SaveRow: the foreign key from a service to its node (src/database/migrations/1725299251295-CreateHttpServicesTable.ts:26) is not checked. Every path that reaches the save has already found the node: creation probes it through `checkNodePort`, which fails for a missing node, and an update starts from a stored row whose node the cascade keeps.
- NginxTcp.Remove and NginxHttp.Remove: the un-awaited `resetTCPConnections` call (src/services/proxy-server/nginx-tcp-service.ts:117 and src/services/proxy-server/nginx-http-service.ts:55) is not part of their results. It is modelled on its own by `NginxFiles.ResetTcpConnections`, since nothing waits for it.
- An absent `backendPort` on TCP service creation is probed as port 0, and the probe oracle decides that case.
- The node DNS custom rule and the `belongsToSubnet` check are taken as given parameters of the node validators. Joi's own message keys are not modelled.

## Findings

| source | as written | input that shows it | evidently intended | confidence | as-written member | corrected member |
|---|---|---|---|---|---|---|
| frontend/src/utils/validators/domain-validator.ts:73-77 | the form's SSL rule depends on a `validation` field the form does not have, so 'certbot' is always offered | `ssl: 'certbot'` together with `skipValidation: true` passes the form and is then refused by the back end | offer 'certbot' only when `skipValidation` is not true, as the back-end rule at src/validators/domain-validator.ts:116-120 does | not executed | Validators.FrontEndSslIgnoresSkipValidation | Validators.CertbotNeedsValidation |
| src/services/dns/providers/godaddy-provider.ts:165-179 | the records to delete are addressed by the found record's absolute name, which `mapToRecord` builds, while the lookup and the update use the name relative to the zone | deleting `www.example.com` of type A in zone `example.com` PUTs to `.../example.com/records/A/www.example.com`, not to `.../records/A/www` | address the records by the relative name the lookup used | not executed | GoDaddy.DeleteMissesFoundRecord | GoDaddy.DeleteFixedTargetsFoundRecord |
| api/src/repositories/filters/repository-query-filter.ts:38-42 | every filter method's return value replaces the builder, but `type`, `domain`, `nodeId` and `wgInterface` return nothing when their value sets no condition | calling the TCP service filter's `apply` with `{ domain: '' }`, or the node filter's with `{ type: '' }`, leaves the builder undefined, and the call fails at `applyOrdering` or `finish`; the REST schemas seen refuse these values before the filter runs (`type` must be 'nodes' or 'gateways', src/validators/node-validators.ts:129-137), and the TCP listing's schema is not part of this model, so no REST request is shown to reach the defect | a filter that sets no condition leaves the query unchanged | not executed; a defect of the filter class, no REST input shown | QueryFilter.EmptyFilterValueFails | QueryFilter.ApplyFixedSucceeds |

=== FILE: baseservices.dfy ===
/** `checkNodePort` (`src/services/base-services.ts`): before a service is saved, the
    backend it names must be reachable from the hub the way the proxy will reach it.

    The node lookup is a parameter (a record that may be missing), as are
    `IP_CIDR.isValidIP` and the outcome of the socket probe `Net.checkPort` for the probe
    made. */
module BaseServices {
  import opened Wrappers
  import opened Strings
  import opened Records

  /** What `Net.checkPort(server, port, resolver, ssl)` is asked. */
  datatype Probe = Probe(server: string, port: int, resolver: Option<string>, ssl: bool)

  /** What a service operation did, in order: the record of its steps that the HTTP and
      TCP lifecycles keep. */
  datatype Step =
    | Probed(probe: Probe)
    | EnsuredDomain(domain: string)
    | Saved(id: nat)
    | Rendered(id: nat, restart: bool)
    | Unrendered(id: nat, restart: bool)
    | Deleted(id: nat)

  /** `order` lists every id of `ids` exactly once, as a repository query returns its
      rows. */
  predicate ListsOnce(order: seq<nat>, ids: set<nat>) {
    && (forall i, j :: 0 <= i < j < |order| ==> order[i] != order[j])
    && (forall i :: 0 <= i < |order| ==> order[i] in ids)
    && (forall k :: k in ids ==> k in order)
  }

  /** A step recorded after `b` in a trace that extends `b`, itself an extension of `a`, is
      also recorded after `a`. */
  lemma StepAfter(a: seq<Step>, b: seq<Step>, c: seq<Step>, x: Step)
    requires a <= b <= c && x in c[|b|..]
    ensures x in c[|a|..]
  {
    var i :| 0 <= i < |c[|b|..]| && c[|b|..][i] == x;
    assert c[|a|..][|b| - |a| + i] == x;
  }

  /** A local node may only point at its own loopback address for the API's port. */
  predicate LoopbackMisuse(node: Node, port: int, host: string) {
    node.isLocal && (host == "127.0.0.1" || host == "localhost") && port != 3000
  }

  /** The probe: the backend host for a gateway or local node that names one, else the
      node's address; a gateway resolves a host name through the node. */
  function ProbeFor(node: Node, port: int, host: string, ssl: bool, isIp: string -> bool): (q: Probe)
    ensures q.port == port && q.ssl == ssl
    ensures q.server == if (node.isGateway || node.isLocal) && host != "" then host else node.address
    ensures q.resolver.Some? <==> node.isGateway && host != "" && !isIp(host)
    ensures q.resolver.Some? ==> q.resolver.value == node.address
  {
    var server := if (node.isGateway || node.isLocal) && host != "" then host else node.address;
    var resolver := if node.isGateway && host != "" && !isIp(host) then Some(node.address) else None;
    Probe(server, port, resolver, ssl)
  }

  /** `checkNodePort(nodeId, port, host, ssl)`: the missing node, the loopback misuse and
      the failed probe are errors, checked in that order; on success the probe made is
      returned. */
  function CheckNodePort(node: Option<Node>, port: int, host: string, ssl: bool, isIp: string -> bool,
                         reachable: Probe -> bool): (r: Result<Probe>)
    ensures node.None? ==> r == Err(NotFound("Node not found!"))
    ensures node.Some? && LoopbackMisuse(node.value, port, host) ==>
      r.Err? && r.error.Invalid? && r.error.field == "backendHost"
    ensures node.Some? && !LoopbackMisuse(node.value, port, host) ==>
      var q := ProbeFor(node.value, port, host, ssl, isIp);
      && (reachable(q) ==> r == Ok(q))
      && (!reachable(q) ==>
            && r.Err? && r.error.Invalid? && r.error.field == "backendPort"
            && r.error.message == "Unable to connect to port " + IntToString(port) + " in " + q.server)
  {
    if node.None? then Err(NotFound("Node not found!"))
    else if LoopbackMisuse(node.value, port, host) then
      Err(Invalid("backendHost", "Cannot use localhost as backendHost for local node."))
    else
      var q := ProbeFor(node.value, port, host, ssl, isIp);
      if reachable(q) then Ok(q)
      else Err(Invalid("backendPort", "Unable to connect to port " + IntToString(port) + " in " + q.server))
  }

  /** The check passes exactly for an existing node, without loopback misuse, whose probe
      succeeds; it never probes an unreachable backend into success. */
  lemma CheckNodePortIff(node: Option<Node>, port: int, host: string, ssl: bool, isIp: string -> bool,
                         reachable: Probe -> bool)
    ensures CheckNodePort(node, port, host, ssl, isIp, reachable).Ok? <==>
      && node.Some? && !LoopbackMisuse(node.value, port, host)
      && reachable(ProbeFor(node.value, port, host, ssl, isIp))
  {
  }

  /** The API's own port on the local node is always allowed past the loopback rule. */
  lemma ApiPortIsAllowed(node: Node, host: string)
    ensures !LoopbackMisuse(node, 3000, host)
  {
  }

  /** `getNodeHttpService(id, nodeId)` and `getNodeTcpService(id, nodeId)`: the row stored
      under the id, unless it belongs to another node; `owner` reads a row's node id. */
  function GetNodeService<T>(rows: map<nat, T>, owner: T -> nat, id: nat, nodeId: nat): (r: Result<T>)
    ensures r.Ok? <==> id in rows && owner(rows[id]) == nodeId
    ensures r.Ok? ==> r.value == rows[id]
    ensures r.Err? ==> r.error == NotFound("Service not found")
  {
    if id in rows && owner(rows[id]) == nodeId then Ok(rows[id])
    else Err(NotFound("Service not found"))
  }
}

=== FILE: dnsservice.dfy ===
/** The DNS layer's provider-independent part: `DNSService` (`src/services/dns/dns-service.ts`),
    which guards update, delete and get with an existence lookup; the provider that
    refuses everything (`src/services/dns/providers/invalid-dns-provider.ts`); and the
    choice of provider from the environment (`src/providers/dns.ts`).

    A provider is a record of its five operations, each answering with a value or an
    error; what the service asks of it is recorded as a list of calls. */
module DnsService {
  import opened Wrappers

  datatype DnsRecord = DnsRecord(id: Option<string>, rtype: string, name: string, content: string, ttl: int,
                                 zoneId: Option<string>)

  datatype CreateInput = CreateInput(rtype: string, name: string, content: string, ttl: Option<int>)

  datatype UpdateInput = UpdateInput(id: string, rtype: Option<string>, name: Option<string>,
                                     content: Option<string>, ttl: Option<int>)

  datatype FindInput = FindInput(id: Option<string>, name: Option<string>, rtype: Option<string>)

  /** `ListRecordsInput`: an optional type, name, page and page size; the whole query is
      optional too. */
  datatype ListInput = ListInput(rtype: Option<string>, name: Option<string>, page: Option<int>,
                                 perPage: Option<int>)

  datatype ListResult = ListResult(records: seq<DnsRecord>, totalCount: nat, page: nat, perPage: nat)

  /** A DNS provider: its answer to each operation. */
  datatype Provider = Provider(
    create: (string, CreateInput) -> Result<DnsRecord>,
    update: (string, UpdateInput) -> Result<DnsRecord>,
    delete: (string, string) -> Result<()>,
    find: (string, FindInput) -> Result<Option<DnsRecord>>,
    list: (string, Option<ListInput>) -> Result<ListResult>)

  /** One call made on the provider. */
  datatype Call =
    | CreateCall(zoneId: string, create: CreateInput)
    | UpdateCall(zoneId: string, update: UpdateInput)
    | DeleteCall(zoneId: string, recordId: string)
    | FindCall(zoneId: string, query: FindInput)
    | ListCall(zoneId: string, listQuery: Option<ListInput>)

  /** The calls an operation made, in order, and its outcome. */
  datatype Run<T> = Run(calls: seq<Call>, result: Result<T>)

  function NotFoundMessage(id: string): string {
    "DNS record not found: " + id
  }

  /** `createRecord`: the input goes to the provider unchanged. */
  function CreateRecord(p: Provider, zoneId: string, input: CreateInput): (r: Run<DnsRecord>)
    ensures r.calls == [CreateCall(zoneId, input)]
    ensures r.result == p.create(zoneId, input)
  {
    Run([CreateCall(zoneId, input)], p.create(zoneId, input))
  }

  /** `updateRecord`: the record is looked up by id, name and type first; a missing record
      is an error and the provider's update is not called. */
  function UpdateRecord(p: Provider, zoneId: string, input: UpdateInput): (r: Run<DnsRecord>)
    ensures |r.calls| >= 1 && r.calls[0] == FindCall(zoneId, FindInput(Some(input.id), input.name, input.rtype))
    ensures UpdateCall(zoneId, input) in r.calls <==>
      p.find(zoneId, FindInput(Some(input.id), input.name, input.rtype)).Ok?
      && p.find(zoneId, FindInput(Some(input.id), input.name, input.rtype)).value.Some?
    ensures p.find(zoneId, FindInput(Some(input.id), input.name, input.rtype)) == Ok(None) ==>
      r.result == Err(Failed(NotFoundMessage(input.id)))
    ensures r.result.Ok? ==> r.result == p.update(zoneId, input)
  {
    var query := FindInput(Some(input.id), input.name, input.rtype);
    var found := p.find(zoneId, query);
    if found.Err? then Run([FindCall(zoneId, query)], Err(found.error))
    else if found.value.None? then Run([FindCall(zoneId, query)], Err(Failed(NotFoundMessage(input.id))))
    else Run([FindCall(zoneId, query), UpdateCall(zoneId, input)], p.update(zoneId, input))
  }

  /** `deleteRecord`: a missing record is an error and nothing is deleted; an existing one
      is deleted under the same id. */
  function DeleteRecord(p: Provider, zoneId: string, recordId: string): (r: Run<()>)
    ensures |r.calls| >= 1 && r.calls[0] == FindCall(zoneId, FindInput(Some(recordId), None, None))
    ensures DeleteCall(zoneId, recordId) in r.calls <==>
      p.find(zoneId, FindInput(Some(recordId), None, None)).Ok?
      && p.find(zoneId, FindInput(Some(recordId), None, None)).value.Some?
    ensures forall c :: c in r.calls && c.DeleteCall? ==> c == DeleteCall(zoneId, recordId)
    ensures p.find(zoneId, FindInput(Some(recordId), None, None)) == Ok(None) ==>
      r.result == Err(Failed(NotFoundMessage(recordId)))
  {
    var query := FindInput(Some(recordId), None, None);
    var found := p.find(zoneId, query);
    if found.Err? then Run([FindCall(zoneId, query)], Err(found.error))
    else if found.value.None? then Run([FindCall(zoneId, query)], Err(Failed(NotFoundMessage(recordId))))
    else Run([FindCall(zoneId, query), DeleteCall(zoneId, recordId)], p.delete(zoneId, recordId))
  }

  /** `getRecord`: a missing record is an error. */
  function GetRecord(p: Provider, zoneId: string, recordId: string): (r: Run<DnsRecord>)
    ensures r.calls == [FindCall(zoneId, FindInput(Some(recordId), None, None))]
    ensures p.find(zoneId, FindInput(Some(recordId), None, None)) == Ok(None) ==>
      r.result == Err(Failed(NotFoundMessage(recordId)))
    ensures r.result.Ok? <==> p.find(zoneId, FindInput(Some(recordId), None, None)).Ok?
                              && p.find(zoneId, FindInput(Some(recordId), None, None)).value.Some?
  {
    var query := FindInput(Some(recordId), None, None);
    var found := p.find(zoneId, query);
    if found.Err? then Run([FindCall(zoneId, query)], Err(found.error))
    else if found.value.None? then Run([FindCall(zoneId, query)], Err(Failed(NotFoundMessage(recordId))))
    else Run([FindCall(zoneId, query)], Ok(found.value.value))
  }

  /** `findRecordByName`: the provider's answer, a missing record included, is returned
      as it is. */
  function FindRecordByName(p: Provider, zoneId: string, name: string, rtype: Option<string>)
    : (r: Run<Option<DnsRecord>>)
    ensures r.calls == [FindCall(zoneId, FindInput(None, Some(name), rtype))]
    ensures p.find(zoneId, FindInput(None, Some(name), rtype)) == Ok(None) ==> r.result == Ok(None)
  {
    var query := FindInput(None, Some(name), rtype);
    Run([FindCall(zoneId, query)], p.find(zoneId, query))
  }

  /** `listRecords(zoneId, query)`: the query, absent or not, reaches the provider as
      given, and its answer is the result. */
  function ListRecords(p: Provider, zoneId: string, query: Option<ListInput>): (r: Run<ListResult>)
    ensures r.calls == [ListCall(zoneId, query)] && r.result == p.list(zoneId, query)
  {
    Run([ListCall(zoneId, query)], p.list(zoneId, query))
  }

  /** Looking up a missing record: `getRecord` fails, `findRecordByName` answers with no
      record. */
  lemma MissingRecordGetVersusFind(p: Provider, zoneId: string, id: string, name: string, rtype: Option<string>)
    requires p.find(zoneId, FindInput(Some(id), None, None)) == Ok(None)
    requires p.find(zoneId, FindInput(None, Some(name), rtype)) == Ok(None)
    ensures GetRecord(p, zoneId, id).result.Err?
    ensures FindRecordByName(p, zoneId, name, rtype).result == Ok(None)
  {
  }

  /** An update or delete that reaches the provider was preceded by a lookup that found
      the record. */
  lemma WritesFollowSuccessfulLookups(p: Provider, zoneId: string, input: UpdateInput, recordId: string)
    ensures UpdateRecord(p, zoneId, input).result.Ok? ==>
      p.find(zoneId, FindInput(Some(input.id), input.name, input.rtype)).Ok?
      && p.find(zoneId, FindInput(Some(input.id), input.name, input.rtype)).value.Some?
    ensures DeleteRecord(p, zoneId, recordId).result.Ok? ==>
      p.find(zoneId, FindInput(Some(recordId), None, None)).Ok?
      && p.find(zoneId, FindInput(Some(recordId), None, None)).value.Some?
  {
  }

  const InvalidMessage := "Invalid DNS Provider configured."

  /** `InvalidDNSProvider`: every operation, the read-only ones included, fails. */
  const InvalidProvider: Provider := Provider(
    (z: string, i: CreateInput) => Err(Failed(InvalidMessage)),
    (z: string, i: UpdateInput) => Err(Failed(InvalidMessage)),
    (z: string, id: string) => Err(Failed(InvalidMessage)),
    (z: string, q: FindInput) => Err(Failed(InvalidMessage)),
    (z: string, q: Option<ListInput>) => Err(Failed(InvalidMessage)))

  /** Behind the invalid provider every service operation fails with its message, and
      no update or delete is ever asked for. */
  lemma InvalidProviderFailsEverything(zoneId: string, c: CreateInput, u: UpdateInput, id: string, name: string,
                                       rtype: Option<string>, query: Option<ListInput>)
    ensures CreateRecord(InvalidProvider, zoneId, c).result == Err(Failed(InvalidMessage))
    ensures UpdateRecord(InvalidProvider, zoneId, u) == Run([FindCall(zoneId, FindInput(Some(u.id), u.name, u.rtype))], Err(Failed(InvalidMessage)))
    ensures DeleteRecord(InvalidProvider, zoneId, id) == Run([FindCall(zoneId, FindInput(Some(id), None, None))], Err(Failed(InvalidMessage)))
    ensures GetRecord(InvalidProvider, zoneId, id).result == Err(Failed(InvalidMessage))
    ensures FindRecordByName(InvalidProvider, zoneId, name, rtype).result == Err(Failed(InvalidMessage))
    ensures ListRecords(InvalidProvider, zoneId, query).result == Err(Failed(InvalidMessage))
  {
  }

  /** The provider the container is given. */
  datatype ProviderChoice =
    | Cloudflare(apiToken: string)
    | GoDaddy(apiKey: string, apiSecret: string)
    | InvalidDns

  /** The provider chosen from `DNS_PROVIDER` and the credentials in the environment ('' for
      an unset variable): a named provider with all its credentials, else the invalid one. */
  function SelectProvider(name: string, cloudflareToken: string, goDaddyKey: string, goDaddySecret: string)
    : (c: ProviderChoice)
    ensures c.Cloudflare? <==> name == "cloudflare" && cloudflareToken != ""
    ensures c.GoDaddy? <==> name == "godaddy" && goDaddyKey != "" && goDaddySecret != ""
    ensures c.Cloudflare? ==> c.apiToken == cloudflareToken
    ensures c.GoDaddy? ==> c.apiKey == goDaddyKey && c.apiSecret == goDaddySecret
  {
    if name == "cloudflare" then
      if cloudflareToken == "" then InvalidDns else Cloudflare(cloudflareToken)
    else if name == "godaddy" then
      if goDaddyKey == "" || goDaddySecret == "" then InvalidDns else GoDaddy(goDaddyKey, goDaddySecret)
    else InvalidDns
  }

  /** A provider name other than the two known ones always gives the invalid provider. */
  lemma UnknownNameIsInvalid(name: string, token: string, key: string, secret: string)
    requires name != "cloudflare" && name != "godaddy"
    ensures SelectProvider(name, token, key, secret) == InvalidDns
  {
  }
}

=== FILE: godaddy.dfy ===
/** The GoDaddy DNS provider (`src/services/dns/providers/godaddy-provider.ts`): a record is
    named by its fully qualified name, which is split into the account's zone that holds
    it (the longest match) and the name relative to that zone, the form GoDaddy's API
    uses in its paths.

    The HTTP exchanges are modelled as the list of requests made and, for each GET of
    records, the server's answer as a parameter. The operations take the zone list once it
    is loaded; `LoadDomainsIfNeeded` models the loading. */
module GoDaddy {
  import opened Wrappers
  import opened Strings
  import opened DnsService

  const BaseUrl := "https://api.godaddy.com/v1"

  /** A record as GoDaddy's API returns and accepts it: its name is relative to the zone. */
  datatype RawRecord = RawRecord(name: string, data: string, rtype: string, ttl: int)

  datatype Request =
    | Get(path: string)
    | Patch(path: string, body: seq<RawRecord>)
    | Put(path: string, body: seq<RawRecord>)

  /** The requests an operation made, in order, and its outcome. */
  datatype Answer<T> = Answer(requests: seq<Request>, result: Result<T>)

  /** The server's answer to the GET of the records of one type and relative name in a zone. */
  type Lookup = (string, string, string) -> seq<RawRecord>

  const DomainsPath := BaseUrl + "/domains"

  function RecordsPath(domain: string): string {
    BaseUrl + "/domains/" + domain + "/records"
  }

  function RecordPath(domain: string, rtype: string, name: string): string {
    RecordsPath(domain) + "/" + rtype + "/" + name
  }

  /** Two record paths in the same zone and type are the same only for the same name. */
  lemma RecordPathInjective(domain: string, rtype: string, x: string, y: string)
    requires RecordPath(domain, rtype, x) == RecordPath(domain, rtype, y)
    ensures x == y
  {
    var prefix := RecordsPath(domain) + "/" + rtype + "/";
    assert RecordPath(domain, rtype, x) == prefix + x;
    assert RecordPath(domain, rtype, y) == prefix + y;
    assert x == (prefix + x)[|prefix|..];
    assert y == (prefix + y)[|prefix|..];
  }

  /** The provider's zone-list state: the cached list, and the settled outcome of the one
      fetch it started (`domainsLoading`), if it started one. */
  datatype Loader = Loader(cache: Option<seq<string>>, loading: Option<Result<seq<string>>>)

  /** A new provider: nothing cached, nothing fetched. */
  const Unloaded := Loader(None, None)

  /** `loadDomainsIfNeeded`: with a list cached nothing happens. With a fetch already made,
      its outcome is awaited again: nothing is asked, and a fetch that failed fails again.
      Otherwise the list is fetched, and kept (the empty one included) when the fetch
      succeeds. */
  function LoadDomainsIfNeeded(s: Loader, fetched: Result<seq<string>>): (r: (Loader, seq<Request>, Result<()>))
    ensures s.cache.Some? ==> r == (s, [], Ok(()))
    ensures s.cache.None? && s.loading.Some? ==>
      && r.0 == s && r.1 == []
      && (r.2.Ok? <==> s.loading.value.Ok?)
      && (s.loading.value.Err? ==> r.2 == Err(s.loading.value.error))
    ensures s.cache.None? && s.loading.None? ==>
      && r.1 == [Get(DomainsPath)] && r.0.loading == Some(fetched)
      && (fetched.Ok? ==> r.0.cache == Some(fetched.value) && r.2 == Ok(()))
      && (fetched.Err? ==> r.0.cache.None? && r.2 == Err(fetched.error))
  {
    if s.cache.Some? then (s, [], Ok(()))
    else if s.loading.Some? then
      (s, [], if s.loading.value.Ok? then Ok(()) else Err(s.loading.value.error))
    else
      match fetched
      case Ok(zones) => (Loader(Some(zones), Some(fetched)), [Get(DomainsPath)], Ok(()))
      case Err(e) => (Loader(None, Some(fetched)), [Get(DomainsPath)], Err(e))
  }

  /** Loading twice fetches at most once: the second call asks nothing, changes nothing and
      ends as the first did. */
  lemma LoadIsIdempotent(s: Loader, first: Result<seq<string>>, second: Result<seq<string>>)
    ensures var (s1, _, r1) := LoadDomainsIfNeeded(s, first);
      LoadDomainsIfNeeded(s1, second) == (s1, [], r1)
  {
  }

  /** A failed fetch is never retried: every later load of that provider fails with the
      same error without asking anything, whatever the server would now answer. */
  lemma FailedLoadIsSticky(e: Error, later: seq<Result<seq<string>>>)
    ensures var (s1, q1, r1) := LoadDomainsIfNeeded(Unloaded, Err(e));
      && q1 == [Get(DomainsPath)] && r1 == Err(e)
      && forall i :: 0 <= i < |later| ==> LoadDomainsIfNeeded(s1, later[i]) == (s1, [], Err(e))
  {
  }

  const NoDomainsMessage := "No GoDaddy domains available for this API key."

  function NoMatchMessage(fqdn: string): string {
    "No GoDaddy domain found for FQDN \"" + fqdn + "\"."
  }

  /** The lower-cased name is the zone itself or lies under it. */
  predicate ZoneMatches(lc: string, zone: string) {
    var z := ToLower(zone);
    lc == z || EndsWith(lc, "." + z)
  }

  /** The scan for the best zone from position `k`, `best` the index chosen so far: a
      matching zone replaces no choice, an empty choice, or a shorter one. */
  function PickFrom(lc: string, zones: seq<string>, k: nat, best: Option<nat>): (r: Option<nat>)
    requires k <= |zones|
    requires best.Some? ==> best.value < |zones|
    ensures r.Some? ==> r.value < |zones|
    decreases |zones| - k
  {
    if k == |zones| then best
    else
      var take := ZoneMatches(lc, zones[k])
                  && (best.None? || zones[best.value] == "" || |ToLower(zones[k])| > |zones[best.value]|);
      PickFrom(lc, zones, k + 1, if take then Some(k) else best)
  }

  /** What the scan knows after the first `k` zones. */
  predicate PickInv(lc: string, zones: seq<string>, k: nat, best: Option<nat>)
    requires k <= |zones|
  {
    match best
    case None => forall j :: 0 <= j < k ==> !ZoneMatches(lc, zones[j])
    case Some(b) =>
      && b < k && ZoneMatches(lc, zones[b])
      && (zones[b] == "" ==> forall j :: 0 <= j < k && ZoneMatches(lc, zones[j]) ==> zones[j] == "")
      && (zones[b] != "" ==> forall j :: 0 <= j < k && ZoneMatches(lc, zones[j]) ==> |zones[j]| <= |zones[b]|)
      && (zones[b] != "" ==> forall j :: 0 <= j < b && ZoneMatches(lc, zones[j]) ==> |zones[j]| < |zones[b]|)
  }

  lemma {:induction false} PickFromSpec(lc: string, zones: seq<string>, k: nat, best: Option<nat>)
    requires k <= |zones|
    requires best.Some? ==> best.value < |zones|
    requires PickInv(lc, zones, k, best)
    ensures PickInv(lc, zones, |zones|, PickFrom(lc, zones, k, best))
    decreases |zones| - k
  {
    if k < |zones| {
      var take := ZoneMatches(lc, zones[k])
                  && (best.None? || zones[best.value] == "" || |ToLower(zones[k])| > |zones[best.value]|);
      var next := if take then Some(k) else best;
      if take {
        PickTake(lc, zones, k, best);
      } else {
        PickKeep(lc, zones, k, best);
      }
      PickFromSpec(lc, zones, k + 1, next);
    }
  }

  /** A zone the scan takes becomes the choice. */
  lemma PickTake(lc: string, zones: seq<string>, k: nat, best: Option<nat>)
    requires k < |zones| && PickInv(lc, zones, k, best)
    requires ZoneMatches(lc, zones[k])
    requires best.None? || zones[best.value] == "" || |ToLower(zones[k])| > |zones[best.value]|
    ensures PickInv(lc, zones, k + 1, Some(k))
  {
    assert |ToLower(zones[k])| == |zones[k]|;
    if zones[k] != "" {
      forall j | 0 <= j < k && ZoneMatches(lc, zones[j]) ensures |zones[j]| < |zones[k]| {
        if best.Some? && zones[best.value] != "" {
          assert |zones[j]| <= |zones[best.value]|;
        }
      }
    }
  }

  /** A zone the scan passes over leaves the choice as it was. */
  lemma PickKeep(lc: string, zones: seq<string>, k: nat, best: Option<nat>)
    requires k < |zones| && PickInv(lc, zones, k, best)
    requires !(ZoneMatches(lc, zones[k])
               && (best.None? || zones[best.value] == "" || |ToLower(zones[k])| > |zones[best.value]|))
    ensures PickInv(lc, zones, k + 1, best)
  {
    assert |ToLower(zones[k])| == |zones[k]|;
  }

  /** The name relative to the zone: '@' for the zone's apex, else the part before the dot
      that precedes the zone. */
  function ShortName(fqdn: string, domain: string): string
    requires ToLower(fqdn) == ToLower(domain) || |domain| < |fqdn|
  {
    if ToLower(fqdn) == ToLower(domain) then "@" else fqdn[..|fqdn| - |domain| - 1]
  }

  datatype Resolved = Resolved(domain: string, shortName: string)

  /** `resolveDomainForFqdn`: the longest account zone that holds the name (the first of
      equally long ones), and the name relative to it. */
  function Resolve(fqdn: string, zones: seq<string>): (r: Result<Resolved>)
    ensures |zones| == 0 ==> r == Err(Failed(NoDomainsMessage))
    ensures |zones| > 0 ==>
      (r.Ok? <==> exists j :: 0 <= j < |zones| && zones[j] != "" && ZoneMatches(ToLower(fqdn), zones[j]))
    ensures |zones| > 0 && r.Err? ==> r == Err(Failed(NoMatchMessage(fqdn)))
    ensures r.Ok? ==>
      && r.value.domain != "" && ZoneMatches(ToLower(fqdn), r.value.domain)
      && (forall j :: 0 <= j < |zones| && ZoneMatches(ToLower(fqdn), zones[j]) ==> |zones[j]| <= |r.value.domain|)
      && (exists b :: 0 <= b < |zones| && zones[b] == r.value.domain
           && forall j :: 0 <= j < b && ZoneMatches(ToLower(fqdn), zones[j]) ==> |zones[j]| < |r.value.domain|)
    ensures r.Ok? ==>
      && (ToLower(fqdn) == ToLower(r.value.domain) || |r.value.domain| < |fqdn|)
      && r.value.shortName == ShortName(fqdn, r.value.domain)
  {
    if |zones| == 0 then Err(Failed(NoDomainsMessage))
    else
      var lc := ToLower(fqdn);
      var best := PickFrom(lc, zones, 0, None);
      PickFromSpec(lc, zones, 0, None);
      if best.None? || zones[best.value] == "" then Err(Failed(NoMatchMessage(fqdn)))
      else
        var domain := zones[best.value];
        Ok(Resolved(domain, ShortName(fqdn, domain)))
  }

  /** The absolute name of a record GoDaddy calls `relativeName` in `domain`. */
  function RecordName(relativeName: string, domain: string): string {
    if relativeName == "@" then domain else relativeName + "." + domain
  }

  /** `mapToRecord`: the record with its absolute name and its zone. */
  function MapToRecord(raw: RawRecord, domain: string): (r: DnsRecord)
    ensures r.name == RecordName(raw.name, domain) && r.zoneId == Some(domain)
    ensures r.rtype == raw.rtype && r.content == raw.data && r.ttl == raw.ttl && r.id.None?
  {
    DnsRecord(None, raw.rtype, RecordName(raw.name, domain), raw.data, raw.ttl, Some(domain))
  }

  /** Splitting a name into zone and relative name and joining them again gives the name
      back, with the zone's spelling in place of the name's own for the zone part. */
  lemma ShortNameRoundTrip(fqdn: string, domain: string)
    requires ZoneMatches(ToLower(fqdn), domain)
    requires ToLower(fqdn) == ToLower(domain) || ShortName(fqdn, domain) != "@"
    ensures |domain| <= |fqdn|
    ensures RecordName(ShortName(fqdn, domain), domain) == fqdn[..|fqdn| - |domain|] + domain
    ensures ToLower(RecordName(ShortName(fqdn, domain), domain)) == ToLower(fqdn)
  {
    if ToLower(fqdn) == ToLower(domain) {
      assert fqdn[..|fqdn| - |domain|] == [];
    } else {
      var tail := "." + ToLower(domain);
      assert EndsWith(ToLower(fqdn), tail);
      SubdomainRoundTrip(fqdn, domain, |fqdn| - |domain|);
    }
  }

  /** The round trip for a name strictly under the zone, the zone starting at `n`. */
  lemma SubdomainRoundTrip(fqdn: string, domain: string, n: nat)
    requires 1 <= n && n + |domain| == |fqdn|
    requires ToLower(fqdn)[n - 1..] == "." + ToLower(domain)
    requires fqdn[..n - 1] != "@"
    ensures fqdn[..n - 1] + "." + domain == fqdn[..n] + domain
    ensures ToLower(fqdn[..n - 1] + "." + domain) == ToLower(fqdn)
  {
    DotBeforeZone(fqdn, domain, n);
    assert fqdn[..n] == fqdn[..n - 1] + ".";
    LowerZonePart(fqdn, domain, n);
  }

  /** The character before the zone is a dot in the name as in its lower-case form. */
  lemma DotBeforeZone(fqdn: string, domain: string, n: nat)
    requires 1 <= n && n + |domain| == |fqdn|
    requires ToLower(fqdn)[n - 1..] == "." + ToLower(domain)
    ensures fqdn[n - 1] == '.'
  {
    var lc := ToLower(fqdn);
    assert lc[n - 1] == lc[n - 1..][0];
    DotIsItsOwnLower(fqdn[n - 1]);
  }

  /** Replacing the name's zone part by the zone leaves the lower-case form unchanged. */
  lemma LowerZonePart(fqdn: string, domain: string, n: nat)
    requires 1 <= n && n + |domain| == |fqdn|
    requires ToLower(fqdn)[n - 1..] == "." + ToLower(domain)
    ensures ToLower(fqdn[..n] + domain) == ToLower(fqdn)
  {
    var lc := ToLower(fqdn);
    AfterDot(lc, ToLower(domain), n);
    LowerSplit(fqdn, n);
    ToLowerAppend(fqdn[..n], domain);
    Halves(lc, n);
  }

  lemma AfterDot(s: string, t: string, n: nat)
    requires 1 <= n <= |s| && s[n - 1..] == "." + t
    ensures s[n..] == t
  {
    assert s[n..] == s[n - 1..][1..];
  }

  lemma Halves(s: string, n: nat)
    requires n <= |s|
    ensures s[..n] + s[n..] == s
  {
  }

  lemma DotIsItsOwnLower(c: char)
    requires LowerChar(c) == '.'
    ensures c == '.'
  {
  }

  /** Lower-casing a name is lower-casing its two halves. */
  lemma LowerSplit(s: string, n: nat)
    requires n <= |s|
    ensures ToLower(s[..n]) == ToLower(s)[..n]
    ensures ToLower(s[n..]) == ToLower(s)[n..]
  {
    var a, b := s[..n], s[n..];
    assert a + b == s;
    ToLowerAppend(a, b);
    var la, lb := ToLower(a), ToLower(b);
    assert ToLower(s) == la + lb;
    assert (la + lb)[..n] == la;
    assert (la + lb)[n..] == lb;
  }

  /** A name whose first label is '@' under a zone does not survive the split: it comes
      back as the zone's apex. */
  lemma AtLabelIsReadAsApex(zone: string)
    requires zone != ""
    ensures ZoneMatches(ToLower("@." + zone), zone)
    ensures ToLower("@." + zone) != ToLower(zone)
    ensures ShortName("@." + zone, zone) == "@"
    ensures RecordName(ShortName("@." + zone, zone), zone) == zone != "@." + zone
  {
    var fqdn := "@." + zone;
    ToLowerAppend("@.", zone);
    assert ToLower("@.") == "@.";
    assert ToLower(fqdn)[|ToLower(fqdn)| - |"." + ToLower(zone)|..] == "." + ToLower(zone);
    assert fqdn[..|fqdn| - |zone| - 1] == "@";
  }

  /** `findRecord`: the record of that type under the relative name in the resolved zone,
      the first the server lists, or none. */
  function FindRecord(fqdn: string, rtype: string, zones: seq<string>, lookup: Lookup)
    : (a: Answer<Option<DnsRecord>>)
    ensures Resolve(fqdn, zones).Err? ==> a == Answer([], Err(Resolve(fqdn, zones).error))
    ensures Resolve(fqdn, zones).Ok? ==>
      var res := Resolve(fqdn, zones).value;
      var found := lookup(res.domain, rtype, res.shortName);
      && a.requests == [Get(RecordPath(res.domain, rtype, res.shortName))]
      && (a.result == Ok(None) <==> |found| == 0)
      && (a.result.Ok? && a.result.value.Some? ==> a.result.value.value == MapToRecord(found[0], res.domain))
  {
    match Resolve(fqdn, zones)
    case Err(e) => Answer([], Err(e))
    case Ok(res) =>
      var found := lookup(res.domain, rtype, res.shortName);
      var request := Get(RecordPath(res.domain, rtype, res.shortName));
      if |found| == 0 then Answer([request], Ok(None))
      else Answer([request], Ok(Some(MapToRecord(found[0], res.domain))))
  }

  const DefaultTtl := 600

  /** The record written for a create or update. */
  function Written(res: Resolved, rtype: string, content: string, ttl: Option<int>): (w: RawRecord)
    ensures w.name == res.shortName && w.rtype == rtype && w.data == content
    ensures w.ttl == if ttl.Some? then ttl.value else DefaultTtl
  {
    RawRecord(res.shortName, content, rtype, ttl.GetOr(DefaultTtl))
  }

  /** `createRecord`: the record is added to the zone's records (ttl 600 unless given), then
      read back; `lookup` is the server after the write. */
  function CreateRecord(fqdn: string, rtype: string, content: string, ttl: Option<int>, zones: seq<string>,
                        lookup: Lookup): (a: Answer<Option<DnsRecord>>)
    ensures Resolve(fqdn, zones).Err? ==> a == Answer([], Err(Resolve(fqdn, zones).error))
    ensures Resolve(fqdn, zones).Ok? ==>
      var res := Resolve(fqdn, zones).value;
      && a.requests == [Patch(RecordsPath(res.domain), [Written(res, rtype, content, ttl)])]
                       + FindRecord(fqdn, rtype, zones, lookup).requests
      && a.result == FindRecord(fqdn, rtype, zones, lookup).result
  {
    match Resolve(fqdn, zones)
    case Err(e) => Answer([], Err(e))
    case Ok(res) =>
      var back := FindRecord(fqdn, rtype, zones, lookup);
      Answer([Patch(RecordsPath(res.domain), [Written(res, rtype, content, ttl)])] + back.requests, back.result)
  }

  /** `updateRecord`: the records of that type and relative name are replaced by the one
      given (ttl 600 unless given), then read back. */
  function UpdateRecord(fqdn: string, rtype: string, content: string, ttl: Option<int>, zones: seq<string>,
                        lookup: Lookup): (a: Answer<Option<DnsRecord>>)
    ensures Resolve(fqdn, zones).Err? ==> a == Answer([], Err(Resolve(fqdn, zones).error))
    ensures Resolve(fqdn, zones).Ok? ==>
      var res := Resolve(fqdn, zones).value;
      && a.requests == [Put(RecordPath(res.domain, rtype, res.shortName), [Written(res, rtype, content, ttl)])]
                       + FindRecord(fqdn, rtype, zones, lookup).requests
      && a.result == FindRecord(fqdn, rtype, zones, lookup).result
  {
    match Resolve(fqdn, zones)
    case Err(e) => Answer([], Err(e))
    case Ok(res) =>
      var back := FindRecord(fqdn, rtype, zones, lookup);
      Answer([Put(RecordPath(res.domain, rtype, res.shortName), [Written(res, rtype, content, ttl)])] + back.requests,
             back.result)
  }

  /** Create then read back: when the server lists what was written, the record comes back
      under the name it was created with (the zone part spelled as the zone is), with the
      content, type and ttl written. */
  lemma CreateReadsBackWritten(fqdn: string, rtype: string, content: string, ttl: Option<int>, zones: seq<string>,
                               lookup: Lookup)
    requires Resolve(fqdn, zones).Ok?
    requires var res := Resolve(fqdn, zones).value;
             lookup(res.domain, rtype, res.shortName) == [Written(res, rtype, content, ttl)]
    requires ToLower(fqdn) == ToLower(Resolve(fqdn, zones).value.domain) || Resolve(fqdn, zones).value.shortName != "@"
    ensures var res := Resolve(fqdn, zones).value;
      && |res.domain| <= |fqdn|
      && CreateRecord(fqdn, rtype, content, ttl, zones, lookup).result
         == Ok(Some(DnsRecord(None, rtype, fqdn[..|fqdn| - |res.domain|] + res.domain, content,
                              ttl.GetOr(DefaultTtl), Some(res.domain))))
  {
    var res := Resolve(fqdn, zones).value;
    ShortNameRoundTrip(fqdn, res.domain);
  }

  /** `deleteRecord` as written: the record is looked up, and if found, the records under
      its zone, its type and its ABSOLUTE name are replaced by none. */
  function DeleteRecord(fqdn: string, rtype: string, zones: seq<string>, lookup: Lookup): (a: Answer<()>)
    ensures FindRecord(fqdn, rtype, zones, lookup).result.Err? ==>
      a == Answer(FindRecord(fqdn, rtype, zones, lookup).requests, Err(FindRecord(fqdn, rtype, zones, lookup).result.error))
    ensures FindRecord(fqdn, rtype, zones, lookup).result == Ok(None) ==>
      a == Answer(FindRecord(fqdn, rtype, zones, lookup).requests, Ok(()))
    ensures FindRecord(fqdn, rtype, zones, lookup).result.Ok? && FindRecord(fqdn, rtype, zones, lookup).result.value.Some? ==>
      var e := FindRecord(fqdn, rtype, zones, lookup).result.value.value;
      a == Answer(FindRecord(fqdn, rtype, zones, lookup).requests + [Put(RecordPath(e.zoneId.value, e.rtype, e.name), [])], Ok(()))
  {
    var found := FindRecord(fqdn, rtype, zones, lookup);
    match found.result
    case Err(err) => Answer(found.requests, Err(err))
    case Ok(None) => Answer(found.requests, Ok(()))
    case Ok(Some(e)) =>
      var zone := if e.zoneId.Some? then e.zoneId.value else "";
      Answer(found.requests + [Put(RecordPath(zone, e.rtype, e.name), [])], Ok(()))
  }

  /** `deleteRecord` addressing the records by the relative name, as the lookup before it
      and `updateRecord` do. */
  function DeleteRecordFixed(fqdn: string, rtype: string, zones: seq<string>, lookup: Lookup): (a: Answer<()>)
    ensures a.result.Err? <==> Resolve(fqdn, zones).Err?
    ensures Resolve(fqdn, zones).Ok? ==>
      var res := Resolve(fqdn, zones).value;
      && (|lookup(res.domain, rtype, res.shortName)| == 0 ==> a == Answer([Get(RecordPath(res.domain, rtype, res.shortName))], Ok(())))
      && (|lookup(res.domain, rtype, res.shortName)| > 0 ==>
            a.requests == [Get(RecordPath(res.domain, rtype, res.shortName)), Put(RecordPath(res.domain, rtype, res.shortName), [])])
  {
    var found := FindRecord(fqdn, rtype, zones, lookup);
    match found.result
    case Err(err) => Answer(found.requests, Err(err))
    case Ok(None) => Answer(found.requests, Ok(()))
    case Ok(Some(e)) =>
      var res := Resolve(fqdn, zones).value;
      Answer(found.requests + [Put(RecordPath(res.domain, rtype, res.shortName), [])], Ok(()))
  }

  /** The corrected delete empties exactly the path the lookup found the record at. */
  lemma DeleteFixedTargetsFoundRecord(fqdn: string, rtype: string, zones: seq<string>, lookup: Lookup)
    requires FindRecord(fqdn, rtype, zones, lookup).result.Ok?
    requires FindRecord(fqdn, rtype, zones, lookup).result.value.Some?
    ensures var a := DeleteRecordFixed(fqdn, rtype, zones, lookup);
      && |a.requests| == 2 && a.requests[0].Get? && a.requests[1].Put?
      && a.requests[1].path == a.requests[0].path && a.requests[1].body == []
  {
  }

  /** As written, a record found under a relative name other than '@' is never the one the
      delete addresses: the PUT names its absolute name where the lookup used the relative
      one. */
  lemma DeleteMissesFoundRecord(fqdn: string, rtype: string, zones: seq<string>, lookup: Lookup)
    requires Resolve(fqdn, zones).Ok?
    requires var res := Resolve(fqdn, zones).value;
             && res.shortName != "@"
             && |lookup(res.domain, rtype, res.shortName)| > 0
             && lookup(res.domain, rtype, res.shortName)[0].name == res.shortName
             && lookup(res.domain, rtype, res.shortName)[0].rtype == rtype
    ensures var a := DeleteRecord(fqdn, rtype, zones, lookup);
      && |a.requests| == 2 && a.requests[0].Get? && a.requests[1].Put?
      && a.requests[1].path != a.requests[0].path
  {
    var res := Resolve(fqdn, zones).value;
    var a := DeleteRecord(fqdn, rtype, zones, lookup);
    var absolute := res.shortName + "." + res.domain;
    assert a.requests[1].path == RecordPath(res.domain, rtype, absolute);
    assert a.requests[0].path == RecordPath(res.domain, rtype, res.shortName);
    assert |absolute| > |res.shortName|;
    if a.requests[1].path == a.requests[0].path {
      RecordPathInjective(res.domain, rtype, absolute, res.shortName);
    }
  }

  /** The concrete case, `www.example.com` in the zone `example.com` say: the record is
      looked up at `.../records/<type>/www` and deleted at `.../records/<type>/www.example.com`;
      the corrected delete empties `.../records/<type>/www`. */
  lemma DeleteUnderSingleZone(host: string, zone: string, rtype: string, lookup: Lookup)
    requires zone != "" && host != "@"
    requires |lookup(zone, rtype, host)| > 0
    requires lookup(zone, rtype, host)[0].name == host && lookup(zone, rtype, host)[0].rtype == rtype
    ensures DeleteRecord(host + "." + zone, rtype, [zone], lookup).requests
      == [Get(RecordPath(zone, rtype, host)), Put(RecordPath(zone, rtype, host + "." + zone), [])]
    ensures DeleteRecordFixed(host + "." + zone, rtype, [zone], lookup).requests
      == [Get(RecordPath(zone, rtype, host)), Put(RecordPath(zone, rtype, host), [])]
  {
    ResolveUnderSingleZone(host, zone);
  }

  /** A name one host under the account's only zone resolves to that zone and the host. */
  lemma ResolveUnderSingleZone(host: string, zone: string)
    requires zone != ""
    ensures Resolve(host + "." + zone, [zone]) == Ok(Resolved(zone, host))
  {
    HostUnderZone(host, zone);
    var fqdn := host + "." + zone;
    assert fqdn[..|fqdn| - |zone| - 1] == host;
  }

  lemma HostUnderZone(host: string, zone: string)
    ensures ZoneMatches(ToLower(host + "." + zone), zone)
    ensures ToLower(host + "." + zone) != ToLower(zone)
  {
    var fqdn := host + "." + zone;
    var lc := ToLower(fqdn);
    var tail := "." + ToLower(zone);
    LowerSplit(fqdn, |host|);
    assert fqdn[|host|..] == "." + zone;
    LowerDotZone(zone);
    assert lc[|host|..] == tail;
    assert |lc| > |ToLower(zone)|;
  }

  lemma LowerDotZone(zone: string)
    ensures ToLower("." + zone) == "." + ToLower(zone)
  {
    ToLowerAppend(".", zone);
    assert ToLower(".") == ".";
  }
}

=== FILE: httpservices.dfy ===
/** The HTTP service lifecycle (`src/services/http-services-service.ts`) over a record
    store and the proxy's files.

    Every operation returns the store it leaves behind together with its result, since a
    step that throws after an earlier step has been carried out leaves that step in
    place. The store keeps a trace of the steps carried out, so that their order can be
    stated. The node and domain tables, `checkOrCreateDomain`, the OAuth2 switches,
    `IP_CIDR.isValidIP`, the backend probe, `nginx -t`, the entity's identifier and
    `calculateExpiresAtFromTTL` are parameters. */
module HttpServices {
  import opened Wrappers
  import opened Records
  import opened NginxFiles
  import opened BaseServices
  import NginxHttp
  import Validators

  datatype Store = Store(services: map<nat, HttpService>, nextId: nat, proxy: Proxy, trace: seq<Step>)

  datatype Outcome<T> = Outcome(store: Store, result: Result<T>)

  /** The world the service reads but does not own. `domainOk` is whether
      `checkOrCreateDomain` succeeds for a name; `identify(nodeId, id)` is the entity's
      identifier. */
  datatype Env = Env(
    nodes: map<nat, Node>,
    domains: map<string, Domain>,
    domainOk: string -> bool,
    auth: NginxHttp.AuthSwitches,
    isIp: string -> bool,
    reachable: Probe -> bool,
    testPasses: bool,
    identify: (nat, nat) -> string)

  /** `HttpServiceType`, partial: an absent field is left as it is. `expiresAt` is
      `Some(None)` for an explicit null. */
  datatype Patch = Patch(
    name: Option<string>,
    domain: Option<string>,
    pathLocation: Option<string>,
    backendHost: Option<string>,
    backendPort: Option<int>,
    backendProto: Option<string>,
    allowedIps: Option<seq<string>>,
    blockedIps: Option<seq<string>>,
    requireAuth: Option<bool>,
    skipAuthRoutes: Option<string>,
    enabled: Option<bool>,
    expiresAt: Option<Option<int>>)

  const NoChange := Patch(None, None, None, None, None, None, None, None, None, None, None, None)

  function Apply(s: HttpService, p: Patch): (r: HttpService)
    ensures r.id == s.id && r.nodeId == s.nodeId && r.identifier == s.identifier
    ensures r.domain == p.domain.GetOr(s.domain) && r.enabled == p.enabled.GetOr(s.enabled)
    ensures r.expiresAt == p.expiresAt.GetOr(s.expiresAt)
  {
    s.(name := p.name.GetOr(s.name),
       domain := p.domain.GetOr(s.domain),
       pathLocation := p.pathLocation.GetOr(s.pathLocation),
       backendHost := p.backendHost.GetOr(s.backendHost),
       backendPort := p.backendPort.GetOr(s.backendPort),
       backendProto := p.backendProto.GetOr(s.backendProto),
       allowedIps := p.allowedIps.GetOr(s.allowedIps),
       blockedIps := p.blockedIps.GetOr(s.blockedIps),
       requireAuth := p.requireAuth.GetOr(s.requireAuth),
       skipAuthRoutes := p.skipAuthRoutes.GetOr(s.skipAuthRoutes),
       enabled := p.enabled.GetOr(s.enabled),
       expiresAt := p.expiresAt.GetOr(s.expiresAt))
  }

  /** An empty patch changes nothing. */
  lemma ApplyNoChange(s: HttpService)
    ensures Apply(s, NoChange) == s
  {
  }

  /** A new row with the table's column defaults: path '/', port 80, protocol http,
      enabled, no auth. */
  function NewRow(id: nat, nodeId: nat, identifier: string): (s: HttpService)
    ensures s.id == id && s.nodeId == nodeId && s.enabled && !s.requireAuth
    ensures s.pathLocation == "/" && s.backendPort == 80 && s.backendProto == "http"
  {
    HttpService(id, "", "", "/", "", 80, "http", [], [], false, "", true, None, nodeId, identifier)
  }

  /** The Wiredoor app itself: the local node's service on the loopback address. */
  predicate IsBuiltInApp(s: HttpService, node: Node) {
    node.isLocal && s.backendHost == "127.0.0.1"
  }

  /** The only fields an update of the built-in app may carry. */
  function BuiltInPatch(p: Patch): (q: Patch)
    ensures q.domain == p.domain && q.allowedIps == p.allowedIps
    ensures q.blockedIps == p.blockedIps && q.requireAuth == p.requireAuth
    ensures q.enabled.None? && q.expiresAt.None? && q.backendHost.None? && q.backendPort.None?
  {
    NoChange.(domain := p.domain, allowedIps := p.allowedIps, blockedIps := p.blockedIps,
              requireAuth := p.requireAuth)
  }

  /** The two unique indexes of the table: (domain, path) and (backend port, host, node).
      Domain and backend host may be null, and a null key part matches no other row. */
  predicate Clash(a: HttpService, b: HttpService) {
    || (SameNullable(a.domain, b.domain) && a.pathLocation == b.pathLocation)
    || (a.backendPort == b.backendPort && SameNullable(a.backendHost, b.backendHost) && a.nodeId == b.nodeId)
  }

  /** `repository.save(row)`: rejected when another row holds one of its unique keys. */
  function SaveRow(w: Store, s: HttpService): (r: Outcome<HttpService>)
    ensures r.result.Ok? <==> !exists k :: k in w.services && k != s.id && Clash(w.services[k], s)
    ensures r.result.Ok? ==>
      && r.result.value == s
      && r.store == w.(services := w.services[s.id := s], trace := w.trace + [Saved(s.id)])
    ensures r.result.Err? ==> r.store == w && r.result.error.Conflict?
  {
    if exists k :: k in w.services && k != s.id && Clash(w.services[k], s) then
      Outcome(w, Err(Conflict("UNIQUE constraint failed: http_services")))
    else
      Outcome(w.(services := w.services[s.id := s], trace := w.trace + [Saved(s.id)]), Ok(s))
  }

  /** Rows without a domain or a backend host clash with nothing on that index: a service
      with neither is always saved. */
  lemma NullKeysNeverClash(w: Store, s: HttpService)
    requires s.domain == "" && s.backendHost == ""
    ensures SaveRow(w, s).result.Ok?
  {
  }

  /** Two rows on one domain and path clash, whatever their backends. */
  lemma SharedLocationClashes(w: Store, s: HttpService, k: nat)
    requires k in w.services && k != s.id
    requires w.services[k].domain == s.domain != "" && w.services[k].pathLocation == s.pathLocation
    ensures SaveRow(w, s).result.Err?
  {
  }

  /** The domain record `buildNginxConf` finds for a service. */
  function DomainOf(env: Env, s: HttpService): Option<Domain> {
    if s.domain in env.domains then Some(env.domains[s.domain]) else None
  }

  /** `buildServerConfig(service, restart)`: the service's location is rendered. A row
      whose node is gone, or an auth service whose domain has no record, fails. */
  function Build(w: Store, env: Env, id: nat, restart: bool): (r: Outcome<()>)
    requires id in w.services
    ensures r.store.services == w.services && r.store.nextId == w.nextId
    ensures r.result.Ok? ==> r.store.trace == w.trace + [Rendered(id, restart)]
    ensures r.result.Err? ==> r.store == w
    ensures r.result.Ok? && !restart ==> r.store.proxy.reloads == w.proxy.reloads
  {
    var s := w.services[id];
    if s.nodeId !in env.nodes then
      Outcome(w, Err(Crash("Cannot read properties of undefined (reading 'address')")))
    else
      match NginxHttp.Create(w.proxy, s, env.nodes[s.nodeId], DomainOf(env, s), env.auth, env.isIp,
                             restart, env.testPasses)
      case Err(e) => Outcome(w, Err(e))
      case Ok((q, _)) =>
        assert q.reloads == w.proxy.reloads + (if restart && s.enabled && env.testPasses then 1 else 0)
          || q.reloads == w.proxy.reloads + (if restart && !s.enabled then 1 else 0);
        Outcome(w.(proxy := q, trace := w.trace + [Rendered(id, restart)]), Ok(()))
  }

  /** `initialize()`: every stored service, listed once each in the order the repository
      returns them, has its domain ensured and its location rendered without a reload;
      the first failure stops the run. A run that succeeds has rendered every stored
      service; no run reloads the proxy. */
  function Initialize(w: Store, env: Env, order: seq<nat>): (r: Outcome<()>)
    requires ListsOnce(order, w.services.Keys)
    ensures r.store.services == w.services
    ensures r.store.proxy.reloads == w.proxy.reloads
    ensures w.trace <= r.store.trace
    ensures r.result.Ok? ==> forall k :: k in w.services ==> Rendered(k, false) in r.store.trace[|w.trace|..]
  {
    InitializeEachRenders(w, env, order);
    InitializeNeverReloads(w, env, order);
    InitializeEach(w, env, order)
  }

  /** The loop of `initialize()` over the listed services. */
  function InitializeEach(w: Store, env: Env, order: seq<nat>): (r: Outcome<()>)
    requires forall i :: 0 <= i < |order| ==> order[i] in w.services
    ensures r.store.services == w.services
    decreases |order|
  {
    if |order| == 0 then Outcome(w, Ok(()))
    else
      var s := w.services[order[0]];
      if !env.domainOk(s.domain) then Outcome(w, Err(Failed("domain check failed")))
      else
        var ensured := w.(trace := w.trace + [EnsuredDomain(s.domain)]);
        var built := Build(ensured, env, order[0], false);
        if built.result.Err? then built
        else InitializeEach(built.store, env, order[1..])
  }

  /** The loop only appends to the trace, and once it gets through the list every listed
      service has had its location rendered. */
  lemma {:induction false} InitializeEachRenders(w: Store, env: Env, order: seq<nat>)
    requires forall i :: 0 <= i < |order| ==> order[i] in w.services
    ensures var r := InitializeEach(w, env, order);
      && w.trace <= r.store.trace
      && (r.result.Ok? ==> forall i :: 0 <= i < |order| ==> Rendered(order[i], false) in r.store.trace[|w.trace|..])
    decreases |order|
  {
    if |order| > 0 && env.domainOk(w.services[order[0]].domain) {
      var ensured := w.(trace := w.trace + [EnsuredDomain(w.services[order[0]].domain)]);
      var built := Build(ensured, env, order[0], false);
      if built.result.Ok? {
        InitializeEachRenders(built.store, env, order[1..]);
        var r := InitializeEach(built.store, env, order[1..]);
        assert InitializeEach(w, env, order) == r;
        assert built.store.trace[|w.trace| + 1] == Rendered(order[0], false);
        if r.result.Ok? {
          forall i | 0 <= i < |order| ensures Rendered(order[i], false) in r.store.trace[|w.trace|..] {
            if i == 0 {
              assert r.store.trace[|w.trace|..][1] == Rendered(order[0], false);
            } else {
              assert order[i] == order[1..][i - 1];
              StepAfter(w.trace, built.store.trace, r.store.trace, Rendered(order[i], false));
            }
          }
        }
      }
    }
  }

  /** Start-up never reloads the proxy: every render passes `restart = false`. */
  lemma {:induction false} InitializeNeverReloads(w: Store, env: Env, order: seq<nat>)
    requires forall i :: 0 <= i < |order| ==> order[i] in w.services
    ensures InitializeEach(w, env, order).store.proxy.reloads == w.proxy.reloads
    decreases |order|
  {
    if |order| > 0 && env.domainOk(w.services[order[0]].domain) {
      var ensured := w.(trace := w.trace + [EnsuredDomain(w.services[order[0]].domain)]);
      var built := Build(ensured, env, order[0], false);
      if built.result.Ok? {
        InitializeNeverReloads(built.store, env, order[1..]);
      }
    }
  }

  /** The node a row belongs to, for the shared lookup by id and node. */
  function OwnerOf(s: HttpService): nat {
    s.nodeId
  }

  /** The table's auto-increment: every stored id is below the next one it hands out. */
  predicate FreshIds(w: Store) {
    forall k :: k in w.services ==> k < w.nextId
  }

  /** `createHttpService(nodeId, params)`: the backend is probed and the domain ensured
      (both must succeed), the row saved under the next id with the node and the expiry,
      then its location rendered with a reload. */
  function Create(w: Store, env: Env, nodeId: nat, p: Patch, expiresAt: Option<int>): (r: Outcome<HttpService>)
    ensures r.store.services.Keys <= w.services.Keys + {w.nextId}
    ensures r.result.Ok? ==>
      r.result.value.id == w.nextId && w.nextId in r.store.services && r.store.services[w.nextId] == r.result.value
  {
    var node := if nodeId in env.nodes then Some(env.nodes[nodeId]) else None;
    var check := CheckNodePort(node, p.backendPort.GetOr(0), p.backendHost.GetOr(""),
                               p.backendProto == Some("https"), env.isIp, env.reachable);
    if check.Err? then Outcome(w, Err(check.error))
    else if !env.domainOk(p.domain.GetOr("")) then Outcome(w, Err(Failed("domain check failed")))
    else
      var id := w.nextId;
      var row := Apply(NewRow(id, nodeId, env.identify(nodeId, id)), p.(expiresAt := Some(expiresAt)));
      var checked := w.(nextId := w.nextId + 1,
                        trace := w.trace + [Probed(check.value), EnsuredDomain(p.domain.GetOr(""))]);
      var saved := SaveRow(checked, row);
      if saved.result.Err? then Outcome(saved.store, Err(saved.result.error))
      else
        var built := Build(saved.store, env, id, true);
        Outcome(built.store, if built.result.Ok? then Ok(row) else Err(built.result.error))
  }

  /** A failed backend check or domain check leaves the store exactly as it was. */
  lemma CreateChecksFirst(w: Store, env: Env, nodeId: nat, p: Patch, expiresAt: Option<int>)
    ensures var node := if nodeId in env.nodes then Some(env.nodes[nodeId]) else None;
      var check := CheckNodePort(node, p.backendPort.GetOr(0), p.backendHost.GetOr(""),
                                 p.backendProto == Some("https"), env.isIp, env.reachable);
      (check.Err? || !env.domainOk(p.domain.GetOr(""))) ==>
        Create(w, env, nodeId, p, expiresAt).store == w && Create(w, env, nodeId, p, expiresAt).result.Err?
  {
  }

  /** A created service belongs to the node it was created for, carries the expiry
      computed from its TTL, and was probed, saved and rendered in that order. */
  lemma CreateOrder(w: Store, env: Env, nodeId: nat, p: Patch, expiresAt: Option<int>)
    requires Create(w, env, nodeId, p, expiresAt).result.Ok?
    ensures var r := Create(w, env, nodeId, p, expiresAt);
      var s := r.result.value;
      && s.id == w.nextId && s.nodeId == nodeId && s.expiresAt == expiresAt
      && s.id in r.store.services && r.store.services[s.id] == s
      && |r.store.trace| == |w.trace| + 4
      && r.store.trace[..|w.trace|] == w.trace
      && r.store.trace[|w.trace|].Probed?
      && r.store.trace[|w.trace| + 1] == EnsuredDomain(p.domain.GetOr(""))
      && r.store.trace[|w.trace| + 2] == Saved(s.id)
      && r.store.trace[|w.trace| + 3] == Rendered(s.id, true)
  {
  }

  /** With fresh ids a create never replaces a stored row: every row stored before is
      still there, unchanged. */
  lemma CreateKeepsStoredRows(w: Store, env: Env, nodeId: nat, p: Patch, expiresAt: Option<int>)
    requires FreshIds(w)
    ensures var r := Create(w, env, nodeId, p, expiresAt);
      forall k :: k in w.services ==> k in r.store.services && r.store.services[k] == w.services[k]
  {
  }

  /** A render that fails after the save keeps the saved row. */
  lemma CreateKeepsRowOnRenderFailure(w: Store, env: Env, nodeId: nat, p: Patch, expiresAt: Option<int>)
    requires w.nextId !in w.services
    ensures var r := Create(w, env, nodeId, p, expiresAt);
      r.result.Err? && r.result.error.Crash? ==> w.nextId in r.store.services
  {
  }

  /** The validators let `requireAuth: true` through with the domain left out, and such a
      service cannot be rendered: once the backend and domain checks pass, the row is
      saved, rendering it fails for want of a domain record, and the row stays. */
  lemma AuthWithoutDomainCrashes(w: Store, env: Env, nodeId: nat, p: Patch, expiresAt: Option<int>)
    requires w.nextId !in w.services && "" !in env.domains
    requires p.domain.None? && p.backendHost.None? && p.requireAuth == Some(true) && p.enabled != Some(false)
    ensures Validators.RequireAuthAllowed(Validators.Absent, p.requireAuth)
    ensures var node := if nodeId in env.nodes then Some(env.nodes[nodeId]) else None;
      var check := CheckNodePort(node, p.backendPort.GetOr(0), "", p.backendProto == Some("https"),
                                 env.isIp, env.reachable);
      var r := Create(w, env, nodeId, p, expiresAt);
      check.Ok? && env.domainOk("") ==>
        r.result.Err? && r.result.error.Crash? && w.nextId in r.store.services
        && r.store.services[w.nextId].requireAuth && r.store.services[w.nextId].domain == ""
  {
    var node := if nodeId in env.nodes then Some(env.nodes[nodeId]) else None;
    var check := CheckNodePort(node, p.backendPort.GetOr(0), "", p.backendProto == Some("https"),
                               env.isIp, env.reachable);
    if check.Ok? && env.domainOk("") {
      var id := w.nextId;
      var row := Apply(NewRow(id, nodeId, env.identify(nodeId, id)), p.(expiresAt := Some(expiresAt)));
      var checked := w.(nextId := w.nextId + 1,
                        trace := w.trace + [Probed(check.value), EnsuredDomain("")]);
      NullKeysNeverClash(checked, row);
      var saved := SaveRow(checked, row);
      assert saved.store.services[id] == row;
      assert DomainOf(env, row).None?;
      var built := Build(saved.store, env, id, true);
      assert built.result.Err?;
    }
  }

  /** The patch an update actually applies. */
  function Effective(prev: HttpService, node: Node, p: Patch): Patch {
    if IsBuiltInApp(prev, node) then BuiltInPatch(p) else p
  }

  /** Whether an update re-probes: both a backend host and a backend port are given. */
  predicate Reprobes(p: Patch) {
    p.backendHost.Some? && p.backendHost.value != "" && p.backendPort.Some? && p.backendPort.value != 0
  }

  /** `updateHttpService(id, params)`: the built-in app only takes its domain, address
      lists and auth flag; the backend is re-probed only when a host and a port are given;
      the domain is ensured, the old location removed without a reload, the row saved and
      rendered again with a reload. A missing row (or node) fails on the null
      dereference. */
  function Update(w: Store, env: Env, id: nat, patch: Patch): (r: Outcome<HttpService>)
  {
    if id !in w.services || w.services[id].nodeId !in env.nodes then
      Outcome(w, Err(Crash("Cannot read properties of null (reading 'node')")))
    else
      var prev := w.services[id];
      var node := env.nodes[prev.nodeId];
      var p := Effective(prev, node, patch);
      var probed := Recheck(node, p, env);
      if probed.Err? then Outcome(w, Err(probed.error))
      else if !env.domainOk(p.domain.GetOr("")) then Outcome(w, Err(Failed("domain check failed")))
      else Rewrite(w, env, prev, Apply(prev, p).(id := id), probed.value + [EnsuredDomain(p.domain.GetOr(""))])
  }

  /** The backend probe of an update, run only when a host and a port are given: the
      failure, or the probe steps it leaves in the trace. */
  function Recheck(node: Node, p: Patch, env: Env): (r: Result<seq<Step>>)
    ensures !Reprobes(p) ==> r == Ok([])
    ensures Reprobes(p) ==>
      && (r.Err? <==> CheckNodePort(Some(node), p.backendPort.value, p.backendHost.value,
                                    p.backendProto == Some("https"), env.isIp, env.reachable).Err?)
      && (r.Ok? ==> |r.value| == 1 && r.value[0].Probed?)
  {
    if !Reprobes(p) then Ok([])
    else
      match CheckNodePort(Some(node), p.backendPort.value, p.backendHost.value, p.backendProto == Some("https"),
                          env.isIp, env.reachable)
      case Err(e) => Err(e)
      case Ok(probe) => Ok([Probed(probe)])
  }

  /** The second half of an update, once the checks have passed (`steps` records them):
      the old location is removed without a reload, the row saved and rendered again with
      a reload. */
  function Rewrite(w: Store, env: Env, prev: HttpService, row: HttpService, steps: seq<Step>)
    : (r: Outcome<HttpService>)
    ensures r.result.Ok? ==>
      && r.result.value == row
      && r.store.trace == w.trace + steps + [Unrendered(row.id, false), Saved(row.id), Rendered(row.id, true)]
    ensures r.result.Err? && r.result.error.Conflict? ==>
      && r.store.services == w.services
      && NginxFiles.LocationFile(prev.domain, prev.pathLocation) !in r.store.proxy.files
    ensures r.store.nextId == w.nextId && r.store.services.Keys <= w.services.Keys + {row.id}
  {
    var removed := w.(proxy := NginxHttp.Remove(w.proxy, prev, false),
                      trace := w.trace + steps + [Unrendered(row.id, false)]);
    var saved := SaveRow(removed, row);
    if saved.result.Err? then Outcome(saved.store, Err(saved.result.error))
    else
      var built := Build(saved.store, env, row.id, true);
      Outcome(built.store, if built.result.Ok? then Ok(row) else Err(built.result.error))
  }

  /** An update of the built-in app changes nothing but the domain, the address lists and
      the auth flag: in particular it stays enabled or disabled as it was. */
  lemma BuiltInUpdateKeepsRest(w: Store, env: Env, id: nat, patch: Patch)
    requires Update(w, env, id, patch).result.Ok?
    requires IsBuiltInApp(w.services[id], env.nodes[w.services[id].nodeId])
    ensures var prev := w.services[id];
      var s := Update(w, env, id, patch).result.value;
      s == prev.(id := id, domain := patch.domain.GetOr(prev.domain), allowedIps := patch.allowedIps.GetOr(prev.allowedIps),
                blockedIps := patch.blockedIps.GetOr(prev.blockedIps),
                requireAuth := patch.requireAuth.GetOr(prev.requireAuth))
  {
  }

  /** The update steps come in order: probe (only when host and port are given), domain,
      removal of the prev location without a reload, save, render with a reload. */
  lemma UpdateOrder(w: Store, env: Env, id: nat, patch: Patch)
    requires Update(w, env, id, patch).result.Ok?
    ensures var r := Update(w, env, id, patch);
      var p := Effective(w.services[id], env.nodes[w.services[id].nodeId], patch);
      var n := if Reprobes(p) then 1 else 0;
      && |r.store.trace| == |w.trace| + n + 4
      && r.store.trace[..|w.trace|] == w.trace
      && (Reprobes(p) ==> r.store.trace[|w.trace|].Probed?)
      && r.store.trace[|w.trace| + n..] ==
           [EnsuredDomain(p.domain.GetOr("")), Unrendered(id, false), Saved(id), Rendered(id, true)]
  {
    var p := Effective(w.services[id], env.nodes[w.services[id].nodeId], patch);
    var probed := UpdateTrace(w, env, id, patch);
    var tail := [EnsuredDomain(p.domain.GetOr("")), Unrendered(id, false), Saved(id), Rendered(id, true)];
    assert (w.trace + probed + tail)[..|w.trace|] == w.trace;
    assert (w.trace + probed + tail)[|w.trace| + |probed|..] == tail;
  }

  /** The trace an update leaves: the probe, if any, then the four fixed steps. */
  lemma UpdateTrace(w: Store, env: Env, id: nat, patch: Patch) returns (probed: seq<Step>)
    requires Update(w, env, id, patch).result.Ok?
    ensures var p := Effective(w.services[id], env.nodes[w.services[id].nodeId], patch);
      && |probed| == (if Reprobes(p) then 1 else 0)
      && (Reprobes(p) ==> probed[0].Probed?)
      && Update(w, env, id, patch).store.trace == w.trace + probed
           + [EnsuredDomain(p.domain.GetOr("")), Unrendered(id, false), Saved(id), Rendered(id, true)]
  {
    var prev := w.services[id];
    var p := Effective(prev, env.nodes[prev.nodeId], patch);
    probed := Recheck(env.nodes[prev.nodeId], p, env).value;
    var row := Apply(prev, p).(id := id);
    var steps := probed + [EnsuredDomain(p.domain.GetOr(""))];
    assert Update(w, env, id, patch) == Rewrite(w, env, prev, row, steps);
    RewriteTrace(w, env, prev, row, probed, EnsuredDomain(p.domain.GetOr("")));
  }

  lemma RewriteTrace(w: Store, env: Env, prev: HttpService, row: HttpService, probed: seq<Step>, ensured: Step)
    requires Rewrite(w, env, prev, row, probed + [ensured]).result.Ok?
    ensures Rewrite(w, env, prev, row, probed + [ensured]).store.trace
      == w.trace + probed + [ensured, Unrendered(row.id, false), Saved(row.id), Rendered(row.id, true)]
  {
    assert w.trace + (probed + [ensured]) + [Unrendered(row.id, false), Saved(row.id), Rendered(row.id, true)]
      == w.trace + probed + [ensured, Unrendered(row.id, false), Saved(row.id), Rendered(row.id, true)];
  }

  /** A row saved under a clashing key after its prev location was removed: the service is
      left without a location file until the next render. */
  lemma RejectedUpdateLeavesNoLocation(w: Store, env: Env, id: nat, patch: Patch)
    requires id in w.services && w.services[id].nodeId in env.nodes
    requires var r := Update(w, env, id, patch); r.result.Err? && r.result.error.Conflict?
    ensures var prev := w.services[id];
      var r := Update(w, env, id, patch);
      && NginxFiles.LocationFile(prev.domain, prev.pathLocation) !in r.store.proxy.files
      && r.store.services == w.services
  {
  }

  function EnableService(w: Store, env: Env, id: nat): Outcome<HttpService> {
    Update(w, env, id, NoChange.(enabled := Some(true)))
  }

  function DisableService(w: Store, env: Env, id: nat): Outcome<HttpService> {
    Update(w, env, id, NoChange.(enabled := Some(false), expiresAt := Some(None)))
  }

  /** `updateNodeHttpService(id, nodeId, params)`. */
  function UpdateNodeService(w: Store, env: Env, id: nat, nodeId: nat, patch: Patch): (r: Outcome<HttpService>)
    ensures GetNodeService(w.services, OwnerOf, id, nodeId).Err? ==> r == Outcome(w, Err(NotFound("Service not found")))
    ensures GetNodeService(w.services, OwnerOf, id, nodeId).Ok? ==> r == Update(w, env, id, patch)
  {
    if GetNodeService(w.services, OwnerOf, id, nodeId).Err? then Outcome(w, Err(NotFound("Service not found")))
    else Update(w, env, id, patch)
  }

  function EnableNodeService(w: Store, env: Env, id: nat, nodeId: nat, expiresAt: Option<int>): Outcome<HttpService> {
    UpdateNodeService(w, env, id, nodeId, NoChange.(enabled := Some(true), expiresAt := Some(expiresAt)))
  }

  function DisableNodeService(w: Store, env: Env, id: nat, nodeId: nat): Outcome<HttpService> {
    UpdateNodeService(w, env, id, nodeId, NoChange.(enabled := Some(false), expiresAt := Some(None)))
  }

  /** Enabling sets only the flag; disabling also clears the expiry; the built-in app
      keeps its flag either way. */
  lemma EnableDisableEffect(w: Store, env: Env, id: nat)
    ensures var r := EnableService(w, env, id);
      r.result.Ok? ==> var prev := w.services[id];
        r.result.value == (if IsBuiltInApp(prev, env.nodes[prev.nodeId]) then prev else prev.(enabled := true)).(id := id)
    ensures var r := DisableService(w, env, id);
      r.result.Ok? ==> var prev := w.services[id];
        r.result.value == (if IsBuiltInApp(prev, env.nodes[prev.nodeId]) then prev
                           else prev.(enabled := false, expiresAt := None)).(id := id)
  {
  }

  /** The node-scoped variants refuse a service of another node and change nothing. */
  lemma NodeScopedNotFound(w: Store, env: Env, id: nat, nodeId: nat, expiresAt: Option<int>)
    requires id !in w.services || w.services[id].nodeId != nodeId
    ensures EnableNodeService(w, env, id, nodeId, expiresAt) == Outcome(w, Err(NotFound("Service not found")))
    ensures DisableNodeService(w, env, id, nodeId) == Outcome(w, Err(NotFound("Service not found")))
  {
  }

  /** `deleteHttpService(id)`: the built-in app is refused; any other service has its
      location removed with a reload, then its row deleted. */
  function Delete(w: Store, env: Env, id: nat): (r: Outcome<string>)
    ensures r.result.Ok? ==>
      && id in w.services && r.store.services == w.services - {id}
      && r.store.trace == w.trace + [Unrendered(id, true), Deleted(id)]
    ensures r.result.Err? ==> r.store == w
  {
    if id !in w.services || w.services[id].nodeId !in env.nodes then
      Outcome(w, Err(Crash("Cannot read properties of null (reading 'node')")))
    else if IsBuiltInApp(w.services[id], env.nodes[w.services[id].nodeId]) then
      Outcome(w, Err(BadRequest("Wiredoor APP can't be deleted")))
    else
      var s := w.services[id];
      Outcome(w.(services := w.services - {id}, proxy := NginxHttp.Remove(w.proxy, s, true),
                 trace := w.trace + [Unrendered(id, true), Deleted(id)]),
              Ok("Deleted!"))
  }

  /** No operation hands out a stored id again: create, update and delete all keep the
      ids fresh. */
  lemma FreshIdsPersist(w: Store, env: Env, nodeId: nat, id: nat, p: Patch, expiresAt: Option<int>)
    requires FreshIds(w)
    ensures FreshIds(Create(w, env, nodeId, p, expiresAt).store)
    ensures FreshIds(Update(w, env, id, p).store)
    ensures FreshIds(Delete(w, env, id).store)
  {
  }

  /** The built-in app can never be deleted; any other stored service can, and its
      location file goes with it. */
  lemma DeleteGuard(w: Store, env: Env, id: nat)
    requires id in w.services && w.services[id].nodeId in env.nodes
    ensures var s := w.services[id];
      var r := Delete(w, env, id);
      && (IsBuiltInApp(s, env.nodes[s.nodeId]) <==> r.result.Err?)
      && (r.result.Err? ==> r.result.error.BadRequest?)
      && (r.result.Ok? ==> NginxFiles.LocationFile(s.domain, s.pathLocation) !in r.store.proxy.files)
  {
  }

  /** The services of a domain that require auth. */
  predicate NeedsAuthOff(s: HttpService, domain: string) {
    s.domain == domain && s.requireAuth
  }

  function WithoutAuth(services: map<nat, HttpService>, domain: string): (r: map<nat, HttpService>)
    ensures r.Keys == services.Keys
    ensures forall k :: k in services ==>
      r[k] == if NeedsAuthOff(services[k], domain) then services[k].(requireAuth := false) else services[k]
  {
    map k | k in services :: if NeedsAuthOff(services[k], domain) then services[k].(requireAuth := false) else services[k]
  }

  /** Renders the given services in order without a reload, stopping at the first failure. */
  function BuildAll(w: Store, env: Env, order: seq<nat>): (r: Outcome<()>)
    requires forall i :: 0 <= i < |order| ==> order[i] in w.services
    ensures r.store.services == w.services
    decreases |order|
  {
    if |order| == 0 then Outcome(w, Ok(()))
    else
      var built := Build(w, env, order[0], false);
      if built.result.Err? then built else BuildAll(built.store, env, order[1..])
  }

  /** Rendering in turn only appends to the trace, and once it gets through the list every
      listed service has been rendered. */
  lemma {:induction false} BuildAllRenders(w: Store, env: Env, order: seq<nat>)
    requires forall i :: 0 <= i < |order| ==> order[i] in w.services
    ensures var r := BuildAll(w, env, order);
      && w.trace <= r.store.trace
      && (r.result.Ok? ==> forall i :: 0 <= i < |order| ==> Rendered(order[i], false) in r.store.trace[|w.trace|..])
    decreases |order|
  {
    if |order| > 0 {
      var built := Build(w, env, order[0], false);
      if built.result.Ok? {
        BuildAllRenders(built.store, env, order[1..]);
        var r := BuildAll(built.store, env, order[1..]);
        assert BuildAll(w, env, order) == r;
        if r.result.Ok? {
          forall i | 0 <= i < |order| ensures Rendered(order[i], false) in r.store.trace[|w.trace|..] {
            if i == 0 {
              assert r.store.trace[|w.trace|..][0] == Rendered(order[0], false);
            } else {
              assert order[i] == order[1..][i - 1];
              StepAfter(w.trace, built.store.trace, r.store.trace, Rendered(order[i], false));
            }
          }
        }
      }
    }
  }

  /** The ids of the services of a domain that require auth. */
  function AuthIds(services: map<nat, HttpService>, domain: string): (ids: set<nat>)
    ensures forall k :: k in ids <==> k in services && NeedsAuthOff(services[k], domain)
  {
    set k | k in services && NeedsAuthOff(services[k], domain)
  }

  /** `removeAuthFromServices(domain)`: the services of the domain that require auth, listed
      once each in the order the repository returns them, lose the flag and are rendered
      again without a reload. A run that succeeds has rendered each of them. */
  function RemoveAuthFromServices(w: Store, env: Env, domain: string, order: seq<nat>): (r: Outcome<()>)
    requires ListsOnce(order, AuthIds(w.services, domain))
    ensures r.store.services == WithoutAuth(w.services, domain)
    ensures w.trace <= r.store.trace
    ensures r.result.Ok? ==>
      forall k :: k in w.services && NeedsAuthOff(w.services[k], domain) ==>
        Rendered(k, false) in r.store.trace[|w.trace|..]
  {
    var updated := w.(services := WithoutAuth(w.services, domain));
    BuildAllRenders(updated, env, order);
    BuildAll(updated, env, order)
  }

  /** Exactly the services of that domain that had the flag lose it; every other row is as
      it was. */
  lemma RemoveAuthExactly(w: Store, env: Env, domain: string, order: seq<nat>, k: nat)
    requires ListsOnce(order, AuthIds(w.services, domain))
    requires k in w.services
    ensures var after := RemoveAuthFromServices(w, env, domain, order).store.services;
      && k in after
      && !(after[k].domain == domain && after[k].requireAuth)
      && (NeedsAuthOff(w.services[k], domain) ==> after[k] == w.services[k].(requireAuth := false))
      && (!NeedsAuthOff(w.services[k], domain) ==> after[k] == w.services[k])
  {
  }

  /** The backend check of a service probes the host its location proxies to, and sets a
      resolver exactly when the location does. */
  lemma ProbeMatchesLocation(s: HttpService, node: Node, isIp: string -> bool)
    ensures var q := ProbeFor(node, s.backendPort, s.backendHost, s.backendProto == "https", isIp);
      && q.server == NginxHttp.ProxyHost(s, node)
      && (q.resolver.Some? <==> NginxHttp.NeedsResolver(s, node, isIp))
  {
  }
}

=== FILE: ipcidr.dfy ===
/** Overlay-network address arithmetic (`api/src/utils/ip-cidr.ts`).

    Addresses are handled as JavaScript numbers: `ipToLong` shifts with the signed 32-bit
    `<<`, so an address whose first octet is 128 or more becomes negative; `longToIp`
    reads its argument back with the unsigned `>>>`. `isValidIP` (a Joi check) is not
    used by the operations below and is left to the callers as an oracle. */
module IpCidr {
  import opened Wrappers
  import opened Strings
  import opened JsNumber

  /** One step of `reduce((acc, octet) => (acc << 8) + parseInt(octet), 0)`, given the
      parsed octet. */
  function ShiftIn(acc: JsNum, octet: JsNum): JsNum {
    var shifted := ToInt32(ToInt32Of(acc) * 256);
    match octet
    case NaN => NaN
    case Num(v) => Num(shifted + v)
  }

  function FoldOctets(acc: JsNum, octets: seq<JsNum>): JsNum
    decreases |octets|
  {
    if |octets| == 0 then acc else FoldOctets(ShiftIn(acc, octets[0]), octets[1..])
  }

  function ParseAll(pieces: seq<string>): (r: seq<JsNum>)
    ensures |r| == |pieces|
  {
    if |pieces| == 0 then [] else [ParseInt(pieces[0])] + ParseAll(pieces[1..])
  }

  /** `ipToLong`: the dot-separated pieces folded into one number. */
  function IpToLong(ip: string): JsNum {
    FoldOctets(Num(0), ParseAll(Split(ip, '.')))
  }

  predicate IsOctet(n: int) {
    0 <= n < 256
  }

  /** The canonical dotted quad `a.b.c.d`. */
  function Quad(a: nat, b: nat, c: nat, d: nat): string
    requires IsOctet(a) && IsOctet(b) && IsOctet(c) && IsOctet(d)
  {
    Join([NatToString(a), NatToString(b), NatToString(c), NatToString(d)], ".")
  }

  /** The 32-bit value a quad denotes. */
  function QuadValue(a: nat, b: nat, c: nat, d: nat): int {
    a * 0x100_0000 + b * 0x1_0000 + c * 0x100 + d
  }

  /** `longToIp`: the four bytes of `long >>> 0`, most significant first. */
  function LongToIp(long: int): string {
    var u := ToUint32(long);
    BytesOfUint32(u);
    Quad(u / 0x100_0000, u / 0x1_0000 % 256, u / 0x100 % 256, u % 256)
  }

  lemma BytesOfUint32(u: int)
    requires 0 <= u < TwoTo32
    ensures IsOctet(u / 0x100_0000)
    ensures u == QuadValue(u / 0x100_0000, u / 0x1_0000 % 256, u / 0x100 % 256, u % 256)
  {
    var q1 := u / 0x100;
    var q2 := u / 0x1_0000;
    var q3 := u / 0x100_0000;
    assert q2 == q1 / 256;
    assert q3 == q2 / 256;
  }

  lemma ValueOfBytes(a: nat, b: nat, c: nat, d: nat)
    requires IsOctet(a) && IsOctet(b) && IsOctet(c) && IsOctet(d)
    ensures var u := QuadValue(a, b, c, d);
      0 <= u < TwoTo32 && u / 0x100_0000 == a && u / 0x1_0000 % 256 == b
      && u / 0x100 % 256 == c && u % 256 == d
  {
    var u := QuadValue(a, b, c, d);
    assert u == (a * 0x1_0000 + b * 0x100 + c) * 256 + d;
    assert u / 0x100 == a * 0x1_0000 + b * 0x100 + c;
    assert u / 0x1_0000 == a * 0x100 + b;
    assert u / 0x100_0000 == a;
  }

  /** Adding a low byte to a multiple of 256 commutes with the signed reading. */
  lemma ToInt32AddLowByte(k: int, d: int)
    requires 0 <= k < 0x100_0000 && 0 <= d < 256
    ensures ToInt32(k * 256) + d == ToInt32(k * 256 + d)
  {
    assert ToUint32(k * 256) == k * 256;
    assert ToUint32(k * 256 + d) == k * 256 + d;
    if k < 0x80_0000 {
      assert k * 256 + d < TwoTo31;
    } else {
      assert k * 256 >= TwoTo31;
    }
  }

  lemma SplitQuad(a: nat, b: nat, c: nat, d: nat)
    requires IsOctet(a) && IsOctet(b) && IsOctet(c) && IsOctet(d)
    ensures Split(Quad(a, b, c, d), '.') == Decimals([a, b, c, d])
  {
    var parts := [NatToString(a), NatToString(b), NatToString(c), NatToString(d)];
    forall i | 0 <= i < |parts|
      ensures '.' !in parts[i]
    {
      NoCharInNatToString([a, b, c, d][i], '.');
    }
    SplitJoin(parts, '.');
    assert parts == Decimals([a, b, c, d]);
  }

  lemma FoldFour(v0: JsNum, v1: JsNum, v2: JsNum, v3: JsNum)
    ensures FoldOctets(Num(0), [v0, v1, v2, v3])
         == ShiftIn(ShiftIn(ShiftIn(ShiftIn(Num(0), v0), v1), v2), v3)
  {
    var s := [v0, v1, v2, v3];
    var a1 := ShiftIn(Num(0), v0);
    var a2 := ShiftIn(a1, v1);
    var a3 := ShiftIn(a2, v2);
    assert s[1..] == [v1, v2, v3];
    assert FoldOctets(Num(0), s) == FoldOctets(a1, [v1, v2, v3]);
    assert [v1, v2, v3][1..] == [v2, v3];
    assert FoldOctets(a1, [v1, v2, v3]) == FoldOctets(a2, [v2, v3]);
    assert [v2, v3][1..] == [v3];
    assert FoldOctets(a2, [v2, v3]) == FoldOctets(a3, [v3]);
    assert [v3][1..] == [];
    assert FoldOctets(a3, [v3]) == FoldOctets(ShiftIn(a3, v3), []);
  }

  function Decimals(ns: seq<nat>): (r: seq<string>)
    ensures |r| == |ns| && forall i :: 0 <= i < |ns| ==> r[i] == NatToString(ns[i])
  {
    if |ns| == 0 then [] else [NatToString(ns[0])] + Decimals(ns[1..])
  }

  function Nums(ns: seq<nat>): (r: seq<JsNum>)
    ensures |r| == |ns| && forall i :: 0 <= i < |ns| ==> r[i] == Num(ns[i])
  {
    if |ns| == 0 then [] else [Num(ns[0])] + Nums(ns[1..])
  }

  /** Every printed number parses back. */
  lemma {:induction false} ParseAllDecimals(ns: seq<nat>)
    ensures ParseAll(Decimals(ns)) == Nums(ns)
  {
    if |ns| > 0 {
      ParseAllDecimals(ns[1..]);
      ParseIntOfNatToString(ns[0]);
      assert Decimals(ns)[1..] == Decimals(ns[1..]);
    }
  }

  lemma IpToLongOfQuadSteps(a: nat, b: nat, c: nat, d: nat)
    requires IsOctet(a) && IsOctet(b) && IsOctet(c) && IsOctet(d)
    ensures IpToLong(Quad(a, b, c, d))
         == ShiftIn(ShiftIn(ShiftIn(ShiftIn(Num(0), Num(a)), Num(b)), Num(c)), Num(d))
  {
    SplitQuad(a, b, c, d);
    ParseAllDecimals([a, b, c, d]);
    assert Nums([a, b, c, d]) == [Num(a), Num(b), Num(c), Num(d)];
    FoldFour(Num(a), Num(b), Num(c), Num(d));
  }

  /** Shifting a small non-negative accumulator in does not wrap. */
  lemma ShiftInSmall(acc: int, v: int)
    requires 0 <= acc < 0x80_0000
    ensures ShiftIn(Num(acc), Num(v)) == Num(acc * 256 + v)
  {
    ToInt32Small(acc);
    ToInt32Small(acc * 256);
  }

  lemma ShiftThree(a: nat, b: nat, c: nat)
    requires IsOctet(a) && IsOctet(b) && IsOctet(c)
    ensures ShiftIn(ShiftIn(ShiftIn(Num(0), Num(a)), Num(b)), Num(c)) == Num((a * 256 + b) * 256 + c)
  {
    ShiftInSmall(0, a);
    ShiftInSmall(a, b);
    ShiftInSmall(a * 256 + b, c);
  }

  /** The last shift may cross into the sign bit. */
  lemma ShiftInLast(y: int, d: int)
    requires 0 <= y < 0x100_0000 && 0 <= d < 256
    ensures ShiftIn(Num(y), Num(d)) == Num(ToInt32(y * 256 + d))
  {
    ToInt32Small(y);
    ToInt32AddLowByte(y, d);
  }

  lemma ShiftChain(a: nat, b: nat, c: nat, d: nat)
    requires IsOctet(a) && IsOctet(b) && IsOctet(c) && IsOctet(d)
    ensures ShiftIn(ShiftIn(ShiftIn(ShiftIn(Num(0), Num(a)), Num(b)), Num(c)), Num(d))
         == Num(ToInt32(QuadValue(a, b, c, d)))
  {
    ShiftThree(a, b, c);
    var y := (a * 256 + b) * 256 + c;
    ShiftInLast(y, d);
    assert QuadValue(a, b, c, d) == y * 256 + d;
  }

  /** `ipToLong` of a canonical quad is its value read as a signed 32-bit integer. */
  lemma IpToLongOfQuad(a: nat, b: nat, c: nat, d: nat)
    requires IsOctet(a) && IsOctet(b) && IsOctet(c) && IsOctet(d)
    ensures IpToLong(Quad(a, b, c, d)) == Num(ToInt32(QuadValue(a, b, c, d)))
  {
    IpToLongOfQuadSteps(a, b, c, d);
    ShiftChain(a, b, c, d);
  }

  /** For every canonical quad, `longToIp(ipToLong(ip))` gives the same quad back, even
      when `ipToLong` is negative. */
  lemma QuadRoundTrip(a: nat, b: nat, c: nat, d: nat)
    requires IsOctet(a) && IsOctet(b) && IsOctet(c) && IsOctet(d)
    ensures IpToLong(Quad(a, b, c, d)).Num?
    ensures LongToIp(IpToLong(Quad(a, b, c, d)).n) == Quad(a, b, c, d)
  {
    IpToLongOfQuad(a, b, c, d);
    var v := QuadValue(a, b, c, d);
    ValueOfBytes(a, b, c, d);
    ToUint32OfToInt32(v);
    ToUint32Small(v);
  }

  /** Every number prints as a quad that `ipToLong` reads back as the same 32 bits. */
  lemma LongToIpRoundTrip(long: int)
    ensures IpToLong(LongToIp(long)) == Num(ToInt32(long))
  {
    var u := ToUint32(long);
    BytesOfUint32(u);
    IpToLongOfQuad(u / 0x100_0000, u / 0x1_0000 % 256, u / 0x100 % 256, u % 256);
    ToInt32OfToUint32(long);
  }

  /** Two numbers print as the same quad exactly when they agree modulo 2^32. */
  lemma LongToIpInjective(x: int, y: int)
    requires LongToIp(x) == LongToIp(y)
    ensures ToUint32(x) == ToUint32(y)
  {
    LongToIpRoundTrip(x);
    LongToIpRoundTrip(y);
    ToUint32OfToInt32(x);
    ToUint32OfToInt32(y);
  }

  lemma LongToIpDistinct(x: int, y: int)
    requires ToUint32(x) != ToUint32(y)
    ensures LongToIp(x) != LongToIp(y)
  {
    if LongToIp(x) == LongToIp(y) {
      LongToIpInjective(x, y);
    }
  }

  function Pow2(k: nat): (p: int)
    ensures p >= 1
  {
    if k == 0 then 1 else 2 * Pow2(k - 1)
  }

  lemma {:induction false} Pow2Monotone(j: nat, k: nat)
    requires j <= k
    ensures Pow2(j) <= Pow2(k)
    decreases k
  {
    if j < k {
      Pow2Monotone(j, k - 1);
    }
  }

  lemma {:induction false} Pow2Add(j: nat, k: nat)
    ensures Pow2(j + k) == Pow2(j) * Pow2(k)
    decreases k
  {
    if k > 0 {
      Pow2Add(j, k - 1);
      assert Pow2(j + k) == 2 * Pow2(j + k - 1);
    }
  }

  lemma Pow2Of16()
    ensures Pow2(16) == 0x1_0000
  {
    assert Pow2(4) == 16;
    Pow2Add(4, 4);
    Pow2Add(8, 8);
  }

  lemma Pow2Of31And32()
    ensures Pow2(31) == TwoTo31 && Pow2(32) == TwoTo32
  {
    Pow2Of16();
    Pow2Add(16, 16);
    assert Pow2(32) == 2 * Pow2(31);
  }

  /** The low `h` bits of `u`, and the bits above them. */
  function LowBits(u: nat, h: nat): (r: nat)
    ensures r <= u && r < Pow2(h)
  {
    if h == 0 then 0 else u % 2 + 2 * LowBits(u / 2, h - 1)
  }

  function HighBits(u: nat, h: nat): nat {
    if h == 0 then u else HighBits(u / 2, h - 1)
  }

  /** Subtracting the low bits clears them and keeps the high ones. */
  lemma {:induction false} ClearLowBits(u: nat, h: nat)
    ensures LowBits(u - LowBits(u, h), h) == 0
    ensures HighBits(u - LowBits(u, h), h) == HighBits(u, h)
  {
    if h > 0 {
      var v := u - LowBits(u, h);
      ClearLowBits(u / 2, h - 1);
      assert v % 2 == 0;
      assert v / 2 == u / 2 - LowBits(u / 2, h - 1);
    }
  }

  lemma {:induction false} LowBitsOfSmall(u: nat, h: nat)
    requires u < Pow2(h)
    ensures LowBits(u, h) == u
  {
    if h > 0 {
      LowBitsOfSmall(u / 2, h - 1);
    }
  }

  /** `address & mask` for a mask of `32 - h` one bits followed by `h` zero bits. */
  function NetworkOf(address: int, h: nat): (network: int)
    ensures -TwoTo31 <= network < TwoTo31
    ensures LowBits(ToUint32(network), h) == 0
    ensures HighBits(ToUint32(network), h) == HighBits(ToUint32(address), h)
  {
    var u := ToUint32(address);
    var cleared := u - LowBits(u, h);
    ClearLowBits(u, h);
    ToUint32OfToInt32(cleared);
    ToUint32Small(cleared);
    ToInt32(cleared)
  }

  /** `~mask`, read as a signed 32-bit value: `2^h - 1`, or -1 when the mask is 0. */
  function HostMask(h: nat): (m: int)
    requires h <= 32
    ensures h <= 31 ==> m == Pow2(h) - 1
    ensures h == 32 ==> m == -1
    ensures -1 <= m < TwoTo31
  {
    Pow2Of31And32();
    if h <= 31 then
      Pow2Monotone(h, 31);
      ToInt32Small(Pow2(h) - 1);
      ToInt32(Pow2(h) - 1)
    else
      ToInt32(Pow2(h) - 1)
  }

  /** The number of host bits the expression `~(2 ** (32 - parseInt(subnet)) - 1)` leaves
      in the mask, following IEEE-754 double arithmetic and `ToInt32`:
      - a prefix 0..32 leaves 32 - prefix bits, so /0 gives mask 0;
      - a NaN prefix (missing or non-numeric) gives `2 ** NaN`, mask -1, no host bits;
      - a prefix 33..85 gives a value in (-1, 0) that truncates to 0: mask -1;
      - a prefix of 86 or more rounds `2 ** k - 1` to -1: mask 0;
      - a prefix -21..-1 gives an exact `2 ** k - 1` with all low 32 bits set: mask 0;
      - a prefix of -22 or less rounds `2 ** k - 1` up to `2 ** k` (or Infinity), whose
        low 32 bits are clear: mask -1. */
  function HostBits(prefix: JsNum): (h: nat)
    ensures h <= 32
    ensures prefix.Num? && 0 <= prefix.n <= 32 ==> h == 32 - prefix.n
  {
    match prefix
    case NaN => 0
    case Num(p) =>
      if 0 <= p <= 32 then 32 - p
      else if 33 <= p <= 85 then 0
      else if p >= 86 then 32
      else if p >= -21 then 32
      else 0
  }

  /** A CIDR string split at '/': the address as `ipToLong` reads it, and the prefix
      as `parseInt` reads it (`parseInt(undefined)` is NaN). */
  datatype Cidr = Cidr(address: JsNum, prefix: JsNum)

  function ParseCidr(cidr: string): Cidr {
    var parts := Split(cidr, '/');
    Cidr(IpToLong(parts[0]), if |parts| >= 2 then ParseInt(parts[1]) else NaN)
  }

  /** The address is what `ipToLong` reads before the first '/', the prefix what
      `parseInt` reads of the piece after it; without a '/' the prefix is NaN. */
  lemma ParseCidrParts(address: string, rest: string)
    requires '/' !in address
    ensures ParseCidr(address + "/" + rest) == Cidr(IpToLong(address), ParseInt(Split(rest, '/')[0]))
    ensures ParseCidr(address) == Cidr(IpToLong(address), NaN)
  {
    SplitPrefix(address, '/', rest);
    SplitNoSep(address, '/');
  }

  datatype Range = Range(network: int, broadcast: int)

  /** `cidrToRange` on a parsed CIDR: `ipLong & mask` clears the host bits of the signed
      address, and `network + ~mask` adds the host mask as a signed 32-bit value, without
      wrapping. */
  function RangeOf(c: Cidr): (r: Range)
    ensures -TwoTo31 <= r.network < TwoTo31
    ensures r.network - 1 <= r.broadcast < r.network + TwoTo31
    ensures var h := HostBits(c.prefix);
      LowBits(ToUint32(r.network), h) == 0
      && HighBits(ToUint32(r.network), h) == HighBits(ToUint32(ToInt32Of(c.address)), h)
  {
    var h := HostBits(c.prefix);
    var network := NetworkOf(ToInt32Of(c.address), h);
    Range(network, network + HostMask(h))
  }

  /** `cidrToRange(cidr)`: a signed 32-bit network and a broadcast from one below it to
      less than 2^31 above it. */
  function CidrToRange(cidr: string): (r: Range)
    ensures -TwoTo31 <= r.network < TwoTo31
    ensures r.network - 1 <= r.broadcast < r.network + TwoTo31
  {
    RangeOf(ParseCidr(cidr))
  }

  /** For a prefix of 1..32 the range is `2^(32-prefix)` addresses, network first. */
  lemma RangeOfPrefix(c: Cidr, prefix: int)
    requires c.prefix == Num(prefix) && 1 <= prefix <= 32
    ensures var r := RangeOf(c);
      r.network <= r.broadcast && r.broadcast - r.network == Pow2(32 - prefix) - 1
  {
    assert HostBits(c.prefix) == 32 - prefix;
  }

  lemma ZeroUint32(n: int)
    requires -TwoTo31 <= n < TwoTo31 && ToUint32(n) == 0
    ensures n == 0
  {
  }

  /** The only signed 32-bit value with all 32 bits clear is 0. */
  lemma AllBitsClear(n: int, h: nat)
    requires h == 32
    requires -TwoTo31 <= n < TwoTo31 && LowBits(ToUint32(n), h) == 0
    ensures n == 0
  {
    Pow2Of31And32();
    LowBitsOfSmall(ToUint32(n), h);
    ZeroUint32(n);
  }

  /** /0 collapses the mask to 0: the range is network 0 and broadcast -1. */
  lemma RangeOfPrefixZero(c: Cidr)
    requires c.prefix == Num(0)
    ensures RangeOf(c) == Range(0, -1)
  {
    assert HostBits(c.prefix) == 32;
    AllBitsClear(RangeOf(c).network, HostBits(c.prefix));
  }

  /** `getInterfaceIp`: the hub's own address, one past the network address. */
  function InterfaceIp(cidr: string): string {
    HubIp(ParseCidr(cidr))
  }

  function HubIp(c: Cidr): string {
    LongToIp(RangeOf(c).network + 1)
  }

  predicate Busy(busy: seq<JsNum>, i: int) {
    Num(i) in busy
  }

  /** Every value in `lo .. hi-1` is busy. */
  predicate AllBusy(busy: seq<JsNum>, lo: int, hi: int) {
    forall j :: lo <= j < hi ==> Busy(busy, j)
  }

  /** The first `i` in `lo .. hi-1` that is not busy: the loop of `getAvailableIP`. */
  function FirstFree(lo: int, hi: int, busy: seq<JsNum>): (r: Option<int>)
    decreases hi - lo
    ensures r.Some? ==> lo <= r.value < hi && !Busy(busy, r.value)
    ensures r.Some? ==> forall j :: lo <= j < r.value ==> Busy(busy, j)
    ensures r.None? <==> forall j :: lo <= j < hi ==> Busy(busy, j)
  {
    if lo >= hi then None
    else if !Busy(busy, lo) then Some(lo)
    else FirstFree(lo + 1, hi, busy)
  }

  /** Busy entries outside `lo .. hi-1` (including unparsable ones) never change the
      first free value. */
  lemma {:induction false} FirstFreeIgnoresOutside(lo: int, hi: int, busy: seq<JsNum>, extra: seq<JsNum>)
    requires forall x :: Num(x) in extra ==> x < lo || hi <= x
    ensures FirstFree(lo, hi, busy + extra) == FirstFree(lo, hi, busy)
    decreases hi - lo
  {
    if lo < hi {
      assert Busy(busy + extra, lo) == Busy(busy, lo);
      FirstFreeIgnoresOutside(lo + 1, hi, busy, extra);
    }
  }

  /** The value `getAvailableIP` picks for a parsed CIDR and parsed busy list. */
  function AvailableLong(c: Cidr, busy: seq<JsNum>): (r: Option<int>)
    ensures var range := RangeOf(c);
      r.Some? ==> range.network + 1 < r.value < range.broadcast
                  && !Busy(busy, r.value)
                  && forall j :: range.network + 2 <= j < r.value ==> Busy(busy, j)
    ensures var range := RangeOf(c);
      r.None? <==> forall j :: range.network + 2 <= j < range.broadcast ==> Busy(busy, j)
  {
    var range := RangeOf(c);
    FirstFree(range.network + 2, range.broadcast, busy)
  }

  /** /31, /32 and /0 subnets never have a free address. */
  lemma NoAvailableLongInTinySubnets(c: Cidr, busy: seq<JsNum>)
    requires c.prefix == Num(0) || c.prefix == Num(31) || c.prefix == Num(32)
    ensures AvailableLong(c, busy) == None
  {
    if c.prefix == Num(0) {
      RangeOfPrefixZero(c);
    } else {
      RangeOfPrefix(c, c.prefix.n);
    }
  }

  /** `bussyIPList.map(this.ipToLong)`. */
  function BusyLongs(busyIps: seq<string>): (r: seq<JsNum>)
    ensures |r| == |busyIps|
  {
    if |busyIps| == 0 then [] else [IpToLong(busyIps[0])] + BusyLongs(busyIps[1..])
  }

  /** `getAvailableIP`: the lowest free host address after the hub, or null. */
  function AvailableIp(cidr: string, busyIps: seq<string>): (r: Option<string>)
    ensures var range := CidrToRange(cidr);
      r.None? <==> AllBusy(BusyLongs(busyIps), range.network + 2, range.broadcast)
  {
    FreeIp(ParseCidr(cidr), BusyLongs(busyIps))
  }

  /** The address of the first free value after the hub's, or null when every host
      value after the hub's is busy. */
  function FreeIp(c: Cidr, busy: seq<JsNum>): (r: Option<string>)
    ensures r.None? <==> AllBusy(busy, RangeOf(c).network + 2, RangeOf(c).broadcast)
    ensures r.Some? ==> exists i :: RangeOf(c).network + 1 < i < RangeOf(c).broadcast && !Busy(busy, i) && r.value == LongToIp(i)
  {
    match AvailableLong(c, busy)
    case None => None
    case Some(i) => Some(LongToIp(i))
  }

  lemma ToUint32Distinct(x: int, y: int)
    requires 0 < y - x < TwoTo32
    ensures ToUint32(x) != ToUint32(y)
  {
  }

  /** The allocated value and the hub's value differ in their low 32 bits. */
  lemma AvailableLongIsNotInterface(c: Cidr, busy: seq<JsNum>)
    requires AvailableLong(c, busy).Some?
    ensures ToUint32(AvailableLong(c, busy).value) != ToUint32(RangeOf(c).network + 1)
  {
    ToUint32Distinct(RangeOf(c).network + 1, AvailableLong(c, busy).value);
  }

  lemma FreeIpIsNotHubIp(c: Cidr, busy: seq<JsNum>)
    requires FreeIp(c, busy).Some?
    ensures FreeIp(c, busy).value != HubIp(c)
  {
    AvailableLongIsNotInterface(c, busy);
    LongToIpDistinct(AvailableLong(c, busy).value, RangeOf(c).network + 1);
  }

  /** The allocator never hands out the hub's own address. */
  lemma AvailableIpIsNotInterfaceIp(cidr: string, busyIps: seq<string>)
    requires AvailableIp(cidr, busyIps).Some?
    ensures AvailableIp(cidr, busyIps).value != InterfaceIp(cidr)
  {
    FreeIpIsNotHubIp(ParseCidr(cidr), BusyLongs(busyIps));
  }

  /** A /31, /32 or /0 subnet yields null whatever is busy. */
  lemma NoAvailableIpInTinySubnets(cidr: string, busyIps: seq<string>)
    requires var p := ParseCidr(cidr).prefix; p == Num(0) || p == Num(31) || p == Num(32)
    ensures AvailableIp(cidr, busyIps) == None
  {
    NoAvailableLongInTinySubnets(ParseCidr(cidr), BusyLongs(busyIps));
  }
}

=== FILE: jsnumber.dfy ===
/** The parts of JavaScript number semantics the modelled code depends on:
    `parseInt` without a radix, and the `ToInt32` / `ToUint32` conversions that every
    bitwise operator (`<<`, `>>>`, `&`, `~`) applies to its operands. Only integral
    numbers and NaN are represented. */
module JsNumber {
  import opened Strings
  import opened Wrappers

  datatype JsNum = Num(n: int) | NaN

  const TwoTo31: int := 0x8000_0000
  const TwoTo32: int := 0x1_0000_0000

  /** `x >>> 0`: the value modulo 2^32. */
  function ToUint32(n: int): (r: int)
    ensures 0 <= r < TwoTo32
  {
    n % 0x1_0000_0000
  }

  /** `x | 0`: the value modulo 2^32, read as a signed 32-bit integer. */
  function ToInt32(n: int): (r: int)
    ensures -TwoTo31 <= r < TwoTo31
  {
    var u := ToUint32(n);
    if u >= 0x8000_0000 then u - 0x1_0000_0000 else u
  }

  /** The signed and unsigned readings denote the same 32 bits. */
  lemma ToUint32OfToInt32(n: int)
    ensures ToUint32(ToInt32(n)) == ToUint32(n)
  {
  }

  lemma ToInt32OfToUint32(n: int)
    ensures ToInt32(ToUint32(n)) == ToInt32(n)
  {
  }

  /** Both readings are the identity on their own ranges. */
  lemma ToInt32Small(x: int)
    requires -TwoTo31 <= x < TwoTo31
    ensures ToInt32(x) == x
  {
  }

  lemma ToUint32Small(x: int)
    requires 0 <= x < TwoTo32
    ensures ToUint32(x) == x
  {
  }

  /** `ToInt32` on a possibly-NaN number: NaN converts to 0. */
  function ToInt32Of(x: JsNum): int {
    match x
    case NaN => 0
    case Num(n) => ToInt32(n)
  }

  /** The value of `c` as a digit in base 10 or 16, if it is one. */
  function DigitValue(c: char, hex: bool): Option<nat> {
    if '0' <= c <= '9' then Some(c as int - '0' as int)
    else if hex && 'a' <= c <= 'f' then Some(c as int - 'a' as int + 10)
    else if hex && 'A' <= c <= 'F' then Some(c as int - 'A' as int + 10)
    else None
  }

  /** Reads the longest run of digits at the front of `s`, left to right, on top of
      what has been read so far (`None` while no digit has been seen). */
  function ReadDigits(s: string, hex: bool, acc: Option<nat>): Option<nat>
    decreases |s|
  {
    if |s| > 0 && DigitValue(s[0], hex).Some? then
      var base := if hex then 16 else 10;
      ReadDigits(s[1..], hex, Some(acc.GetOr(0) * base + DigitValue(s[0], hex).value))
    else acc
  }

  /** The digits `parseInt` reads after the sign: a `0x` prefix selects base 16,
      otherwise decimal digits are read; no digits at all is NaN. */
  function ParseMagnitude(u: string): Option<nat> {
    if |u| >= 2 && u[0] == '0' && (u[1] == 'x' || u[1] == 'X') then ReadDigits(u[2..], true, None)
    else ReadDigits(u, false, None)
  }

  /** `parseInt(s)` without a radix: leading white space is skipped, then one optional
      sign, then the magnitude. The value is exact; a double would round above 2^53. */
  function ParseInt(s: string): JsNum {
    var t := TrimStart(s);
    var signed := |t| > 0 && (t[0] == '-' || t[0] == '+');
    match ParseMagnitude(if signed then t[1..] else t)
    case None => NaN
    case Some(m) => Num(if signed && t[0] == '-' then -(m as int) else m)
  }

  /** Appending one more decimal digit to a run of digits. */
  lemma {:induction false} ReadDigitsAppend(s: string, c: char, acc: Option<nat>)
    requires IsDigits(s) && IsDigit(c)
    ensures ReadDigits(s + [c], false, acc)
         == Some(ReadDigits(s, false, acc).GetOr(0) * 10 + (c as int - '0' as int))
    decreases |s|
  {
    if |s| == 0 {
      assert (s + [c])[1..] == [];
    } else {
      assert (s + [c])[1..] == s[1..] + [c];
      ReadDigitsAppend(s[1..], c, Some(acc.GetOr(0) * 10 + (s[0] as int - '0' as int)));
    }
  }

  lemma {:induction false} ReadNatToString(n: nat)
    ensures ReadDigits(NatToString(n), false, None) == Some(n)
  {
    if n >= 10 {
      ReadNatToString(n / 10);
      ReadDigitsAppend(NatToString(n / 10), DigitChar(n % 10), None);
    }
  }

  /** A string that starts with two decimal digits (or is one digit) is read as decimal
      from its first character. */
  lemma ParseIntOfDecimal(s: string, m: nat)
    requires |s| >= 1 && IsDigit(s[0]) && (|s| >= 2 ==> IsDigit(s[1]))
    requires ReadDigits(s, false, None) == Some(m)
    ensures ParseInt(s) == Num(m)
  {
    assert TrimStart(s) == s;
  }

  /** `parseInt(String(n)) === n` for every non-negative integer. */
  lemma ParseIntOfNatToString(n: nat)
    ensures ParseInt(NatToString(n)) == Num(n)
  {
    ReadNatToString(n);
    ParseIntOfDecimal(NatToString(n), n);
  }

  /** `Number(s)` (the unary `+`) on a string, for integral decimal numerals: surrounding
      white space is ignored, the empty string is 0, one optional sign may lead, and
      anything else that is not all digits is NaN. */
  function NumberOf(s: string): (r: JsNum)
    ensures Trim(s) == "" ==> r == Num(0)
    ensures IsDigits(s) && s != "" ==> r == Num(DecimalValue(s))
  {
    var t := Trim(s);
    TrimOfDigits(s);
    if t == "" then Num(0)
    else
      var signed := t[0] == '-' || t[0] == '+';
      var u := if signed then t[1..] else t;
      if u == "" || !IsDigits(u) then NaN
      else Num(if signed && t[0] == '-' then -(DecimalValue(u) as int) else DecimalValue(u))
  }

  lemma TrimOfDigits(s: string)
    ensures IsDigits(s) ==> Trim(s) == s
  {
    if IsDigits(s) && s != "" {
      assert IsDigit(s[0]) && IsDigit(s[|s| - 1]);
    }
  }

  /** The numeral of a non-negative integer reads back as that integer. */
  lemma NumberOfNatToString(n: nat)
    ensures NumberOf(NatToString(n)) == Num(n)
  {
    DecimalValueOfNatToString(n);
  }
}

=== FILE: net.dfy ===
/** Local port allocation and the ping reachability test (`src/utils/net.ts`).

    The socket probe `checkPort('127.0.0.1', port, ...)` and the `ping` command are
    outside the model: the probe is a function parameter `inUse`, and the ping is given
    as its outcome (the captured stdout, or a failure). */
module Net {
  import opened Wrappers
  import opened Strings

  /** The distinct ports of a list (`new Set(knownPorts)`). */
  function PortSet(known: seq<int>): set<int> {
    set p | p in known
  }

  /** A port of `lo .. hi` the scan may return: not known, and free according to the
      probe. */
  predicate Candidate(known: seq<int>, inUse: int -> bool, p: int) {
    p !in known && !inUse(p)
  }

  /** The ascending scan from `lo` to `hi` inclusive. */
  function Scan(known: seq<int>, lo: int, hi: int, inUse: int -> bool): (r: Option<int>)
    decreases hi - lo + 1
  {
    if lo > hi then None
    else if Candidate(known, inUse, lo) then Some(lo)
    else Scan(known, lo + 1, hi, inUse)
  }

  /** The scan returns the first candidate, and returns nothing exactly when there is
      none. */
  lemma {:induction false} ScanSpec(known: seq<int>, lo: int, hi: int, inUse: int -> bool)
    ensures var r := Scan(known, lo, hi, inUse);
      && (r.Some? ==> lo <= r.value <= hi && Candidate(known, inUse, r.value)
                      && forall q :: lo <= q < r.value ==> !Candidate(known, inUse, q))
      && (r.None? <==> forall q :: lo <= q <= hi ==> !Candidate(known, inUse, q))
    decreases hi - lo + 1
  {
    if lo <= hi && !Candidate(known, inUse, lo) {
      ScanSpec(known, lo + 1, hi, inUse);
    }
  }

  /** `getAvailableLocalPort(knownPorts, min, max)`: an error when the known ports are at
      least as many as the range holds, whether or not they lie inside it; otherwise the
      first port of `min .. max` that is neither known nor in use, or null. */
  method GetAvailableLocalPort(known: seq<int>, min: int, max: int, inUse: int -> bool)
    returns (r: Result<Option<int>>)
    ensures |PortSet(known)| >= max - min + 1 <==> r.Err?
    ensures r.Ok? ==> r.value == Scan(known, min, max, inUse)
    ensures r.Ok? && r.value.Some? ==>
      min <= r.value.value <= max && r.value.value !in known && !inUse(r.value.value)
  {
    var used := PortSet(known);
    if |used| >= max - min + 1 {
      return Err(Failed("No ports avaliable in range from " + IntToString(min) + " to "
                        + IntToString(max) + " to expose your service."));
    }
    var port: Option<int> := None;
    var i := min;
    while i <= max
      invariant min <= i <= max + 1
      invariant Scan(known, min, max, inUse) == Scan(known, i, max, inUse)
      decreases max - i
    {
      if i !in used {
        if !inUse(i) {
          port := Some(i);
          break;
        }
      }
      i := i + 1;
    }
    ScanSpec(known, min, max, inUse);
    return Ok(port);
  }

  /** The summary line of one successful `ping -c 1`. */
  const PingSuccess: string := "1 packets transmitted, 1 packets received, 0% packet loss"

  /** What running the ping command gave: its stdout, or a failure of the command. */
  datatype ExecOutcome = Stdout(text: string) | ExecFailed

  /** `isReachable`: the ping's stdout is non-empty and holds the success summary. */
  function IsReachable(outcome: ExecOutcome): (reachable: bool)
    ensures reachable ==> outcome.Stdout? && Contains(outcome.text, PingSuccess)
  {
    match outcome
    case ExecFailed => false
    case Stdout(text) => text != "" && Contains(text, PingSuccess)
  }

  /** Any stdout that holds the summary somewhere counts as reachable. */
  lemma ReachableWhenSummaryPresent(before: string, after: string)
    ensures IsReachable(Stdout(before + PingSuccess + after))
  {
    var text := before + PingSuccess + after;
    assert text[|before|..|before| + |PingSuccess|] == PingSuccess;
    ContainsAt(text, PingSuccess, |before|);
  }
}

=== FILE: nginxconf.dfy ===
/** nginx configuration as data (`src/services/proxy-server/conf/nginx-location-conf.ts`):
    an ordered list of directives, each a key with a text value or a key with a nested
    block (a `location ...` or a `server`).

    The base classes `NginxConf` and `NginxServerConf` are not part of this model. Their
    helpers are taken to append one directive named after the nginx directive they set
    (`setDeny(ip)` appends `deny ip`, `setListen(v)` appends `listen v`, and so on), and
    rendering a list to text is left out: files hold the directive list itself. */
module NginxConf {
  import opened Strings

  datatype Entry =
    | Set(key: string, value: string)
    | Block(key: string, body: seq<Entry>)

  type Conf = seq<Entry>

  /** `addBlock(key, value)`. */
  function Add(c: Conf, key: string, value: string): (r: Conf)
    ensures |r| == |c| + 1 && r[..|c|] == c && r[|c|] == Set(key, value)
  {
    c + [Set(key, value)]
  }

  /** `addLocation(path, conf)`: a nested `location <path>` block. */
  function AddLocation(c: Conf, path: string, body: Conf): (r: Conf)
    ensures |r| == |c| + 1 && r[..|c|] == c && r[|c|] == Block("location " + path, body)
  {
    c + [Block("location " + path, body)]
  }

  const OAuthInclude := "partials/require_oauth2.conf"

  /** `proxy_set_header <h> <value>`. */
  function Header(h: string, value: string): Entry {
    Set("proxy_set_header " + h, value)
  }

  /** `auth_request_set <variable> <value>`. */
  function AuthRequestSet(variable: string, value: string): Entry {
    Set("auth_request_set " + variable, value)
  }

  /** The entries `setAuthRequired` adds under each environment switch. */
  function UserEntries(): Conf {
    UserVariables() + UserHeaders()
  }

  function UserVariables(): Conf {
    [AuthRequestSet("$user", "$upstream_http_x_auth_request_user"),
     AuthRequestSet("$email", "$upstream_http_x_auth_request_email")]
  }

  function UserHeaders(): Conf {
    [Header("X-User", "$user"), Header("X-Email", "$email")]
  }

  function TokenEntries(): Conf {
    [AuthRequestSet("$token", "$upstream_http_x_auth_request_access_token"),
     Header("X-Access-Token", "$token")]
  }

  /** `setAuthRequired()`; the two environment switches are parameters. */
  function SetAuthRequired(c: Conf, setXAuthRequest: bool, passAccessToken: bool): Conf {
    c + AuthEntries(setXAuthRequest, passAccessToken)
  }

  function AuthEntries(setXAuthRequest: bool, passAccessToken: bool): Conf {
    [Set("include", OAuthInclude)]
    + (if setXAuthRequest then UserEntries() else [])
    + (if passAccessToken then TokenEntries() else [])
  }

  /** The headers `removeAuth` strips. */
  predicate AuthHeader(name: string) {
    name == "X-User" || name == "X-Email" || name == "X-Access-Token"
  }

  /** The directives `removeAuth` drops: the OAuth include, every `auth_request_set...`
      key, and a `proxy_set_header` whose second space-separated word is an auth header
      (a missing second word counts as none). */
  predicate IsAuth(e: Entry) {
    var words := Split(e.key, ' ');
    || (e.Set? && e.key == "include" && e.value == OAuthInclude)
    || StartsWith(e.key, "auth_request_set")
    || (words[0] == "proxy_set_header" && |words| > 1 && AuthHeader(words[1]))
  }

  /** `removeAuth()`: a filtered copy, so the list it came from is not changed. */
  function RemoveAuth(c: Conf): (r: Conf)
    ensures |r| <= |c|
    ensures forall e :: e in r ==> e in c && !IsAuth(e)
  {
    if |c| == 0 then []
    else if IsAuth(c[0]) then RemoveAuth(c[1..])
    else [c[0]] + RemoveAuth(c[1..])
  }

  /** Filtering distributes over concatenation, so the kept directives keep their order. */
  lemma {:induction false} RemoveAuthAppend(a: Conf, b: Conf)
    ensures RemoveAuth(a + b) == RemoveAuth(a) + RemoveAuth(b)
    decreases |a|
  {
    if |a| > 0 {
      assert (a + b)[0] == a[0];
      assert (a + b)[1..] == a[1..] + b;
      RemoveAuthAppend(a[1..], b);
      if IsAuth(a[0]) {
        assert RemoveAuth(a + b) == RemoveAuth(a[1..] + b);
      } else {
        assert RemoveAuth(a + b) == [a[0]] + RemoveAuth(a[1..] + b);
      }
    } else {
      assert a + b == b;
    }
  }

  /** Every directive that is not an auth directive survives. */
  lemma {:induction false} RemoveAuthKeeps(c: Conf, e: Entry)
    requires e in c && !IsAuth(e)
    ensures e in RemoveAuth(c)
    decreases |c|
  {
    if c[0] != e {
      RemoveAuthKeeps(c[1..], e);
    }
  }

  /** A list without auth directives is left as it is. */
  lemma {:induction false} RemoveAuthNoAuth(c: Conf)
    requires forall i :: 0 <= i < |c| ==> !IsAuth(c[i])
    ensures RemoveAuth(c) == c
    decreases |c|
  {
    if |c| > 0 {
      RemoveAuthNoAuth(c[1..]);
    }
  }

  /** Removing twice removes nothing more. */
  lemma RemoveAuthIdempotent(c: Conf)
    ensures RemoveAuth(RemoveAuth(c)) == RemoveAuth(c)
  {
    var r := RemoveAuth(c);
    forall i | 0 <= i < |r| ensures !IsAuth(r[i]) {
      assert r[i] in r;
    }
    RemoveAuthNoAuth(r);
  }

  /** `proxy_set_header <h>` splits into the directive name and the header. */
  lemma ProxyHeaderWords(h: string)
    requires ' ' !in h
    ensures Split("proxy_set_header " + h, ' ') == ["proxy_set_header", h]
  {
    assert "proxy_set_header " + h == "proxy_set_header" + [' '] + h;
    SplitNoSep(h, ' ');
    SplitPrefix("proxy_set_header", ' ', h);
  }

  lemma AuthHeaderIsAuth(h: string, value: string)
    requires AuthHeader(h)
    ensures IsAuth(Header(h, value))
  {
    ProxyHeaderWords(h);
  }

  lemma AuthRequestSetIsAuth(variable: string, value: string)
    ensures IsAuth(AuthRequestSet(variable, value))
  {
    assert "auth_request_set " + variable == "auth_request_set" + (" " + variable);
  }

  /** The other headers, such as `proxy_set_header Host`, are not auth directives. */
  lemma OtherHeaderIsNotAuth(h: string, value: string)
    requires ' ' !in h && !AuthHeader(h)
    ensures !IsAuth(Header(h, value))
  {
    ProxyHeaderWords(h);
    assert !StartsWith("proxy_set_header " + h, "auth_request_set") by {
      assert ("proxy_set_header " + h)[0] == 'p';
    }
  }

  /** A list of auth directives only is removed entirely. */
  lemma {:induction false} RemoveAuthAllAuth(c: Conf)
    requires forall i :: 0 <= i < |c| ==> IsAuth(c[i])
    ensures RemoveAuth(c) == []
    decreases |c|
  {
    if |c| > 0 {
      RemoveAuthAllAuth(c[1..]);
    }
  }

  lemma UserEntriesAreAuth()
    ensures RemoveAuth(UserEntries()) == []
  {
    UserVariablesAreAuth();
    UserHeadersAreAuth();
    RemoveAuthAppend(UserVariables(), UserHeaders());
  }

  lemma UserVariablesAreAuth()
    ensures RemoveAuth(UserVariables()) == []
  {
    AuthPairRemoved(AuthRequestSet("$user", "$upstream_http_x_auth_request_user"),
                    AuthRequestSet("$email", "$upstream_http_x_auth_request_email"));
  }

  lemma UserHeadersAreAuth()
    ensures RemoveAuth(UserHeaders()) == []
  {
    assert AuthHeader("X-User") && AuthHeader("X-Email");
    HeaderPairRemoved("X-User", "$user", "X-Email", "$email");
  }

  lemma AuthPairRemoved(a: Entry, b: Entry)
    requires StartsWith(a.key, "auth_request_set") && StartsWith(b.key, "auth_request_set")
    ensures RemoveAuth([a, b]) == []
  {
    assert IsAuth(a) && IsAuth(b);
    RemoveAuthAllAuth([a, b]);
  }

  lemma HeaderPairRemoved(h1: string, v1: string, h2: string, v2: string)
    requires AuthHeader(h1) && AuthHeader(h2)
    ensures RemoveAuth([Header(h1, v1), Header(h2, v2)]) == []
  {
    AuthHeaderIsAuth(h1, v1);
    AuthHeaderIsAuth(h2, v2);
    RemoveAuthAllAuth([Header(h1, v1), Header(h2, v2)]);
  }

  lemma TokenEntriesAreAuth()
    ensures RemoveAuth(TokenEntries()) == []
  {
    assert AuthHeader("X-Access-Token");
    VariableAndHeaderRemoved(AuthRequestSet("$token", "$upstream_http_x_auth_request_access_token"),
                             "X-Access-Token", "$token");
  }

  lemma VariableAndHeaderRemoved(a: Entry, h: string, v: string)
    requires StartsWith(a.key, "auth_request_set") && AuthHeader(h)
    ensures RemoveAuth([a, Header(h, v)]) == []
  {
    assert IsAuth(a);
    AuthHeaderIsAuth(h, v);
    RemoveAuthAllAuth([a, Header(h, v)]);
  }

  /** Everything `setAuthRequired` adds is an auth directive. */
  lemma AddedAuthIsAuth(setXAuthRequest: bool, passAccessToken: bool)
    ensures RemoveAuth(AuthEntries(setXAuthRequest, passAccessToken)) == []
  {
    var inc := [Set("include", OAuthInclude)];
    assert IsAuth(inc[0]);
    RemoveAuthAllAuth(inc);
    UserEntriesAreAuth();
    TokenEntriesAreAuth();
    var user: Conf := if setXAuthRequest then UserEntries() else [];
    var token: Conf := if passAccessToken then TokenEntries() else [];
    RemoveAuthAppend(inc, user);
    RemoveAuthAppend(inc + user, token);
  }

  /** Stripping auth from a list with auth added gives the list stripped, and gives the
      list back when it had no auth directives. */
  lemma RemoveAuthUndoesSetAuth(c: Conf, setXAuthRequest: bool, passAccessToken: bool)
    ensures RemoveAuth(SetAuthRequired(c, setXAuthRequest, passAccessToken)) == RemoveAuth(c)
    ensures (forall i :: 0 <= i < |c| ==> !IsAuth(c[i])) ==>
      RemoveAuth(SetAuthRequired(c, setXAuthRequest, passAccessToken)) == c
  {
    RemoveAuthAppend(c, AuthEntries(setXAuthRequest, passAccessToken));
    AddedAuthIsAuth(setXAuthRequest, passAccessToken);
    if forall i :: 0 <= i < |c| ==> !IsAuth(c[i]) {
      RemoveAuthNoAuth(c);
    }
  }

  /** `setDeny` (`name` "deny") or `setAllow` (`name` "allow") for each address, in order. */
  function Directives(name: string, ips: seq<string>): (r: Conf)
    ensures |r| == |ips|
    ensures forall i :: 0 <= i < |ips| ==> r[i] == Set(name, ips[i])
  {
    if |ips| == 0 then [] else [Set(name, ips[0])] + Directives(name, ips[1..])
  }

  /** The access rules of `setNetworkAccess(allowed, blocked)`, also written out by hand in
      the stream server block. */
  function Acl(allowed: seq<string>, blocked: seq<string>): (r: Conf)
    ensures |r| == |blocked| + (if |allowed| > 0 then |allowed| + 1 else 0)
    ensures forall i :: 0 <= i < |blocked| ==> r[i] == Set("deny", blocked[i])
    ensures forall j :: 0 <= j < |allowed| ==> r[|blocked| + j] == Set("allow", allowed[j])
    ensures |allowed| > 0 ==> r[|r| - 1] == Set("deny", "all")
  {
    Directives("deny", blocked) + (if |allowed| > 0 then Directives("allow", allowed) + [Set("deny", "all")] else [])
  }

  /** `setNetworkAccess`: the directives already there are kept in front, and only access
      rules are added after them. */
  function SetNetworkAccess(c: Conf, allowed: seq<string>, blocked: seq<string>): (r: Conf)
    ensures |r| >= |c| && r[..|c|] == c
    ensures forall i :: |c| <= i < |r| ==> r[i].Set? && (r[i].key == "deny" || r[i].key == "allow")
  {
    AclKeys(allowed, blocked);
    var r := c + Acl(allowed, blocked);
    assert forall i :: |c| <= i < |r| ==> r[i] in Acl(allowed, blocked) by {
      forall i | |c| <= i < |r| ensures r[i] in Acl(allowed, blocked) {
        assert r[i] == Acl(allowed, blocked)[i - |c|];
      }
    }
    r
  }

  /** The access rules keep their places in front of whatever follows them. */
  lemma AclThenRest(allowed: seq<string>, blocked: seq<string>, rest: Conf)
    ensures var r := Acl(allowed, blocked) + rest;
      && (forall i :: 0 <= i < |blocked| ==> r[i] == Set("deny", blocked[i]))
      && (forall j :: 0 <= j < |allowed| ==> r[|blocked| + j] == Set("allow", allowed[j]))
      && (|allowed| > 0 ==> r[|blocked| + |allowed|] == Set("deny", "all"))
      && (|allowed| == 0 && |blocked| == 0 ==> r == rest)
  {
    var acl := Acl(allowed, blocked);
    var r := acl + rest;
    forall i | 0 <= i < |acl| ensures r[i] == acl[i] {
    }
    if |allowed| == 0 && |blocked| == 0 {
      assert acl == [];
    }
  }

  lemma AclShape(allowed: seq<string>, blocked: seq<string>)
    ensures |allowed| == 0 && |blocked| == 0 ==> Acl(allowed, blocked) == []
    ensures Set("deny", "all") in Acl(allowed, blocked) <==> |allowed| > 0 || "all" in blocked
    ensures forall i, j :: 0 <= i < j < |Acl(allowed, blocked)| && Acl(allowed, blocked)[i].key == "allow"
              ==> Acl(allowed, blocked)[j].key != "deny" || j == |Acl(allowed, blocked)| - 1
  {
    var r := Acl(allowed, blocked);
    if Set("deny", "all") in r && |allowed| == 0 {
      var k :| 0 <= k < |r| && r[k] == Set("deny", "all");
      assert blocked[k] == "all";
    }
    if "all" in blocked {
      var k :| 0 <= k < |blocked| && blocked[k] == "all";
      assert r[k] == Set("deny", "all");
    }
  }

  /** The access rules hold only `deny` and `allow` directives, and with no blocked
      addresses the only `deny` is `deny all`. */
  lemma AclKeys(allowed: seq<string>, blocked: seq<string>)
    ensures forall e :: e in Acl(allowed, blocked) ==> e.Set? && (e.key == "deny" || e.key == "allow")
    ensures |blocked| == 0 ==> forall e :: e in Acl(allowed, blocked) && e.key == "deny" ==> e == Set("deny", "all")
  {
    var r := Acl(allowed, blocked);
    forall e | e in r ensures e.Set? && (e.key == "deny" || e.key == "allow")
      && (|blocked| == 0 && e.key == "deny" ==> e == Set("deny", "all")) {
      var k :| 0 <= k < |r| && r[k] == e;
      if k >= |blocked| && k - |blocked| < |allowed| {
        assert r[|blocked| + (k - |blocked|)] == e;
      }
    }
  }

  /** The first letter of an auth directive's key: `include`, `auth_request_set ...` or
      `proxy_set_header ...`, the last longer than any other `proxy_...` directive set. */
  predicate AuthKeyStart(e: Entry) {
    && |e.key| > 0
    && (e.key[0] == 'i' || e.key[0] == 'a' || e.key[0] == 'p')
    && (e.key[0] == 'p' ==> |e.key| > 16)
  }

  lemma HeaderKeyStart(h: string, value: string)
    ensures AuthKeyStart(Header(h, value))
  {
  }

  lemma AuthRequestSetKeyStart(variable: string, value: string)
    ensures AuthKeyStart(AuthRequestSet(variable, value))
  {
  }

  /** What `setAuthRequired` adds: the OAuth include, and auth directives only, whose keys
      start with 'i', 'a' or 'p'. */
  lemma AuthEntriesShape(setXAuthRequest: bool, passAccessToken: bool)
    ensures forall e :: e in AuthEntries(setXAuthRequest, passAccessToken) ==> IsAuth(e) && AuthKeyStart(e)
    ensures Set("include", OAuthInclude) in AuthEntries(setXAuthRequest, passAccessToken)
  {
    var all := AuthEntries(setXAuthRequest, passAccessToken);
    AddedAuthIsAuth(setXAuthRequest, passAccessToken);
    AuthRequestSetKeyStart("$user", "$upstream_http_x_auth_request_user");
    AuthRequestSetKeyStart("$email", "$upstream_http_x_auth_request_email");
    AuthRequestSetKeyStart("$token", "$upstream_http_x_auth_request_access_token");
    HeaderKeyStart("X-User", "$user");
    HeaderKeyStart("X-Email", "$email");
    HeaderKeyStart("X-Access-Token", "$token");
    assert forall e :: e in UserEntries() ==> AuthKeyStart(e);
    assert forall e :: e in TokenEntries() ==> AuthKeyStart(e);
    forall e | e in all ensures IsAuth(e) {
      if !IsAuth(e) {
        RemoveAuthKeeps(all, e);
      }
    }
  }

  /** `setResolver(r)`: the resolver with a 30 s cache, then a 10 s timeout. */
  function SetResolver(c: Conf, resolver: string): (r: Conf)
    ensures |r| == |c| + 2 && r[..|c|] == c
    ensures r[|c|] == Set("resolver", resolver + " valid=30s")
    ensures r[|c| + 1] == Set("resolver_timeout", "10s")
  {
    Add(Add(c, "resolver", resolver + " valid=30s"), "resolver_timeout", "10s")
  }
}

=== FILE: nginxdomain.dfy ===
/** The server file of a public domain (`src/services/proxy-server/nginx-domain-service.ts`):
    TLS on port 443, optional HTTP/3, the domain's logs and certificate, the OAuth2 proxy
    locations, and the include of the domain's location files.

    `config.nginx.http3domain` and `config.nginx.bodySize` are parameters ('' when unset),
    as are the logs root, the certificate directory `SSLManager.getCertPath` gives, and
    the outcome of `nginx -t`. Two helpers of the base server class whose directives are
    not part of this model, `setDefaultPages()` and `includeLocations(glob)`, appear as one
    directive named after them; `setHttpSSLCertificates(pair)` sets `ssl_certificate` and
    `ssl_certificate_key`. */
module NginxDomain {
  import opened Wrappers
  import opened Strings
  import opened Records
  import opened NginxConf
  import opened NginxFiles
  import opened ServerUtils

  /** `listen 443 ssl` on IPv4 and IPv6, and QUIC with its `Alt-Svc` header for the one
      HTTP/3 domain. */
  function ListenPart(domainName: string, http3domain: string): (r: Conf)
    ensures |r| == if http3domain != "" && domainName == http3domain then 5 else 2
    ensures r[..2] == [Set("listen", "443 ssl"), Set("listen", "[::]:443 ssl")]
    ensures Set("listen", "443 quic reuseport") in r <==> http3domain != "" && domainName == http3domain
  {
    [Set("listen", "443 ssl"), Set("listen", "[::]:443 ssl")]
    + if http3domain != "" && domainName == http3domain then
        [Set("listen", "443 quic reuseport"), Set("listen", "[::]:443 quic reuseport"),
         Set("add_header Alt-Svc", "'h3=\":443\"; ma=86400' always")]
      else []
  }

  /** The keys of the site directives before the body size limit. */
  predicate SiteKey(k: string) {
    || k == "server_name" || k == "access_log" || k == "error_log"
    || k == "ssl_certificate" || k == "ssl_certificate_key" || k == "default_pages"
  }

  lemma SiteKeyIsNoLimit(k: string)
    requires SiteKey(k)
    ensures k != "client_max_body_size" && k != "listen"
  {
  }

  /** Server name, the domain's two logs, its certificate, the default pages and the body
      size limit when one is configured. */
  function SiteDirectives(domain: Domain, logsRoot: string, bodySize: string): (r: Conf)
    ensures Set("server_name", domain.domain) in r
    ensures Set("access_log", LogFilePath(logsRoot, domain.domain, "access.log")) in r
    ensures Set("error_log", LogFilePath(logsRoot, domain.domain, "error.log")) in r
    ensures (exists e :: e in r && e.key == "client_max_body_size") <==> bodySize != ""
    ensures forall e :: e in r ==> e.key != "listen"
  {
    var certificate :=
      match domain.sslPair
      case Some(pair) => [Set("ssl_certificate", pair.certificate), Set("ssl_certificate_key", pair.key)]
      case None => [];
    var base := [Set("server_name", domain.domain),
                 Set("access_log", LogFilePath(logsRoot, domain.domain, "access.log")),
                 Set("error_log", LogFilePath(logsRoot, domain.domain, "error.log"))]
                + certificate + [Set("default_pages", "")];
    assert forall e :: e in base ==> e.key != "client_max_body_size" && e.key != "listen" by {
      forall e | e in base ensures e.key != "client_max_body_size" && e.key != "listen" {
        assert SiteKey(e.key);
        SiteKeyIsNoLimit(e.key);
      }
    }
    if bodySize != "" then
      var r := base + [Set("client_max_body_size", bodySize)];
      assert r[|r| - 1] in r;
      r
    else base
  }

  /** The upstream of the OAuth2 proxy on the loopback address. */
  function OAuthUpstream(port: int): string {
    "http://127.0.0.1:" + IntToString(port)
  }

  /** The directives every OAuth2 location starts with. */
  function OAuthProxy(port: int): Conf {
    [Set("proxy_pass", OAuthUpstream(port)),
     Set("proxy_set_header Host", "$host"),
     Set("proxy_set_header X-Forwarded-Host", "$host"),
     Set("proxy_set_header X-Real-IP", "$remote_addr")]
  }

  /** `/oauth2/` and `= /oauth2/auth`: the common part of a clone, with the original
      request passed in headers and no body. */
  function OAuthLocation(port: int): Conf {
    OAuthProxy(port)
    + [Set("proxy_set_header X-Auth-Request-Redirect", "$request_uri"),
       Set("proxy_set_header Content-Length", "\"\""),
       Set("proxy_pass_request_body", "off")]
  }

  /** `= /oauth2/callback`: a refused callback goes to the logout location. */
  function OAuthCallback(port: int): Conf {
    OAuthProxy(port)
    + [Set("proxy_pass_request_headers", "on"),
       Set("error_page 403", "= @logout_and_retry")]
  }

  const LogoutLocation: Conf := [Set("return 302", "/oauth2/sign_out")]

  /** The four OAuth2 locations, present when the domain has a proxy port. */
  function OAuthLocations(domain: Domain): (r: Conf)
    ensures domain.oauth2ServicePort == 0 ==> r == []
    ensures domain.oauth2ServicePort != 0 ==> |r| == 4
  {
    if domain.oauth2ServicePort == 0 then []
    else
      var port := domain.oauth2ServicePort;
      [Block("location /oauth2/", OAuthLocation(port)),
       Block("location = /oauth2/auth", OAuthLocation(port)),
       Block("location = /oauth2/callback", OAuthCallback(port)),
       Block("location @logout_and_retry", LogoutLocation)]
  }

  /** The glob of the domain's location files. */
  function LocationsInclude(domainName: string): Entry {
    Set("include_locations", domainName + "/*.conf")
  }

  /** The `server` block's directives, in the order they are added. */
  function ServerDirectives(domain: Domain, logsRoot: string, http3domain: string, bodySize: string): Conf
  {
    ListenPart(domain.domain, http3domain) + SiteDirectives(domain, logsRoot, bodySize)
    + OAuthLocations(domain) + [LocationsInclude(domain.domain)]
  }

  function ServerConf(domain: Domain, logsRoot: string, http3domain: string, bodySize: string): (r: Conf)
    ensures |r| == 1 && r[0].Block? && r[0].key == "server"
  {
    [Block("server", ServerDirectives(domain, logsRoot, http3domain, bodySize))]
  }

  /** `/etc/nginx/conf.d/<domain>.conf`. */
  function DomainFile(domainName: string): (f: string)
    ensures StartsWith(f, "/etc/nginx/conf.d/") && EndsWith(f, ".conf")
  {
    assert "/etc/nginx/conf.d/" + domainName + ".conf" == "/etc/nginx/conf.d/" + (domainName + ".conf");
    "/etc/nginx/conf.d/" + domainName + ".conf"
  }

  /** Distinct domains have distinct server files. */
  lemma DomainFileInjective(a: string, b: string)
    requires DomainFile(a) == DomainFile(b)
    ensures a == b
  {
    var n := |"/etc/nginx/conf.d/"|;
    assert DomainFile(a)[n..|DomainFile(a)| - 5] == a;
    assert DomainFile(b)[n..|DomainFile(b)| - 5] == b;
  }

  /** The OAuth2 locations: `/oauth2/` and `/oauth2/auth` share one body; all but the
      logout location proxy to the domain's OAuth2 port with the forwarding headers; the
      callback's error page names the logout location defined beside it. */
  lemma OAuthLocationsShape(domain: Domain)
    requires domain.oauth2ServicePort != 0
    ensures var r := OAuthLocations(domain);
      var port := domain.oauth2ServicePort;
      && r[0].key == "location /oauth2/" && r[1].key == "location = /oauth2/auth"
      && r[2].key == "location = /oauth2/callback" && r[3].key == "location @logout_and_retry"
      && r[0].body == r[1].body
      && (forall k :: 0 <= k < 3 ==> r[k].body[..4] == OAuthProxy(port))
      && r[2].body[|r[2].body| - 1].value == "= " + r[3].key[|"location "|..]
  {
    var port := domain.oauth2ServicePort;
    var r := OAuthLocations(domain);
    assert r[2].body == OAuthCallback(port);
    assert OAuthLocation(port)[..4] == OAuthProxy(port);
    assert OAuthCallback(port)[..4] == OAuthProxy(port);
    assert r[2].body[|r[2].body| - 1] == Set("error_page 403", "= @logout_and_retry");
    LogoutTargetNamed();
  }

  lemma LogoutTargetNamed()
    ensures "= " + "location @logout_and_retry"[|"location "|..] == "= @logout_and_retry"
  {
    assert "location @logout_and_retry"[|"location "|..] == "@logout_and_retry";
  }

  /** HTTP/3 is announced exactly for the configured domain. */
  lemma QuicOnlyForHttp3Domain(domain: Domain, logsRoot: string, http3domain: string, bodySize: string)
    ensures var r := ServerDirectives(domain, logsRoot, http3domain, bodySize);
      var quic := Set("listen", "443 quic reuseport");
      (quic in r <==> http3domain != "" && domain.domain == http3domain)
  {
    var quic := Set("listen", "443 quic reuseport");
    assert quic !in OAuthLocations(domain);
    assert quic != LocationsInclude(domain.domain);
  }

  /** `create(domain, restart)`: the server file is written, the default root location
      added if the domain has none, and the test-then-reload step run on the server file. */
  function Create(p: Proxy, domain: Domain, logsRoot: string, http3domain: string, bodySize: string,
                  restart: bool, testPasses: bool): (r: (Proxy, bool))
    ensures r.1 == testPasses
    ensures LocationFile(domain.domain, "/") in r.0.files
    ensures testPasses ==>
      && DomainFile(domain.domain) in r.0.files
      && r.0.files[DomainFile(domain.domain)] == ServerConf(domain, logsRoot, http3domain, bodySize)
    ensures !testPasses ==> DomainFile(domain.domain) !in r.0.files
  {
    var file := DomainFile(domain.domain);
    var saved := Save(p, file, ServerConf(domain, logsRoot, http3domain, bodySize));
    var (withDefault, _) := AddDefaultMainLocation(saved, domain.domain);
    LocationFileIsNotDomainFile(domain.domain);
    assert file in withDefault.files && withDefault.files[file] == ServerConf(domain, logsRoot, http3domain, bodySize);
    var r := CheckAndReload(withDefault, file, restart, testPasses);
    assert LocationFile(domain.domain, "/") in r.0.files;
    r
  }

  /** The server file and the root location file are never the same file. */
  lemma LocationFileIsNotDomainFile(domainName: string)
    ensures LocationFile(domainName, "/") != DomainFile(domainName)
    ensures LocationFile(domainName, "/") != DomainFile(domainName) + ".err"
  {
    assert LocationFile(domainName, "/")[11] == 'l';
    assert DomainFile(domainName)[11] == 'c';
    assert (DomainFile(domainName) + ".err")[11] == 'c';
  }

  /** What `remove` deletes besides the server file. */
  datatype Cleanup = RemoveDir(path: string) | CertbotDelete(domain: string)

  /** `remove(domain, restart)`: the server file goes; a self-signed domain's certificate
      directory is removed, any other certificate is deleted through certbot; then the
      logs directory goes. */
  function Remove(p: Proxy, domain: Domain, certPath: string, logsRoot: string, restart: bool)
    : (r: (Proxy, seq<Cleanup>))
    ensures r.0.files == p.files - {DomainFile(domain.domain)}
    ensures r.0.reloads == p.reloads + (if restart then 1 else 0)
    ensures |r.1| == 2 && r.1[1] == RemoveDir(LogsDir(logsRoot, domain.domain))
    ensures r.1[0] == if domain.ssl == "self-signed" then RemoveDir(certPath) else CertbotDelete(domain.domain)
  {
    var cert := if domain.ssl == "self-signed" then RemoveDir(certPath) else CertbotDelete(domain.domain);
    (ReloadIf(RemoveFile(p, DomainFile(domain.domain)), restart), [cert, RemoveDir(LogsDir(logsRoot, domain.domain))])
  }

  /** Removing a domain after creating it drops its server file but keeps the root
      location file `create` added: the locations directory outlives the domain. */
  lemma RemoveKeepsDefaultLocation(p: Proxy, domain: Domain, certPath: string, logsRoot: string,
                                   http3domain: string, bodySize: string)
    ensures var created := Create(p, domain, logsRoot, http3domain, bodySize, false, true).0;
      var removed := Remove(created, domain, certPath, logsRoot, false).0;
      && DomainFile(domain.domain) in created.files
      && DomainFile(domain.domain) !in removed.files
      && LocationFile(domain.domain, "/") in removed.files
  {
    LocationFileIsNotDomainFile(domain.domain);
  }
}

=== FILE: nginxfiles.dfy ===
/** The shared part of the proxy services (`src/services/proxy-server/nginx-service.ts`):
    where a location's file lives, the test-then-reload step, the default main location,
    and the connection reset.

    The proxy's state is the set of configuration files (each holding its directive
    list) and the number of reloads issued. `nginx -t` is a parameter: whether the test
    passes. Creating directories is left out. */
module NginxFiles {
  import opened Wrappers
  import opened Strings
  import opened NginxConf

  datatype Proxy = Proxy(files: map<string, Conf>, reloads: nat)

  function Save(p: Proxy, path: string, conf: Conf): (r: Proxy)
    ensures r.files == p.files[path := conf] && r.reloads == p.reloads
  {
    p.(files := p.files[path := conf])
  }

  /** Removing a file that is not there changes nothing. */
  function RemoveFile(p: Proxy, path: string): (r: Proxy)
    ensures r.files == p.files - {path} && r.reloads == p.reloads
  {
    p.(files := p.files - {path})
  }

  function Reload(p: Proxy): (r: Proxy)
    ensures r.files == p.files && r.reloads == p.reloads + 1
  {
    p.(reloads := p.reloads + 1)
  }

  function ReloadIf(p: Proxy, restart: bool): (r: Proxy)
    ensures r.files == p.files && r.reloads == p.reloads + (if restart then 1 else 0)
  {
    if restart then Reload(p) else p
  }

  /** The directory of a domain's locations: `default` for no domain and for '_'. */
  function LocationDir(domain: string): string {
    "/etc/nginx/locations/" + (if domain != "" && domain != "_" then domain else "default")
  }

  /** The file name for a location path: one leading '/' removed, the root named
      `__main`, every other '/' turned into '-'. */
  function LocationName(path: string): (name: string)
    ensures |name| > 0
  {
    var stripped := if |path| > 0 && path[0] == '/' then path[1..] else path;
    if stripped == "" then "__main" else ReplaceChar(stripped, '/', '-')
  }

  /** `getLocationFile(domain, path)`. */
  function LocationFile(domain: string, path: string): (file: string)
    ensures StartsWith(file, LocationDir(domain) + "/") && EndsWith(file, ".conf")
  {
    LocationDir(domain) + "/" + LocationName(path) + ".conf"
  }

  /** Two paths share a file when they differ only in '/' against '-'; the root, the
      empty path and `/__main` share one too. */
  lemma SlashDashCollision(domain: string)
    ensures LocationFile(domain, "/a/b") == LocationFile(domain, "/a-b")
  {
    assert LocationName("/a/b") == "a-b";
  }

  lemma MainCollision(domain: string)
    ensures LocationFile(domain, "/") == LocationFile(domain, "") == LocationFile(domain, "/__main")
  {
    var main := "/__main";
    assert main[1..] == "__main";
    assert LocationName(main) == "__main";
  }

  /** The name part of a location file, recovered from the full path. */
  lemma LocationFileName(domain: string, path: string)
    ensures var f := LocationFile(domain, path);
      f[|LocationDir(domain)| + 1 .. |f| - 5] == LocationName(path)
  {
  }

  /** Apart from those collisions, distinct paths of one domain get distinct files: for
      paths that start with '/', hold no '-' and are not `/__main`. */
  lemma LocationFileInjective(domain: string, p1: string, p2: string)
    requires |p1| > 0 && p1[0] == '/' && '-' !in p1 && p1 != "/__main"
    requires |p2| > 0 && p2[0] == '/' && '-' !in p2 && p2 != "/__main"
    requires LocationFile(domain, p1) == LocationFile(domain, p2)
    ensures p1 == p2
  {
    LocationFileName(domain, p1);
    LocationFileName(domain, p2);
    var n1, n2 := LocationName(p1), LocationName(p2);
    assert n1 == n2;
    if p1 == "/" || p2 == "/" {
      if p1 != p2 {
        assert false;
      }
    } else {
      var s1, s2 := p1[1..], p2[1..];
      assert |s1| == |s2|;
      forall i | 0 <= i < |s1| ensures s1[i] == s2[i] {
        assert s1[i] != '-' && s2[i] != '-';
        assert n1[i] == n2[i];
      }
      assert p1 == [p1[0]] + s1 && p2 == [p2[0]] + s2;
    }
  }

  /** `checkAndReload(confFile, restart)`: a file that fails the test is moved aside to
      `<file>.err` and nothing reloads; otherwise nginx reloads when asked to. */
  function CheckAndReload(p: Proxy, confFile: string, restart: bool, testPasses: bool): (r: (Proxy, bool))
    ensures r.1 == testPasses
    ensures testPasses ==> r.0 == ReloadIf(p, restart)
    ensures !testPasses ==> r.0.reloads == p.reloads && confFile !in r.0.files
    ensures !testPasses && confFile in p.files && confFile != confFile + ".err" ==>
      confFile + ".err" in r.0.files && r.0.files[confFile + ".err"] == p.files[confFile]
    ensures forall f :: f in p.files && f != confFile && f != confFile + ".err" ==>
      f in r.0.files && r.0.files[f] == p.files[f]
  {
    if !testPasses then
      var moved :=
        if confFile in p.files then p.files - {confFile} + map[confFile + ".err" := p.files[confFile]]
        else p.files;
      (p.(files := moved), false)
    else (ReloadIf(p, restart), true)
  }

  /** The page served where no location is configured. */
  const DefaultMainLocation: Conf := [Block("location /", [Set("root", "/etc/nginx/default_pages")])]

  /** `addDefaultMainLocation(domain)`: writes the root location only if its file is
      absent, and returns what it wrote (nothing when the file was there). */
  function AddDefaultMainLocation(p: Proxy, domain: string): (r: (Proxy, Option<Conf>))
    ensures LocationFile(domain, "/") in r.0.files && r.0.reloads == p.reloads
    ensures LocationFile(domain, "/") in p.files ==> r == (p, None)
    ensures LocationFile(domain, "/") !in p.files ==>
      r.1 == Some(DefaultMainLocation) && r.0.files == p.files[LocationFile(domain, "/") := DefaultMainLocation]
  {
    var file := LocationFile(domain, "/");
    if file in p.files then (p, None)
    else (Save(p, file, DefaultMainLocation), Some(DefaultMainLocation))
  }

  /** A second call changes nothing, and an existing root location is never replaced. */
  lemma AddDefaultMainLocationIdempotent(p: Proxy, domain: string)
    ensures var once := AddDefaultMainLocation(p, domain).0;
      AddDefaultMainLocation(once, domain) == (once, None)
    ensures var file := LocationFile(domain, "/");
      file in p.files ==> AddDefaultMainLocation(p, domain).0.files[file] == p.files[file]
  {
  }

  /** The REJECT rule `resetTCPConnections` adds and deletes, and the conntrack flush. */
  datatype ResetStep = AddReject(address: string, port: int) | DeleteReject(address: string, port: int)
                     | ConntrackFlush(command: string)

  function ResetSteps(address: string, port: int): seq<ResetStep> {
    [AddReject(address, port), DeleteReject(address, port),
     ConntrackFlush("conntrack -D -p tcp --dst " + address + " --dport " + IntToString(port))]
  }

  /** `resetTCPConnections(service)`: the steps run in order until one fails (`failsAt`,
      or never when it is 3 or more); the error is logged and swallowed. */
  function ResetTcpConnections(address: string, port: int, failsAt: nat): (r: Result<seq<ResetStep>>)
    ensures r.Ok?
    ensures r.value <= ResetSteps(address, port)
    ensures |r.value| == if failsAt < 3 then failsAt else 3
  {
    Ok(ResetSteps(address, port)[..if failsAt < 3 then failsAt else 3])
  }

  /** The firewall's REJECT rules after some reset steps: an add appends one copy of the
      rule, a delete removes one copy, a flush leaves the rules alone. */
  function RulesAfter(rules: multiset<(string, int)>, steps: seq<ResetStep>): multiset<(string, int)>
    decreases |steps|
  {
    if |steps| == 0 then rules
    else
      var next := match steps[0]
        case AddReject(a, p) => rules + multiset{(a, p)}
        case DeleteReject(a, p) => rules - multiset{(a, p)}
        case ConntrackFlush(_) => rules;
      RulesAfter(next, steps[1..])
  }

  /** For every failing step: the firewall ends as it was found except when deleting the
      rule fails, which leaves one extra copy in place; the connections are flushed only
      when no step fails. */
  lemma ResetRuleOutcome(rules: multiset<(string, int)>, address: string, port: int, failsAt: nat)
    ensures var steps := ResetTcpConnections(address, port, failsAt).value;
      RulesAfter(rules, steps) == if failsAt == 1 then rules + multiset{(address, port)} else rules
    ensures var steps := ResetTcpConnections(address, port, failsAt).value;
      (exists i :: 0 <= i < |steps| && steps[i].ConntrackFlush?) <==> failsAt >= 3
  {
    var all := ResetSteps(address, port);
    var steps := ResetTcpConnections(address, port, failsAt).value;
    var added := rules + multiset{(address, port)};
    assert added - multiset{(address, port)} == rules;
    if failsAt == 0 {
      assert steps == [];
    } else if failsAt == 1 {
      assert steps == [all[0]];
      assert RulesAfter(rules, steps) == RulesAfter(added, []);
    } else if failsAt == 2 {
      assert steps == [all[0], all[1]];
      assert RulesAfter(rules, steps) == RulesAfter(added, steps[1..]);
      assert steps[1..][0] == DeleteReject(address, port) && steps[1..][1..] == [];
      assert RulesAfter(added, steps[1..]) == RulesAfter(rules, []);
    } else {
      assert steps == all;
      assert RulesAfter(rules, steps) == RulesAfter(added, steps[1..]);
      assert steps[1..][0] == DeleteReject(address, port) && steps[1..][1..] == steps[2..];
      assert RulesAfter(added, steps[1..]) == RulesAfter(rules, steps[2..]);
      assert steps[2..][1..] == [];
      assert steps[2].ConntrackFlush?;
      assert RulesAfter(rules, steps[2..]) == RulesAfter(rules, []);
    }
  }
}

=== FILE: nginxhttp.dfy ===
/** The location file of an HTTP service
    (`src/services/proxy-server/nginx-http-service.ts`): the main location proxied to the
    node's backend, followed by one auth-free location per bypass route.

    `IP_CIDR.isValidIP` is the predicate `isIp`; the domain record looked up when the
    service requires auth is a parameter, as are the two OAuth2 environment switches and
    the outcome of `nginx -t`. */
module NginxHttp {
  import opened Wrappers
  import opened Strings
  import opened Records
  import opened NginxConf
  import opened NginxFiles

  /** The OAuth2 environment switches `setAuthRequired` reads. */
  datatype AuthSwitches = AuthSwitches(setXAuthRequest: bool, passAccessToken: bool)

  /** `isValidLocationSyntax`: a route starts with '/' or '^' (so never with '@'). */
  predicate ValidLocationSyntax(route: string) {
    |route| > 0 && route[0] != '@' && (route[0] == '/' || route[0] == '^')
  }

  /** The bypass routes of a `skipAuthRoutes` text: its lines trimmed, keeping the
      non-blank ones of valid syntax, in order. */
  function BypassRoutes(lines: seq<string>): (routes: seq<string>)
    ensures |routes| <= |lines|
    ensures forall i :: 0 <= i < |routes| ==> ValidLocationSyntax(routes[i])
  {
    if |lines| == 0 then []
    else
      var t := Trim(lines[0]);
      if t != "" && ValidLocationSyntax(t) then [t] + BypassRoutes(lines[1..])
      else BypassRoutes(lines[1..])
  }

  /** A route is kept exactly when it is some trimmed line of valid syntax. */
  lemma {:induction false} BypassRoutesMembers(lines: seq<string>, r: string)
    ensures r in BypassRoutes(lines) <==> ValidLocationSyntax(r) && exists i :: 0 <= i < |lines| && Trim(lines[i]) == r
    decreases |lines|
  {
    if |lines| > 0 {
      BypassRoutesMembers(lines[1..], r);
      TrimmedLineOfTail(lines, r);
      var t := Trim(lines[0]);
      if t != "" && ValidLocationSyntax(t) {
        assert BypassRoutes(lines) == [t] + BypassRoutes(lines[1..]);
      } else {
        assert BypassRoutes(lines) == BypassRoutes(lines[1..]);
      }
    }
  }

  /** Some line trims to `r` exactly when the first does or some later one does. */
  lemma TrimmedLineOfTail(lines: seq<string>, r: string)
    requires |lines| > 0
    ensures (exists i :: 0 <= i < |lines| && Trim(lines[i]) == r) <==>
      Trim(lines[0]) == r || exists i :: 0 <= i < |lines[1..]| && Trim(lines[1..][i]) == r
  {
    if exists i :: 0 <= i < |lines| && Trim(lines[i]) == r {
      var i :| 0 <= i < |lines| && Trim(lines[i]) == r;
      if i > 0 {
        assert Trim(lines[1..][i - 1]) == r;
      }
    }
    if exists i :: 0 <= i < |lines[1..]| && Trim(lines[1..][i]) == r {
      var i :| 0 <= i < |lines[1..]| && Trim(lines[1..][i]) == r;
      assert Trim(lines[i + 1]) == r;
    }
  }

  /** `parseLocationType` folded into the location's modifier: `~` for a regular
      expression, `=` for an exact path. */
  function BypassLocation(route: string): string
    requires ValidLocationSyntax(route)
  {
    if route[0] == '^' then "~ " + route else "= " + route
  }

  /** Whether the backend host is used instead of the node's address. */
  predicate UsesBackendHost(s: HttpService, node: Node) {
    (node.isGateway || node.isLocal) && s.backendHost != ""
  }

  function ProxyHost(s: HttpService, node: Node): string {
    if UsesBackendHost(s, node) then s.backendHost else node.address
  }

  predicate NeedsResolver(s: HttpService, node: Node, isIp: string -> bool) {
    UsesBackendHost(s, node) && node.isGateway && !isIp(s.backendHost)
  }

  /** `setAuthRequired()` on the empty location, when the domain has an OAuth2 proxy. */
  function AuthPart(s: HttpService, domain: Option<Domain>, auth: AuthSwitches): (r: Conf)
    requires s.requireAuth ==> domain.Some?
    ensures forall e :: e in r ==> IsAuth(e) && AuthKeyStart(e)
    ensures Set("include", OAuthInclude) in r <==> s.requireAuth && domain.value.oauth2ServicePort != 0
  {
    if s.requireAuth && domain.value.oauth2ServicePort != 0 then
      AuthEntriesShape(auth.setXAuthRequest, auth.passAccessToken);
      AuthEntries(auth.setXAuthRequest, auth.passAccessToken)
    else []
  }

  /** `setResolver(node.address)` on the empty location, when needed. */
  function ResolverPart(s: HttpService, node: Node, isIp: string -> bool): (r: Conf)
    ensures forall e :: e in r ==> e.key == "resolver" || e.key == "resolver_timeout"
    ensures Set("resolver", node.address + " valid=30s") in r <==> NeedsResolver(s, node, isIp)
  {
    if NeedsResolver(s, node, isIp) then SetResolver([], node.address) else []
  }

  /** The proxy settings: the common include, the service's variable, the target, and
      no certificate check for an https backend. */
  function ProxyPart(s: HttpService, host: string): (r: Conf)
    ensures forall e :: e in r ==>
      e.key == "include" || e.key == "proxy_pass" || e.key == "proxy_ssl_verify" || e.key == "set $" + s.identifier
    ensures Set("include", OAuthInclude) !in r
    ensures Set("set $" + s.identifier, host) in r
    ensures Set("proxy_pass", s.backendProto + "://$" + s.identifier + ":" + IntToString(s.backendPort)) in r
    ensures Set("proxy_ssl_verify", "off") in r <==> s.backendProto == "https"
  {
    var proxied := [Set("include", "partials/proxy.conf"),
                    Set("set $" + s.identifier, host),
                    Set("proxy_pass", s.backendProto + "://$" + s.identifier + ":" + IntToString(s.backendPort))];
    assert proxied[1] == Set("set $" + s.identifier, host);
    assert "partials/proxy.conf" != OAuthInclude by { assert |"partials/proxy.conf"| != |OAuthInclude|; }
    assert ("set $" + s.identifier)[0] == 's';
    assert "proxy_pass"[6] != "proxy_ssl_verify"[6];
    assert Set("proxy_ssl_verify", "off") !in proxied;
    if s.backendProto == "https" then proxied + [Set("proxy_ssl_verify", "off")] else proxied
  }

  /** The main location's directives (`buildNginxConf` up to `addLocation`), in the order
      they are added: auth, resolver, access rules from the allowed addresses only, proxy
      settings. `Crash` when auth is required and the domain has no record. */
  function BaseLocation(s: HttpService, node: Node, domain: Option<Domain>, auth: AuthSwitches,
                        isIp: string -> bool): (r: Result<Conf>)
    ensures r.Err? <==> s.requireAuth && domain.None?
    ensures r.Ok? ==> r.value == AuthPart(s, domain, auth) + ResolverPart(s, node, isIp)
                                 + Acl(s.allowedIps, []) + ProxyPart(s, ProxyHost(s, node))
  {
    if s.requireAuth && domain.None? then
      Err(Crash("Cannot read properties of null (reading 'oauth2ServicePort')"))
    else
      var withAuth := AuthPart(s, domain, auth);
      var withResolver := withAuth + ResolverPart(s, node, isIp);
      Ok(SetNetworkAccess(withResolver, s.allowedIps, []) + ProxyPart(s, ProxyHost(s, node)))
  }

  /** The bypass locations, each holding the main location without its auth. */
  function BypassLocations(routes: seq<string>, clean: Conf): (r: Conf)
    requires forall i :: 0 <= i < |routes| ==> ValidLocationSyntax(routes[i])
    ensures |r| == |routes|
    ensures forall i :: 0 <= i < |routes| ==> r[i] == Block("location " + BypassLocation(routes[i]), clean)
  {
    if |routes| == 0 then []
    else [Block("location " + BypassLocation(routes[0]), clean)] + BypassLocations(routes[1..], clean)
  }

  /** `buildNginxConf(service)`. */
  function BuildConf(s: HttpService, node: Node, domain: Option<Domain>, auth: AuthSwitches,
                     isIp: string -> bool): (r: Result<Conf>)
    ensures r.Err? <==> s.requireAuth && domain.None?
  {
    var base :- BaseLocation(s, node, domain, auth, isIp);
    var main := AddLocation([], s.pathLocation, base);
    if s.requireAuth && s.skipAuthRoutes != "" then
      Ok(main + BypassLocations(BypassRoutes(Split(s.skipAuthRoutes, '\n')), RemoveAuth(base)))
    else Ok(main)
  }

  /** The host proxied to and whether a resolver is set: the backend host for a gateway
      or local node that names one, else the node's address; a resolver (the node) only
      for a gateway whose backend host is not an IP literal. */
  lemma HostAndResolver(s: HttpService, node: Node, domain: Option<Domain>, auth: AuthSwitches,
                        isIp: string -> bool)
    requires BaseLocation(s, node, domain, auth, isIp).Ok?
    ensures var c := BaseLocation(s, node, domain, auth, isIp).value;
      var host := if (node.isGateway || node.isLocal) && s.backendHost != "" then s.backendHost else node.address;
      && Set("set $" + s.identifier, host) in c
      && (Set("resolver", node.address + " valid=30s") in c <==>
          node.isGateway && s.backendHost != "" && !isIp(s.backendHost))
  {
    var e := Set("resolver", node.address + " valid=30s");
    var a := AuthPart(s, domain, auth);
    var rp := ResolverPart(s, node, isIp);
    var acl := Acl(s.allowedIps, []);
    var pp := ProxyPart(s, ProxyHost(s, node));
    ResolverOnlyInResolverPart(s, node, domain, auth, e);
    InParts(a, rp, acl, pp, e);
    InParts(a, rp, acl, pp, Set("set $" + s.identifier, ProxyHost(s, node)));
  }

  /** The membership of four concatenated parts. */
  lemma InParts(a: Conf, b: Conf, c: Conf, d: Conf, e: Entry)
    ensures e in a + b + c + d <==> e in a || e in b || e in c || e in d
  {
  }

  /** A `resolver` directive comes from none of the other parts. */
  lemma ResolverOnlyInResolverPart(s: HttpService, node: Node, domain: Option<Domain>, auth: AuthSwitches,
                                   e: Entry)
    requires s.requireAuth ==> domain.Some?
    requires e.key == "resolver"
    ensures e !in AuthPart(s, domain, auth)
    ensures e !in Acl(s.allowedIps, [])
    ensures e !in ProxyPart(s, ProxyHost(s, node))
  {
    AclKeys(s.allowedIps, []);
    assert ("set $" + s.identifier)[0] == 's' && "resolver"[0] == 'r';
  }

  /** Blocked addresses are never rendered: the only `deny` is `deny all`. */
  lemma NoBlockedIps(s: HttpService, node: Node, domain: Option<Domain>, auth: AuthSwitches,
                     isIp: string -> bool)
    requires BaseLocation(s, node, domain, auth, isIp).Ok?
    ensures forall e :: e in BaseLocation(s, node, domain, auth, isIp).value && e.key == "deny" ==>
      e == Set("deny", "all")
  {
    var a := AuthPart(s, domain, auth);
    var rp := ResolverPart(s, node, isIp);
    var acl := Acl(s.allowedIps, []);
    var pp := ProxyPart(s, ProxyHost(s, node));
    var c := BaseLocation(s, node, domain, auth, isIp).value;
    assert c == a + rp + acl + pp;
    AclKeys(s.allowedIps, []);
    assert ("set $" + s.identifier)[0] == 's' && "deny"[0] == 'd';
    forall e | e in c && e.key == "deny" ensures e == Set("deny", "all") {
      assert e !in a && e !in rp && e !in pp;
    }
  }

  /** The OAuth2 include is present exactly when auth is required and the domain has an
      OAuth2 proxy; the proxy target names the service's variable and backend port. */
  lemma AuthOnlyWhenRequired(s: HttpService, node: Node, domain: Option<Domain>, auth: AuthSwitches,
                             isIp: string -> bool)
    requires BaseLocation(s, node, domain, auth, isIp).Ok?
    ensures var c := BaseLocation(s, node, domain, auth, isIp).value;
      && (Set("include", OAuthInclude) in c <==> s.requireAuth && domain.value.oauth2ServicePort != 0)
      && Set("proxy_pass", s.backendProto + "://$" + s.identifier + ":" + IntToString(s.backendPort)) in c
      && (Set("proxy_ssl_verify", "off") in c <==> s.backendProto == "https")
  {
    var v := Set("proxy_ssl_verify", "off");
    AclKeys(s.allowedIps, []);
    assert |"proxy_ssl_verify"| == 16;
    assert v !in AuthPart(s, domain, auth);
    assert v !in ResolverPart(s, node, isIp);
    assert v !in Acl(s.allowedIps, []);
  }

  /** The main location comes first, then one location per bypass route in input order,
      each without auth directives; there are bypass locations only when auth is
      required and routes are given. */
  lemma LocationsInOrder(s: HttpService, node: Node, domain: Option<Domain>, auth: AuthSwitches,
                         isIp: string -> bool, i: nat)
    requires BuildConf(s, node, domain, auth, isIp).Ok?
    ensures var c := BuildConf(s, node, domain, auth, isIp).value;
      var base := BaseLocation(s, node, domain, auth, isIp).value;
      var routes := BypassRoutes(Split(s.skipAuthRoutes, '\n'));
      && c[0] == Block("location " + s.pathLocation, base)
      && (!s.requireAuth || s.skipAuthRoutes == "" ==> |c| == 1)
      && (s.requireAuth && s.skipAuthRoutes != "" ==> |c| == 1 + |routes|)
      && (s.requireAuth && s.skipAuthRoutes != "" && i < |routes| ==>
            c[1 + i] == Block("location " + BypassLocation(routes[i]), RemoveAuth(base)))
  {
    MainLocationFirst(s, node, domain, auth, isIp);
    if s.requireAuth && s.skipAuthRoutes != "" && i < |BypassRoutes(Split(s.skipAuthRoutes, '\n'))| {
      BypassLocationAt(s, node, domain, auth, isIp, i);
    }
  }

  lemma MainLocationFirst(s: HttpService, node: Node, domain: Option<Domain>, auth: AuthSwitches,
                          isIp: string -> bool)
    requires BuildConf(s, node, domain, auth, isIp).Ok?
    ensures BuildConf(s, node, domain, auth, isIp).value[0]
      == Block("location " + s.pathLocation, BaseLocation(s, node, domain, auth, isIp).value)
    ensures |BuildConf(s, node, domain, auth, isIp).value| ==
      if s.requireAuth && s.skipAuthRoutes != "" then 1 + |BypassRoutes(Split(s.skipAuthRoutes, '\n'))| else 1
  {
    BuildConfParts(s, node, domain, auth, isIp);
  }

  lemma BypassLocationAt(s: HttpService, node: Node, domain: Option<Domain>, auth: AuthSwitches,
                         isIp: string -> bool, i: nat)
    requires BuildConf(s, node, domain, auth, isIp).Ok?
    requires s.requireAuth && s.skipAuthRoutes != "" && i < |BypassRoutes(Split(s.skipAuthRoutes, '\n'))|
    ensures BuildConf(s, node, domain, auth, isIp).value[1 + i]
      == Block("location " + BypassLocation(BypassRoutes(Split(s.skipAuthRoutes, '\n'))[i]),
               RemoveAuth(BaseLocation(s, node, domain, auth, isIp).value))
  {
    BuildConfParts(s, node, domain, auth, isIp);
    var base := BaseLocation(s, node, domain, auth, isIp).value;
    var bypass := BypassLocations(BypassRoutes(Split(s.skipAuthRoutes, '\n')), RemoveAuth(base));
    assert BuildConf(s, node, domain, auth, isIp).value[1 + i] == bypass[i];
  }

  /** The built configuration is the main location followed by the bypass locations. */
  lemma BuildConfParts(s: HttpService, node: Node, domain: Option<Domain>, auth: AuthSwitches,
                       isIp: string -> bool)
    requires BuildConf(s, node, domain, auth, isIp).Ok?
    ensures var base := BaseLocation(s, node, domain, auth, isIp).value;
      var main := [Block("location " + s.pathLocation, base)];
      BuildConf(s, node, domain, auth, isIp).value ==
        if s.requireAuth && s.skipAuthRoutes != "" then
          main + BypassLocations(BypassRoutes(Split(s.skipAuthRoutes, '\n')), RemoveAuth(base))
        else main
  {
    var base := BaseLocation(s, node, domain, auth, isIp).value;
    assert AddLocation([], s.pathLocation, base) == [Block("location " + s.pathLocation, base)];
  }

  /** A bypass location holds no auth directive. */
  lemma BypassHasNoAuth(base: Conf, e: Entry)
    requires e in RemoveAuth(base)
    ensures !IsAuth(e)
  {
  }

  /** `create(service, restart)`: a disabled service writes nothing and only reloads when
      asked; an enabled one writes its location file and runs the test-then-reload step.
      The result is null for a disabled service. */
  function Create(p: Proxy, s: HttpService, node: Node, domain: Option<Domain>, auth: AuthSwitches,
                  isIp: string -> bool, restart: bool, testPasses: bool): (r: Result<(Proxy, Option<bool>)>)
    ensures !s.enabled ==> r == Ok((ReloadIf(p, restart), None))
    ensures s.enabled ==> (r.Ok? <==> BuildConf(s, node, domain, auth, isIp).Ok?)
  {
    if !s.enabled then Ok((ReloadIf(p, restart), None))
    else
      var conf :- BuildConf(s, node, domain, auth, isIp);
      var file := LocationFile(s.domain, s.pathLocation);
      var (q, ok) := CheckAndReload(Save(p, file, conf), file, restart, testPasses);
      Ok((q, Some(ok)))
  }

  /** `remove(service, restart)`. The connection reset runs against the firewall, not the
      proxy's files. */
  function Remove(p: Proxy, s: HttpService, restart: bool): (r: Proxy)
    ensures r.files == p.files - {LocationFile(s.domain, s.pathLocation)}
    ensures r.reloads == p.reloads + (if restart then 1 else 0)
  {
    ReloadIf(RemoveFile(p, LocationFile(s.domain, s.pathLocation)), restart)
  }

  /** Create and remove address the same file, and touch no other: removing one service
      leaves the files of every service at another location as they were. */
  lemma CreateRemoveSameFile(p: Proxy, s: HttpService, node: Node, domain: Option<Domain>, auth: AuthSwitches,
                             isIp: string -> bool, restart: bool)
    requires s.enabled && BuildConf(s, node, domain, auth, isIp).Ok?
    ensures var file := LocationFile(s.domain, s.pathLocation);
      var created := Create(p, s, node, domain, auth, isIp, restart, true).value.0;
      && file in created.files
      && Remove(created, s, false).files == p.files - {file}
  {
    var file := LocationFile(s.domain, s.pathLocation);
    var conf := BuildConf(s, node, domain, auth, isIp).value;
    var saved := Save(p, file, conf);
    var (q, ok) := CheckAndReload(saved, file, restart, true);
    assert Create(p, s, node, domain, auth, isIp, restart, true) == Ok((q, Some(ok)));
    assert q.files == saved.files;
    assert q.files - {file} == p.files - {file};
  }
}

=== FILE: nginxtcp.dfy ===
/** The stream file of a TCP or UDP service
    (`src/services/proxy-server/nginx-tcp-service.ts`): one `server` block listening on the
    service's public port and proxying to the node's backend.

    The domain record looked up for an SSL service, the self-signed certificate pair of a
    name, `IP_CIDR.isValidIP`, the logs root and the outcome of `nginx -t` are
    parameters. `setStreamSSLCertificate` is taken to set `ssl_certificate` and
    `ssl_certificate_key`; `setAccessLog(path, format)` sets `access_log <path> <format>`. */
module NginxTcp {
  import opened Wrappers
  import opened Strings
  import opened Records
  import opened NginxConf
  import opened NginxFiles
  import opened ServerUtils
  import opened TcpModel

  /** The host proxied to: the backend host for a gateway or local node that names one,
      else the node's address. */
  function StreamAddress(s: TcpService, node: Node): string {
    if (node.isGateway || node.isLocal) && s.backendHost != "" then s.backendHost else node.address
  }

  /** Only a gateway resolves a backend named by host name, through the node itself. */
  predicate StreamNeedsResolver(s: TcpService, node: Node, isIp: string -> bool) {
    node.isGateway && s.backendHost != "" && !isIp(s.backendHost)
  }

  /** `${port}` and ` udp` for a UDP service. */
  function ListenValue(s: TcpService): (v: string)
    ensures StartsWith(v, IntToString(s.port))
    ensures s.proto == "udp" ==> v == IntToString(s.port) + " udp"
    ensures s.proto != "udp" ==> v == IntToString(s.port)
  {
    IntToString(s.port) + (if s.proto == "udp" then " udp" else "")
  }

  /** The log name of a service without a domain is `_`, which logs to `default`. */
  function LogDomain(s: TcpService): string {
    if s.domain != "" then s.domain else "_"
  }

  /** Listen, server name and the two logs, named after the service's identifier. */
  function HeadPart(s: TcpService, logsRoot: string): (r: Conf)
    ensures |r| == 4
    ensures r[0] == Set("listen", ListenValue(s))
    ensures r[1] == Set("server_name", s.domain)
    ensures r[2] == Set("access_log",
      LogFilePath(logsRoot, LogDomain(s), ServiceIdentifier(s) + ".log") + " stream_logs")
    ensures r[3] == Set("error_log", LogFilePath(logsRoot, LogDomain(s), ServiceIdentifier(s) + "_error.log"))
  {
    [Set("listen", ListenValue(s)),
     Set("server_name", s.domain),
     Set("access_log", LogFilePath(logsRoot, LogDomain(s), ServiceIdentifier(s) + ".log") + " stream_logs"),
     Set("error_log", LogFilePath(logsRoot, LogDomain(s), ServiceIdentifier(s) + "_error.log"))]
  }

  /** The certificate of an SSL service: the domain's own pair when its record has one,
      else a self-signed pair for the domain, else (no domain) one for `_`. */
  function Certificate(s: TcpService, domain: Option<Domain>, selfSigned: string -> SslPair): (pair: Option<SslPair>)
    ensures pair.Some? <==> s.ssl
    ensures s.ssl && s.domain == "" ==> pair == Some(selfSigned("_"))
    ensures s.ssl && s.domain != "" && domain.Some? && domain.value.sslPair.Some? ==> pair == domain.value.sslPair
    ensures s.ssl && s.domain != "" && (domain.None? || domain.value.sslPair.None?) ==> pair == Some(selfSigned(s.domain))
  {
    if !s.ssl then None
    else if s.domain == "" then Some(selfSigned("_"))
    else if domain.Some? && domain.value.sslPair.Some? then domain.value.sslPair
    else Some(selfSigned(s.domain))
  }

  function SslPart(pair: Option<SslPair>): (r: Conf)
    ensures pair.None? ==> r == []
    ensures pair.Some? ==> r == [Set("ssl_certificate", pair.value.certificate), Set("ssl_certificate_key", pair.value.key)]
  {
    match pair
    case None => []
    case Some(p) => [Set("ssl_certificate", p.certificate), Set("ssl_certificate_key", p.key)]
  }

  /** The stream resolver, with a 3 s timeout (the HTTP location uses 10 s). */
  function StreamResolverPart(s: TcpService, node: Node, isIp: string -> bool): (r: Conf)
    ensures StreamNeedsResolver(s, node, isIp) ==>
      r == [Set("resolver", node.address + " valid=30s"), Set("resolver_timeout", "3s")]
    ensures !StreamNeedsResolver(s, node, isIp) ==> r == []
  {
    if StreamNeedsResolver(s, node, isIp) then
      [Set("resolver", node.address + " valid=30s"), Set("resolver_timeout", "3s")]
    else []
  }

  /** The service's variable holding the target host, and the proxy target. */
  function StreamProxyPart(s: TcpService, node: Node): (r: Conf)
    ensures |r| == 2
    ensures r[0] == Set("set $" + ServiceIdentifier(s), StreamAddress(s, node))
    ensures r[1] == Set("proxy_pass", "$" + ServiceIdentifier(s) + ":" + IntToString(s.backendPort))
  {
    [Set("set $" + ServiceIdentifier(s), StreamAddress(s, node)),
     Set("proxy_pass", "$" + ServiceIdentifier(s) + ":" + IntToString(s.backendPort))]
  }

  /** The `server` block, in the order the directives are added: access rules, listen and
      logs, certificate, resolver, proxy. */
  function StreamServer(s: TcpService, node: Node, domain: Option<Domain>, selfSigned: string -> SslPair,
                        isIp: string -> bool, logsRoot: string): Conf
  {
    Acl(s.allowedIps, s.blockedIps) + HeadPart(s, logsRoot)
    + SslPart(Certificate(s, domain, selfSigned)) + StreamResolverPart(s, node, isIp)
    + StreamProxyPart(s, node)
  }

  /** The stream file holds the one server block. */
  function StreamConf(s: TcpService, node: Node, domain: Option<Domain>, selfSigned: string -> SslPair,
                      isIp: string -> bool, logsRoot: string): (r: Conf)
    ensures |r| == 1 && r[0].Block? && r[0].key == "server"
  {
    [Block("server", StreamServer(s, node, domain, selfSigned, isIp, logsRoot))]
  }

  /** `/etc/nginx/stream.d/<identifier>.conf`. */
  function StreamFile(s: TcpService): (f: string)
    ensures StartsWith(f, "/etc/nginx/stream.d/n") && EndsWith(f, "_stream.conf")
  {
    var id := ServiceIdentifier(s);
    assert "/etc/nginx/stream.d/" + id + ".conf" == "/etc/nginx/stream.d/" + (id + ".conf");
    "/etc/nginx/stream.d/" + id + ".conf"
  }

  /** Services with different node or id never share a stream file. */
  lemma StreamFileInjective(a: TcpService, b: TcpService)
    requires StreamFile(a) == StreamFile(b)
    ensures a.nodeId == b.nodeId && a.id == b.id
  {
    var prefix := "/etc/nginx/stream.d/";
    var fa, fb := StreamFile(a), StreamFile(b);
    var ia, ib := ServiceIdentifier(a), ServiceIdentifier(b);
    assert |ia| == |ib|;
    assert fa[|prefix|..|fa| - 5] == ia;
    assert fb[|prefix|..|fb| - 5] == ib;
    IdentifierInjective(a.nodeId, a.id, b.nodeId, b.id);
  }

  /** Blocked addresses are denied first; `deny all` closes the rules exactly when some
      address is allowed or `all` is blocked. */
  lemma StreamAccessRules(s: TcpService, node: Node, domain: Option<Domain>, selfSigned: string -> SslPair,
                          isIp: string -> bool, logsRoot: string)
    ensures var r := StreamServer(s, node, domain, selfSigned, isIp, logsRoot);
      && (forall i :: 0 <= i < |s.blockedIps| ==> r[i] == Set("deny", s.blockedIps[i]))
      && (forall j :: 0 <= j < |s.allowedIps| ==> r[|s.blockedIps| + j] == Set("allow", s.allowedIps[j]))
      && (|s.allowedIps| > 0 ==> r[|s.blockedIps| + |s.allowedIps|] == Set("deny", "all"))
      && (|s.allowedIps| == 0 && |s.blockedIps| == 0 ==> r[0] == Set("listen", ListenValue(s)))
  {
    var acl := Acl(s.allowedIps, s.blockedIps);
    var rest := HeadPart(s, logsRoot) + SslPart(Certificate(s, domain, selfSigned))
                + StreamResolverPart(s, node, isIp) + StreamProxyPart(s, node);
    assert StreamServer(s, node, domain, selfSigned, isIp, logsRoot) == acl + rest;
    AclThenRest(s.allowedIps, s.blockedIps, rest);
    assert rest[0] == HeadPart(s, logsRoot)[0];
  }

  /** An SSL service carries exactly one certificate, as `Certificate` picks it; a plain
      one none. */
  lemma StreamCertificate(s: TcpService, node: Node, domain: Option<Domain>, selfSigned: string -> SslPair,
                          isIp: string -> bool, logsRoot: string)
    ensures s.ssl ==>
      && Certificate(s, domain, selfSigned).Some?
      && Set("ssl_certificate", Certificate(s, domain, selfSigned).value.certificate)
           in StreamServer(s, node, domain, selfSigned, isIp, logsRoot)
      && Set("ssl_certificate_key", Certificate(s, domain, selfSigned).value.key)
           in StreamServer(s, node, domain, selfSigned, isIp, logsRoot)
    ensures forall e :: (e in StreamServer(s, node, domain, selfSigned, isIp, logsRoot) && e.key == "ssl_certificate"
      ==> s.ssl && Certificate(s, domain, selfSigned).Some?
          && e == Set("ssl_certificate", Certificate(s, domain, selfSigned).value.certificate))
  {
    var acl := Acl(s.allowedIps, s.blockedIps);
    var head := HeadPart(s, logsRoot);
    var ssl := SslPart(Certificate(s, domain, selfSigned));
    var tail := StreamResolverPart(s, node, isIp) + StreamProxyPart(s, node);
    var r := StreamServer(s, node, domain, selfSigned, isIp, logsRoot);
    assert r == acl + head + ssl + tail;
    if s.ssl {
      assert ssl[0] in r && ssl[1] in r;
    }
    forall e | e in r && e.key == "ssl_certificate"
      ensures s.ssl && e == Set("ssl_certificate", Certificate(s, domain, selfSigned).value.certificate)
    {
      if e in acl {
        AclKeys(s.allowedIps, s.blockedIps);
      }
    }
  }

  /** A resolver is set exactly for a gateway backend named by host name, and the proxy
      target is the service's variable and backend port. */
  lemma StreamResolverAndTarget(s: TcpService, node: Node, domain: Option<Domain>, selfSigned: string -> SslPair,
                                isIp: string -> bool, logsRoot: string)
    ensures var r := StreamServer(s, node, domain, selfSigned, isIp, logsRoot);
      && (Set("resolver_timeout", "3s") in r <==> StreamNeedsResolver(s, node, isIp))
      && r[|r| - 2] == Set("set $" + ServiceIdentifier(s), StreamAddress(s, node))
      && r[|r| - 1] == Set("proxy_pass", "$" + ServiceIdentifier(s) + ":" + IntToString(s.backendPort))
  {
    var t := Set("resolver_timeout", "3s");
    AclKeys(s.allowedIps, s.blockedIps);
    assert ("set $" + ServiceIdentifier(s))[0] == 's';
    assert "resolver_timeout"[0] == 'r';
    assert t !in HeadPart(s, logsRoot);
    assert t !in SslPart(Certificate(s, domain, selfSigned));
    assert t !in StreamProxyPart(s, node);
  }

  /** `create(service, restart)`: a disabled service writes nothing and only reloads when
      asked (the result is null); an enabled one writes its stream file and runs the
      test-then-reload step. */
  function Create(p: Proxy, s: TcpService, node: Node, domain: Option<Domain>, selfSigned: string -> SslPair,
                  isIp: string -> bool, logsRoot: string, restart: bool, testPasses: bool): (r: (Proxy, Option<bool>))
    ensures !s.enabled ==> r == (ReloadIf(p, restart), None)
    ensures s.enabled ==> r.1 == Some(testPasses)
    ensures s.enabled && testPasses ==>
      r.0 == ReloadIf(Save(p, StreamFile(s), StreamConf(s, node, domain, selfSigned, isIp, logsRoot)), restart)
    ensures s.enabled && !testPasses ==> StreamFile(s) !in r.0.files && r.0.reloads == p.reloads
  {
    if !s.enabled then (ReloadIf(p, restart), None)
    else
      var file := StreamFile(s);
      var (q, ok) := CheckAndReload(Save(p, file, StreamConf(s, node, domain, selfSigned, isIp, logsRoot)),
                                    file, restart, testPasses);
      (q, Some(ok))
  }

  /** `remove(service, restart)`; the connection reset acts on the firewall. */
  function Remove(p: Proxy, s: TcpService, restart: bool): (r: Proxy)
    ensures r.files == p.files - {StreamFile(s)}
    ensures r.reloads == p.reloads + (if restart then 1 else 0)
  {
    ReloadIf(RemoveFile(p, StreamFile(s)), restart)
  }

  /** Removing a service undoes its creation and leaves every other service's stream file
      as it was. */
  lemma RemoveUndoesCreate(p: Proxy, s: TcpService, t: TcpService, node: Node, domain: Option<Domain>,
                           selfSigned: string -> SslPair, isIp: string -> bool, logsRoot: string)
    requires s.enabled && (t.nodeId != s.nodeId || t.id != s.id) && StreamFile(t) in p.files
    ensures var created := Create(p, s, node, domain, selfSigned, isIp, logsRoot, false, true).0;
      && StreamFile(s) in created.files
      && Remove(created, s, false).files == p.files - {StreamFile(s)}
      && StreamFile(t) in Remove(created, s, false).files
      && Remove(created, s, false).files[StreamFile(t)] == p.files[StreamFile(t)]
  {
    if StreamFile(t) == StreamFile(s) {
      StreamFileInjective(t, s);
    }
  }
}

=== FILE: nodemonitor.dfy ===
/** The ping monitor (`src/providers/node-monitor.ts`): a cache of the last ping of
    every enabled node, refreshed by a timer, and the start/stop lifecycle of that
    timer.

    The timer's ticks, the node query and `Net.isReachable` are outside the model: a
    tick is given the enabled nodes' addresses and, for each, the outcome of its probe
    (reachability and the clock readings around it). */
module NodeMonitor {
  import opened Wrappers

  /** `PingResult`; `lastPingTs` is null until the address has answered once. */
  datatype PingResult = PingResult(lastPingTs: Option<int>, reachable: bool, latency: int)

  type Cache = map<string, PingResult>

  /** One probe: whether it answered, and `Date.now()` before and after it. */
  datatype Probe = Probe(reachable: bool, startMs: int, endMs: int)

  /** `getPing`: the cached entry, or null for an address never probed. */
  function GetPing(cache: Cache, address: string): (r: Option<PingResult>)
    ensures r.Some? <==> address in cache
    ensures r.Some? ==> r.value == cache[address]
  {
    if address in cache then Some(cache[address]) else None
  }

  /** `prevPing?.lastPingTs || null`: a missing entry, a null and a zero timestamp all
      become null. */
  function PreviousTimestamp(prev: Option<PingResult>): Option<int> {
    if prev.Some? && prev.value.lastPingTs.Some? && prev.value.lastPingTs.value != 0
    then prev.value.lastPingTs
    else None
  }

  /** The entry written for one node after its probe. The source reads the clock twice
      after the probe, once for the new timestamp and once for the end of the latency
      interval; the model takes both readings as the probe's one end time. */
  function Record(cache: Cache, address: string, probe: Probe): (r: Cache)
    ensures r.Keys == cache.Keys + {address}
    ensures forall a :: a in cache && a != address ==> r[a] == cache[a]
  {
    var prev := GetPing(cache, address);
    cache[address := PingResult(
      if probe.reachable then Some(probe.endMs) else PreviousTimestamp(prev),
      probe.reachable,
      probe.endMs - probe.startMs)]
  }

  /** The entry after a probe reports the probe's outcome; its timestamp is the probe's
      when it answered, and otherwise the one already recorded (null if none). */
  lemma RecordedEntry(cache: Cache, address: string, probe: Probe)
    ensures var e := Record(cache, address, probe)[address];
      && e.reachable == probe.reachable
      && e.latency == probe.endMs - probe.startMs
      && (probe.reachable ==> e.lastPingTs == Some(probe.endMs))
      && (!probe.reachable ==> e.lastPingTs == PreviousTimestamp(GetPing(cache, address)))
  {
  }

  /** A failed probe never erases a timestamp recorded earlier. */
  lemma FailedProbeKeepsTimestamp(cache: Cache, address: string, probe: Probe)
    requires !probe.reachable
    requires address in cache && cache[address].lastPingTs.Some?
    requires cache[address].lastPingTs.value != 0
    ensures Record(cache, address, probe)[address].lastPingTs == cache[address].lastPingTs
  {
  }

  /** One tick of the timer: every enabled node's address is probed and recorded. */
  function Tick(cache: Cache, enabled: seq<string>, probe: string -> Probe): Cache
    decreases |enabled|
  {
    if |enabled| == 0 then cache
    else Tick(Record(cache, enabled[0], probe(enabled[0])), enabled[1..], probe)
  }

  /** A tick adds exactly the enabled addresses and leaves every other entry alone. */
  lemma {:induction false} TickTouchesOnlyEnabled(cache: Cache, enabled: seq<string>, probe: string -> Probe)
    ensures Tick(cache, enabled, probe).Keys == cache.Keys + set a | a in enabled
    ensures forall a :: a in cache && a !in enabled ==> Tick(cache, enabled, probe)[a] == cache[a]
    decreases |enabled|
  {
    if |enabled| > 0 {
      TickTouchesOnlyEnabled(Record(cache, enabled[0], probe(enabled[0])), enabled[1..], probe);
      assert forall a :: a in enabled <==> a == enabled[0] || a in enabled[1..];
    }
  }

  /** Starting from an empty cache, `getPing` is null exactly for the addresses no tick
      has probed. */
  lemma NeverProbedIsNull(enabled: seq<string>, probe: string -> Probe, address: string)
    ensures GetPing(Tick(map[], enabled, probe), address).None? <==> address !in enabled
  {
    TickTouchesOnlyEnabled(map[], enabled, probe);
  }

  /** The timer state: the installed interval (a handle), the `running` flag, and the
      set of timers alive in the runtime. */
  datatype Monitor = Monitor(interval: Option<nat>, running: bool, alive: set<nat>, nextHandle: nat)

  const Stopped: Monitor := Monitor(None, false, {}, 0)

  /** `startPing`: a no-op while an interval is installed (or `running` is set);
      otherwise it installs a new interval, and `finally` resets `running` at once. */
  function StartPing(m: Monitor): (r: Monitor)
    ensures !m.running ==> !r.running
    ensures m.interval.Some? ==> r == m
    ensures m.interval.None? && !m.running ==> r.interval.Some?
  {
    if m.interval.Some? || m.running then m
    else
      var h := m.nextHandle;
      Monitor(Some(h), false, m.alive + {h}, m.nextHandle + 1)
  }

  /** `stopPing`: clears the installed interval, if any. */
  function StopPing(m: Monitor): (r: Monitor)
    ensures r.interval.None? && r.running == m.running
    ensures m.interval.Some? ==> m.interval.value !in r.alive
  {
    match m.interval
    case None => m
    case Some(h) => Monitor(None, m.running, m.alive - {h}, m.nextHandle)
  }

  datatype Call = Start | Stop

  function Run(m: Monitor, calls: seq<Call>): Monitor
    decreases |calls|
  {
    if |calls| == 0 then m
    else Run(if calls[0] == Start then StartPing(m) else StopPing(m), calls[1..])
  }

  /** The only timers alive are the installed interval, and `running` is never left set:
      the handle alone guards against a second timer. */
  predicate Consistent(m: Monitor) {
    && !m.running
    && m.alive == (if m.interval.Some? then {m.interval.value} else {})
    && (forall h :: h in m.alive ==> h < m.nextHandle)
  }

  lemma StepConsistent(m: Monitor, c: Call)
    requires Consistent(m)
    ensures Consistent(if c == Start then StartPing(m) else StopPing(m))
  {
  }

  /** Whatever sequence of starts and stops, at most one timer is ever alive. */
  lemma {:induction false} AtMostOneTimer(m: Monitor, calls: seq<Call>)
    requires Consistent(m)
    ensures Consistent(Run(m, calls)) && |Run(m, calls).alive| <= 1
    decreases |calls|
  {
    if |calls| > 0 {
      StepConsistent(m, calls[0]);
      AtMostOneTimer(if calls[0] == Start then StartPing(m) else StopPing(m), calls[1..]);
    } else {
      if m.interval.Some? {
        assert m.alive == {m.interval.value};
      }
    }
  }

  lemma FromStoppedAtMostOneTimer(calls: seq<Call>)
    ensures |Run(Stopped, calls).alive| <= 1
  {
    AtMostOneTimer(Stopped, calls);
  }

  /** Starting twice installs one timer; stopping and starting again installs a fresh
      one. */
  lemma StartIsIdempotent(m: Monitor)
    requires Consistent(m)
    ensures StartPing(StartPing(m)) == StartPing(m)
  {
  }

  lemma StopThenStartReinstalls(m: Monitor)
    requires Consistent(m)
    ensures StartPing(StopPing(m)).interval.Some?
    ensures m.interval.Some? ==> StartPing(StopPing(m)).interval != m.interval
  {
  }
}

=== FILE: nodevalidators.dfy ===
/** The node request rules (`src/validators/node-validators.ts`): gateway subnets must not
    hold the hub's own WireGuard address, a gateway's interfaces must be distinct, and the
    keepalive, address and gateway-network fields of a new node.

    The hub's WireGuard address (`Net.getWireguardIP()`), Joi's IP checks and
    `IP_CIDR.belongsToSubnet` are parameters. */
module NodeValidators {
  import opened Wrappers
  import opened Records

  /** The hub's address is a valid IP inside the subnet. */
  predicate HoldsHub(subnet: string, wgIp: string, isValidIp: string -> bool,
                     belongs: (string, string) -> bool) {
    isValidIp(wgIp) && belongs(wgIp, subnet)
  }

  /** `validateSubnet`: the empty value passes, a subnet holding the hub is refused, and
      anything else comes back unchanged. */
  function ValidateSubnet(c: string, wgIp: string, isValidIp: string -> bool,
                          belongs: (string, string) -> bool): (r: Result<string>)
    ensures r.Ok? ==> r.value == c
    ensures r.Err? <==> c != "" && HoldsHub(c, wgIp, isValidIp, belongs)
    ensures r.Err? ==> r.error.Invalid? && r.error.field == "gatewayNetwork"
  {
    if c != "" && HoldsHub(c, wgIp, isValidIp, belongs) then
      Err(Invalid("gatewayNetwork", "Gateway subnet shouldn't include Wiredoor IP"))
    else Ok(c)
  }

  /** What `validateGatewayNetworks` decides: the list back, or the index of the first
      entry whose interface repeats an earlier one or whose subnet holds the hub. */
  datatype NetworksVerdict =
    | Valid(networks: seq<GatewayNetwork>)
    | DuplicateInterface(index: nat, iface: string)
    | IncludesHub(index: nat)

  /** Entry `i` repeats the interface of an earlier entry. */
  predicate RepeatsInterface(networks: seq<GatewayNetwork>, i: nat)
    requires i < |networks|
  {
    exists j :: 0 <= j < i && networks[j].iface == networks[i].iface
  }

  /** Entry `i` fails either check. */
  predicate BadEntry(networks: seq<GatewayNetwork>, i: nat, wgIp: string, isValidIp: string -> bool,
                     belongs: (string, string) -> bool)
    requires i < |networks|
  {
    RepeatsInterface(networks, i) || HoldsHub(networks[i].subnet, wgIp, isValidIp, belongs)
  }

  /** `validateGatewayNetworks`: entries are checked in order, the duplicate check before
      the subnet check of the same entry; the first failure is reported. */
  method ValidateGatewayNetworks(networks: seq<GatewayNetwork>, wgIp: string, isValidIp: string -> bool,
                                 belongs: (string, string) -> bool)
    returns (r: NetworksVerdict)
    ensures r.Valid? <==> forall i :: 0 <= i < |networks| ==> !BadEntry(networks, i, wgIp, isValidIp, belongs)
    ensures r.Valid? ==> r.networks == networks
    ensures r.Valid? ==> forall i, j :: 0 <= i < j < |networks| ==> networks[i].iface != networks[j].iface
    ensures r.DuplicateInterface? ==>
      && r.index < |networks| && RepeatsInterface(networks, r.index)
      && r.iface == networks[r.index].iface
      && forall j :: 0 <= j < r.index ==> !BadEntry(networks, j, wgIp, isValidIp, belongs)
    ensures r.IncludesHub? ==>
      && r.index < |networks| && !RepeatsInterface(networks, r.index)
      && HoldsHub(networks[r.index].subnet, wgIp, isValidIp, belongs)
      && forall j :: 0 <= j < r.index ==> !BadEntry(networks, j, wgIp, isValidIp, belongs)
  {
    var seen: set<string> := {};
    var k := 0;
    while k < |networks|
      invariant 0 <= k <= |networks|
      invariant seen == set j | 0 <= j < k :: networks[j].iface
      invariant forall j :: 0 <= j < k ==> !BadEntry(networks, j, wgIp, isValidIp, belongs)
    {
      var net := networks[k];
      if net.iface in seen {
        var j :| 0 <= j < k && networks[j].iface == net.iface;
        assert RepeatsInterface(networks, k);
        assert BadEntry(networks, k, wgIp, isValidIp, belongs);
        return DuplicateInterface(k, net.iface);
      }
      seen := seen + {net.iface};
      if HoldsHub(net.subnet, wgIp, isValidIp, belongs) {
        assert BadEntry(networks, k, wgIp, isValidIp, belongs);
        return IncludesHub(k);
      }
      k := k + 1;
    }
    r := Valid(networks);
    forall i, j | 0 <= i < j < |networks| ensures networks[i].iface != networks[j].iface {
      assert !BadEntry(networks, j, wgIp, isValidIp, belongs);
      assert !RepeatsInterface(networks, j);
    }
  }

  /** `keepalive`: an integer from 0 to 120, 25 when absent. */
  function Keepalive(k: Option<int>): (r: Result<int>)
    ensures r.Ok? ==> 0 <= r.value <= 120
    ensures k.None? ==> r == Ok(25)
    ensures k.Some? ==> (r.Ok? <==> 0 <= k.value <= 120) && (r.Ok? ==> r.value == k.value)
  {
    match k
    case None => Ok(25)
    case Some(v) =>
      if 0 <= v <= 120 then Ok(v) else Err(Invalid("keepalive", "Persistent Keepalive must be between 0 and 120"))
  }

  /** `address`: absent, '' or an IPv4 address without a prefix length. */
  predicate AddressAllowed(address: Option<string>, isIpv4: string -> bool) {
    address.None? || address.value == "" || isIpv4(address.value)
  }

  /** The address may be absent or '', and any other value must pass the IPv4 check,
      which refuses a prefix length. */
  lemma AddressRule(address: string, isIpv4: string -> bool)
    ensures AddressAllowed(None, isIpv4) && AddressAllowed(Some(""), isIpv4)
    ensures address != "" ==> (AddressAllowed(Some(address), isIpv4) <==> isIpv4(address))
  {
  }

  /** `gatewayNetworks` before the external check: required (with interface and CIDR
      subnet on every entry) for a gateway, and null or absent for any other node. */
  predicate GatewayNetworksShape(isGateway: Option<bool>, networks: Option<seq<GatewayNetwork>>,
                                 isCidr: string -> bool) {
    if isGateway == Some(true) then
      && networks.Some?
      && forall i :: 0 <= i < |networks.value| ==> networks.value[i].iface != "" && isCidr(networks.value[i].subnet)
    else networks.None?
  }

  /** The whole `gatewayNetworks` rule: the shape, then `validateGatewayNetworks` on the
      list of a gateway. */
  method CheckGatewayNetworks(isGateway: Option<bool>, networks: Option<seq<GatewayNetwork>>,
                              isCidr: string -> bool, wgIp: string, isValidIp: string -> bool,
                              belongs: (string, string) -> bool)
    returns (ok: bool)
    ensures ok ==> GatewayNetworksShape(isGateway, networks, isCidr)
    ensures ok && isGateway != Some(true) ==> networks.None?
    ensures ok && isGateway == Some(true) ==>
      forall i :: 0 <= i < |networks.value| ==> !BadEntry(networks.value, i, wgIp, isValidIp, belongs)
    ensures !ok ==>
      || !GatewayNetworksShape(isGateway, networks, isCidr)
      || (isGateway == Some(true) && exists i :: 0 <= i < |networks.value| && BadEntry(networks.value, i, wgIp, isValidIp, belongs))
  {
    if !GatewayNetworksShape(isGateway, networks, isCidr) {
      return false;
    }
    if isGateway != Some(true) {
      return true;
    }
    var v := ValidateGatewayNetworks(networks.value, wgIp, isValidIp, belongs);
    ok := v.Valid?;
  }
}

=== FILE: queryfilter.dfy ===
/** The list queries behind the REST listings: `RepositoryQueryFilter.apply`
    (`api/src/repositories/filters/repository-query-filter.ts`) and its two filters,
    `NodeQueryFilter` (`src/repositories/filters/node-query-filter.ts`) and
    `TcpServiceQueryFilter` (`src/repositories/filters/tcp-service-query-filter.ts`).

    The query builder is a value: the relations joined, the condition set by the last
    `.where` (TypeORM's `where` replaces any earlier one) and the ordering. A filter method
    that returns nothing leaves the filter without a builder, and the request fails at the
    builder's next use. */
module QueryFilter {
  import opened Wrappers
  import opened Strings
  import opened JsNumber

  /** A value of the filter object, as a query string or a request body gives it. */
  datatype Arg = Undefined | Null | Text(s: string) | Number(n: int) | Texts(items: seq<string>)

  predicate Truthy(a: Arg) {
    match a
    case Undefined => false
    case Null => false
    case Text(s) => s != ""
    case Number(n) => n != 0
    case Texts(_) => true
  }

  /** The filter object's entries in order; an object has each key once. */
  type Filters = seq<(string, Arg)>

  predicate UniqueKeys(filters: Filters) {
    forall i, j :: 0 <= i < j < |filters| ==> filters[i].0 != filters[j].0
  }

  /** `filters[key]`. */
  function Get(filters: Filters, key: string): (a: Arg)
    ensures a != Undefined ==> exists i :: 0 <= i < |filters| && filters[i] == (key, a)
  {
    if |filters| == 0 then Undefined
    else if filters[0].0 == key then filters[0].1
    else Get(filters[1..], key)
  }

  datatype Value = Given(arg: Arg) | Flag(b: bool)

  datatype Condition = Equals(field: string, value: Value) | NotEmpty(field: string)

  datatype Order = Order(field: string, direction: string)

  datatype Builder = Builder(joins: seq<string>, condition: Option<Condition>, order: Option<Order>)

  /** How the rows are fetched in the end. */
  datatype Fetch =
    | One(b: Builder)
    | Paged(b: Builder, skip: int, take: int, page: int, limit: int)
    | Many(b: Builder)

  datatype Outcome = Fetched(fetch: Fetch) | Crashed

  /** The two filters. */
  datatype Kind = NodeFilter | TcpServiceFilter

  function FilterMethods(kind: Kind): seq<string> {
    match kind
    case NodeFilter => ["type", "wgInterface"]
    case TcpServiceFilter => ["nodeId", "domain"]
  }

  /** The other methods a key can name on the filter object: the base class's own and
      those every object inherits. Calling any of them with the filter's value leaves no
      usable builder behind. */
  const OtherMethods: seq<string> := [
    "constructor", "initBuilder", "before", "allowedRelations", "apply", "applyRelations",
    "applyOrdering", "finish", "toString", "toLocaleString", "valueOf", "hasOwnProperty",
    "isPrototypeOf", "propertyIsEnumerable", "__defineGetter__", "__defineSetter__",
    "__lookupGetter__", "__lookupSetter__"]

  /** `allowedRelations`: none for nodes, only `node` for TCP services. */
  function AllowedRelations(kind: Kind): seq<string> {
    match kind
    case NodeFilter => []
    case TcpServiceFilter => ["node"]
  }

  /** `applyRelations`: only an array of relation names counts, and of it only the allowed
      names, each joined in the order given. */
  function JoinAllowed(relations: seq<string>, allowed: seq<string>): (joins: seq<string>)
    ensures forall r :: r in joins <==> r in relations && r in allowed
    ensures |joins| <= |relations|
  {
    if |relations| == 0 then []
    else (if relations[0] in allowed then [relations[0]] else []) + JoinAllowed(relations[1..], allowed)
  }

  function ApplyRelations(kind: Kind, filters: Filters, b: Builder): (r: Builder)
    ensures r.condition == b.condition && r.order == b.order
    ensures Get(filters, "relations").Texts? ==>
      r.joins == b.joins + JoinAllowed(Get(filters, "relations").items, AllowedRelations(kind))
    ensures !Get(filters, "relations").Texts? ==> r == b
  {
    match Get(filters, "relations")
    case Texts(relations) => b.(joins := b.joins + JoinAllowed(relations, AllowedRelations(kind)))
    case _ => b
  }

  /** The condition a filter method sets, or `None` where it returns nothing. */
  function FilterCondition(kind: Kind, name: string, a: Arg): Option<Condition>
    requires name in FilterMethods(kind)
  {
    match kind
    case NodeFilter =>
      if name == "type" then
        if Truthy(a) then Some(Equals("isGateway", Flag(a == Text("gateways")))) else None
      else
        if a == Undefined then None
        else if Truthy(a) then Some(Equals("wgInterface", Given(a)))
        else Some(NotEmpty("wgInterface"))
    case TcpServiceFilter =>
      if name == "nodeId" then
        if a == Undefined || a == Null then None else Some(Equals("nodeId", Given(a)))
      else
        if Truthy(a) then Some(Equals("domain", Given(a))) else None
  }

  /** `type`: 'gateways' selects gateways, any other truthy value the other nodes, and a
      falsy value sets nothing. */
  lemma NodeTypeCondition(a: Arg)
    ensures FilterCondition(NodeFilter, "type", Text("gateways")) == Some(Equals("isGateway", Flag(true)))
    ensures Truthy(a) && a != Text("gateways") ==>
      FilterCondition(NodeFilter, "type", a) == Some(Equals("isGateway", Flag(false)))
    ensures !Truthy(a) ==> FilterCondition(NodeFilter, "type", a).None?
  {
  }

  /** `wgInterface`: a name selects it, the empty name selects nodes with some interface,
      and an absent value sets nothing. */
  lemma WgInterfaceCondition(name: string)
    ensures name != "" ==>
      FilterCondition(NodeFilter, "wgInterface", Text(name)) == Some(Equals("wgInterface", Given(Text(name))))
    ensures FilterCondition(NodeFilter, "wgInterface", Text("")) == Some(NotEmpty("wgInterface"))
    ensures FilterCondition(NodeFilter, "wgInterface", Undefined).None?
  {
  }

  /** `nodeId` filters on any value but null and absence, 0 included; `domain` only on a
      truthy one, so the empty domain sets nothing. */
  lemma TcpServiceConditions()
    ensures FilterCondition(TcpServiceFilter, "nodeId", Number(0)) == Some(Equals("nodeId", Given(Number(0))))
    ensures FilterCondition(TcpServiceFilter, "nodeId", Null).None?
    ensures FilterCondition(TcpServiceFilter, "domain", Text("")).None?
    ensures FilterCondition(TcpServiceFilter, "domain", Null).None?
  {
  }

  /** One entry of the loop in `apply`, as written: a filter method's condition replaces the
      builder's, a method that sets nothing or any other method leaves no builder, and a
      key that names no method is skipped. */
  function Invoke(kind: Kind, b: Option<Builder>, key: string, a: Arg): Option<Builder> {
    if key in FilterMethods(kind) then
      if b.None? then None
      else
        match FilterCondition(kind, key, a)
        case None => None
        case Some(c) => Some(b.value.(condition := Some(c)))
    else if key in OtherMethods then None
    else b
  }

  function RunFilters(kind: Kind, b: Option<Builder>, entries: Filters): Option<Builder>
    decreases |entries|
  {
    if |entries| == 0 then b
    else RunFilters(kind, Invoke(kind, b, entries[0].0, entries[0].1), entries[1..])
  }

  /** An order `applyOrdering` can use: a string whose second comma-separated piece
      upper-cases to one of the two directions TypeORM's `orderBy` accepts. */
  predicate UsableOrder(a: Arg) {
    a.Text? && |Split(a.s, ',')| >= 2 && ToUpper(Split(a.s, ',')[1]) in {"ASC", "DESC"}
  }

  /** `applyOrdering`: 'field,dir' orders by the field in the upper-cased direction. An
      order that is not a string, holds no comma, or names another direction fails:
      TypeORM's `orderBy` throws for any direction but "ASC" and "DESC". */
  function ApplyOrdering(filters: Filters, b: Builder): (r: Option<Builder>)
    ensures !Truthy(Get(filters, "orderBy")) ==> r == Some(b)
    ensures r.Some? ==> r.value.joins == b.joins && r.value.condition == b.condition
    ensures Truthy(Get(filters, "orderBy")) ==> (r.Some? <==> UsableOrder(Get(filters, "orderBy")))
    ensures Truthy(Get(filters, "orderBy")) && r.Some? ==>
      && ',' in Get(filters, "orderBy").s
      && r.value.order.Some? && r.value.order.value.direction in {"ASC", "DESC"}
  {
    var orderBy := Get(filters, "orderBy");
    if !Truthy(orderBy) then Some(b)
    else if !orderBy.Text? then None
    else
      var parts := Split(orderBy.s, ',');
      SplitNoSepFromParts(orderBy.s);
      if |parts| < 2 then None
      else if ToUpper(parts[1]) !in {"ASC", "DESC"} then None
      else Some(b.(order := Some(Order(parts[0], ToUpper(parts[1])))))
  }

  /** 'field,dir' orders by the field when the direction upper-cases to ASC or DESC, in
      whatever case it was written, and fails the request otherwise. */
  lemma OrderDirections(field: string, dir: string, b: Builder)
    requires ',' !in field && ',' !in dir
    ensures ToUpper(dir) in {"ASC", "DESC"} ==>
      ApplyOrdering([("orderBy", Text(field + "," + dir))], b) == Some(b.(order := Some(Order(field, ToUpper(dir)))))
    ensures ToUpper(dir) !in {"ASC", "DESC"} ==> ApplyOrdering([("orderBy", Text(field + "," + dir))], b).None?
  {
    var f := [("orderBy", Text(field + "," + dir))];
    assert Get(f, "orderBy") == Text(field + "," + dir);
    SplitPair(field, dir);
  }

  /** Two pieces without a comma, joined by one, split back into those two pieces. */
  lemma SplitPair(a: string, c: string)
    requires ',' !in a && ',' !in c
    ensures Split(a + "," + c, ',') == [a, c]
  {
    SplitPrefix(a, ',', c);
    SplitNoSep(c, ',');
  }

  /** A string splits into two or more pieces exactly when it holds the separator. */
  lemma SplitNoSepFromParts(s: string)
    ensures |Split(s, ',')| >= 2 <==> ',' in s
  {
    if ',' in s {
      var i :| 0 <= i < |s| && s[i] == ',';
      SplitAt(s, i);
    } else {
      SplitNoSep(s, ',');
    }
  }

  lemma {:induction false} SplitAt(s: string, i: nat)
    requires i < |s| && s[i] == ','
    ensures |Split(s, ',')| >= 2
    decreases i
  {
    if i > 0 && s[0] != ',' {
      SplitAt(s[1..], i - 1);
    }
  }

  /** `+x || fallback`: the number the value converts to, unless that is NaN or 0. */
  function NumberOr(a: Arg, fallback: int): (r: int)
    ensures a.Number? && a.n != 0 ==> r == a.n
    ensures a == Undefined || a == Null ==> r == fallback
  {
    var x := match a
      case Undefined => NaN
      case Null => Num(0)
      case Number(n) => Num(n)
      case Text(s) => NumberOf(s)
      case Texts(items) => if |items| == 0 then Num(0) else if |items| == 1 then NumberOf(items[0]) else NaN;
    if x.NaN? || x.n == 0 then fallback else x.n
  }

  /** `finish`: one row for a truthy id; a page for a truthy limit, page 1 and limit 12
      standing in for missing or unusable values; every row otherwise. */
  function Finish(filters: Filters, b: Builder): (f: Fetch)
    ensures f.b == b
    ensures Truthy(Get(filters, "id")) <==> f.One?
    ensures f.Paged? <==> !Truthy(Get(filters, "id")) && Truthy(Get(filters, "limit"))
    ensures f.Paged? ==>
      && f.page == NumberOr(Get(filters, "page"), 1) && f.limit == NumberOr(Get(filters, "limit"), 12)
      && f.page != 0 && f.limit != 0
      && f.skip == (f.page - 1) * f.limit && f.take == f.limit
  {
    if Truthy(Get(filters, "id")) then One(b)
    else if Truthy(Get(filters, "limit")) then
      var page := NumberOr(Get(filters, "page"), 1);
      var limit := NumberOr(Get(filters, "limit"), 12);
      Paged(b, (page - 1) * limit, limit, page, limit)
    else Many(b)
  }

  /** `apply` as written: relations, then every filter key in order, then ordering, then
      the fetch; a step that leaves no builder fails the request. */
  function Apply(kind: Kind, filters: Filters): Outcome {
    var b := ApplyRelations(kind, filters, Builder([], None, None));
    match RunFilters(kind, Some(b), filters)
    case None => Crashed
    case Some(b') =>
      match ApplyOrdering(filters, b')
      case None => Crashed
      case Some(b'') => Fetched(Finish(filters, b''))
  }

  /** The loop entry with a filter method that sets nothing keeping the builder as it is. */
  function InvokeFixed(kind: Kind, b: Option<Builder>, key: string, a: Arg): Option<Builder> {
    if key in FilterMethods(kind) then
      if b.None? then None
      else
        match FilterCondition(kind, key, a)
        case None => b
        case Some(c) => Some(b.value.(condition := Some(c)))
    else if key in OtherMethods then None
    else b
  }

  function RunFiltersFixed(kind: Kind, b: Option<Builder>, entries: Filters): Option<Builder>
    decreases |entries|
  {
    if |entries| == 0 then b
    else RunFiltersFixed(kind, InvokeFixed(kind, b, entries[0].0, entries[0].1), entries[1..])
  }

  /** `apply` with filter methods that set nothing returning the builder unchanged. */
  function ApplyFixed(kind: Kind, filters: Filters): Outcome {
    var b := ApplyRelations(kind, filters, Builder([], None, None));
    match RunFiltersFixed(kind, Some(b), filters)
    case None => Crashed
    case Some(b') =>
      match ApplyOrdering(filters, b')
      case None => Crashed
      case Some(b'') => Fetched(Finish(filters, b''))
  }

  /** No key names one of the other methods. */
  predicate NoOtherMethodKeys(filters: Filters) {
    forall i :: 0 <= i < |filters| ==> filters[i].0 !in OtherMethods
  }

  /** The condition left by the filter keys: the last one set. */
  function LastCondition(kind: Kind, entries: Filters, current: Option<Condition>): Option<Condition> {
    if |entries| == 0 then current
    else
      var next :=
        if entries[0].0 in FilterMethods(kind) && FilterCondition(kind, entries[0].0, entries[0].1).Some?
        then FilterCondition(kind, entries[0].0, entries[0].1) else current;
      LastCondition(kind, entries[1..], next)
  }

  /** In the corrected loop, without keys naming other methods, the builder survives with
      its joins and ordering, and with the condition of the last filter that set one. */
  lemma {:induction false} RunFiltersFixedKeepsBuilder(kind: Kind, b: Builder, entries: Filters)
    requires NoOtherMethodKeys(entries)
    ensures RunFiltersFixed(kind, Some(b), entries)
      == Some(b.(condition := LastCondition(kind, entries, b.condition)))
    decreases |entries|
  {
    if |entries| > 0 {
      var next := InvokeFixed(kind, Some(b), entries[0].0, entries[0].1);
      assert next.Some?;
      assert NoOtherMethodKeys(entries[1..]) by {
        forall i | 0 <= i < |entries[1..]| ensures entries[1..][i].0 !in OtherMethods {
          assert entries[1..][i] == entries[i + 1];
        }
      }
      RunFiltersFixedKeepsBuilder(kind, next.value, entries[1..]);
    }
  }

  /** The corrected `apply` fails only on a key naming another method or an unusable
      order; a well-formed request always fetches. */
  lemma ApplyFixedSucceeds(kind: Kind, filters: Filters)
    requires NoOtherMethodKeys(filters)
    requires !Truthy(Get(filters, "orderBy")) || UsableOrder(Get(filters, "orderBy"))
    ensures ApplyFixed(kind, filters).Fetched?
    ensures ApplyFixed(kind, filters).fetch.b.condition == LastCondition(kind, filters, None)
  {
    var b := ApplyRelations(kind, filters, Builder([], None, None));
    RunFiltersFixedKeepsBuilder(kind, b, filters);
  }

  /** As written, a filter key whose value sets no condition fails the whole request:
      `?domain=` on the TCP services, `?type=` on the nodes. */
  lemma EmptyFilterValueFails()
    ensures Apply(TcpServiceFilter, [("domain", Text(""))]) == Crashed
    ensures Apply(NodeFilter, [("type", Text(""))]) == Crashed
    ensures ApplyFixed(TcpServiceFilter, [("domain", Text(""))]) == Fetched(Many(Builder([], None, None)))
    ensures ApplyFixed(NodeFilter, [("type", Text(""))]) == Fetched(Many(Builder([], None, None)))
  {
    assert Get([("domain", Text(""))], "orderBy") == Undefined;
    assert Get([("type", Text(""))], "orderBy") == Undefined;
  }

  /** Two filters do not combine: the second `where` replaces the first. */
  lemma LastWhereWins(wg: string)
    requires wg != ""
    ensures Apply(NodeFilter, [("type", Text("gateways")), ("wgInterface", Text(wg))])
      == Fetched(Many(Builder([], Some(Equals("wgInterface", Given(Text(wg)))), None)))
  {
    var filters := [("type", Text("gateways")), ("wgInterface", Text(wg))];
    var b := Builder([], None, None);
    var first := Some(b.(condition := Some(Equals("isGateway", Flag(true)))));
    var second := b.(condition := Some(Equals("wgInterface", Given(Text(wg)))));
    assert Get(filters, "relations") == Undefined;
    assert ApplyRelations(NodeFilter, filters, b) == b;
    assert Invoke(NodeFilter, Some(b), "type", Text("gateways")) == first;
    assert Invoke(NodeFilter, first, "wgInterface", Text(wg)) == Some(second);
    assert RunFilters(NodeFilter, Some(b), filters) == RunFilters(NodeFilter, first, filters[1..]);
    assert filters[1..][1..] == [];
    assert RunFilters(NodeFilter, first, filters[1..]) == Some(second);
    assert Get(filters, "orderBy") == Undefined;
    assert ApplyOrdering(filters, second) == Some(second);
    assert Get(filters, "id") == Undefined;
    assert Get(filters, "limit") == Undefined;
    assert Finish(filters, second) == Many(second);
  }

  /** Only `node` is ever joined for TCP services, and nothing for nodes. */
  lemma JoinsAreAllowed(kind: Kind, filters: Filters, r: string)
    requires Apply(kind, filters).Fetched?
    requires r in Apply(kind, filters).fetch.b.joins
    ensures r in AllowedRelations(kind)
  {
    var b := ApplyRelations(kind, filters, Builder([], None, None));
    RunFiltersKeepsJoins(kind, Some(b), filters);
  }

  lemma {:induction false} RunFiltersKeepsJoins(kind: Kind, b: Option<Builder>, entries: Filters)
    ensures RunFilters(kind, b, entries).Some? ==> b.Some? && RunFilters(kind, b, entries).value.joins == b.value.joins
    decreases |entries|
  {
    if |entries| > 0 {
      RunFiltersKeepsJoins(kind, Invoke(kind, b, entries[0].0, entries[0].1), entries[1..]);
    }
  }

  /** A page request: `?limit=L&page=P` skips (P - 1) * L rows and takes L. */
  lemma PageOfRows(limit: int, page: int, b: Builder)
    requires limit != 0 && page != 0
    ensures Finish([("limit", Number(limit)), ("page", Number(page))], b)
      == Paged(b, (page - 1) * limit, limit, page, limit)
  {
    var filters := [("limit", Number(limit)), ("page", Number(page))];
    assert Get(filters, "id") == Undefined;
    assert Get(filters, "page") == Number(page);
  }

  /** A limit that is not a number still pages, from page 1 with 12 rows. */
  lemma UnusableLimitFallsBack(s: string, b: Builder)
    requires s != "" && NumberOf(s).NaN?
    ensures Finish([("limit", Text(s))], b) == Paged(b, 0, 12, 1, 12)
  {
    assert Get([("limit", Text(s))], "page") == Undefined;
  }

  /** A truthy id fetches one row of the query as it stands: no condition on the id is
      added. */
  lemma IdAddsNoCondition(id: int)
    requires id != 0
    ensures Apply(NodeFilter, [("id", Number(id))]) == Fetched(One(Builder([], None, None)))
  {
    var filters := [("id", Number(id))];
    var b := Builder([], None, None);
    assert "id" !in FilterMethods(NodeFilter) && "id" !in OtherMethods;
    assert RunFilters(NodeFilter, Some(b), filters) == RunFilters(NodeFilter, Some(b), filters[1..]);
    assert Get(filters, "relations") == Undefined;
    assert Get(filters, "orderBy") == Undefined;
  }
}

=== FILE: records.dfy ===
/** The stored entities the modelled services read (`src/database/models/node.ts`,
    `wg-interface.ts`, the HTTP service and domain entities, whose files are not part of
    this model and whose fields are taken from their uses), and the WireGuard settings
    taken from the environment.

    A string column that may be null is a `string` whose empty value stands for both
    null and '' wherever the code only tests it for truthiness. */
module Records {
  import opened Wrappers

  /** One network routed through a gateway node. */
  datatype GatewayNetwork = GatewayNetwork(iface: string, subnet: string)

  datatype Node = Node(
    id: nat,
    name: string,
    address: string,
    dns: string,
    keepalive: int,
    gatewayNetworks: Option<seq<GatewayNetwork>>,
    wgInterface: string,
    preSharedKey: string,
    publicKey: string,
    privateKey: string,
    allowInternet: bool,
    enabled: bool,
    isGateway: bool,
    isLocal: bool)

  /** A WireGuard interface of the hub (`wg0` by default). */
  datatype WgInterface = WgInterface(
    config: string,
    name: string,
    address: string,
    subnet: string,
    port: string,
    preUp: string,
    postUp: string,
    preDown: string,
    postDown: string,
    publicKey: string,
    privateKey: string)

  /** `config.wireguard`: the public host and port of the hub, and the MTU ('' when
      unset). */
  datatype WireguardSettings = WireguardSettings(host: string, port: string, mtu: string)

  /** A certificate and key pair. */
  datatype SslPair = SslPair(certificate: string, key: string)

  /** A public domain; `oauth2ServicePort` is 0 when no OAuth2 proxy is attached. */
  datatype Domain = Domain(domain: string, ssl: string, sslPair: Option<SslPair>, oauth2ServicePort: int)

  /** An HTTP service: a location of a domain proxied to a node's backend. `identifier`
      is the name of its nginx variable, computed by the entity (not part of this model).
      `expiresAt` is a timestamp in milliseconds, or null. */
  datatype HttpService = HttpService(
    id: nat,
    name: string,
    domain: string,
    pathLocation: string,
    backendHost: string,
    backendPort: int,
    backendProto: string,
    allowedIps: seq<string>,
    blockedIps: seq<string>,
    requireAuth: bool,
    skipAuthRoutes: string,
    enabled: bool,
    expiresAt: Option<int>,
    nodeId: nat,
    identifier: string)

  /** A TCP or UDP service (`src/database/models/tcp-service.ts`): a public port of the hub
      forwarded to a node's backend. */
  datatype TcpService = TcpService(
    id: nat,
    name: string,
    domain: string,
    proto: string,
    backendHost: string,
    backendPort: int,
    port: int,
    ssl: bool,
    nodeId: nat,
    enabled: bool,
    allowedIps: seq<string>,
    blockedIps: seq<string>,
    expiresAt: Option<int>)

  /** Two values of a nullable column that a unique index treats as equal: null (`""`
      here) equals nothing, not even another null, in the indexes of SQLite and MySQL. */
  predicate SameNullable(a: string, b: string) {
    a != "" && a == b
  }
}

=== FILE: sanitizer.dfy ===
/** The log sanitizer (`src/logger/sanitizer.ts`): before a value is logged, the values
    under keys that look secret are masked, at most ten levels deep.

    Values are JSON-like trees; since a tree is immutable, "the same object is returned"
    and "the input is not mutated" both become equalities of values. */
module Sanitizer {
  import opened Wrappers
  import opened Strings

  datatype Json =
    | Null
    | Bool(b: bool)
    | Num(n: int)
    | Str(s: string)
    | Arr(items: seq<Json>)
    | Obj(entries: seq<Entry>)

  datatype Entry = Entry(key: string, value: Json)

  predicate IsObject(v: Json) {
    v.Arr? || v.Obj?
  }

  /** JavaScript truthiness. */
  predicate Truthy(v: Json) {
    match v
    case Null => false
    case Bool(b) => b
    case Num(n) => n != 0
    case Str(s) => s != ""
    case _ => true
  }

  const MaxDepth := 10

  const DefaultSensitiveFields: seq<string> :=
    ["password", "token", "apiKey", "api_key", "secret", "authorization", "auth", "privateKey", "private_key"]

  /** The configured fields, lower-cased. */
  function SensitiveFields(additional: seq<string>): (fields: seq<string>)
    ensures |fields| == |DefaultSensitiveFields| + |additional|
    ensures forall i :: 0 <= i < |fields| ==> fields[i] == ToLower((DefaultSensitiveFields + additional)[i])
  {
    var all := DefaultSensitiveFields + additional;
    seq(|all|, i requires 0 <= i < |all| => ToLower(all[i]))
  }

  /** `isSensitiveField` applied to a lower-cased key: some field occurs in it. */
  predicate IsSensitive(fields: seq<string>, key: string) {
    exists i :: 0 <= i < |fields| && Contains(ToLower(key), fields[i])
  }

  /** Any key containing "auth", in any case, is sensitive under the default fields. */
  lemma AuthInsideKeyIsSensitive(additional: seq<string>, key: string, i: nat)
    requires i + 4 <= |key| && ToLower(key)[i..i + 4] == "auth"
    ensures IsSensitive(SensitiveFields(additional), key)
  {
    AuthField(additional);
    ContainsAt(ToLower(key), "auth", i);
  }

  lemma AuthField(additional: seq<string>)
    ensures |SensitiveFields(additional)| > 6 && SensitiveFields(additional)[6] == "auth"
  {
    var auth := DefaultSensitiveFields[6];
    assert (DefaultSensitiveFields + additional)[6] == auth == "auth";
    assert ToLower(auth) == auth;
  }

  /** `String(value)` for a truthy value. */
  function Show(v: Json): string
    decreases v, 1
  {
    match v
    case Null => "null"
    case Bool(b) => if b then "true" else "false"
    case Num(n) => IntToString(n)
    case Str(s) => s
    case Arr(items) => ShowItems(items, v)
    case Obj(_) => "[object Object]"
  }

  /** The items of an array joined by commas, null showing as nothing. */
  function ShowItems(items: seq<Json>, whole: Json): string
    requires whole.Arr? && |items| <= |whole.items| && items == whole.items[|whole.items| - |items|..]
    decreases whole, 0, |items|
  {
    if |items| == 0 then ""
    else
      assert items[0] == whole.items[|whole.items| - |items|];
      var first := if items[0].Null? then "" else Show(items[0]);
      if |items| == 1 then first else first + "," + ShowItems(items[1..], whole)
  }

  /** The forms `mask` produces. */
  predicate IsMask(s: string) {
    s == "[REDACTED]" || s == "***" || (|s| == 10 && s[2..8] == "******")
  }

  /** `mask`: a falsy value is redacted, a short one starred, and a longer one keeps only its
      first two and last two characters. */
  function Mask(v: Json): (r: string)
    ensures IsMask(r)
    ensures r == "[REDACTED]" <==> !Truthy(v)
    ensures Truthy(v) && |Show(v)| <= 4 ==> r == "***"
    ensures Truthy(v) && |Show(v)| > 4 ==>
      && |r| == 10
      && r[..2] == Show(v)[..2] && r[8..] == Show(v)[|Show(v)| - 2..]
  {
    if !Truthy(v) then "[REDACTED]"
    else
      var str := Show(v);
      if |str| <= 4 then "***"
      else
        var m := str[..2] + "******" + str[|str| - 2..];
        assert m[2..8] == "******";
        assert m[2] == '*' != "[REDACTED]"[2];
        m
  }

  /** Masking a masked value changes nothing more, unless the first mask was a redaction. */
  lemma MaskIdempotent(v: Json)
    requires Truthy(v)
    ensures Mask(Str(Mask(v))) == Mask(v)
  {
    var m := Mask(v);
    if |m| == 10 {
      assert m[..2] + "******" + m[8..] == m;
    }
  }

  /** `hasSensitiveData`: a sensitive key occurs somewhere within the depth limit. */
  predicate HasSensitive(fields: seq<string>, v: Json, depth: nat)
    decreases v
  {
    if depth > MaxDepth then false
    else
      match v
      case Arr(items) => exists i :: 0 <= i < |items| && HasSensitive(fields, items[i], depth + 1)
      case Obj(entries) =>
        exists i :: 0 <= i < |entries| &&
          (|| IsSensitive(fields, entries[i].key)
           || (IsObject(entries[i].value) && HasSensitive(fields, entries[i].value, depth + 1)))
      case _ => false
  }

  /** The key `for ... in` gives an array item: its index in decimal. */
  function IndexKey(i: nat): string {
    NatToString(i)
  }

  /** `sanitizeRecursive` on the value under `key`: masked if the key is sensitive,
      sanitized one level deeper if it is an object, else kept. */
  function SanitizeValue(fields: seq<string>, key: string, v: Json, depth: nat): (r: Json)
    decreases v, 1
  {
    if IsSensitive(fields, key) then Str(Mask(v))
    else if IsObject(v) then SanitizeAt(fields, v, depth + 1)
    else v
  }

  /** `sanitizeRecursive(obj, depth)`: objects beyond the depth limit become a marker;
      every entry of the others, array items included, goes through `SanitizeValue`. */
  function SanitizeAt(fields: seq<string>, v: Json, depth: nat): (r: Json)
    decreases v, 0
  {
    if !IsObject(v) then v
    else if depth > MaxDepth then Str("[MAX_DEPTH_REACHED]")
    else
      match v
      case Arr(items) =>
        Arr(seq(|items|, i requires 0 <= i < |items| => SanitizeValue(fields, IndexKey(i), items[i], depth)))
      case Obj(entries) =>
        Obj(seq(|entries|, i requires 0 <= i < |entries| =>
          Entry(entries[i].key, SanitizeValue(fields, entries[i].key, entries[i].value, depth))))
  }

  /** `sanitize`: non-objects, and objects without a sensitive key within the depth
      limit, come back as they are; anything else is a sanitized copy. */
  function Sanitize(fields: seq<string>, v: Json): Json
  {
    if !IsObject(v) || !HasSensitive(fields, v, 0) then v else SanitizeAt(fields, v, 0)
  }

  /** No secret left: under every sensitive key of the tree sits a mask. */
  predicate Clean(fields: seq<string>, v: Json)
    decreases v, 1
  {
    match v
    case Arr(items) => forall i :: 0 <= i < |items| ==> CleanAt(fields, IndexKey(i), items[i])
    case Obj(entries) => forall i :: 0 <= i < |entries| ==> CleanAt(fields, entries[i].key, entries[i].value)
    case _ => true
  }

  /** The value under `key` is a mask if the key is sensitive, and clean otherwise. */
  predicate CleanAt(fields: seq<string>, key: string, v: Json)
    decreases v, 2
  {
    if IsSensitive(fields, key) then v.Str? && IsMask(v.s) else Clean(fields, v)
  }

  /** Sanitizing at any depth leaves no secret anywhere in the result. */
  lemma {:induction false} SanitizeAtIsClean(fields: seq<string>, v: Json, depth: nat)
    ensures Clean(fields, SanitizeAt(fields, v, depth))
    decreases v, 0
  {
    if IsObject(v) && depth <= MaxDepth {
      match v
      case Arr(items) =>
        var r := SanitizeAt(fields, v, depth);
        forall i | 0 <= i < |items| ensures CleanAt(fields, IndexKey(i), r.items[i]) {
          SanitizeValueIsClean(fields, IndexKey(i), items[i], depth);
        }
      case Obj(entries) =>
        var r := SanitizeAt(fields, v, depth);
        forall i | 0 <= i < |entries| ensures CleanAt(fields, entries[i].key, r.entries[i].value) {
          SanitizeValueIsClean(fields, entries[i].key, entries[i].value, depth);
        }
    }
  }

  lemma {:induction false} SanitizeValueIsClean(fields: seq<string>, key: string, v: Json, depth: nat)
    ensures CleanAt(fields, key, SanitizeValue(fields, key, v, depth))
    decreases v, 1
  {
    if !IsSensitive(fields, key) && IsObject(v) {
      SanitizeAtIsClean(fields, v, depth + 1);
    }
  }

  /** A value without a sensitive key within the depth limit is clean already. */
  lemma {:induction false} NoSensitiveIsClean(fields: seq<string>, v: Json, depth: nat)
    requires !HasSensitive(fields, v, depth)
    ensures CleanTo(fields, v, depth)
    decreases v
  {
    if depth <= MaxDepth {
      match v
      case Arr(items) =>
        forall i | 0 <= i < |items| ensures CleanTo(fields, items[i], depth + 1) {
          NoSensitiveIsClean(fields, items[i], depth + 1);
        }
      case Obj(entries) =>
        forall i | 0 <= i < |entries| ensures CleanTo(fields, entries[i].value, depth + 1) {
          NoSensitiveIsClean(fields, entries[i].value, depth + 1);
        }
      case _ =>
    }
  }

  /** No sensitive object key down to the depth limit (array indices aside). */
  predicate CleanTo(fields: seq<string>, v: Json, depth: nat)
    decreases v
  {
    depth > MaxDepth ||
    match v
    case Arr(items) => forall i :: 0 <= i < |items| ==> CleanTo(fields, items[i], depth + 1)
    case Obj(entries) =>
      forall i :: 0 <= i < |entries| ==>
        !IsSensitive(fields, entries[i].key) && CleanTo(fields, entries[i].value, depth + 1)
    case _ => true
  }

  /** Whatever `sanitize` returns carries no sensitive object key down to the depth limit
      with anything but a mask under it: either nothing was sensitive, or it was masked. */
  lemma SanitizeHidesSecrets(fields: seq<string>, v: Json)
    ensures var r := Sanitize(fields, v);
      (r == v && (IsObject(v) ==> CleanTo(fields, v, 0))) || Clean(fields, r)
  {
    if IsObject(v) && !HasSensitive(fields, v, 0) {
      NoSensitiveIsClean(fields, v, 0);
    } else if IsObject(v) {
      SanitizeAtIsClean(fields, v, 0);
    }
  }

  /** Sanitizing keeps an object's keys, in order, and every value not under a sensitive
      key that is not itself an object. */
  lemma SanitizeKeepsShape(fields: seq<string>, entries: seq<Entry>, depth: nat)
    requires depth <= MaxDepth
    ensures var r := SanitizeAt(fields, Obj(entries), depth);
      && r.Obj? && |r.entries| == |entries|
      && (forall i :: 0 <= i < |entries| ==> r.entries[i].key == entries[i].key)
      && (forall i :: 0 <= i < |entries| && !IsSensitive(fields, entries[i].key) && !IsObject(entries[i].value)
            ==> r.entries[i].value == entries[i].value)
  {
  }

  /** An object deeper than the limit is replaced by the marker whatever it holds. */
  lemma DeepObjectsAreCut(fields: seq<string>, v: Json, depth: nat)
    requires IsObject(v) && depth > MaxDepth
    ensures SanitizeAt(fields, v, depth) == Str("[MAX_DEPTH_REACHED]")
  {
  }

  const SensitiveHeaders: seq<string> :=
    ["authorization", "cookie", "x-api-key", "x-auth-token", "x-csrf-token", "set-cookie"]

  /** `sanitizeHeaders`: a copy in which only the six listed headers, when truthy, are
      masked; absent headers give the empty record. */
  function SanitizeHeaders(headers: Option<map<string, Json>>): (r: map<string, Json>)
    ensures headers.None? ==> r == map[]
    ensures headers.Some? ==> r.Keys == headers.value.Keys
    ensures headers.Some? ==> forall k :: k in r && k in SensitiveHeaders && Truthy(headers.value[k]) ==>
      r[k] == Str(Mask(headers.value[k]))
    ensures headers.Some? ==> forall k :: k in r && (k !in SensitiveHeaders || !Truthy(headers.value[k])) ==>
      r[k] == headers.value[k]
  {
    match headers
    case None => map[]
    case Some(h) =>
      map k | k in h :: if k in SensitiveHeaders && Truthy(h[k]) then Str(Mask(h[k])) else h[k]
  }

  /** Sanitizing headers twice is sanitizing them once. */
  lemma SanitizeHeadersIdempotent(headers: map<string, Json>)
    ensures SanitizeHeaders(Some(SanitizeHeaders(Some(headers)))) == SanitizeHeaders(Some(headers))
  {
    var once := SanitizeHeaders(Some(headers));
    forall k | k in once && k in SensitiveHeaders && Truthy(headers[k])
      ensures Mask(once[k]) == Mask(headers[k]) && Truthy(once[k])
    {
      MaskIdempotent(headers[k]);
    }
  }

  /** Headers outside the list pass through, whatever their name suggests. */
  lemma UnlistedHeadersPass(headers: map<string, Json>, k: string)
    requires k in headers && k !in SensitiveHeaders
    ensures SanitizeHeaders(Some(headers))[k] == headers[k]
  {
  }
}

=== FILE: serverutils.dfy ===
/** Log locations and the HTTP-01 ownership check (`src/utils/server.ts`).

    The configured logs root is a parameter. `path.join` is modelled as joining with a
    single '/', which is what it gives for a root without a trailing slash and a name
    without '/' or '..'. The random token bytes, the file writes and the HTTP request are
    parameters: the bytes, and the request's outcome. */
module ServerUtils {
  import opened Wrappers
  import opened Strings

  /** `getLogsDir(domain)`: no domain and '_' share the `default` directory. */
  function LogsDir(logsRoot: string, domain: string): (dir: string)
    ensures StartsWith(dir, logsRoot + "/")
  {
    var dom := if domain == "" || domain == "_" then "default" else domain;
    logsRoot + "/" + dom
  }

  /** `getLogFilePath(domain, file)`. */
  function LogFilePath(logsRoot: string, domain: string, file: string): (path: string)
    ensures StartsWith(path, LogsDir(logsRoot, domain) + "/")
  {
    LogsDir(logsRoot, domain) + "/" + file
  }

  /** The default directory is shared by '' and '_' and by no real domain name. */
  lemma LogsDirOfDefault(logsRoot: string, domain: string)
    ensures LogsDir(logsRoot, domain) == LogsDir(logsRoot, "_") <==>
      domain == "" || domain == "_" || domain == "default"
  {
    var a := LogsDir(logsRoot, domain);
    var b := LogsDir(logsRoot, "_");
    if a == b {
      var n := |logsRoot| + 1;
      assert a[n..] == (if domain == "" || domain == "_" then "default" else domain);
      assert b[n..] == "default";
    }
  }

  /** Two distinct named domains log to distinct directories. */
  lemma LogsDirInjective(logsRoot: string, d1: string, d2: string)
    requires d1 != "" && d1 != "_" && d2 != "" && d2 != "_"
    requires LogsDir(logsRoot, d1) == LogsDir(logsRoot, d2)
    ensures d1 == d2
  {
    var n := |logsRoot| + 1;
    assert LogsDir(logsRoot, d1)[n..] == d1;
    assert LogsDir(logsRoot, d2)[n..] == d2;
  }

  /** A random byte. */
  type Byte = x: int | 0 <= x < 256

  const HexDigits: string := "0123456789abcdef"

  predicate IsHexDigit(c: char) {
    '0' <= c <= '9' || 'a' <= c <= 'f'
  }

  /** `toString('hex')` of one byte: two lower-case digits, high nibble first. */
  function HexByte(b: Byte): (r: string)
    ensures |r| == 2 && IsHexDigit(r[0]) && IsHexDigit(r[1])
  {
    [HexDigits[b / 16], HexDigits[b % 16]]
  }

  function Hex(bytes: seq<Byte>): (r: string)
    ensures |r| == 2 * |bytes|
    ensures forall i :: 0 <= i < |r| ==> IsHexDigit(r[i])
  {
    if |bytes| == 0 then "" else HexByte(bytes[0]) + Hex(bytes[1..])
  }

  function HexValue(c: char): (v: nat)
    ensures v < 16
  {
    if '0' <= c <= '9' then (c as int - '0' as int) as nat
    else if 'a' <= c <= 'f' then (c as int - 'a' as int + 10) as nat
    else 0
  }

  lemma HexValueOfDigit(d: nat)
    requires d < 16
    ensures HexValue(HexDigits[d]) == d
  {
  }

  /** Reading a hex string back, two digits per byte. */
  function Unhex(s: string): seq<Byte>
    requires |s| % 2 == 0
  {
    if |s| == 0 then []
    else [HexValue(s[0]) * 16 + HexValue(s[1])] + Unhex(s[2..])
  }

  lemma UnhexByte(b: Byte)
    ensures var h := HexByte(b); HexValue(h[0]) * 16 + HexValue(h[1]) == b
  {
    var hi, lo := b / 16, b % 16;
    HexValueOfDigit(hi);
    HexValueOfDigit(lo);
    assert hi * 16 + lo == b;
  }

  lemma UnhexCons(pair: string, rest: string)
    requires |pair| == 2 && |rest| % 2 == 0
    ensures Unhex(pair + rest) == [HexValue(pair[0]) * 16 + HexValue(pair[1])] + Unhex(rest)
  {
    var s := pair + rest;
    assert s[0] == pair[0] && s[1] == pair[1] && s[2..] == rest;
  }

  /** Distinct random bytes give distinct tokens: the encoding reads back. */
  lemma {:induction false} UnhexHex(bytes: seq<Byte>)
    ensures Unhex(Hex(bytes)) == bytes
    decreases |bytes|
  {
    if |bytes| > 0 {
      var tail := Hex(bytes[1..]);
      assert Hex(bytes) == HexByte(bytes[0]) + tail;
      UnhexCons(HexByte(bytes[0]), tail);
      UnhexByte(bytes[0]);
      UnhexHex(bytes[1..]);
    }
  }

  /** The challenge token: 32 hex digits from 16 random bytes. */
  function Token(random: seq<Byte>): (t: string)
    requires |random| == 16
    ensures |t| == 32 && forall i :: 0 <= i < 32 ==> IsHexDigit(t[i])
  {
    Hex(random)
  }

  lemma HexDigitIsNotSpace(c: char)
    requires IsHexDigit(c)
    ensures !IsSpace(c)
  {
  }

  const ChallengeDir: string := "/var/www/wiredoor-verify/.well-known/wiredoor-verify"

  /** What the GET of the challenge URL gave: a response whose status and body arrived, or
      a failure (a timeout, a refused connection, a failed token write). */
  datatype HttpOutcome = Response(status: int, body: string) | RequestFailed

  /** The decision of `verifyDomainHttp01`: a 2xx response whose trimmed, non-empty body is
      the token exactly. Any other status makes the request throw. */
  function Verified(token: string, outcome: HttpOutcome): (ok: bool)
    ensures ok <==> outcome.Response? && 200 <= outcome.status < 300
                    && outcome.body != "" && Trim(outcome.body) == token
  {
    match outcome
    case RequestFailed => false
    case Response(status, body) =>
      if !(200 <= status < 300) then false
      else if body == "" then false
      else Trim(body) == token
  }

  /** `verifyDomainHttp01(domain)` on a set of files: the token file is written, the check
      made, and the file removed again on every path. */
  function VerifyDomainHttp01(files: set<string>, random: seq<Byte>, outcome: HttpOutcome)
    : (r: (set<string>, bool))
    requires |random| == 16
    ensures r.0 == files - {ChallengeDir + "/" + Token(random)}
    ensures r.1 <==> outcome.Response? && 200 <= outcome.status < 300
                     && outcome.body != "" && Trim(outcome.body) == Token(random)
  {
    var token := Token(random);
    var tokenPath := ChallengeDir + "/" + token;
    var written := files + {tokenPath};
    (written - {tokenPath}, Verified(token, outcome))
  }

  /** When no stale token file sits there, the file set is as it was. */
  lemma VerifyLeavesNoFile(files: set<string>, random: seq<Byte>, outcome: HttpOutcome)
    requires |random| == 16
    requires ChallengeDir + "/" + Token(random) !in files
    ensures VerifyDomainHttp01(files, random, outcome).0 == files
  {
  }

  /** A failed request, a non-2xx status or an empty body all fail the check. */
  lemma FailuresAreFalse(files: set<string>, random: seq<Byte>, status: int, body: string)
    requires |random| == 16
    ensures !VerifyDomainHttp01(files, random, RequestFailed).1
    ensures !(200 <= status < 300) ==> !VerifyDomainHttp01(files, random, Response(status, body)).1
    ensures !VerifyDomainHttp01(files, random, Response(status, "")).1
  {
  }

  /** The token answered with surrounding whitespace passes. */
  lemma EchoedTokenPasses(files: set<string>, random: seq<Byte>)
    requires |random| == 16
    ensures VerifyDomainHttp01(files, random, Response(200, Token(random) + "\n")).1
  {
    var t := Token(random);
    var body := t + "\n";
    HexDigitIsNotSpace(t[0]);
    HexDigitIsNotSpace(t[31]);
    assert body[0] == t[0];
    assert TrimStart(body) == body;
    assert body[..|body| - 1] == t;
    assert TrimEnd(body) == TrimEnd(t);
    assert TrimEnd(t) == t;
  }
}

=== FILE: strings.dfy ===
/** The JavaScript string operations the modelled code relies on, over `seq<char>`.

    `Split` and `Join` follow `String.prototype.split` with a one-character separator and
    `Array.prototype.join`; `Trim` follows `String.prototype.trim`, whose whitespace set is
    also the set matched by `\s` in a regular expression. */
module Strings {

  /** The characters JavaScript treats as white space or line terminators. */
  predicate IsSpace(c: char) {
    || c == ' ' || c == '\t' || c == '\n' || c == '\U{000B}' || c == '\U{000C}' || c == '\r'
    || c == '\U{00A0}' || c == '\U{1680}' || ('\U{2000}' <= c <= '\U{200A}')
    || c == '\U{2028}' || c == '\U{2029}' || c == '\U{202F}' || c == '\U{205F}'
    || c == '\U{3000}' || c == '\U{FEFF}'
  }

  predicate HasSpace(s: string) {
    exists i :: 0 <= i < |s| && IsSpace(s[i])
  }

  /** `String.prototype.trimStart`; what it keeps and drops is stated by `TrimStartSpec`. */
  function TrimStart(s: string): string {
    if |s| > 0 && IsSpace(s[0]) then TrimStart(s[1..]) else s
  }

  /** `TrimStart` drops exactly the leading white space. */
  lemma {:induction false} TrimStartSpec(s: string)
    ensures var r := TrimStart(s);
      && |r| <= |s| && r == s[|s| - |r|..]
      && (|r| > 0 ==> !IsSpace(r[0]))
      && (forall i :: 0 <= i < |s| - |r| ==> IsSpace(s[i]))
    decreases |s|
  {
    if |s| > 0 && IsSpace(s[0]) {
      TrimStartSpec(s[1..]);
    }
  }

  function TrimEnd(s: string): (r: string)
    ensures |r| <= |s| && r == s[..|r|]
    ensures |r| > 0 ==> !IsSpace(r[|r| - 1])
    ensures forall i :: |r| <= i < |s| ==> IsSpace(s[i])
  {
    if |s| > 0 && IsSpace(s[|s| - 1]) then TrimEnd(s[..|s| - 1]) else s
  }

  /** Trailing white space after a word that does not end in white space is exactly what
      `TrimEnd` removes. */
  lemma {:induction false} TrimEndSpaces(a: string, b: string)
    requires |a| > 0 && !IsSpace(a[|a| - 1])
    requires forall i :: 0 <= i < |b| ==> IsSpace(b[i])
    ensures TrimEnd(a + b) == a
    decreases |b|
  {
    if |b| == 0 {
      assert a + b == a;
    } else {
      assert (a + b)[..|a + b| - 1] == a + b[..|b| - 1];
      TrimEndSpaces(a, b[..|b| - 1]);
    }
  }

  /** `String.prototype.trim`. */
  function Trim(s: string): (r: string)
    ensures |r| > 0 ==> !IsSpace(r[0]) && !IsSpace(r[|r| - 1])
  {
    TrimStartSpec(s);
    TrimEnd(TrimStart(s))
  }

  predicate StartsWith(s: string, prefix: string) {
    prefix <= s
  }

  predicate EndsWith(s: string, suffix: string) {
    |suffix| <= |s| && s[|s| - |suffix|..] == suffix
  }

  /** `s.includes(sub)`: some position of `s` starts a copy of `sub`. */
  predicate Contains(s: string, sub: string)
    decreases |s|
  {
    sub <= s || (|s| > 0 && Contains(s[1..], sub))
  }

  lemma {:induction false} ContainsAt(s: string, sub: string, i: nat)
    requires i + |sub| <= |s| && s[i..i + |sub|] == sub
    ensures Contains(s, sub)
    decreases i
  {
    if i > 0 {
      assert s[1..][i - 1..i - 1 + |sub|] == sub;
      ContainsAt(s[1..], sub, i - 1);
    }
  }

  /** `"a.b".split('.')`: the pieces between separators, never an empty list. */
  function Split(s: string, sep: char): (parts: seq<string>)
    ensures |parts| >= 1
    ensures forall i :: 0 <= i < |parts| ==> sep !in parts[i]
  {
    if |s| == 0 then [""]
    else if s[0] == sep then [""] + Split(s[1..], sep)
    else
      var rest := Split(s[1..], sep);
      [[s[0]] + rest[0]] + rest[1..]
  }

  /** `parts.join(sep)`. */
  function Join(parts: seq<string>, sep: string): string {
    if |parts| == 0 then ""
    else if |parts| == 1 then parts[0]
    else parts[0] + sep + Join(parts[1..], sep)
  }

  lemma {:induction false} SplitPrefix(a: string, sep: char, b: string)
    requires sep !in a
    ensures Split(a + [sep] + b, sep) == [a] + Split(b, sep)
    decreases |a|
  {
    if |a| == 0 {
      assert a + [sep] + b == [sep] + b;
      assert ([sep] + b)[1..] == b;
    } else {
      assert (a + [sep] + b)[1..] == a[1..] + [sep] + b;
      SplitPrefix(a[1..], sep, b);
      assert [a[0]] + a[1..] == a;
    }
  }

  lemma {:induction false} SplitNoSep(a: string, sep: char)
    requires sep !in a
    ensures Split(a, sep) == [a]
    decreases |a|
  {
    if |a| > 0 {
      SplitNoSep(a[1..], sep);
      assert [a[0]] + a[1..] == a;
    }
  }

  /** Joining pieces that hold no separator and splitting again gives the pieces back. */
  lemma {:induction false} SplitJoin(parts: seq<string>, sep: char)
    requires |parts| >= 1
    requires forall i :: 0 <= i < |parts| ==> sep !in parts[i]
    ensures Split(Join(parts, [sep]), sep) == parts
    decreases |parts|
  {
    if |parts| == 1 {
      SplitNoSep(parts[0], sep);
    } else {
      SplitJoin(parts[1..], sep);
      SplitPrefix(parts[0], sep, Join(parts[1..], [sep]));
      assert [parts[0]] + parts[1..] == parts;
    }
  }

  /** Splitting and joining with the same separator gives the input back. */
  lemma {:induction false} JoinSplit(s: string, sep: char)
    ensures Join(Split(s, sep), [sep]) == s
    decreases |s|
  {
    if |s| > 0 {
      JoinSplit(s[1..], sep);
      var rest := Split(s[1..], sep);
      if s[0] != sep {
        if |rest| == 1 {
        } else {
          assert Join([[s[0]] + rest[0]] + rest[1..], [sep])
              == [s[0]] + rest[0] + [sep] + Join(rest[1..], [sep]);
          assert Join(rest, [sep]) == rest[0] + [sep] + Join(rest[1..], [sep]);
        }
      }
    }
  }

  /** Text made of lines, each one terminated by a newline. */
  function Unlines(lines: seq<string>): string {
    if |lines| == 0 then "" else lines[0] + "\n" + Unlines(lines[1..])
  }

  lemma {:induction false} UnlinesAppend(a: seq<string>, b: seq<string>)
    ensures Unlines(a + b) == Unlines(a) + Unlines(b)
    decreases |a|
  {
    if |a| == 0 {
      assert a + b == b;
    } else {
      UnlinesAppend(a[1..], b);
      assert (a + b)[1..] == a[1..] + b;
      calc {
        Unlines(a + b);
        a[0] + "\n" + Unlines(a[1..] + b);
        a[0] + "\n" + (Unlines(a[1..]) + Unlines(b));
        (a[0] + "\n" + Unlines(a[1..])) + Unlines(b);
      }
    }
  }

  /** Splitting newline-terminated lines at '\n' gives the lines back, and one empty
      piece after the last newline. */
  lemma {:induction false} SplitUnlines(lines: seq<string>)
    requires forall i :: 0 <= i < |lines| ==> '\n' !in lines[i]
    ensures Split(Unlines(lines), '\n') == lines + [""]
    decreases |lines|
  {
    if |lines| > 0 {
      SplitUnlines(lines[1..]);
      SplitPrefix(lines[0], '\n', Unlines(lines[1..]));
      assert lines[0] + "\n" + Unlines(lines[1..]) == lines[0] + ['\n'] + Unlines(lines[1..]);
      assert [lines[0]] + (lines[1..] + [""]) == lines + [""];
    }
  }

  /** ASCII `toLowerCase` (the modelled inputs are host names and header keys). */
  function LowerChar(c: char): char {
    if 'A' <= c <= 'Z' then (c as int + 32) as char else c
  }

  function ToLower(s: string): (r: string)
    ensures |r| == |s|
    ensures forall i {:trigger r[i]} :: 0 <= i < |s| ==> r[i] == LowerChar(s[i])
  {
    if |s| == 0 then "" else [LowerChar(s[0])] + ToLower(s[1..])
  }

  function UpperChar(c: char): char {
    if 'a' <= c <= 'z' then (c as int - 32) as char else c
  }

  /** ASCII `toUpperCase`. */
  function ToUpper(s: string): (r: string)
    ensures |r| == |s|
    ensures forall i {:trigger r[i]} :: 0 <= i < |s| ==> r[i] == UpperChar(s[i])
  {
    if |s| == 0 then "" else [UpperChar(s[0])] + ToUpper(s[1..])
  }

  lemma ToLowerAppend(a: string, b: string)
    ensures ToLower(a + b) == ToLower(a) + ToLower(b)
  {
    assert forall i :: 0 <= i < |a + b| ==> ToLower(a + b)[i] == (ToLower(a) + ToLower(b))[i];
  }

  /** `s.replace(/x/g, y)` for single characters. */
  function ReplaceChar(s: string, x: char, y: char): (r: string)
    ensures |r| == |s|
    ensures forall i :: 0 <= i < |s| ==> r[i] == (if s[i] == x then y else s[i])
  {
    if |s| == 0 then "" else [if s[0] == x then y else s[0]] + ReplaceChar(s[1..], x, y)
  }

  predicate IsDigit(c: char) {
    '0' <= c <= '9'
  }

  predicate IsDigits(s: string) {
    forall i :: 0 <= i < |s| ==> IsDigit(s[i])
  }

  function DigitChar(d: nat): char
    requires d < 10
  {
    "0123456789"[d]
  }

  /** `String(n)` for a non-negative integer: its decimal digits without leading zeros. */
  function NatToString(n: nat): (r: string)
    ensures |r| >= 1 && IsDigits(r)
    ensures r[0] == '0' ==> n == 0
  {
    if n < 10 then [DigitChar(n)] else NatToString(n / 10) + [DigitChar(n % 10)]
  }

  /** `String(i)` for any integer. */
  function IntToString(i: int): string {
    if i < 0 then "-" + NatToString(-i) else NatToString(i)
  }

  /** The value of a string of decimal digits. */
  function DecimalValue(s: string): nat
    requires IsDigits(s)
  {
    if |s| == 0 then 0 else DecimalValue(s[..|s| - 1]) * 10 + (s[|s| - 1] as int - '0' as int)
  }

  lemma {:induction false} DecimalValueOfNatToString(n: nat)
    ensures DecimalValue(NatToString(n)) == n
  {
    if n >= 10 {
      DecimalValueOfNatToString(n / 10);
      var s := NatToString(n / 10) + [DigitChar(n % 10)];
      assert s[..|s| - 1] == NatToString(n / 10);
    }
  }

  /** Decimal rendering is injective: distinct numbers never print alike. */
  lemma NatToStringInjective(m: nat, n: nat)
    requires NatToString(m) == NatToString(n)
    ensures m == n
  {
    DecimalValueOfNatToString(m);
    DecimalValueOfNatToString(n);
  }

  lemma NoCharInNatToString(n: nat, c: char)
    requires !IsDigit(c)
    ensures c !in NatToString(n)
  {
  }
}

=== FILE: tcpmodel.dfy ===
/** The TCP service entity (`src/database/models/tcp-service.ts`): its derived names, its
    column defaults, and the uniqueness the table's indexes keep. */
module TcpModel {
  import opened Wrappers
  import opened Strings
  import opened Records

  /** `identifier`: `n<nodeId>s<id>_stream`, the name of the service's nginx variable and
      stream file. */
  function Identifier(nodeId: nat, id: nat): (r: string)
    ensures |r| > 0 && r[0] == 'n' && EndsWith(r, "_stream")
  {
    "n" + NatToString(nodeId) + "s" + NatToString(id) + "_stream"
  }

  /** Within the first number and the separator, the only 's' is the separator. */
  lemma SeparatorAt(x: string, y: string, i: nat)
    requires 's' !in x && i <= |x|
    ensures ("n" + x + "s" + y + "_stream")[1 + i] == 's' <==> i == |x|
  {
    var a := "n" + x + "s" + y + "_stream";
    if i < |x| {
      assert a[1 + i] == x[i];
    }
  }

  /** Two identifiers built from digit strings are equal only when both numbers are. */
  lemma {:induction false} IdentifierParts(x1: string, y1: string, x2: string, y2: string)
    requires 's' !in x1 && 's' !in x2
    requires "n" + x1 + "s" + y1 + "_stream" == "n" + x2 + "s" + y2 + "_stream"
    ensures x1 == x2 && y1 == y2
  {
    var a := "n" + x1 + "s" + y1 + "_stream";
    var b := "n" + x2 + "s" + y2 + "_stream";
    var m := if |x1| < |x2| then |x1| else |x2|;
    SeparatorAt(x1, y1, m);
    SeparatorAt(x2, y2, m);
    assert |x1| == |x2|;
    assert x1 == a[1..1 + |x1|];
    assert x2 == b[1..1 + |x2|];
    assert y1 == a[2 + |x1|..|a| - 7];
    assert y2 == b[2 + |x2|..|b| - 7];
  }

  /** Distinct services get distinct identifiers: decimal digits never contain 's'. */
  lemma IdentifierInjective(n1: nat, i1: nat, n2: nat, i2: nat)
    requires Identifier(n1, i1) == Identifier(n2, i2)
    ensures n1 == n2 && i1 == i2
  {
    NoCharInNatToString(n1, 's');
    NoCharInNatToString(n2, 's');
    IdentifierParts(NatToString(n1), NatToString(i1), NatToString(n2), NatToString(i2));
    NatToStringInjective(n1, n2);
    NatToStringInjective(i1, i2);
  }

  function ServiceIdentifier(s: TcpService): string {
    Identifier(s.nodeId, s.id)
  }

  /** `publicAccess`: `<proto>://<domain, or the hub's host without one>:<port>`. */
  function PublicAccess(s: TcpService, wireguardHost: string): (r: string)
    ensures StartsWith(r, s.proto + "://")
    ensures s.domain != "" ==> StartsWith(r, s.proto + "://" + s.domain + ":")
    ensures s.domain == "" ==> StartsWith(r, s.proto + "://" + wireguardHost + ":")
    ensures EndsWith(r, ":" + IntToString(s.port))
  {
    var prefix := s.proto + "://" + (if s.domain != "" then s.domain else wireguardHost);
    assert prefix + ":" + IntToString(s.port) == prefix + (":" + IntToString(s.port));
    prefix + ":" + IntToString(s.port)
  }

  /** A row as inserted with only the required columns given: the column defaults are
      proto 'tcp', no SSL, enabled. */
  function WithDefaults(id: nat, name: string, backendPort: int, port: int, nodeId: nat): (s: TcpService)
    ensures s.proto == "tcp" && !s.ssl && s.enabled
    ensures s.id == id && s.port == port && s.backendPort == backendPort && s.nodeId == nodeId
  {
    TcpService(id, name, "", "tcp", "", backendPort, port, false, nodeId, true, [], [], None)
  }

  /** The table's unique indexes: the public port, and the backend (port, host, node).
      The backend host may be null, and a row without one shares its backend with no
      other row. */
  predicate UniquePorts(table: map<nat, TcpService>) {
    forall a, b :: a in table && b in table && a != b ==> table[a].port != table[b].port
  }

  predicate SameBackend(a: TcpService, b: TcpService) {
    a.backendPort == b.backendPort && SameNullable(a.backendHost, b.backendHost) && a.nodeId == b.nodeId
  }

  predicate UniqueBackends(table: map<nat, TcpService>) {
    forall a, b :: a in table && b in table && a != b ==> !SameBackend(table[a], table[b])
  }

  predicate Indexed(table: map<nat, TcpService>) {
    && UniquePorts(table) && UniqueBackends(table)
    && forall k :: k in table ==> table[k].id == k
  }

  /** Two rows that the indexes forbid side by side. */
  predicate Clashes(a: TcpService, b: TcpService) {
    a.port == b.port || SameBackend(a, b)
  }

  /** Whether a row may be written under the indexes: no other row holds its port or its
      backend. A write the database would reject is an error. */
  function Insert(table: map<nat, TcpService>, s: TcpService): (r: Result<map<nat, TcpService>>)
    requires Indexed(table)
    ensures r.Ok? ==> Indexed(r.value) && r.value == table[s.id := s]
    ensures r.Err? <==> exists k :: k in table && k != s.id && Clashes(table[k], s)
  {
    if exists k :: k in table && k != s.id && Clashes(table[k], s)
    then Err(Conflict("Duplicate entry"))
    else Ok(table[s.id := s])
  }

  /** Rows without a backend host never clash on the backend index: a second service on
      the same backend port and node is accepted when its public port is free. */
  lemma NullBackendHostsCoexist(table: map<nat, TcpService>, s: TcpService)
    requires Indexed(table)
    requires s.backendHost == ""
    requires forall k :: k in table && k != s.id ==> table[k].port != s.port
    ensures Insert(table, s).Ok?
  {
  }

  /** In an indexed table, a port names at most one service, so its stream is the only
      one listening there. */
  lemma PortNamesOneService(table: map<nat, TcpService>, a: nat, b: nat)
    requires Indexed(table) && a in table && b in table
    requires table[a].port == table[b].port
    ensures a == b
  {
  }
}

=== FILE: tcpservices.dfy ===
/** The TCP service lifecycle (`src/services/tcp-services-service.ts`) over the TCP table
    and the proxy's files.

    As for HTTP services, every operation returns the store it leaves behind with its
    result, and the store keeps a trace of the steps carried out. The table keeps its
    unique indexes (`TcpModel.Indexed`); a save that would break one is rejected. The
    node and domain tables, `createDomainIfNotExists`, the free port the repository would
    allocate, `IP_CIDR.isValidIP`, the backend probe, the self-signed pairs, the logs root,
    `nginx -t` and `calculateExpiresAtFromTTL` are parameters. */
module TcpServices {
  import opened Wrappers
  import opened Records
  import opened NginxFiles
  import opened BaseServices
  import opened TcpModel
  import NginxTcp

  datatype Store = Store(services: map<nat, TcpService>, nextId: nat, proxy: Proxy, trace: seq<Step>)

  datatype Outcome<T> = Outcome(store: Store, result: Result<T>)

  datatype Env = Env(
    nodes: map<nat, Node>,
    domains: map<string, Domain>,
    domainOk: string -> bool,
    selfSigned: string -> SslPair,
    isIp: string -> bool,
    reachable: Probe -> bool,
    logsRoot: string,
    testPasses: bool)

  /** `TcpServiceType`, partial: an absent field is left as it is. */
  datatype Patch = Patch(
    name: Option<string>,
    domain: Option<string>,
    proto: Option<string>,
    backendHost: Option<string>,
    backendPort: Option<int>,
    port: Option<int>,
    ssl: Option<bool>,
    allowedIps: Option<seq<string>>,
    blockedIps: Option<seq<string>>,
    enabled: Option<bool>,
    expiresAt: Option<Option<int>>)

  const NoChange := Patch(None, None, None, None, None, None, None, None, None, None, None)

  function Apply(s: TcpService, p: Patch): (r: TcpService)
    ensures r.id == s.id && r.nodeId == s.nodeId
    ensures r.enabled == p.enabled.GetOr(s.enabled) && r.expiresAt == p.expiresAt.GetOr(s.expiresAt)
    ensures r.proto == p.proto.GetOr(s.proto) && r.port == p.port.GetOr(s.port)
  {
    s.(name := p.name.GetOr(s.name),
       domain := p.domain.GetOr(s.domain),
       proto := p.proto.GetOr(s.proto),
       backendHost := p.backendHost.GetOr(s.backendHost),
       backendPort := p.backendPort.GetOr(s.backendPort),
       port := p.port.GetOr(s.port),
       ssl := p.ssl.GetOr(s.ssl),
       allowedIps := p.allowedIps.GetOr(s.allowedIps),
       blockedIps := p.blockedIps.GetOr(s.blockedIps),
       enabled := p.enabled.GetOr(s.enabled),
       expiresAt := p.expiresAt.GetOr(s.expiresAt))
  }

  /** `repository.save(row)` under the unique indexes and the foreign key to the nodes
      (`nodes` are the stored node ids). A unique clash is reported as a conflict; a row
      whose node is not stored is refused by the foreign key; either way nothing changes. */
  function SaveRow(w: Store, nodes: set<nat>, s: TcpService): (r: Outcome<TcpService>)
    requires Indexed(w.services)
    ensures Indexed(r.store.services)
    ensures r.result.Ok? ==> r.result.value == s && r.store.trace == w.trace + [Saved(s.id)]
    ensures r.result.Ok? ==> r.store.services == w.services[s.id := s]
    ensures r.result.Err? ==> r.store == w
    ensures r.result.Err? <==>
      (exists k :: k in w.services && k != s.id && Clashes(w.services[k], s)) || s.nodeId !in nodes
    ensures (exists k :: k in w.services && k != s.id && Clashes(w.services[k], s)) ==>
      r.result.Err? && r.result.error.Conflict?
    ensures r.result.Err? && !r.result.error.Conflict? ==> r.result == Err(ForeignKeyFailure)
  {
    match Insert(w.services, s)
    case Err(e) => Outcome(w, Err(e))
    case Ok(table) =>
      if s.nodeId !in nodes then Outcome(w, Err(ForeignKeyFailure))
      else Outcome(w.(services := table, trace := w.trace + [Saved(s.id)]), Ok(s))
  }

  const ForeignKeyFailure := Failed("SQLITE_CONSTRAINT: FOREIGN KEY constraint failed")

  /** A row for a node that is not stored is never saved, whatever else it holds. */
  lemma OrphanRowRefused(w: Store, nodes: set<nat>, s: TcpService)
    requires Indexed(w.services) && s.nodeId !in nodes
    ensures SaveRow(w, nodes, s).store == w && SaveRow(w, nodes, s).result.Err?
  {
  }

  /** The domain step of a render: only a service with a domain has one. */
  function DomainStep(domain: string): (steps: seq<Step>)
    ensures forall i :: 0 <= i < |steps| ==> !steps[i].Rendered?
  {
    if domain != "" then [EnsuredDomain(domain)] else []
  }

  /** `buildServerConfig(service, restart)`: a service with a domain has the domain
      created first; then its stream is rendered. */
  function Build(w: Store, env: Env, id: nat, restart: bool): (r: Outcome<()>)
    requires id in w.services
    ensures r.store.services == w.services && r.store.nextId == w.nextId
    ensures r.result.Err? ==> r.store == w
    ensures r.result.Ok? ==> r.store.trace == w.trace + DomainStep(w.services[id].domain) + [Rendered(id, restart)]
  {
    var s := w.services[id];
    if s.nodeId !in env.nodes then
      Outcome(w, Err(Crash("Cannot read properties of undefined (reading 'isGateway')")))
    else if s.domain != "" && !env.domainOk(s.domain) then
      Outcome(w, Err(Failed("domain creation failed")))
    else
      var ensured := DomainStep(s.domain);
      var domain := if s.domain in env.domains then Some(env.domains[s.domain]) else None;
      var (q, _) := NginxTcp.Create(w.proxy, s, env.nodes[s.nodeId], domain, env.selfSigned, env.isIp,
                                    env.logsRoot, restart, env.testPasses);
      Outcome(w.(proxy := q, trace := w.trace + ensured + [Rendered(id, restart)]), Ok(()))
  }

  /** `initialize()`: the stored services, listed once each in the order the repository
      returns them, are rendered with a reload when enabled and skipped when disabled; the
      first failure stops the run. A run that succeeds has rendered every enabled service,
      and no run renders a disabled one. */
  function Initialize(w: Store, env: Env, order: seq<nat>): (r: Outcome<()>)
    requires ListsOnce(order, w.services.Keys)
    ensures r.store.services == w.services
    ensures w.trace <= r.store.trace
    ensures RendersOnlyEnabled(r.store.trace[|w.trace|..], order, w.services)
    ensures r.result.Ok? ==>
      forall k :: k in w.services && w.services[k].enabled ==> Rendered(k, true) in r.store.trace[|w.trace|..]
  {
    InitializeRendersEnabledOnly(w, env, order);
    InitializeEachRendersEnabled(w, env, order);
    InitializeEach(w, env, order)
  }

  /** The loop of `initialize()` over the listed services. */
  function InitializeEach(w: Store, env: Env, order: seq<nat>): (r: Outcome<()>)
    requires forall i :: 0 <= i < |order| ==> order[i] in w.services
    ensures r.store.services == w.services
    decreases |order|
  {
    if |order| == 0 then Outcome(w, Ok(()))
    else if !w.services[order[0]].enabled then InitializeEach(w, env, order[1..])
    else
      var built := Build(w, env, order[0], true);
      if built.result.Err? then built else InitializeEach(built.store, env, order[1..])
  }

  /** Once the loop gets through the list, every enabled listed service has been rendered
      with a reload. */
  lemma {:induction false} InitializeEachRendersEnabled(w: Store, env: Env, order: seq<nat>)
    requires forall i :: 0 <= i < |order| ==> order[i] in w.services
    ensures var r := InitializeEach(w, env, order);
      && w.trace <= r.store.trace
      && (r.result.Ok? ==>
            forall i :: 0 <= i < |order| && w.services[order[i]].enabled ==>
              Rendered(order[i], true) in r.store.trace[|w.trace|..])
    decreases |order|
  {
    if |order| > 0 {
      if !w.services[order[0]].enabled {
        InitializeEachRendersEnabled(w, env, order[1..]);
        var r := InitializeEach(w, env, order);
        if r.result.Ok? {
          forall i | 0 <= i < |order| && w.services[order[i]].enabled
            ensures Rendered(order[i], true) in r.store.trace[|w.trace|..] {
            assert order[i] == order[1..][i - 1];
          }
        }
      } else {
        var built := Build(w, env, order[0], true);
        if built.result.Ok? {
          InitializeEachRendersEnabled(built.store, env, order[1..]);
          var r := InitializeEach(built.store, env, order[1..]);
          assert InitializeEach(w, env, order) == r;
          var at := |built.store.trace| - 1;
          assert built.store.trace[at] == Rendered(order[0], true);
          if r.result.Ok? {
            forall i | 0 <= i < |order| && w.services[order[i]].enabled
              ensures Rendered(order[i], true) in r.store.trace[|w.trace|..] {
              if i == 0 {
                assert r.store.trace[|w.trace|..][at - |w.trace|] == Rendered(order[0], true);
              } else {
                assert order[i] == order[1..][i - 1];
                StepAfter(w.trace, built.store.trace, r.store.trace, Rendered(order[i], true));
              }
            }
          }
        }
      }
    }
  }

  /** Every render among the steps is of an enabled service from the list. */
  predicate RendersOnlyEnabled(steps: seq<Step>, order: seq<nat>, services: map<nat, TcpService>) {
    forall i :: 0 <= i < |steps| && steps[i].Rendered? ==>
      steps[i].id in order && steps[i].id in services && services[steps[i].id].enabled
  }

  lemma RendersOnlyEnabledAppend(a: seq<Step>, b: seq<Step>, order: seq<nat>, services: map<nat, TcpService>)
    requires RendersOnlyEnabled(a, order, services) && RendersOnlyEnabled(b, order, services)
    ensures RendersOnlyEnabled(a + b, order, services)
  {
    forall i | 0 <= i < |a + b| && (a + b)[i].Rendered?
      ensures (a + b)[i].id in order && (a + b)[i].id in services && services[(a + b)[i].id].enabled {
      if i >= |a| {
        assert (a + b)[i] == b[i - |a|];
      }
    }
  }

  lemma RendersOnlyEnabledWider(steps: seq<Step>, order: seq<nat>, services: map<nat, TcpService>)
    requires |order| > 0 && RendersOnlyEnabled(steps, order[1..], services)
    ensures RendersOnlyEnabled(steps, order, services)
  {
    forall i | 0 <= i < |steps| && steps[i].Rendered? ensures steps[i].id in order {
      assert steps[i].id in order[1..];
    }
  }

  /** One enabled service of start-up: it is built, and the rest follows from there. */
  lemma InitializeEnabledStep(w: Store, env: Env, order: seq<nat>)
    requires forall i :: 0 <= i < |order| ==> order[i] in w.services
    requires |order| > 0 && w.services[order[0]].enabled
    requires Build(w, env, order[0], true).result.Ok?
    ensures var built := Build(w, env, order[0], true);
      && InitializeEach(w, env, order) == InitializeEach(built.store, env, order[1..])
      && built.store.trace == w.trace + DomainStep(w.services[order[0]].domain) + [Rendered(order[0], true)]
      && built.store.services == w.services
  {
  }

  lemma SliceSplit(a: seq<Step>, b: seq<Step>, c: seq<Step>)
    requires a <= b <= c
    ensures c[|a|..] == b[|a|..] + c[|b|..]
  {
  }

  /** Start-up renders only enabled services: every render it records is of an enabled
      service from the list. */
  lemma {:induction false} InitializeRendersEnabledOnly(w: Store, env: Env, order: seq<nat>)
    requires forall i :: 0 <= i < |order| ==> order[i] in w.services
    ensures var r := InitializeEach(w, env, order);
      && w.trace <= r.store.trace
      && RendersOnlyEnabled(r.store.trace[|w.trace|..], order, w.services)
    decreases |order|
  {
    var r := InitializeEach(w, env, order);
    if |order| == 0 {
      assert r.store.trace[|w.trace|..] == [];
    } else if !w.services[order[0]].enabled {
      InitializeRendersEnabledOnly(w, env, order[1..]);
      RendersOnlyEnabledWider(r.store.trace[|w.trace|..], order, w.services);
    } else if Build(w, env, order[0], true).result.Err? {
      assert r.store.trace[|w.trace|..] == [];
    } else {
      var built := Build(w, env, order[0], true);
      InitializeRendersEnabledOnly(built.store, env, order[1..]);
      EnabledStepRenders(w, env, order);
    }
  }

  /** The enabled head of the list: its render, followed by what the rest renders. */
  lemma EnabledStepRenders(w: Store, env: Env, order: seq<nat>)
    requires forall i :: 0 <= i < |order| ==> order[i] in w.services
    requires |order| > 0 && w.services[order[0]].enabled
    requires Build(w, env, order[0], true).result.Ok?
    requires var built := Build(w, env, order[0], true);
      var r := InitializeEach(built.store, env, order[1..]);
      && built.store.trace <= r.store.trace
      && RendersOnlyEnabled(r.store.trace[|built.store.trace|..], order[1..], built.store.services)
    ensures var r := InitializeEach(w, env, order);
      && w.trace <= r.store.trace
      && RendersOnlyEnabled(r.store.trace[|w.trace|..], order, w.services)
  {
    var built := Build(w, env, order[0], true);
    InitializeEnabledStep(w, env, order);
    var head := DomainStep(w.services[order[0]].domain) + [Rendered(order[0], true)];
    HeadRendersEnabled(w.services, order);
    RendersCombine(w.trace, head, built.store.trace, InitializeEach(built.store, env, order[1..]).store.trace,
                   order, w.services);
  }

  /** Building the enabled head of the list renders only that service. */
  lemma HeadRendersEnabled(services: map<nat, TcpService>, order: seq<nat>)
    requires |order| > 0 && order[0] in services && services[order[0]].enabled
    ensures RendersOnlyEnabled(DomainStep(services[order[0]].domain) + [Rendered(order[0], true)], order, services)
  {
    var head := DomainStep(services[order[0]].domain) + [Rendered(order[0], true)];
    forall i | 0 <= i < |head| && head[i].Rendered? ensures head[i].id == order[0] {
    }
  }

  /** The renders of a head step followed by those of the rest of the list. */
  lemma RendersCombine(before: seq<Step>, head: seq<Step>, mid: seq<Step>, after: seq<Step>, order: seq<nat>,
                       services: map<nat, TcpService>)
    requires |order| > 0 && mid == before + head && mid <= after
    requires RendersOnlyEnabled(head, order, services)
    requires RendersOnlyEnabled(after[|mid|..], order[1..], services)
    ensures before <= after && RendersOnlyEnabled(after[|before|..], order, services)
  {
    RendersOnlyEnabledWider(after[|mid|..], order, services);
    assert mid[|before|..] == head;
    SliceSplit(before, mid, after);
    RendersOnlyEnabledAppend(head, after[|mid|..], order, services);
  }

  /** The node a row belongs to, for the shared lookup by id and node. */
  function OwnerOf(s: TcpService): nat {
    s.nodeId
  }

  /** The public port of a new service: the one given, or a free one when none is. */
  function PortFor(p: Patch, freePort: int): (port: int)
    ensures p.port.Some? && p.port.value != 0 ==> port == p.port.value
    ensures p.port.None? || p.port.value == 0 ==> port == freePort
  {
    if p.port.None? || p.port.value == 0 then freePort else p.port.value
  }

  /** `createTcpService(nodeId, params)`: a port is allocated when none is given; only a
      service declared 'tcp' has its backend probed; the row is saved with its node and
      expiry under the next id, then rendered with a reload. */
  function Create(w: Store, env: Env, nodeId: nat, p: Patch, freePort: int, expiresAt: Option<int>)
    : (r: Outcome<TcpService>)
    requires Indexed(w.services)
    ensures Indexed(r.store.services)
  {
    var probed := CreateProbe(env, nodeId, p);
    if probed.Err? then Outcome(w, Err(probed.error))
    else
      var row := Apply(WithDefaults(w.nextId, "", 0, 0, nodeId),
                       p.(port := Some(PortFor(p, freePort)), expiresAt := Some(expiresAt)));
      SaveAndBuild(w.(nextId := w.nextId + 1, trace := w.trace + probed.value), env, row)
  }

  /** The backend probe of a creation, run only for a service declared 'tcp': the failure,
      or the probe steps it leaves in the trace. */
  function CreateProbe(env: Env, nodeId: nat, p: Patch): (r: Result<seq<Step>>)
    ensures p.proto != Some("tcp") ==> r == Ok([])
    ensures p.proto == Some("tcp") && r.Ok? ==> |r.value| == 1 && r.value[0].Probed?
  {
    if p.proto != Some("tcp") then Ok([])
    else
      var node := if nodeId in env.nodes then Some(env.nodes[nodeId]) else None;
      match CheckNodePort(node, p.backendPort.GetOr(0), p.backendHost.GetOr(""), false, env.isIp, env.reachable)
      case Err(e) => Err(e)
      case Ok(probe) => Ok([Probed(probe)])
  }

  /** The row saved, then rendered with a reload; the row is the result when both succeed. */
  function SaveAndBuild(w: Store, env: Env, row: TcpService): (r: Outcome<TcpService>)
    requires Indexed(w.services)
    ensures Indexed(r.store.services)
    ensures r.result.Ok? ==>
      && r.result.value == row && row.id in r.store.services
      && w.trace + [Saved(row.id)] <= r.store.trace
    ensures (exists k :: k in w.services && k != row.id && Clashes(w.services[k], row)) ==>
      r.store == w && r.result.Err? && r.result.error.Conflict?
  {
    var saved := SaveRow(w, env.nodes.Keys, row);
    if saved.result.Err? then Outcome(saved.store, Err(saved.result.error))
    else
      var built := Build(saved.store, env, row.id, true);
      Outcome(built.store, if built.result.Ok? then Ok(row) else Err(built.result.error))
  }

  /** A new service keeps a port it was given and gets the free one otherwise; it belongs
      to its node and carries its expiry; the backend was probed exactly when the request
      said 'tcp'. A request without a protocol is stored as 'tcp' by the column default,
      yet is not probed. */
  lemma CreateEffect(w: Store, env: Env, nodeId: nat, p: Patch, freePort: int, expiresAt: Option<int>)
    requires Indexed(w.services)
    requires Create(w, env, nodeId, p, freePort, expiresAt).result.Ok?
    ensures var r := Create(w, env, nodeId, p, freePort, expiresAt);
      var s := r.result.value;
      && s.port == PortFor(p, freePort) && s.nodeId == nodeId && s.expiresAt == expiresAt
      && s.id == w.nextId && s.id in r.store.services
      && s.proto == p.proto.GetOr("tcp")
      && r.store.trace[..|w.trace|] == w.trace
      && (r.store.trace[|w.trace|].Probed? <==> p.proto == Some("tcp"))
  {
    var probed := CreateProbe(env, nodeId, p).value;
    var row := Apply(WithDefaults(w.nextId, "", 0, 0, nodeId),
                     p.(port := Some(PortFor(p, freePort)), expiresAt := Some(expiresAt)));
    var start := w.(nextId := w.nextId + 1, trace := w.trace + probed);
    var r := SaveAndBuild(start, env, row);
    assert Create(w, env, nodeId, p, freePort, expiresAt) == r;
    TraceAfter(w.trace, probed, Saved(row.id), r.store.trace);
  }

  /** A new service on a public port another service holds is refused as a duplicate and
      stores nothing. */
  lemma CreateOnTakenPortConflicts(w: Store, env: Env, nodeId: nat, p: Patch, freePort: int,
                                   expiresAt: Option<int>, k: nat)
    requires Indexed(w.services) && w.nextId !in w.services
    requires k in w.services && w.services[k].port == PortFor(p, freePort)
    requires CreateProbe(env, nodeId, p).Ok?
    ensures var r := Create(w, env, nodeId, p, freePort, expiresAt);
      r.result.Err? && r.result.error.Conflict? && r.store.services == w.services
  {
    var row := Apply(WithDefaults(w.nextId, "", 0, 0, nodeId),
                     p.(port := Some(PortFor(p, freePort)), expiresAt := Some(expiresAt)));
    assert k != row.id && Clashes(w.services[k], row);
  }

  /** A service for a node that is not stored is never created: a 'tcp' one fails the
      probe, any other the foreign key, and no row changes. */
  lemma CreateForMissingNodeRefused(w: Store, env: Env, nodeId: nat, p: Patch, freePort: int,
                                    expiresAt: Option<int>)
    requires Indexed(w.services) && nodeId !in env.nodes
    ensures var r := Create(w, env, nodeId, p, freePort, expiresAt);
      r.result.Err? && r.store.services == w.services
  {
  }

  /** The table's auto-increment: every stored id is below the next one it hands out. */
  predicate FreshIds(w: Store) {
    forall k :: k in w.services ==> k < w.nextId
  }

  /** With fresh ids a create never replaces a stored row, and the ids stay fresh. */
  lemma CreateKeepsStoredRows(w: Store, env: Env, nodeId: nat, p: Patch, freePort: int, expiresAt: Option<int>)
    requires Indexed(w.services) && FreshIds(w)
    ensures var r := Create(w, env, nodeId, p, freePort, expiresAt);
      && FreshIds(r.store)
      && forall k :: k in w.services ==> k in r.store.services && r.store.services[k] == w.services[k]
  {
    var probed := CreateProbe(env, nodeId, p);
    if probed.Ok? {
      var row := Apply(WithDefaults(w.nextId, "", 0, 0, nodeId),
                       p.(port := Some(PortFor(p, freePort)), expiresAt := Some(expiresAt)));
      var start := w.(nextId := w.nextId + 1, trace := w.trace + probed.value);
      assert row.id !in w.services;
      var saved := SaveRow(start, env.nodes.Keys, row);
      assert saved.store.services.Keys <= w.services.Keys + {row.id};
      assert saved.store.nextId == w.nextId + 1;
    }
  }

  /** Update and delete keep the ids fresh as well. */
  lemma FreshIdsPersist(w: Store, env: Env, id: nat, p: Patch)
    requires Indexed(w.services) && FreshIds(w)
    ensures FreshIds(Update(w, env, id, p).store)
    ensures FreshIds(Delete(w, id).store)
  {
  }

  /** A trace that extends `a + probed + [x]` keeps `a` and continues with the first of
      `probed + [x]`. */
  lemma TraceAfter(a: seq<Step>, probed: seq<Step>, x: Step, t: seq<Step>)
    requires a + probed + [x] <= t
    ensures t[..|a|] == a && t[|a|] == (probed + [x])[0]
  {
    assert (a + probed + [x])[..|a|] == a;
  }

  /** `updateTcpService(id, params)`: the backend is probed only when a port, a host and
      the 'tcp' protocol are all given; the old stream is removed without a reload, the
      row saved and rendered again with a reload. A missing row fails on the null
      dereference. */
  function Update(w: Store, env: Env, id: nat, p: Patch): (r: Outcome<TcpService>)
    requires Indexed(w.services)
    ensures Indexed(r.store.services)
  {
    if id !in w.services then Outcome(w, Err(Crash("Cannot read properties of null (reading 'nodeId')")))
    else
      var prev := w.services[id];
      var probed := UpdateProbe(env, prev, p);
      if probed.Err? then Outcome(w, Err(probed.error))
      else Rewrite(w, env, prev, Apply(prev, p).(id := id), probed.value)
  }

  /** The backend probe of an update, run against the service's node only when
      `Reprobes(p)`: the failure, or the probe steps it leaves in the trace. */
  function UpdateProbe(env: Env, prev: TcpService, p: Patch): (r: Result<seq<Step>>)
    ensures !Reprobes(p) ==> r == Ok([])
    ensures Reprobes(p) ==>
      && (r.Err? <==> CheckNodePort(NodeOf(env, prev.nodeId), p.backendPort.value, p.backendHost.value,
                                    false, env.isIp, env.reachable).Err?)
      && (r.Ok? ==> |r.value| == 1 && r.value[0].Probed?)
  {
    if !Reprobes(p) then Ok([])
    else
      match CheckNodePort(NodeOf(env, prev.nodeId), p.backendPort.value, p.backendHost.value, false,
                          env.isIp, env.reachable)
      case Err(e) => Err(e)
      case Ok(probe) => Ok([Probed(probe)])
  }

  function NodeOf(env: Env, nodeId: nat): Option<Node> {
    if nodeId in env.nodes then Some(env.nodes[nodeId]) else None
  }

  /** A missing row fails before anything happens, and so does a failed re-probe: the
      store is left exactly as it was. */
  lemma UpdateChecksFirst(w: Store, env: Env, id: nat, p: Patch)
    requires Indexed(w.services)
    ensures id !in w.services ==> Update(w, env, id, p).store == w && Update(w, env, id, p).result.Err?
    ensures id in w.services && UpdateProbe(env, w.services[id], p).Err? ==>
      Update(w, env, id, p) == Outcome(w, Err(UpdateProbe(env, w.services[id], p).error))
  {
  }

  /** A successful update returns the merged row and stores it in place of the old one;
      its trace is the probe exactly when `Reprobes(p)`, then the old stream removed
      without a reload, the save, the domain step and the render with a reload. */
  lemma UpdateOrder(w: Store, env: Env, id: nat, p: Patch)
    requires Indexed(w.services)
    requires Update(w, env, id, p).result.Ok?
    ensures id in w.services
    ensures var r := Update(w, env, id, p);
      var row := Apply(w.services[id], p).(id := id);
      var n := if Reprobes(p) then 1 else 0;
      && r.result.value == row
      && r.store.services == w.services[id := row]
      && |r.store.trace| == |w.trace| + n + 3 + |DomainStep(row.domain)|
      && r.store.trace[..|w.trace|] == w.trace
      && (r.store.trace[|w.trace|].Probed? <==> Reprobes(p))
      && r.store.trace[|w.trace| + n..] ==
           [Unrendered(id, false), Saved(id)] + DomainStep(row.domain) + [Rendered(id, true)]
  {
    var prev := w.services[id];
    var row := Apply(prev, p).(id := id);
    var probed := UpdateProbe(env, prev, p).value;
    var tail := [Unrendered(id, false), Saved(id)] + DomainStep(row.domain) + [Rendered(id, true)];
    var r := Rewrite(w, env, prev, row, probed);
    assert Update(w, env, id, p) == r;
    assert r.store.trace == w.trace + probed + tail;
    assert (w.trace + probed + tail)[..|w.trace|] == w.trace;
    assert (w.trace + probed + tail)[|w.trace| + |probed|..] == tail;
    assert (w.trace + probed + tail)[|w.trace|] == (probed + tail)[0];
  }

  /** Whether an update re-probes: a backend port, a backend host and protocol 'tcp'. */
  predicate Reprobes(p: Patch) {
    && p.backendPort.Some? && p.backendPort.value != 0
    && p.backendHost.Some? && p.backendHost.value != ""
    && p.proto == Some("tcp")
  }

  /** The second half of an update: remove the old stream without a reload, save, render
      with a reload. */
  function Rewrite(w: Store, env: Env, prev: TcpService, row: TcpService, steps: seq<Step>)
    : (r: Outcome<TcpService>)
    requires Indexed(w.services)
    ensures Indexed(r.store.services)
    ensures r.result.Ok? ==>
      && r.result.value == row
      && r.store.trace == w.trace + steps + [Unrendered(row.id, false), Saved(row.id)]
                          + DomainStep(row.domain) + [Rendered(row.id, true)]
    ensures (exists k :: k in w.services && k != row.id && Clashes(w.services[k], row)) ==>
      r.store.services == w.services && r.result.Err? && r.result.error.Conflict?
  {
    var removed := w.(proxy := NginxTcp.Remove(w.proxy, prev, false),
                      trace := w.trace + steps + [Unrendered(row.id, false)]);
    var saved := SaveRow(removed, env.nodes.Keys, row);
    if saved.result.Err? then Outcome(saved.store, Err(saved.result.error))
    else
      var built := Build(saved.store, env, row.id, true);
      Outcome(built.store, if built.result.Ok? then Ok(row) else Err(built.result.error))
  }

  /** Moving a service onto a public port another service holds is refused as a duplicate;
      the table is unchanged. */
  lemma UpdateOnTakenPortConflicts(w: Store, env: Env, id: nat, p: Patch, k: nat)
    requires Indexed(w.services)
    requires id in w.services && k in w.services && k != id
    requires UpdateProbe(env, w.services[id], p).Ok?
    requires p.port == Some(w.services[k].port)
    ensures var r := Update(w, env, id, p);
      r.result.Err? && r.result.error.Conflict? && r.store.services == w.services
  {
    var row := Apply(w.services[id], p).(id := id);
    assert Clashes(w.services[k], row);
  }

  function EnableService(w: Store, env: Env, id: nat): Outcome<TcpService>
    requires Indexed(w.services)
  {
    Update(w, env, id, NoChange.(enabled := Some(true)))
  }

  /** Unlike the HTTP service, disabling only clears the flag. */
  function DisableService(w: Store, env: Env, id: nat): Outcome<TcpService>
    requires Indexed(w.services)
  {
    Update(w, env, id, NoChange.(enabled := Some(false)))
  }

  function UpdateNodeService(w: Store, env: Env, id: nat, nodeId: nat, p: Patch): (r: Outcome<TcpService>)
    requires Indexed(w.services)
    ensures GetNodeService(w.services, OwnerOf, id, nodeId).Err? ==> r == Outcome(w, Err(NotFound("Service not found")))
    ensures GetNodeService(w.services, OwnerOf, id, nodeId).Ok? ==> r == Update(w, env, id, p)
  {
    if GetNodeService(w.services, OwnerOf, id, nodeId).Err? then Outcome(w, Err(NotFound("Service not found")))
    else Update(w, env, id, p)
  }

  function EnableNodeService(w: Store, env: Env, id: nat, nodeId: nat, expiresAt: Option<int>): Outcome<TcpService>
    requires Indexed(w.services)
  {
    UpdateNodeService(w, env, id, nodeId, NoChange.(enabled := Some(true), expiresAt := Some(expiresAt)))
  }

  function DisableNodeService(w: Store, env: Env, id: nat, nodeId: nat): Outcome<TcpService>
    requires Indexed(w.services)
  {
    UpdateNodeService(w, env, id, nodeId, NoChange.(enabled := Some(false)))
  }

  /** Enabling and disabling touch only the flag: a disabled service keeps its expiry. */
  lemma EnableDisableEffect(w: Store, env: Env, id: nat)
    requires Indexed(w.services)
    ensures var r := EnableService(w, env, id);
      r.result.Ok? ==> r.result.value == w.services[id].(enabled := true)
    ensures var r := DisableService(w, env, id);
      r.result.Ok? ==>
        && r.result.value == w.services[id].(enabled := false)
        && r.result.value.expiresAt == w.services[id].expiresAt
  {
  }

  /** The node-scoped variants refuse a service of another node and change nothing. */
  lemma NodeScopedNotFound(w: Store, env: Env, id: nat, nodeId: nat, expiresAt: Option<int>)
    requires Indexed(w.services)
    requires id !in w.services || w.services[id].nodeId != nodeId
    ensures EnableNodeService(w, env, id, nodeId, expiresAt) == Outcome(w, Err(NotFound("Service not found")))
    ensures DisableNodeService(w, env, id, nodeId) == Outcome(w, Err(NotFound("Service not found")))
  {
  }

  /** `deleteTcpService(id)`: there is no built-in service to guard; the stream is removed
      with a reload, then the row deleted. */
  function Delete(w: Store, id: nat): (r: Outcome<string>)
    requires Indexed(w.services)
    ensures Indexed(r.store.services)
    ensures r.result.Ok? <==> id in w.services
    ensures r.result.Ok? ==>
      && r.store.services == w.services - {id}
      && r.store.trace == w.trace + [Unrendered(id, true), Deleted(id)]
      && NginxTcp.StreamFile(w.services[id]) !in r.store.proxy.files
    ensures r.result.Err? ==> r.store == w
  {
    if id !in w.services then Outcome(w, Err(Crash("Cannot read properties of null (reading 'identifier')")))
    else
      var s := w.services[id];
      Outcome(w.(services := w.services - {id}, proxy := NginxTcp.Remove(w.proxy, s, true),
                 trace := w.trace + [Unrendered(id, true), Deleted(id)]),
              Ok("Deleted!"))
  }

  /** Whatever the operation, a port stays with one service: the indexes hold after every
      create, update and delete. */
  lemma PortStaysUnique(w: Store, env: Env, nodeId: nat, id: nat, p: Patch, freePort: int, expiresAt: Option<int>,
                        a: nat, b: nat)
    requires Indexed(w.services)
    ensures var t := Create(w, env, nodeId, p, freePort, expiresAt).store.services;
      a in t && b in t && t[a].port == t[b].port ==> a == b
    ensures var t := Update(w, env, id, p).store.services;
      a in t && b in t && t[a].port == t[b].port ==> a == b
    ensures var t := Delete(w, id).store.services;
      a in t && b in t && t[a].port == t[b].port ==> a == b
  {
  }
}

=== FILE: validators.dfy ===
/** The request validators of HTTP services and domains (`src/validators/http-service-validator.ts`,
    `src/validators/domain-validator.ts` and their front-end twins under
    `frontend/src/utils/validators/`).

    The line validators are pure string processing: the input is split at '\n', every
    piece trimmed, blank pieces dropped, and the remaining lines checked one by one; the
    first failing line decides the error, and its number counts non-blank lines only.
    Compiling a regular expression (`new RegExp`), Joi's `domain()` check and the DNS
    lookup are parameters. */
module Validators {
  import opened Wrappers
  import opened Strings

  /** What a rejected line is rejected for. */
  datatype Kind = InvalidPrefix | ForbiddenChar | InvalidRegex | InvalidPath | Whitespace

  /** The outcome of a line validator: the input back, or the kind of the first failure,
      its 1-based number among the non-blank lines and the (trimmed) line itself. */
  datatype Verdict = Accepted(value: string) | Rejected(kind: Kind, line: nat, text: string)

  /** `lines.map(trim).filter(Boolean)`. */
  function NonBlank(lines: seq<string>): (r: seq<string>)
    ensures |r| <= |lines|
    ensures forall i :: 0 <= i < |r| ==> r[i] != ""
  {
    if |lines| == 0 then []
    else
      var t := Trim(lines[0]);
      if t == "" then NonBlank(lines[1..]) else [t] + NonBlank(lines[1..])
  }

  /** A kept line is exactly some non-blank trimmed piece. */
  lemma {:induction false} NonBlankMembers(lines: seq<string>, t: string)
    ensures t in NonBlank(lines) <==> t != "" && exists i :: 0 <= i < |lines| && Trim(lines[i]) == t
    decreases |lines|
  {
    if |lines| > 0 {
      NonBlankMembers(lines[1..], t);
      if exists i :: 0 <= i < |lines| && Trim(lines[i]) == t {
        var i :| 0 <= i < |lines| && Trim(lines[i]) == t;
        if i > 0 {
          assert Trim(lines[1..][i - 1]) == t;
        }
      }
      if exists i :: 0 <= i < |lines[1..]| && Trim(lines[1..][i]) == t {
        var i :| 0 <= i < |lines[1..]| && Trim(lines[1..][i]) == t;
        assert Trim(lines[i + 1]) == t;
      }
    }
  }

  /** The lines a validator looks at. */
  function InputLines(input: string): seq<string> {
    NonBlank(Split(input, '\n'))
  }

  /** The first line (0-based) the check rejects, with the reason; every line before it
      passes. */
  function FirstFailure(lines: seq<string>, check: string -> Option<Kind>): (r: Option<(nat, Kind)>)
    ensures r.None? <==> forall i :: 0 <= i < |lines| ==> check(lines[i]).None?
    ensures r.Some? ==>
      && r.value.0 < |lines| && check(lines[r.value.0]) == Some(r.value.1)
      && forall j :: 0 <= j < r.value.0 ==> check(lines[j]).None?
  {
    if |lines| == 0 then None
    else if check(lines[0]).Some? then Some((0, check(lines[0]).value))
    else
      match FirstFailure(lines[1..], check)
      case None => None
      case Some((i, k)) => Some((i + 1, k))
  }

  /** The loop every line validator runs: the empty input gives '', a passing input comes
      back unchanged, and otherwise the first failing non-blank line is reported. */
  function Scan(input: string, check: string -> Option<Kind>): (r: Verdict)
    ensures input == "" ==> r == Accepted("")
    ensures r.Accepted? ==> r.value == input
    ensures r.Accepted? <==> forall i :: 0 <= i < |InputLines(input)| ==> check(InputLines(input)[i]).None?
    ensures r.Rejected? ==>
      var lines := InputLines(input);
      && 1 <= r.line <= |lines| && r.text == lines[r.line - 1]
      && check(r.text) == Some(r.kind)
      && forall j :: 0 <= j < r.line - 1 ==> check(lines[j]).None?
  {
    var lines := InputLines(input);
    var first := FirstFailure(lines, check);
    if input == "" then Accepted("")
    else if first.None? then Accepted(input)
    else Rejected(first.value.1, first.value.0 + 1, lines[first.value.0])
  }

  /** A one-line input that is already trimmed is judged on that line alone. */
  lemma OneLine(line: string, check: string -> Option<Kind>)
    requires '\n' !in line && line != "" && Trim(line) == line
    ensures Scan(line, check) == match check(line)
                                 case None => Accepted(line)
                                 case Some(k) => Rejected(k, 1, line)
  {
    SplitNoSep(line, '\n');
    assert InputLines(line) == [line];
  }

  /** A blank line in front changes neither the verdict nor the reported line number. */
  lemma BlankLineIgnored(blank: string, rest: string, check: string -> Option<Kind>)
    requires '\n' !in blank && Trim(blank) == "" && rest != ""
    ensures var a := Scan(blank + "\n" + rest, check);
      var b := Scan(rest, check);
      && a.Accepted? == b.Accepted?
      && (a.Rejected? ==> a == b)
  {
    SplitPrefix(blank, '\n', rest);
    assert blank + "\n" + rest == blank + ['\n'] + rest;
    assert InputLines(blank + "\n" + rest) == InputLines(rest);
  }

  /** `/^[A-Z]+!?=/`, decided on the maximal run of capitals (no shorter run can be
      followed by '!' or '='); `MethodPrefixIff` relates it to the pattern. */
  predicate IsUpper(c: char) {
    'A' <= c <= 'Z'
  }

  function UpperRun(s: string): (n: nat)
    ensures n <= |s|
    ensures forall i :: 0 <= i < n ==> IsUpper(s[i])
    ensures n < |s| ==> !IsUpper(s[n])
  {
    if |s| > 0 && IsUpper(s[0]) then 1 + UpperRun(s[1..]) else 0
  }

  predicate MethodPrefix(line: string) {
    var n := UpperRun(line);
    n >= 1 && ((n < |line| && line[n] == '=') || (n + 1 < |line| && line[n] == '!' && line[n + 1] == '='))
  }

  /** The line starts with one or more capitals followed by '=' or '!='. */
  lemma MethodPrefixIff(line: string)
    ensures MethodPrefix(line) <==>
      exists k :: 1 <= k <= |line| && (forall i :: 0 <= i < k ==> IsUpper(line[i]))
                  && (StartsWith(line[k..], "=") || StartsWith(line[k..], "!="))
  {
    var n := UpperRun(line);
    if k :| 1 <= k <= |line| && (forall i :: 0 <= i < k ==> IsUpper(line[i]))
            && (StartsWith(line[k..], "=") || StartsWith(line[k..], "!=")) {
      assert line[k..][0] == line[k];
      assert k == n;
    }
    if MethodPrefix(line) {
      assert StartsWith(line[n..], "=") || StartsWith(line[n..], "!=");
    }
  }

  /** `["'`;&<>\\]|[\x00-\x1F]`, and `|` as well in the domain validators. */
  predicate Forbidden(c: char, pipe: bool) {
    || c == '"' || c == '\'' || c == '`' || c == ';' || c == '&' || c == '<' || c == '>'
    || c == '\\' || c <= '\U{001F}' || (pipe && c == '|')
  }

  predicate HasForbidden(line: string, pipe: bool) {
    exists i :: 0 <= i < |line| && Forbidden(line[i], pipe)
  }

  /** One line of an HTTP service's auth bypass routes: no method prefix, no forbidden
      character, then a '^' line must compile and any other must be a path starting with
      '/'; the back end also refuses white space in a path. */
  function BypassLineCheck(line: string, compiles: string -> bool, rejectSpace: bool): (r: Option<Kind>)
    ensures r.None? <==>
      && !MethodPrefix(line) && !HasForbidden(line, false)
      && (if StartsWith(line, "^") then compiles(line) else StartsWith(line, "/") && !(rejectSpace && HasSpace(line)))
  {
    if MethodPrefix(line) then Some(InvalidPrefix)
    else if HasForbidden(line, false) then Some(ForbiddenChar)
    else if StartsWith(line, "^") then (if compiles(line) then None else Some(InvalidRegex))
    else if !StartsWith(line, "/") then Some(InvalidPath)
    else if rejectSpace && HasSpace(line) then Some(Whitespace)
    else None
  }

  /** `validateBypassPaths` of the back end. */
  function ValidateBypassPaths(input: string, compiles: string -> bool): (r: Verdict)
    ensures r.Accepted? ==> r.value == input
    ensures r.Accepted? <==>
      forall i :: 0 <= i < |InputLines(input)| ==> BypassLineCheck(InputLines(input)[i], compiles, true).None?
    ensures r.Rejected? ==> BypassLineCheck(r.text, compiles, true) == Some(r.kind)
  {
    Scan(input, line => BypassLineCheck(line, compiles, true))
  }

  /** `validateNginxBypassPaths` of the front end: the same checks without the white-space
      rule. */
  function ValidateNginxBypassPaths(input: string, compiles: string -> bool): (r: Verdict)
    ensures r.Accepted? ==> r.value == input
    ensures r.Accepted? <==>
      forall i :: 0 <= i < |InputLines(input)| ==> BypassLineCheck(InputLines(input)[i], compiles, false).None?
    ensures r.Rejected? ==> BypassLineCheck(r.text, compiles, false) == Some(r.kind)
  {
    Scan(input, line => BypassLineCheck(line, compiles, false))
  }

  /** A method-prefixed line is refused for its prefix before anything else is looked at. */
  lemma MethodPrefixFirst(line: string, compiles: string -> bool)
    requires '\n' !in line && line != "" && Trim(line) == line && MethodPrefix(line)
    ensures ValidateBypassPaths(line, compiles) == Rejected(InvalidPrefix, 1, line)
    ensures ValidateNginxBypassPaths(line, compiles) == Rejected(InvalidPrefix, 1, line)
  {
    OneLine(line, l => BypassLineCheck(l, compiles, true));
    OneLine(line, l => BypassLineCheck(l, compiles, false));
  }

  /** `GET /api` has no '=' after the method, so it passes the prefix rule and is refused
      because it does not start with '/'. */
  lemma GetApiIsNotAPath(compiles: string -> bool)
    ensures ValidateBypassPaths("GET /api", compiles) == Rejected(InvalidPath, 1, "GET /api")
  {
    var line := "GET /api";
    GetApiLine(line, compiles);
    OneLine(line, l => BypassLineCheck(l, compiles, true));
  }

  lemma GetApiLine(line: string, compiles: string -> bool)
    requires line == "GET /api"
    ensures Trim(line) == line
    ensures BypassLineCheck(line, compiles, true) == Some(InvalidPath)
  {
    assert UpperRun(line[3..]) == 0;
    assert UpperRun(line) == 3;
    assert !HasForbidden(line, false);
  }

  /** A path with a space inside passes the front end and fails the back end. */
  lemma SpacedPathOnlyFrontEnd(compiles: string -> bool)
    ensures ValidateNginxBypassPaths("/a b", compiles) == Accepted("/a b")
    ensures ValidateBypassPaths("/a b", compiles) == Rejected(Whitespace, 1, "/a b")
  {
    var line := "/a b";
    SpacedLine(line, compiles);
    OneLine(line, l => BypassLineCheck(l, compiles, true));
    OneLine(line, l => BypassLineCheck(l, compiles, false));
  }

  lemma SpacedLine(line: string, compiles: string -> bool)
    requires line == "/a b"
    ensures Trim(line) == line
    ensures BypassLineCheck(line, compiles, false) == None
    ensures BypassLineCheck(line, compiles, true) == Some(Whitespace)
  {
    assert UpperRun(line) == 0;
    assert !HasForbidden(line, false);
    assert IsSpace(line[2]);
  }

  /** Whatever the back end accepts, the front end accepts. */
  lemma BackEndIsStricter(input: string, compiles: string -> bool)
    ensures ValidateBypassPaths(input, compiles).Accepted? ==> ValidateNginxBypassPaths(input, compiles).Accepted?
  {
    var lines := InputLines(input);
    if ValidateBypassPaths(input, compiles).Accepted? {
      forall i | 0 <= i < |lines| ensures BypassLineCheck(lines[i], compiles, false).None? {
        assert (l => BypassLineCheck(l, compiles, true))(lines[i]).None?;
      }
    }
  }

  /** The HTTP methods the domain validators strip from the front of a line. */
  const Methods: seq<string> := ["GET", "POST", "PUT", "DELETE", "PATCH", "HEAD", "OPTIONS"]

  /** The method the line starts with, or ''; no method is a prefix of another, so at
      most one applies. */
  function LeadingMethod(line: string): (m: string)
    ensures StartsWith(line, m)
  {
    if StartsWith(line, "GET") then "GET"
    else if StartsWith(line, "POST") then "POST"
    else if StartsWith(line, "PUT") then "PUT"
    else if StartsWith(line, "DELETE") then "DELETE"
    else if StartsWith(line, "PATCH") then "PATCH"
    else if StartsWith(line, "HEAD") then "HEAD"
    else if StartsWith(line, "OPTIONS") then "OPTIONS"
    else ""
  }

  lemma LeadingMethodIsListed(line: string)
    ensures LeadingMethod(line) == "" || LeadingMethod(line) in Methods
    ensures LeadingMethod(line) != "" ==> IsUpper(line[0])
  {
  }

  /** Drops one leading `c`, if there is one. */
  function DropLeading(s: string, c: char): string {
    if |s| > 0 && s[0] == c then s[1..] else s
  }

  /** An optional '!' and then an optional '=' are dropped. */
  function StripOperators(a: string): string {
    DropLeading(DropLeading(a, '!'), '=')
  }

  /** `line.replace(/^(GET|POST|PUT|DELETE|PATCH|HEAD|OPTIONS)?!?=?/, '')`. */
  function StripMethod(line: string): string {
    StripOperators(line[|LeadingMethod(line)|..])
  }

  lemma StripOperatorsParts(a: string) returns (bang: string, eq: string)
    ensures bang == "" || bang == "!"
    ensures eq == "" || eq == "="
    ensures a == bang + (eq + StripOperators(a))
  {
    var b := DropLeading(a, '!');
    bang := if |a| > 0 && a[0] == '!' then "!" else "";
    eq := if |b| > 0 && b[0] == '=' then "=" else "";
    DropLeadingParts(a, '!', bang);
    DropLeadingParts(b, '=', eq);
  }

  lemma DropLeadingParts(s: string, c: char, dropped: string)
    requires dropped == if |s| > 0 && s[0] == c then [c] else []
    ensures s == dropped + DropLeading(s, c)
  {
  }

  /** What is stripped is an optional method, an optional '!' and an optional '=', in
      that order, and what is left is the rest of the line. */
  lemma StripMethodParts(line: string) returns (m: string, bang: string, eq: string)
    ensures m == LeadingMethod(line)
    ensures bang == "" || bang == "!"
    ensures eq == "" || eq == "="
    ensures line == m + (bang + (eq + StripMethod(line)))
  {
    m := LeadingMethod(line);
    var rest := line[|m|..];
    bang, eq := StripOperatorsParts(rest);
    assert line == m + rest;
  }

  /** A route written as a path or a pattern is compiled exactly as written. */
  lemma StripMethodKeepsRoutes(line: string)
    requires StartsWith(line, "/") || StartsWith(line, "^")
    ensures StripMethod(line) == line
  {
    LeadingMethodIsListed(line);
    assert line[0] == '/' || line[0] == '^';
    assert LeadingMethod(line) == "";
    assert line[0..] == line;
  }

  /** One skip-auth route of a domain: no forbidden character (the pipe included), and
      what is left after the method and operator are stripped must compile. */
  function SkipRouteCheck(line: string, compiles: string -> bool): (r: Option<Kind>)
    ensures r.None? <==> !HasForbidden(line, true) && compiles(StripMethod(line))
  {
    if HasForbidden(line, true) then Some(ForbiddenChar)
    else if compiles(StripMethod(line)) then None
    else Some(InvalidRegex)
  }

  /** `validateSkipAuthRoute`, the same in the back end and the front end. */
  function ValidateSkipAuthRoute(input: string, compiles: string -> bool): (r: Verdict)
    ensures r.Accepted? ==> r.value == input
    ensures r.Accepted? <==>
      forall i :: 0 <= i < |InputLines(input)| ==> SkipRouteCheck(InputLines(input)[i], compiles).None?
    ensures r.Rejected? ==> SkipRouteCheck(r.text, compiles) == Some(r.kind)
  {
    Scan(input, line => SkipRouteCheck(line, compiles))
  }

  /** `GET /x` is a valid skip-auth route whenever ` /x` compiles: only the word is
      stripped and nothing asks for a leading '/'. */
  lemma MethodThenSpaceAccepted(compiles: string -> bool)
    requires compiles(" /x")
    ensures ValidateSkipAuthRoute("GET /x", compiles) == Accepted("GET /x")
  {
    var line := "GET /x";
    assert SkipRouteCheck(line, compiles) == None by {
      assert StartsWith(line, "GET");
      assert LeadingMethod(line) == "GET";
      assert line[3..] == " /x";
      assert StripMethod(line) == " /x";
      assert !HasForbidden(line, true);
    }
    OneLine(line, l => SkipRouteCheck(l, compiles));
  }

  /** An alternation is a valid bypass route of a service but a forbidden line for a
      domain, whose validators refuse '|'. */
  lemma PipeOnlyForServices(compiles: string -> bool)
    requires compiles("^/api/(auth|cli)/.*")
    ensures ValidateBypassPaths("^/api/(auth|cli)/.*", compiles) == Accepted("^/api/(auth|cli)/.*")
    ensures ValidateSkipAuthRoute("^/api/(auth|cli)/.*", compiles) == Rejected(ForbiddenChar, 1, "^/api/(auth|cli)/.*")
  {
    var line := "^/api/(auth|cli)/.*";
    PipeLine(line, compiles);
    OneLine(line, l => BypassLineCheck(l, compiles, true));
    OneLine(line, l => SkipRouteCheck(l, compiles));
  }

  lemma PipeLine(line: string, compiles: string -> bool)
    requires line == "^/api/(auth|cli)/.*" && compiles(line)
    ensures Trim(line) == line
    ensures BypassLineCheck(line, compiles, true) == None
    ensures SkipRouteCheck(line, compiles) == Some(ForbiddenChar)
  {
    assert UpperRun(line) == 0;
    assert !HasForbidden(line, false);
    assert Forbidden(line[11], true);
  }

  /** `ttlValidator`: '' or `^\d+\s*(s|m|h|d)$`. */
  predicate IsUnit(c: char) {
    c == 's' || c == 'm' || c == 'h' || c == 'd'
  }

  predicate TtlValid(ttl: string) {
    || ttl == ""
    || (&& |ttl| >= 2 && IsUnit(ttl[|ttl| - 1])
        && var count := TrimEnd(ttl[..|ttl| - 1]);
           count != "" && IsDigits(count))
  }

  /** A TTL is valid exactly when it is empty or a count, some white space and a unit. */
  lemma TtlValidIff(ttl: string)
    ensures TtlValid(ttl) <==>
      || ttl == ""
      || exists n :: && 0 < n < |ttl| && IsDigits(ttl[..n])
                     && (forall i :: n <= i < |ttl| - 1 ==> IsSpace(ttl[i])) && IsUnit(ttl[|ttl| - 1])
  {
    if TtlValid(ttl) && ttl != "" {
      TtlCountSplits(ttl);
    }
    if n :| && 0 < n < |ttl| && IsDigits(ttl[..n])
            && (forall i :: n <= i < |ttl| - 1 ==> IsSpace(ttl[i])) && IsUnit(ttl[|ttl| - 1]) {
      TtlPartsAreValid(ttl, n);
    }
  }

  /** A valid non-empty TTL splits after its count. */
  lemma TtlCountSplits(ttl: string)
    requires TtlValid(ttl) && ttl != ""
    ensures var n := |TrimEnd(ttl[..|ttl| - 1])|;
      && 0 < n < |ttl| && IsDigits(ttl[..n])
      && (forall i :: n <= i < |ttl| - 1 ==> IsSpace(ttl[i])) && IsUnit(ttl[|ttl| - 1])
  {
    var body := ttl[..|ttl| - 1];
    var count := TrimEnd(body);
    assert ttl[..|count|] == count;
    assert forall i :: |count| <= i < |ttl| - 1 ==> ttl[i] == body[i];
  }

  /** A count, white space and a unit make a valid TTL. */
  lemma TtlPartsAreValid(ttl: string, n: nat)
    requires 0 < n < |ttl| && IsDigits(ttl[..n])
    requires forall i :: n <= i < |ttl| - 1 ==> IsSpace(ttl[i])
    requires IsUnit(ttl[|ttl| - 1])
    ensures TtlValid(ttl)
  {
    var body := ttl[..|ttl| - 1];
    assert body == ttl[..n] + body[n..];
    assert forall i :: 0 <= i < |body[n..]| ==> body[n..][i] == ttl[n + i];
    assert !IsSpace(ttl[..n][n - 1]);
    TrimEndSpaces(ttl[..n], body[n..]);
  }

  /** A request field as Joi sees it: left out of the body, sent as `null`, or given. */
  datatype Field<T> = Absent | Null | Present(value: T)

  /** `requireAuth` on the back end: `when('domain', { is: Joi.string() })`. A schema
      given as `is` also matches an absent value, so true is allowed when the domain is
      left out or is a non-empty string (`Joi.string()` refuses ''); a `null` or empty
      domain takes the `otherwise` branch, which allows only false. */
  predicate RequireAuthAllowed(domain: Field<string>, requireAuth: Option<bool>) {
    requireAuth == Some(true) ==> domain.Absent? || (domain.Present? && domain.value != "")
  }

  /** `requireAuth` on the front end: the same rule with `is: Joi.string().domain()`, so a
      given domain must be a domain name. */
  predicate RequireAuthAllowedFrontEnd(domain: Field<string>, requireAuth: Option<bool>, isDomain: string -> bool) {
    requireAuth == Some(true) ==> domain.Absent? || (domain.Present? && isDomain(domain.value))
  }

  /** Joi rejects '' as a domain, so the front-end rule never lets more through. */
  lemma FrontEndAuthRuleIsStricter(domain: Field<string>, requireAuth: Option<bool>, isDomain: string -> bool)
    requires !isDomain("")
    ensures RequireAuthAllowedFrontEnd(domain, requireAuth, isDomain) ==> RequireAuthAllowed(domain, requireAuth)
  {
  }

  /** Which domains let `requireAuth: true` through: on both ends a left-out domain does,
      and a `null` or empty one does not. */
  lemma AuthDomainRule(domain: Field<string>, isDomain: string -> bool)
    requires !isDomain("")
    ensures RequireAuthAllowed(domain, Some(true)) <==> domain != Null && domain != Present("")
    ensures RequireAuthAllowed(Absent, Some(true)) && RequireAuthAllowedFrontEnd(Absent, Some(true), isDomain)
    ensures !RequireAuthAllowed(Null, Some(true)) && !RequireAuthAllowedFrontEnd(Null, Some(true), isDomain)
  {
  }

  /** The bypass routes are validated only when `requireAuth` is true. */
  function CheckBypassRoutes(requireAuth: Option<bool>, skipAuthRoutes: string, compiles: string -> bool): (r: Verdict)
    ensures requireAuth != Some(true) ==> r == Accepted(skipAuthRoutes)
    ensures requireAuth == Some(true) ==> r == ValidateBypassPaths(skipAuthRoutes, compiles)
  {
    if requireAuth == Some(true) then ValidateBypassPaths(skipAuthRoutes, compiles) else Accepted(skipAuthRoutes)
  }

  /** `validateServiceDomain`: a known domain passes; otherwise it must be a domain name
      and resolve to this host. */
  function ValidateServiceDomain(c: string, known: bool, isDomain: string -> bool, pointsHere: string -> bool)
    : (r: Result<string>)
    ensures r.Ok? ==> r.value == c
    ensures r.Ok? <==> known || (isDomain(c) && pointsHere(c))
    ensures r.Err? ==> r.error.Invalid? && r.error.field == "domain"
  {
    if known then Ok(c)
    else if !isDomain(c) then Err(Invalid("domain", "This field must contain a valid domain name"))
    else if !pointsHere(c) then
      Err(Invalid("domain", "Domain verification failed. The domain does not point to Wiredoor host."))
    else Ok(c)
  }

  /** `nslookupResolvesServerIp`: the empty value is never looked up. */
  function NslookupResolvesServerIp(c: string, includesThisServer: string -> bool): (r: Result<string>)
    ensures r.Ok? ==> r.value == c
    ensures r.Ok? <==> c == "" || includesThisServer(c)
    ensures r.Err? ==> r.error.Invalid? && r.error.field == "domain"
  {
    if c != "" && !includesThisServer(c) then Err(Invalid("domain", "nslookup doesn't resolve the server IP"))
    else Ok(c)
  }

  /** The empty domain passes whatever the lookup would say. */
  lemma EmptyDomainNotLookedUp(f: string -> bool, g: string -> bool)
    ensures NslookupResolvesServerIp("", f) == NslookupResolvesServerIp("", g) == Ok("")
  {
  }

  /** `^([a-zA-Z0-9-]+\.)+([a-zA-Z]{2,})$`: labels of letters, digits and '-', at least
      two of them, the last one two or more letters. */
  predicate IsLetter(c: char) {
    ('a' <= c <= 'z') || ('A' <= c <= 'Z')
  }

  predicate IsLabelChar(c: char) {
    IsLetter(c) || IsDigit(c) || c == '-'
  }

  predicate IsLabel(s: string) {
    s != "" && forall j :: 0 <= j < |s| ==> IsLabelChar(s[j])
  }

  predicate IsTopLabel(s: string) {
    |s| >= 2 && forall j :: 0 <= j < |s| ==> IsLetter(s[j])
  }

  predicate DomainStructure(name: string) {
    var labels := Split(name, '.');
    && |labels| >= 2
    && (forall i :: 0 <= i < |labels| - 1 ==> IsLabel(labels[i]))
    && IsTopLabel(labels[|labels| - 1])
  }

  /** Labels joined by dots are a domain name exactly when they have the pattern's shape. */
  lemma DomainStructureOfLabels(labels: seq<string>)
    requires |labels| >= 1 && forall i :: 0 <= i < |labels| ==> '.' !in labels[i]
    ensures DomainStructure(Join(labels, ".")) <==>
      && |labels| >= 2
      && (forall i :: 0 <= i < |labels| - 1 ==> IsLabel(labels[i]))
      && IsTopLabel(labels[|labels| - 1])
  {
    SplitJoin(labels, '.');
    assert ['.'] == ".";
    DomainStructureOfSplit(Join(labels, "."), labels);
  }

  lemma DomainStructureOfSplit(name: string, labels: seq<string>)
    requires Split(name, '.') == labels
    ensures DomainStructure(name) <==>
      && |labels| >= 2
      && (forall i :: 0 <= i < |labels| - 1 ==> IsLabel(labels[i]))
      && IsTopLabel(labels[|labels| - 1])
  {
  }

  /** The `ssl` rule of the back-end domain validator: 'certbot' is offered only when the
      domain is validated (`skipValidation` is not true). */
  predicate SslAllowed(ssl: Option<string>, skipValidation: Option<bool>) {
    || ssl.None? || ssl.value == "self-signed"
    || (ssl.value == "certbot" && skipValidation != Some(true))
  }

  /** The `ssl` rule of the front-end domain form as written: it tests a `validation`
      field the form does not have (the form's field is `skipValidation`). */
  predicate SslAllowedFrontEnd(ssl: Option<string>, validation: Option<bool>) {
    || ssl.None? || ssl.value == "self-signed"
    || (ssl.value == "certbot" && validation != Some(false))
  }

  /** The front-end form never carries `validation`, so it lets 'certbot' through even
      for a domain that skips validation, which the back end then refuses. */
  lemma FrontEndSslIgnoresSkipValidation()
    ensures SslAllowedFrontEnd(Some("certbot"), None)
    ensures !SslAllowed(Some("certbot"), Some(true))
  {
  }

  /** The intended rule, keyed on the form's own `skipValidation`: 'certbot' is refused
      exactly for a domain that skips validation. */
  lemma CertbotNeedsValidation(skipValidation: Option<bool>)
    ensures SslAllowed(Some("certbot"), skipValidation) <==> skipValidation != Some(true)
    ensures SslAllowed(Some("self-signed"), skipValidation) && SslAllowed(None, skipValidation)
  {
  }
}

=== FILE: wgconfig.dfy ===
/** The WireGuard configuration files the hub writes
    (`src/services/wireguard/server-config-builder.ts` and `client-config-builder.ts`).

    Each file is modelled as the list of its lines: the server file is `Unlines` of its
    lines (every line ends with a newline), the client file is `Join` of its lines with
    '\n' (no newline after the last one). A value that is an empty string prints as an
    empty line, exactly as the template literals do. */
module WgConfig {
  import opened Wrappers
  import opened Strings
  import opened Records

  /** The optional MTU line: empty when no MTU is configured. */
  function MtuLine(mtu: string): string {
    if mtu != "" then "MTU = " + mtu else ""
  }

  /** The `[Interface]` section of the hub's file (`setServer`). */
  function ServerLines(wg: WgInterface, mtu: string): seq<string> {
    [ "# Server", "[Interface]",
      "PrivateKey = " + wg.privateKey,
      "Address = " + wg.address,
      "ListenPort = " + wg.port,
      MtuLine(mtu),
      "PreUp = " + wg.preUp,
      "PostUp = " + wg.postUp,
      "PreDown = " + wg.preDown,
      "PostDown = " + wg.postDown ]
  }

  function PeerLabel(client: Node): string {
    if client.isGateway then "Gateway" else "Client"
  }

  function Subnets(nets: seq<GatewayNetwork>): (r: seq<string>)
    ensures |r| == |nets| && forall i :: 0 <= i < |nets| ==> r[i] == nets[i].subnet
  {
    if |nets| == 0 then [] else [nets[0].subnet] + Subnets(nets[1..])
  }

  /** The peer's own /32, then the gateway's subnets when it is a gateway with a
      (possibly empty) network list. */
  function PeerAllowedIps(client: Node): string {
    client.address + "/32"
    + if client.isGateway && client.gatewayNetworks.Some?
      then ", " + Join(Subnets(client.gatewayNetworks.value), ", ")
      else ""
  }

  /** The block `addClient` appends: a blank line, a comment, and the `[Peer]` section. */
  function PeerLines(client: Node): seq<string> {
    [ "",
      "# " + PeerLabel(client) + " " + client.name + " (" + NatToString(client.id) + ")",
      "[Peer]",
      "PublicKey = " + client.publicKey,
      "PresharedKey = " + client.preSharedKey,
      "AllowedIPs = " + PeerAllowedIps(client) ]
  }

  datatype ServerConfigBuilder = ServerConfigBuilder(config: string)

  function NewServerConfigBuilder(wg: WgInterface, mtu: string): ServerConfigBuilder {
    ServerConfigBuilder(Unlines(ServerLines(wg, mtu)))
  }

  /** `addClient`: the text so far is kept as a prefix. */
  function AddClient(b: ServerConfigBuilder, client: Node): (r: ServerConfigBuilder)
    ensures b.config <= r.config
  {
    ServerConfigBuilder(b.config + Unlines(PeerLines(client)))
  }

  function Build(b: ServerConfigBuilder): string {
    b.config
  }

  function AddClients(b: ServerConfigBuilder, clients: seq<Node>): ServerConfigBuilder
    decreases |clients|
  {
    if |clients| == 0 then b else AddClients(AddClient(b, clients[0]), clients[1..])
  }

  /** `getServerConfig`: the builder fed with every client in order. */
  function ServerConfig(wg: WgInterface, mtu: string, clients: seq<Node>): string {
    Build(AddClients(NewServerConfigBuilder(wg, mtu), clients))
  }

  /** The peer blocks of a client list, one after the other in list order. */
  function AllPeerLines(clients: seq<Node>): (r: seq<string>)
    ensures |r| == 6 * |clients|
  {
    if |clients| == 0 then [] else PeerLines(clients[0]) + AllPeerLines(clients[1..])
  }

  lemma {:induction false} AddClientsText(b: ServerConfigBuilder, clients: seq<Node>)
    ensures AddClients(b, clients).config == b.config + Unlines(AllPeerLines(clients))
    decreases |clients|
  {
    if |clients| > 0 {
      AddClientsText(AddClient(b, clients[0]), clients[1..]);
      UnlinesAppend(PeerLines(clients[0]), AllPeerLines(clients[1..]));
    }
  }

  /** The hub's file is the interface section followed by one peer block per client. */
  lemma ServerConfigText(wg: WgInterface, mtu: string, clients: seq<Node>)
    ensures ServerConfig(wg, mtu, clients)
         == Unlines(ServerLines(wg, mtu) + AllPeerLines(clients))
  {
    AddClientsText(NewServerConfigBuilder(wg, mtu), clients);
    UnlinesAppend(ServerLines(wg, mtu), AllPeerLines(clients));
  }

  /** Peer block `i` of the file is client `i`'s block: n clients give n blocks, in call
      order. */
  lemma {:induction false} PeerBlockAt(clients: seq<Node>, i: nat)
    requires i < |clients|
    ensures AllPeerLines(clients)[6 * i .. 6 * i + 6] == PeerLines(clients[i])
    decreases i
  {
    if i > 0 {
      PeerBlockAt(clients[1..], i - 1);
      assert AllPeerLines(clients)[6 * i .. 6 * i + 6]
          == AllPeerLines(clients[1..])[6 * (i - 1) .. 6 * (i - 1) + 6];
    }
  }

  /** The only line of the interface section that can start with "MTU = " is the MTU
      line, and it does so exactly when an MTU is configured. */
  lemma MtuLineOnlyWhenSet(wg: WgInterface, mtu: string, i: nat)
    requires i < |ServerLines(wg, mtu)|
    ensures StartsWith(ServerLines(wg, mtu)[i], "MTU = ") <==> i == 5 && mtu != ""
  {
    var line := ServerLines(wg, mtu)[i];
    if i != 5 && |line| > 0 {
      assert line[0] in "#[PALP" ;
    }
  }

  predicate NoNewline(s: string) {
    '\n' !in s
  }

  predicate OneLineInterface(wg: WgInterface) {
    NoNewline(wg.privateKey) && NoNewline(wg.address) && NoNewline(wg.port)
    && NoNewline(wg.preUp) && NoNewline(wg.postUp) && NoNewline(wg.preDown)
    && NoNewline(wg.postDown) && NoNewline(wg.publicKey) && NoNewline(wg.subnet)
  }

  predicate OneLineNets(nets: seq<GatewayNetwork>) {
    forall i :: 0 <= i < |nets| ==> NoNewline(nets[i].iface) && NoNewline(nets[i].subnet)
  }

  predicate OneLineNode(n: Node) {
    NoNewline(n.name) && NoNewline(n.address) && NoNewline(n.dns) && NoNewline(n.publicKey)
    && NoNewline(n.preSharedKey) && NoNewline(n.privateKey) && NoNewline(n.wgInterface)
    && (n.gatewayNetworks.Some? ==> OneLineNets(n.gatewayNetworks.value))
  }

  lemma {:induction false} NotInJoin(parts: seq<string>, sep: string, c: char)
    requires c !in sep && forall i :: 0 <= i < |parts| ==> c !in parts[i]
    ensures c !in Join(parts, sep)
    decreases |parts|
  {
    if |parts| > 1 {
      NotInJoin(parts[1..], sep, c);
    }
  }

  predicate OneLineEach(lines: seq<string>) {
    forall k :: 0 <= k < |lines| ==> NoNewline(lines[k])
  }

  lemma OneLineEachAppend(a: seq<string>, b: seq<string>)
    requires OneLineEach(a) && OneLineEach(b)
    ensures OneLineEach(a + b)
  {
    assert forall k :: 0 <= k < |a + b| ==> (a + b)[k] == if k < |a| then a[k] else b[k - |a|];
  }

  lemma NoNewlineConcat(a: string, b: string)
    requires NoNewline(a) && NoNewline(b)
    ensures NoNewline(a + b)
  {
  }

  lemma PeerCommentOneLine(client: Node)
    requires NoNewline(client.name)
    ensures NoNewline("# " + PeerLabel(client) + " " + client.name + " (" + NatToString(client.id) + ")")
  {
    NoCharInNatToString(client.id, '\n');
  }

  lemma AllowedIpsOneLine(client: Node)
    requires OneLineNode(client)
    ensures NoNewline("AllowedIPs = " + PeerAllowedIps(client))
  {
    if client.isGateway && client.gatewayNetworks.Some? {
      NotInJoin(Subnets(client.gatewayNetworks.value), ", ", '\n');
    }
  }

  lemma PeerLinesOneLine(client: Node)
    requires OneLineNode(client)
    ensures OneLineEach(PeerLines(client))
  {
    PeerCommentOneLine(client);
    AllowedIpsOneLine(client);
  }

  lemma {:induction false} AllPeerLinesOneLine(clients: seq<Node>)
    requires forall j :: 0 <= j < |clients| ==> OneLineNode(clients[j])
    ensures OneLineEach(AllPeerLines(clients))
    decreases |clients|
  {
    if |clients| > 0 {
      PeerLinesOneLine(clients[0]);
      AllPeerLinesOneLine(clients[1..]);
      OneLineEachAppend(PeerLines(clients[0]), AllPeerLines(clients[1..]));
    }
  }

  lemma ServerLinesOneLine(wg: WgInterface, mtu: string)
    requires OneLineInterface(wg) && NoNewline(mtu)
    ensures OneLineEach(ServerLines(wg, mtu))
  {
  }

  lemma ServerFileOneLine(wg: WgInterface, mtu: string, clients: seq<Node>)
    requires OneLineInterface(wg) && NoNewline(mtu)
    requires forall j :: 0 <= j < |clients| ==> OneLineNode(clients[j])
    ensures OneLineEach(ServerLines(wg, mtu) + AllPeerLines(clients))
  {
    AllPeerLinesOneLine(clients);
    ServerLinesOneLine(wg, mtu);
    OneLineEachAppend(ServerLines(wg, mtu), AllPeerLines(clients));
  }

  /** Read back line by line, the hub's file is exactly the interface section and the
      peer blocks (and the empty piece after the final newline), as long as no value
      holds a newline of its own. */
  lemma ServerConfigLines(wg: WgInterface, mtu: string, clients: seq<Node>)
    requires OneLineInterface(wg) && NoNewline(mtu)
    requires forall j :: 0 <= j < |clients| ==> OneLineNode(clients[j])
    ensures Split(ServerConfig(wg, mtu, clients), '\n')
         == ServerLines(wg, mtu) + AllPeerLines(clients) + [""]
  {
    ServerFileOneLine(wg, mtu, clients);
    ServerConfigText(wg, mtu, clients);
    SplitUnlines(ServerLines(wg, mtu) + AllPeerLines(clients));
  }

  /** `iptables <table>-<op><args>`: one iptables command whose operation letter is
      `op` ('A' appends a rule, 'D' deletes it). */
  function Iptables(table: string, op: char, args: string): string {
    "iptables " + table + "-" + [op] + args
  }

  /** The NAT rule for one gateway network. */
  function MasqueradeRule(op: char, subnet: string, net: GatewayNetwork): string {
    Iptables("-t nat ", op, " POSTROUTING -s " + subnet + " -d " + net.subnet + " -o "
                            + net.iface + " -j MASQUERADE")
  }

  /** The forwarding and NAT rules a gateway installs for one of its networks. */
  function GatewayRules(op: char, node: Node, subnet: string, net: GatewayNetwork): string {
    Iptables("", op, " FORWARD -i " + node.wgInterface + " -o " + net.iface + " -s " + subnet
                     + " -d " + net.subnet + " -j ACCEPT")
    + "; "
    + Iptables("", op, " FORWARD -i " + net.iface + " -o " + node.wgInterface + " -s "
                       + net.subnet + " -d " + subnet + " -j ACCEPT")
    + "; "
    + MasqueradeRule(op, subnet, net)
  }

  /** One `hook` line per gateway network, in order: "PostUp" with `op` 'A' adds the
      rules, "PostDown" with 'D' deletes them. */
  function HookLines(hook: string, op: char, node: Node, subnet: string, nets: seq<GatewayNetwork>): (r: seq<string>)
    ensures |r| == |nets|
    ensures forall i :: 0 <= i < |nets| ==> r[i] == hook + " = " + GatewayRules(op, node, subnet, nets[i])
  {
    if |nets| == 0 then [] else [hook + " = " + GatewayRules(op, node, subnet, nets[0])] + HookLines(hook, op, node, subnet, nets[1..])
  }

  /** The lines `xs.join('\n')` occupies: one empty line for an empty list. */
  function JoinedLines(xs: seq<string>): seq<string> {
    if |xs| == 0 then [""] else xs
  }

  /** The `[Interface]` lines of a client's file up to the MTU line. */
  function ClientHead(node: Node, settings: WireguardSettings): (r: seq<string>)
    ensures |r| == 4
  {
    [ "[Interface]",
      "PrivateKey = " + node.privateKey,
      "Address = " + node.address + "/32",
      MtuLine(settings.mtu) ]
  }

  /** The DNS line (and the blank line after it) if the node has a DNS server. */
  function DnsLines(node: Node): (r: seq<string>)
    ensures 1 <= |r| <= 2
  {
    if node.dns != "" then ["DNS = " + node.dns, ""] else [""]
  }

  /** A gateway's PostUp lines and then its PostDown lines; one blank line otherwise. */
  function RuleLines(wg: WgInterface, node: Node): seq<string>
    requires node.isGateway ==> node.gatewayNetworks.Some?
  {
    if node.isGateway then
      JoinedLines(HookLines("PostUp", 'A', node, wg.subnet, node.gatewayNetworks.value))
      + JoinedLines(HookLines("PostDown", 'D', node, wg.subnet, node.gatewayNetworks.value))
    else [""]
  }

  /** The `[Peer]` section of a client's file, after a blank line. */
  function ClientPeerLines(wg: WgInterface, node: Node, settings: WireguardSettings): (r: seq<string>)
    ensures |r| == 7
  {
    [ "",
      "[Peer]",
      "PublicKey = " + wg.publicKey,
      "PresharedKey = " + node.preSharedKey,
      "AllowedIPs = " + (if node.allowInternet then "0.0.0.0/0, ::/0" else wg.subnet),
      "PersistentKeepalive = " + IntToString(node.keepalive),
      "Endpoint = " + settings.host + ":" + wg.port ]
  }

  /** The lines of a client's file; `Crash` when a gateway has no network list, where
      `node.gatewayNetworks.map` dereferences null. */
  function ClientLines(wg: WgInterface, node: Node, settings: WireguardSettings): (r: Result<seq<string>>)
    ensures r.Err? <==> node.isGateway && node.gatewayNetworks.None?
  {
    if node.isGateway && node.gatewayNetworks.None? then
      Err(Crash("Cannot read properties of null (reading 'map')"))
    else
      Ok(ClientHead(node, settings) + DnsLines(node) + RuleLines(wg, node)
         + ClientPeerLines(wg, node, settings))
  }

  /** `new ClientConfigBuilder(serverConfig, node).build()`. */
  function ClientConfig(wg: WgInterface, node: Node, settings: WireguardSettings): Result<string> {
    var lines :- ClientLines(wg, node, settings);
    Ok(Join(lines, "\n"))
  }

  /** The `op` letters of two commands are their only difference: `down` is `up` with
      operation letters (each right after a '-') changed from 'A' to 'D'. */
  predicate MirrorsOp(up: string, down: string) {
    |up| == |down|
    && forall i :: 0 <= i < |up| && up[i] != down[i] ==>
         0 < i && up[i - 1] == '-' && up[i] == 'A' && down[i] == 'D'
  }

  lemma MirrorsOpAppend(u1: string, d1: string, u2: string, d2: string)
    requires MirrorsOp(u1, d1) && MirrorsOp(u2, d2)
    ensures MirrorsOp(u1 + u2, d1 + d2)
  {
    var u, d := u1 + u2, d1 + d2;
    forall i | 0 <= i < |u| && u[i] != d[i]
      ensures 0 < i && u[i - 1] == '-' && u[i] == 'A' && d[i] == 'D'
    {
      if i >= |u1| {
        assert u[i] == u2[i - |u1|] && d[i] == d2[i - |u1|];
        assert i - |u1| > 0;
        assert u[i - 1] == u2[i - 1 - |u1|];
      } else {
        assert u[i] == u1[i] && d[i] == d1[i];
      }
    }
  }

  lemma IptablesMirror(table: string, args: string)
    ensures MirrorsOp(Iptables(table, 'A', args), Iptables(table, 'D', args))
  {
    var u, d := Iptables(table, 'A', args), Iptables(table, 'D', args);
    var k := |"iptables " + table|;
    assert u == ("iptables " + table + "-") + ['A'] + args;
    assert d == ("iptables " + table + "-") + ['D'] + args;
    forall i | 0 <= i < |u| && u[i] != d[i]
      ensures 0 < i && u[i - 1] == '-' && u[i] == 'A' && d[i] == 'D'
    {
      assert i == k + 1;
    }
  }

  lemma MirrorsOpSame(s: string)
    ensures MirrorsOp(s, s)
  {
  }

  /** Each PostDown command undoes its PostUp: the same text with every operation letter
      changed from 'A' (append) to 'D' (delete). */
  lemma GatewayRulesMirror(node: Node, subnet: string, net: GatewayNetwork)
    ensures MirrorsOp(GatewayRules('A', node, subnet, net), GatewayRules('D', node, subnet, net))
  {
    var a1 := " FORWARD -i " + node.wgInterface + " -o " + net.iface + " -s " + subnet
              + " -d " + net.subnet + " -j ACCEPT";
    var a2 := " FORWARD -i " + net.iface + " -o " + node.wgInterface + " -s "
              + net.subnet + " -d " + subnet + " -j ACCEPT";
    var a3 := " POSTROUTING -s " + subnet + " -d " + net.subnet + " -o " + net.iface
              + " -j MASQUERADE";
    IptablesMirror("", a1);
    IptablesMirror("", a2);
    IptablesMirror("-t nat ", a3);
    MirrorsOpSame("; ");
    MirrorsOpAppend(Iptables("", 'A', a1), Iptables("", 'D', a1), "; ", "; ");
    MirrorsOpAppend(Iptables("", 'A', a1) + "; ", Iptables("", 'D', a1) + "; ",
                    Iptables("", 'A', a2), Iptables("", 'D', a2));
    MirrorsOpAppend(Iptables("", 'A', a1) + "; " + Iptables("", 'A', a2),
                    Iptables("", 'D', a1) + "; " + Iptables("", 'D', a2), "; ", "; ");
    MirrorsOpAppend(Iptables("", 'A', a1) + "; " + Iptables("", 'A', a2) + "; ",
                    Iptables("", 'D', a1) + "; " + Iptables("", 'D', a2) + "; ",
                    Iptables("-t nat ", 'A', a3), Iptables("-t nat ", 'D', a3));
  }

  /** A gateway's file holds one PostUp line per network, in network order, directly
      followed by one PostDown line per network, each the mirror of its PostUp. */
  lemma GatewayRulesInOrder(wg: WgInterface, node: Node, settings: WireguardSettings, i: nat)
    requires node.isGateway && node.gatewayNetworks.Some?
    requires i < |node.gatewayNetworks.value|
    ensures var lines := ClientLines(wg, node, settings).value;
      var nets := node.gatewayNetworks.value;
      var k := 4 + |DnsLines(node)|;
      && lines[k + i] == "PostUp = " + GatewayRules('A', node, wg.subnet, nets[i])
      && lines[k + |nets| + i] == "PostDown = " + GatewayRules('D', node, wg.subnet, nets[i])
      && MirrorsOp(GatewayRules('A', node, wg.subnet, nets[i]), GatewayRules('D', node, wg.subnet, nets[i]))
  {
    var nets := node.gatewayNetworks.value;
    var head := ClientHead(node, settings) + DnsLines(node);
    var ups := HookLines("PostUp", 'A', node, wg.subnet, nets);
    var downs := HookLines("PostDown", 'D', node, wg.subnet, nets);
    var peers := ClientPeerLines(wg, node, settings);
    assert RuleLines(wg, node) == ups + downs;
    assert ClientLines(wg, node, settings).value == head + (ups + downs) + peers;
    ConcatAt(head, ups + downs, peers, i);
    ConcatAt(head, ups + downs, peers, |nets| + i);
    GatewayRulesMirror(node, wg.subnet, nets[i]);
  }

  /** The line at `k` of the middle part, once placed after `head`. */
  lemma ConcatAt(head: seq<string>, middle: seq<string>, tail: seq<string>, k: nat)
    requires k < |middle|
    ensures (head + middle + tail)[|head| + k] == middle[k]
  {
  }

  /** No line of a client's file other than the gateway rules starts with "Post". */
  predicate NotARule(line: string) {
    !StartsWith(line, "Post")
  }

  /** A node that is not a gateway gets no PostUp or PostDown line at all. */
  lemma NoRulesUnlessGateway(wg: WgInterface, node: Node, settings: WireguardSettings, i: nat)
    requires !node.isGateway
    requires i < |ClientLines(wg, node, settings).value|
    ensures NotARule(ClientLines(wg, node, settings).value[i])
  {
    var line := ClientLines(wg, node, settings).value[i];
    if |line| >= 2 && line[0] == 'P' {
      assert line[1] in "rreu";
    }
  }

  lemma IptablesOneLine(table: string, op: char, args: string)
    requires NoNewline(table) && op != '\n' && NoNewline(args)
    ensures NoNewline(Iptables(table, op, args))
  {
  }

  lemma GatewayRulesOneLine(op: char, node: Node, subnet: string, net: GatewayNetwork)
    requires op != '\n' && NoNewline(node.wgInterface) && NoNewline(subnet)
    requires NoNewline(net.iface) && NoNewline(net.subnet)
    ensures NoNewline(GatewayRules(op, node, subnet, net))
  {
    IptablesOneLine("", op, " FORWARD -i " + node.wgInterface + " -o " + net.iface + " -s "
                            + subnet + " -d " + net.subnet + " -j ACCEPT");
    IptablesOneLine("", op, " FORWARD -i " + net.iface + " -o " + node.wgInterface + " -s "
                            + net.subnet + " -d " + subnet + " -j ACCEPT");
    IptablesOneLine("-t nat ", op, " POSTROUTING -s " + subnet + " -d " + net.subnet + " -o "
                                   + net.iface + " -j MASQUERADE");
  }

  lemma RulesOneLine(node: Node, subnet: string, nets: seq<GatewayNetwork>, i: nat)
    requires i < |nets| && OneLineNode(node) && NoNewline(subnet) && OneLineNets(nets)
    ensures NoNewline(HookLines("PostUp", 'A', node, subnet, nets)[i])
    ensures NoNewline(HookLines("PostDown", 'D', node, subnet, nets)[i])
  {
    GatewayRulesOneLine('A', node, subnet, nets[i]);
    GatewayRulesOneLine('D', node, subnet, nets[i]);
  }

  lemma JoinedRulesOneLine(node: Node, subnet: string, nets: seq<GatewayNetwork>)
    requires OneLineNode(node) && NoNewline(subnet) && OneLineNets(nets)
    ensures OneLineEach(JoinedLines(HookLines("PostUp", 'A', node, subnet, nets))
                        + JoinedLines(HookLines("PostDown", 'D', node, subnet, nets)))
  {
    forall i | 0 <= i < |nets| {
      RulesOneLine(node, subnet, nets, i);
    }
    OneLineEachAppend(JoinedLines(HookLines("PostUp", 'A', node, subnet, nets)),
                      JoinedLines(HookLines("PostDown", 'D', node, subnet, nets)));
  }

  lemma ClientSectionsOneLine(wg: WgInterface, node: Node, settings: WireguardSettings)
    requires OneLineInterface(wg) && OneLineNode(node)
    requires NoNewline(settings.host) && NoNewline(settings.mtu)
    ensures OneLineEach(ClientHead(node, settings)) && OneLineEach(DnsLines(node))
    ensures OneLineEach(ClientPeerLines(wg, node, settings))
  {
    ClientHeadOneLine(node, settings);
    ClientPeerOneLine(wg, node, settings);
  }

  lemma ClientHeadOneLine(node: Node, settings: WireguardSettings)
    requires OneLineNode(node) && NoNewline(settings.mtu)
    ensures OneLineEach(ClientHead(node, settings))
  {
  }

  lemma ClientPeerOneLine(wg: WgInterface, node: Node, settings: WireguardSettings)
    requires OneLineInterface(wg) && OneLineNode(node) && NoNewline(settings.host)
    ensures OneLineEach(ClientPeerLines(wg, node, settings))
  {
    NoCharInNatToString(if node.keepalive < 0 then -node.keepalive else node.keepalive, '\n');
    var lines := ClientPeerLines(wg, node, settings);
    PeerLabelsOneLine();
    PrefixedOneLine("PublicKey = ", wg.publicKey);
    PrefixedOneLine("PresharedKey = ", node.preSharedKey);
    PrefixedOneLine("AllowedIPs = ", if node.allowInternet then "0.0.0.0/0, ::/0" else wg.subnet);
    PrefixedOneLine("PersistentKeepalive = ", IntToString(node.keepalive));
    PrefixedOneLine("Endpoint = ", settings.host);
    PrefixedOneLine("Endpoint = " + settings.host, ":");
    PrefixedOneLine("Endpoint = " + settings.host + ":", wg.port);
    assert forall k :: 0 <= k < 2 ==> NoNewline(lines[k]);
  }

  lemma PeerLabelsOneLine()
    ensures NoNewline("") && NoNewline("[Peer]") && NoNewline("PublicKey = ") && NoNewline("PresharedKey = ")
    ensures NoNewline("AllowedIPs = ") && NoNewline("0.0.0.0/0, ::/0") && NoNewline("PersistentKeepalive = ")
    ensures NoNewline("Endpoint = ") && NoNewline(":")
  {
  }

  /** A line made of two pieces without line breaks has none. */
  lemma PrefixedOneLine(prefix: string, s: string)
    requires NoNewline(prefix) && NoNewline(s)
    ensures NoNewline(prefix + s)
  {
  }

  lemma RuleLinesOneLine(wg: WgInterface, node: Node)
    requires node.isGateway ==> node.gatewayNetworks.Some?
    requires OneLineInterface(wg) && OneLineNode(node)
    ensures OneLineEach(RuleLines(wg, node))
  {
    if node.isGateway {
      JoinedRulesOneLine(node, wg.subnet, node.gatewayNetworks.value);
    }
  }

  lemma ClientLinesOneLine(wg: WgInterface, node: Node, settings: WireguardSettings)
    requires ClientLines(wg, node, settings).Ok?
    requires OneLineInterface(wg) && OneLineNode(node)
    requires NoNewline(settings.host) && NoNewline(settings.mtu)
    ensures OneLineEach(ClientLines(wg, node, settings).value)
  {
    ClientSectionsOneLine(wg, node, settings);
    RuleLinesOneLine(wg, node);
    OneLineEachAppend(ClientHead(node, settings), DnsLines(node));
    OneLineEachAppend(ClientHead(node, settings) + DnsLines(node), RuleLines(wg, node));
    OneLineEachAppend(ClientHead(node, settings) + DnsLines(node) + RuleLines(wg, node),
                      ClientPeerLines(wg, node, settings));
  }

  /** Read back line by line, a client's file is exactly its lines, as long as no value
      holds a newline of its own. */
  lemma ClientConfigLines(wg: WgInterface, node: Node, settings: WireguardSettings)
    requires ClientConfig(wg, node, settings).Ok?
    requires OneLineInterface(wg) && OneLineNode(node)
    requires NoNewline(settings.host) && NoNewline(settings.mtu)
    ensures Split(ClientConfig(wg, node, settings).value, '\n') == ClientLines(wg, node, settings).value
  {
    ClientLinesOneLine(wg, node, settings);
    SplitJoin(ClientLines(wg, node, settings).value, '\n');
  }
}

=== FILE: wireguard.dfy ===
/** The hub's WireGuard service (`src/services/wireguard/wireguard-service.ts`): tunnel
    status, runtime information, the server file it saves, the client configuration
    object, client parameters, and the start-up branch.

    The repositories, the `wg` command line and the clock are outside the model: their
    results are parameters (a record that may be missing, a runtime dump that may have
    failed, `Date.now()` in milliseconds). */
module Wireguard {
  import opened Wrappers
  import opened Strings
  import opened Records
  import opened IpCidr
  import opened WgConfig
  import opened NodeMonitor

  /** One peer of `wg show <iface> dump`; `latestHandshake` is in seconds, 0 for none. */
  datatype RuntimeInfo = RuntimeInfo(
    publicKey: string, clientIp: string, latestHandshake: int, transferRx: int, transferTx: int)

  datatype Status = Online | Offline | Idle

  /** `ConnectionStatus`: the status and, spread into it, the node's ping entry. */
  datatype ConnectionStatus = ConnectionStatus(status: Status, ping: Option<PingResult>)

  /** Handshakes younger than this count as recent (`< 180` seconds). */
  const RecentHandshakeMs := 180_000
  /** A node never pinged is online while its handshake is younger than this. */
  const UnpingedGraceMs := 120_000

  function HandshakeAgeMs(runtime: RuntimeInfo, nowMs: int): int {
    nowMs - runtime.latestHandshake * 1000
  }

  /** The node has a handshake on record: a dump entry with a non-zero timestamp. */
  predicate HasHandshake(runtime: Option<RuntimeInfo>) {
    runtime.Some? && runtime.value.latestHandshake != 0
  }

  /** `getTunnelStatus`. When the handshake is recent the ping entry is read without a
      null check, so a node that was never pinged makes it fail with `Crash`. */
  function TunnelStatus(node: Node, runtime: Option<RuntimeInfo>, cache: Cache, nowMs: int)
    : Result<ConnectionStatus>
  {
    if !node.enabled || !HasHandshake(runtime) then Ok(ConnectionStatus(Offline, None))
    else
      var ping := GetPing(cache, node.address);
      var age := HandshakeAgeMs(runtime.value, nowMs);
      if age < RecentHandshakeMs && ping.None? then
        Err(Crash("Cannot read properties of null (reading 'reachable')"))
      else if age < RecentHandshakeMs && ping.value.reachable then
        Ok(ConnectionStatus(Online, ping))
      else if ping.Some? && ping.value.lastPingTs.None? && age < UnpingedGraceMs then
        Ok(ConnectionStatus(Online, ping))
      else
        Ok(ConnectionStatus(Idle, ping))
  }

  /** A node is offline exactly when it is disabled or has no handshake, whatever the
      ping cache holds. */
  lemma OfflineIff(node: Node, runtime: Option<RuntimeInfo>, cache: Cache, nowMs: int)
    ensures var r := TunnelStatus(node, runtime, cache, nowMs);
      (r.Ok? && r.value.status == Offline) <==> !node.enabled || !HasHandshake(runtime)
    ensures !node.enabled || !HasHandshake(runtime) ==>
      forall other: Cache :: TunnelStatus(node, runtime, other, nowMs) == TunnelStatus(node, runtime, cache, nowMs)
  {
  }

  /** Online needs a ping entry and a handshake younger than 180 s, and either a
      reachable entry or, for an entry that has never answered, one younger than 120 s. */
  lemma OnlineNeedsRecentHandshake(node: Node, runtime: Option<RuntimeInfo>, cache: Cache, nowMs: int)
    requires TunnelStatus(node, runtime, cache, nowMs) == Ok(ConnectionStatus(Online, GetPing(cache, node.address)))
    ensures node.enabled && HasHandshake(runtime)
    ensures var age := HandshakeAgeMs(runtime.value, nowMs);
      var ping := GetPing(cache, node.address);
      && age < RecentHandshakeMs && ping.Some?
      && (ping.value.reachable || (ping.value.lastPingTs.None? && age < UnpingedGraceMs))
  {
  }

  /** A recent handshake and a reachable entry make the node online. */
  lemma RecentAndReachableIsOnline(node: Node, runtime: Option<RuntimeInfo>, cache: Cache, nowMs: int)
    requires node.enabled && HasHandshake(runtime)
    requires HandshakeAgeMs(runtime.value, nowMs) < RecentHandshakeMs
    requires node.address in cache && cache[node.address].reachable
    ensures TunnelStatus(node, runtime, cache, nowMs).Ok?
    ensures TunnelStatus(node, runtime, cache, nowMs).value.status == Online
  {
  }

  /** The status read fails exactly for an enabled node with a recent handshake that the
      monitor has never pinged. */
  lemma CrashIff(node: Node, runtime: Option<RuntimeInfo>, cache: Cache, nowMs: int)
    ensures TunnelStatus(node, runtime, cache, nowMs).Err? <==>
      node.enabled && HasHandshake(runtime)
      && HandshakeAgeMs(runtime.value, nowMs) < RecentHandshakeMs
      && node.address !in cache
  {
  }

  /** A handshake older than 180 s leaves an enabled node idle. */
  lemma StaleHandshakeIsIdle(node: Node, runtime: Option<RuntimeInfo>, cache: Cache, nowMs: int)
    requires node.enabled && HasHandshake(runtime)
    requires HandshakeAgeMs(runtime.value, nowMs) >= RecentHandshakeMs
    ensures TunnelStatus(node, runtime, cache, nowMs) == Ok(ConnectionStatus(Idle, GetPing(cache, node.address)))
  {
  }

  /** `NodeInfo`: the node without its three keys, with the runtime fields (null when the
      peer is absent from the dump) and the status (absent when not asked for). */
  datatype NodeInfo = NodeInfo(
    id: nat, name: string, address: string, dns: string, keepalive: int,
    gatewayNetworks: Option<seq<GatewayNetwork>>, wgInterface: string,
    allowInternet: bool, enabled: bool, isGateway: bool, isLocal: bool,
    clientIp: Option<string>, latestHandshakeMs: Option<int>,
    transferRx: Option<int>, transferTx: Option<int>,
    status: Option<ConnectionStatus>)

  function Describe(n: Node, peer: Option<RuntimeInfo>, status: Option<ConnectionStatus>): NodeInfo {
    NodeInfo(n.id, n.name, n.address, n.dns, n.keepalive, n.gatewayNetworks, n.wgInterface,
             n.allowInternet, n.enabled, n.isGateway, n.isLocal,
             if peer.Some? then Some(peer.value.clientIp) else None,
             if peer.Some? then Some(peer.value.latestHandshake * 1000) else None,
             if peer.Some? then Some(peer.value.transferRx) else None,
             if peer.Some? then Some(peer.value.transferTx) else None,
             status)
  }

  /** What the runtime-info calls return: the described nodes, or, when the dump or a
      status read threw, the raw input. */
  datatype RuntimeView<T> = Described(info: T) | Raw

  /** `info?.filter((i) => i.publicKey === n.publicKey)[0]`. */
  function PeerOf(dump: Option<seq<RuntimeInfo>>, publicKey: string): (r: Option<RuntimeInfo>)
    ensures r.Some? ==> dump.Some? && r.value.publicKey == publicKey && r.value in dump.value
    ensures r.None? && dump.Some? ==> forall i :: 0 <= i < |dump.value| ==> dump.value[i].publicKey != publicKey
  {
    if dump.None? then None else FirstWithKey(dump.value, publicKey)
  }

  function FirstWithKey(peers: seq<RuntimeInfo>, publicKey: string): (r: Option<RuntimeInfo>)
    ensures r.Some? ==> r.value.publicKey == publicKey && r.value in peers
    ensures r.None? ==> forall i :: 0 <= i < |peers| ==> peers[i].publicKey != publicKey
  {
    if |peers| == 0 then None
    else if peers[0].publicKey == publicKey then Some(peers[0])
    else FirstWithKey(peers[1..], publicKey)
  }

  function StatusIf(checkPing: bool, n: Node, peer: Option<RuntimeInfo>, cache: Cache, nowMs: int)
    : Result<Option<ConnectionStatus>>
  {
    if !checkPing then Ok(None)
    else
      var s :- TunnelStatus(n, peer, cache, nowMs);
      Ok(Some(s))
  }

  function DescribeAll(nodes: seq<Node>, dump: Option<seq<RuntimeInfo>>, cache: Cache, nowMs: int, checkPing: bool)
    : (r: Result<seq<NodeInfo>>)
    ensures r.Ok? ==> |r.value| == |nodes|
  {
    if |nodes| == 0 then Ok([])
    else
      var peer := PeerOf(dump, nodes[0].publicKey);
      var status :- StatusIf(checkPing, nodes[0], peer, cache, nowMs);
      var rest :- DescribeAll(nodes[1..], dump, cache, nowMs, checkPing);
      Ok([Describe(nodes[0], peer, status)] + rest)
  }

  /** `getRuntimeInfo(nodes, iface, checkPing)`; `dump` is `dumpRunTimeInfo`'s result or
      its failure. */
  function RuntimeInfoOf(nodes: seq<Node>, dump: Result<Option<seq<RuntimeInfo>>>, cache: Cache,
                         nowMs: int, checkPing: bool): RuntimeView<seq<NodeInfo>>
  {
    if dump.Err? then Raw
    else match DescribeAll(nodes, dump.value, cache, nowMs, checkPing)
      case Ok(infos) => Described(infos)
      case Err(_) => Raw
  }

  /** Entry `i` describes node `i`: the same fields, keys dropped, runtime fields taken
      from its own peer (null when absent), handshake in milliseconds. */
  lemma {:induction false} DescribedInOrder(nodes: seq<Node>, dump: Option<seq<RuntimeInfo>>, cache: Cache,
                                            nowMs: int, checkPing: bool, i: nat)
    requires DescribeAll(nodes, dump, cache, nowMs, checkPing).Ok? && i < |nodes|
    ensures var info := DescribeAll(nodes, dump, cache, nowMs, checkPing).value[i];
      var peer := PeerOf(dump, nodes[i].publicKey);
      && info.id == nodes[i].id && info.address == nodes[i].address
      && (info.clientIp.None? <==> peer.None?)
      && (peer.Some? ==> info.latestHandshakeMs == Some(peer.value.latestHandshake * 1000)
                         && info.clientIp == Some(peer.value.clientIp))
      && (info.status.Some? <==> checkPing)
    decreases i
  {
    if i > 0 {
      DescribedInOrder(nodes[1..], dump, cache, nowMs, checkPing, i - 1);
    }
  }

  /** Without ping checks the runtime information never falls back to the raw nodes
      unless the dump itself failed. */
  lemma {:induction false} NoPingNoCrash(nodes: seq<Node>, dump: Option<seq<RuntimeInfo>>, cache: Cache, nowMs: int)
    ensures DescribeAll(nodes, dump, cache, nowMs, false).Ok?
    decreases |nodes|
  {
    if |nodes| > 0 {
      NoPingNoCrash(nodes[1..], dump, cache, nowMs);
    }
  }

  /** An enabled node with a recent handshake that was never pinged turns the whole
      answer into the raw input. */
  lemma {:induction false} UnpingedRecentNodeGivesRaw(nodes: seq<Node>, dump: Option<seq<RuntimeInfo>>,
                                                      cache: Cache, nowMs: int, i: nat)
    requires i < |nodes|
    requires TunnelStatus(nodes[i], PeerOf(dump, nodes[i].publicKey), cache, nowMs).Err?
    ensures RuntimeInfoOf(nodes, Ok(dump), cache, nowMs, true) == Raw
    decreases i
  {
    DescribeAllFails(nodes, dump, cache, nowMs, i);
  }

  lemma {:induction false} DescribeAllFails(nodes: seq<Node>, dump: Option<seq<RuntimeInfo>>,
                                            cache: Cache, nowMs: int, i: nat)
    requires i < |nodes|
    requires TunnelStatus(nodes[i], PeerOf(dump, nodes[i].publicKey), cache, nowMs).Err?
    ensures DescribeAll(nodes, dump, cache, nowMs, true).Err?
    decreases i
  {
    if i > 0 {
      DescribeAllFails(nodes[1..], dump, cache, nowMs, i - 1);
    }
  }

  /** `getNodeRuntimeInfo(node)`: the same shaping for one node and its own peer entry. */
  function NodeRuntimeInfo(node: Node, peer: Result<Option<RuntimeInfo>>, cache: Cache, nowMs: int)
    : (r: RuntimeView<NodeInfo>)
    ensures r.Described? ==> r.info.status.Some? && r.info.id == node.id
    ensures r.Raw? <==> peer.Err? || TunnelStatus(node, peer.value, cache, nowMs).Err?
  {
    if peer.Err? then Raw
    else match TunnelStatus(node, peer.value, cache, nowMs)
      case Err(_) => Raw
      case Ok(s) => Described(Describe(node, peer.value, Some(s)))
  }

  /** The nodes `saveConfig` puts in the hub's file. */
  predicate Rendered(n: Node, iface: string) {
    n.enabled && !n.isLocal && n.wgInterface == iface
  }

  function Peers(nodes: seq<Node>, iface: string): (r: seq<Node>)
    ensures |r| <= |nodes|
    ensures forall k :: 0 <= k < |r| ==> r[k] in nodes && Rendered(r[k], iface)
  {
    if |nodes| == 0 then []
    else if Rendered(nodes[0], iface) then [nodes[0]] + Peers(nodes[1..], iface)
    else Peers(nodes[1..], iface)
  }

  /** Every node that should be rendered is. */
  lemma {:induction false} PeersComplete(nodes: seq<Node>, iface: string, n: Node)
    requires n in nodes && Rendered(n, iface)
    ensures n in Peers(nodes, iface)
    decreases |nodes|
  {
    if nodes[0] != n {
      PeersComplete(nodes[1..], iface, n);
    }
  }

  /** A file write: path, content and mode. */
  datatype FileWrite = FileWrite(path: string, content: string, mode: nat)

  function ConfigPath(iface: string): string {
    "/etc/wireguard/" + iface + ".conf"
  }

  /** `saveConfig(iface)`: the hub file listing the enabled remote nodes of that
      interface, written with mode 0o600; `Crash` when the interface record is missing. */
  function SaveConfig(wg: Option<WgInterface>, settings: WireguardSettings, nodes: seq<Node>, iface: string)
    : (r: Result<FileWrite>)
    ensures r.Ok? <==> wg.Some?
    ensures r.Ok? ==> r.value.path == ConfigPath(iface) && r.value.mode == 0x180
  {
    if wg.None? then Err(Crash("Cannot read properties of null (reading 'privateKey')"))
    else Ok(FileWrite(ConfigPath(iface), ServerConfig(wg.value, settings.mtu, Peers(nodes, iface)), 0x180))
  }

  /** The saved file holds the interface section and then one peer block per rendered
      node, in the repository's order. */
  lemma SavedPeers(wg: WgInterface, settings: WireguardSettings, nodes: seq<Node>, iface: string, i: nat)
    requires i < |Peers(nodes, iface)|
    ensures SaveConfig(Some(wg), settings, nodes, iface).value.content
         == Unlines(ServerLines(wg, settings.mtu) + AllPeerLines(Peers(nodes, iface)))
    ensures AllPeerLines(Peers(nodes, iface))[6 * i .. 6 * i + 6] == PeerLines(Peers(nodes, iface)[i])
  {
    var peers := Peers(nodes, iface);
    ServerConfigText(wg, settings.mtu, peers);
    PeerBlockAt(peers, i);
  }

  /** `allowedIPs`: the full tunnel as a list, or the interface subnet as a string. */
  datatype AllowedIps = FullTunnel(routes: seq<string>) | Subnet(subnet: string)

  datatype Endpoint = Endpoint(url: string, host: string, port: string)

  datatype PeerObject = PeerObject(
    publicKey: string, preSharedKey: string, allowedIPs: AllowedIps,
    persistentKeepalive: int, endpoint: Endpoint)

  datatype WgConfigObject = WgConfigObject(
    privateKey: string, address: string, postUp: seq<string>, postDown: seq<string>,
    peer: PeerObject)

  function MasqueradeRules(op: char, subnet: string, nets: seq<GatewayNetwork>): (r: seq<string>)
    ensures |r| == |nets|
    ensures forall i :: 0 <= i < |nets| ==> r[i] == MasqueradeRule(op, subnet, nets[i])
  {
    if |nets| == 0 then [] else [MasqueradeRule(op, subnet, nets[0])] + MasqueradeRules(op, subnet, nets[1..])
  }

  /** `getClientWGConfig(node, iface)`. The endpoint's url uses the interface's port but
      its `port` field the configured one. `Crash` when the interface record is missing
      or a gateway has no network list. */
  function ClientWgConfig(wg: Option<WgInterface>, node: Node, settings: WireguardSettings)
    : (r: Result<WgConfigObject>)
    ensures r.Ok? <==> wg.Some? && (node.isGateway ==> node.gatewayNetworks.Some?)
  {
    if wg.None? then Err(Crash("Cannot read properties of null (reading 'subnet')"))
    else if node.isGateway && node.gatewayNetworks.None? then
      Err(Crash("Cannot read properties of null (reading 'map')"))
    else
      var s := wg.value;
      var nets := if node.isGateway then node.gatewayNetworks.value else [];
      Ok(WgConfigObject(
        node.privateKey,
        node.address + "/32",
        MasqueradeRules('A', s.subnet, nets),
        MasqueradeRules('D', s.subnet, nets),
        PeerObject(
          s.publicKey, node.preSharedKey,
          if node.allowInternet then FullTunnel(["0.0.0.0/0", "::/0"]) else Subnet(s.subnet),
          node.keepalive,
          Endpoint(settings.host + ":" + s.port, settings.host, settings.port))))
  }

  /** Only a gateway gets rules: one NAT rule per network, each PostDown the mirror of
      its PostUp; the full tunnel is routed exactly when the node may use the internet. */
  lemma ClientWgConfigRules(wg: WgInterface, node: Node, settings: WireguardSettings, i: nat)
    requires ClientWgConfig(Some(wg), node, settings).Ok?
    ensures var c := ClientWgConfig(Some(wg), node, settings).value;
      && (!node.isGateway ==> c.postUp == [] && c.postDown == [])
      && (node.isGateway ==> |c.postUp| == |c.postDown| == |node.gatewayNetworks.value|)
      && (i < |c.postUp| ==> MirrorsOp(c.postUp[i], c.postDown[i]))
      && (c.peer.allowedIPs.FullTunnel? <==> node.allowInternet)
  {
    var c := ClientWgConfig(Some(wg), node, settings).value;
    if i < |c.postUp| {
      var net := node.gatewayNetworks.value[i];
      IptablesMirror("-t nat ", " POSTROUTING -s " + wg.subnet + " -d " + net.subnet + " -o "
                                + net.iface + " -j MASQUERADE");
    }
  }

  /** The node fields `getClientParams` fills in; keys come from the `wg` command line. */
  datatype ClientParams = ClientParams(
    address: Option<string>, preSharedKey: string, wgInterface: string,
    privateKey: string, publicKey: string)

  /** `getClientParams(params, iface)`: a supplied address is kept; otherwise the first
      free address of the interface's subnet, every node's address (on any interface)
      counting as taken, or null when none is free. `Crash` when the address must be
      allocated and the interface record is missing. */
  function GetClientParams(address: string, wg: Option<WgInterface>, allAddresses: seq<string>,
                           iface: string, privateKey: string, publicKey: string, preSharedKey: string)
    : (r: Result<ClientParams>)
    ensures address != "" ==> r == Ok(ClientParams(Some(address), preSharedKey, iface, privateKey, publicKey))
    ensures r.Err? <==> address == "" && wg.None?
  {
    if address != "" then Ok(ClientParams(Some(address), preSharedKey, iface, privateKey, publicKey))
    else if wg.None? then Err(Crash("Cannot read properties of null (reading 'subnet')"))
    else Ok(ClientParams(AvailableIp(wg.value.subnet, allAddresses), preSharedKey, iface, privateKey, publicKey))
  }

  /** An allocated address is never the hub's own. */
  lemma AllocatedIsNotHub(wg: WgInterface, allAddresses: seq<string>, iface: string,
                          privateKey: string, publicKey: string, preSharedKey: string)
    requires var r := GetClientParams("", Some(wg), allAddresses, iface, privateKey, publicKey, preSharedKey);
      r.Ok? && r.value.address.Some?
    ensures GetClientParams("", Some(wg), allAddresses, iface, privateKey, publicKey, preSharedKey).value.address.value
         != InterfaceIp(wg.subnet)
  {
    AvailableIpIsNotInterfaceIp(wg.subnet, allAddresses);
  }

  /** The commands `startWireguard` runs. */
  datatype WgCommand = SyncConf(iface: string) | QuickUp(iface: string)

  /** `startWireguard`: an interface that is already a link is synchronised, any other is
      brought up. */
  function StartWireguard(iface: string, isLink: bool): (c: WgCommand)
    ensures c.iface == iface
    ensures c.SyncConf? <==> isLink
  {
    if isLink then SyncConf(iface) else QuickUp(iface)
  }
}

=== FILE: wrappers.dfy ===
/** Failure-carrying datatypes shared by every module of the model.

    The system under model is written in TypeScript, where failure is an exception
    (or a `null` return). Here every operation that can throw returns a `Result`,
    and every nullable value is an `Option`. */
module Wrappers {

  datatype Option<+T> = None | Some(value: T) {
    predicate IsFailure() { None? }

    function PropagateFailure<U>(): Option<U>
      requires None?
    {
      None
    }

    function Extract(): T
      requires Some?
    {
      value
    }

    function GetOr(default: T): T {
      match this
      case Some(v) => v
      case None => default
    }
  }

  /** The kinds of exception the modelled code raises or lets escape. */
  datatype Error =
    | NotFound(message: string)                     // routing-controllers NotFoundError
    | Invalid(field: string, message: string)       // a validation error on one field
    | BadRequest(message: string)                   // routing-controllers BadRequestError
    | Conflict(message: string)                     // a unique-constraint violation
    | Failed(message: string)                       // a plain `new Error(...)`
    | Crash(message: string)                        // a TypeError (null dereference)

  datatype Result<+T> = Ok(value: T) | Err(error: Error) {
    predicate IsFailure() { Err? }

    function PropagateFailure<U>(): Result<U>
      requires Err?
    {
      Err(error)
    }

    function Extract(): T
      requires Ok?
    {
      value
    }
  }
}
